=== FILE: README.md ===
# GalaxiaWonder front end: domain model in Dafny

This project models the synchronous domain logic of the GalaxiaWonder web
client. That client is a Vue front end over a REST back end for construction
projects, organisations, billing and subscriptions. The modelled logic covers:

- **The declarative service factory.** `createService` resolves each operation's
  path template against the payload, shapes the request body, appends the
  query string and picks the HTTP verb.
- **The value objects.** These are `Money`, the Peruvian `Ruc` and the
  `ProfessionalId` (CIP/CAP).
- **The entities and their mutators.** These are organisations with their
  invitations and members; projects with their team members, tasks, task
  specs, submissions, milestones, meetings and schedules (plus the schedule
  builder and the item factories); billing items and invoices; payments,
  transactions and recurring payment agreements; subscriptions,
  subscription plans and workspaces.
- **The assemblers.** These turn loosely typed wire resources into entities, and
  entities back into resources.
- **The helpers.** These are the TTL read cache, the request configuration and
  endpoint builders, and the file-upload naming rules.

Every constructor and mutator is a pure function from the old state to a
`Result` holding either the new state or the message the program would throw.
JavaScript values are modelled as `Js.Value`: numbers are integers or NaN,
objects are maps, and the small identifier classes are `Id(cls, value)`. An
`instanceof` test on an argument is modelled as `Arg<T>`, which is either an
instance or a raw value. A raw value serialises through its own `toJSON`
method when it has one. Only Dates, `MilestoneId` and `ProjectTeamMemberId`
have one, and `JsonMethods` states what each returns. The clock (`now`), generated UUIDs and the host's
date-string parser are parameters.

Where the code does not do what it evidently means to, it is modelled as
written, next to a corrected definition; see "## Findings". Two behaviours
are modelled exactly as the code has them. The RUC tax-id check tests only
the eleven-digit form and the two-digit prefix; it computes no checksum.
Cache invalidation removes the one entry stored under the exact key given.

## Model

| member | source | states |
|---|---|---|
| MoneyModel.NewMoney | src/shared/model/money.js:2-13 | Construction succeeds exactly for a valid number and a non-blank currency string (defaults 0 and 'PEN'); the amount is checked first, and each failure gives its own message; a result is valid, keeps the amount and upper-cases the currency |
| MoneyModel.ZeroPenIsValid | src/shared/model/money.js:2 | The default currency 'PEN' is upper case and not blank |
| MoneyModel.ZeroPenIsDefaultMoney | src/shared/model/money.js:2 | `new Money()` and `new Money(0)` are both zero soles |
| MoneyModel.CheckCurrency | src/shared/model/money.js:47-54 | The check passes exactly for a Money instance of the same currency |
| MoneyModel.Add | src/shared/model/money.js:15-18 | On a valid Money, adding succeeds iff the other is Money in the same currency; the result's amount is the sum and its currency is kept |
| MoneyModel.Subtract | src/shared/model/money.js:20-23 | On a valid Money, subtracting succeeds iff the other is Money in the same currency; the amount is the difference, the currency is kept |
| MoneyModel.Multiply | src/shared/model/money.js:25-30 | A factor that is not a valid number is refused; otherwise the amount is scaled and the currency kept |
| MoneyModel.ToJson | src/shared/model/money.js:40-45 | The serialised form has exactly the keys amount and currency |
| MoneyModel.UpperOfValid | src/shared/model/money.js:12 | Upper-casing the currency of a constructed Money changes nothing |
| MoneyModel.EqualsIsValueEquality | src/shared/model/money.js:32-38 | `equals` holds exactly when the two Money values are equal |
| MoneyModel.JsonRoundTrip | src/shared/model/money.js:40-45 | Constructing Money from its serialised amount and currency gives the same Money |
| MoneyModel.CurrencyCaseInsensitive | src/shared/model/money.js:12 | A currency code and its upper-case form construct the same Money (or fail alike) |
| MoneyModel.AddThenSubtract | src/shared/model/money.js:15-23 | Subtracting what was just added gives the original Money back |
| MoneyModel.AddCommutes | src/shared/model/money.js:15-18 | Adding in one currency commutes |
| MoneyModel.MultiplyIdentities | src/shared/model/money.js:25-30 | Multiplying by one is the identity; by zero gives zero in the same currency |
| RucModel.IsValid | src/organizations/model/ruc.js:11-17 | A value whose text is not eleven digits is invalid; a string is valid iff it is eleven digits with a listed SUNAT prefix; eleven digits held in a non-string fail at `substring` |
| RucModel.GetError | src/organizations/model/ruc.js:19-30 | The digit-count message for anything not eleven digits, the prefix message for a bad prefix, null for a valid number |
| RucModel.ToJson | src/organizations/model/ruc.js:7-9 | Serialising gives the bare value, from which the same Ruc is rebuilt |
| RucModel.ErrorIffInvalid | src/organizations/model/ruc.js:11-30 | `getError` is null exactly when `isValid` is true, and the two throw on the same values |
| RucModel.ValidShape | src/organizations/model/ruc.js:11-17 | A valid RUC is an eleven-digit string whose first two digits are a listed prefix |
| RucModel.CompanyRucIsValid | src/organizations/model/ruc.js:11-17 | 20123456789 is valid; 30123456789 is not |
| ProfessionalIdModel.NewProfessionalId | src/iam/model/professional-id.entity.js:4-7 | Given fields are kept; the value defaults to '' and the type to CIP |
| ProfessionalIdModel.GetError | src/iam/model/professional-id.entity.js:26-39 | The error is null exactly when the identifier is valid; otherwise it is the CIP or the CAP message by type, and an unknown type gives the invalid-type message |
| ProfessionalIdModel.ValidShape | src/iam/model/professional-id.entity.js:9-24 | A valid identifier is a digit string of 6 to 8 digits for CIP and 5 to 7 for CAP |
| ProfessionalIdModel.SharedLengths | src/iam/model/professional-id.entity.js:9-24 | A digit string is valid under both types exactly when it has 6 or 7 digits |
| ProfessionalIdModel.DefaultIsInvalid | src/iam/model/professional-id.entity.js:4-39 | The default identifier is the empty CIP number, and its error is the CIP message |
| Invitations.NewInvitation | src/organizations/model/organization-invitation.entity.js:4-22 | Nothing is refused: a non-integer id becomes null, `acceptedAt` is `new Date(acceptedAt)` exactly when given truthy and null otherwise, and every other field is the given one or its default |
| Invitations.Accept | src/organizations/model/organization-invitation.entity.js:37-43 | Accepting succeeds exactly for a pending invitation and sets ACCEPTED with the given (or current) date; otherwise the accept error |
| Invitations.Reject | src/organizations/model/organization-invitation.entity.js:45-51 | Rejecting succeeds exactly for a pending invitation and sets REJECTED with no acceptance date; otherwise the reject error |
| Invitations.JsonFields | src/organizations/model/organization-invitation.entity.js:24-35 | The serialised invitation has exactly the eight documented keys |
| Invitations.ToJson | src/organizations/model/organization-invitation.entity.js:24-35 | Serialising succeeds exactly when both dates convert to ISO text |
| Invitations.DecidedIsFinal | src/organizations/model/organization-invitation.entity.js:37-55 | Once accepted or rejected, an invitation can be neither accepted nor rejected again |
| Invitations.TransitionsKeepIdentity | src/organizations/model/organization-invitation.entity.js:37-51 | Accepting or rejecting keeps the id, the person, the invitation date and the organisation |
| Invitations.FreshIsPending | src/organizations/model/organization-invitation.entity.js:10-21 | A new invitation is pending and has no acceptance date |
| Members.NewMember | src/organizations/model/organization-member.entity.js:4-16 | Each identifier is kept when numeric and is null otherwise; the type defaults to CONTRACTOR; a given `joinedAt` is kept and a missing one is now |
| Members.ChangeType | src/organizations/model/organization-member.entity.js:18-20 | Any type is accepted, and nothing but the type changes |
| Members.ToJson | src/organizations/model/organization-member.entity.js:30-38 | The serialised member carries exactly the five fields, unchanged |
| Members.NewMemberWellFormed | src/organizations/model/organization-member.entity.js:11-13 | Every constructed member has numeric-or-null identifiers |
| Members.NeverBoth | src/organizations/model/organization-member.entity.js:22-28 | No member is both a worker and a contractor |
| Members.ChangeTypeDecides | src/organizations/model/organization-member.entity.js:18-28 | After `changeType(t)` the member is a worker iff t is WORKER and a contractor iff t is CONTRACTOR |
| Members.JsonRoundTrip | src/organizations/model/organization-member.entity.js:4-38 | A well-formed member rebuilt from its own serialised form is the same member |
| Organizations.NewOrganization | src/organizations/model/organization.entity.js:7-37 | The legal name, then the RUC instance with a truthy value, then a numeric creator are required, each with its own message; a result keeps them, nulls a non-numeric id, fills the other fields from the arguments or their defaults and has no status |
| Organizations.UpdateLegalName | src/organizations/model/organization.entity.js:39-44 | The update succeeds exactly for a non-empty string and changes only the legal name |
| Organizations.UpdateCommercialName | src/organizations/model/organization.entity.js:46-51 | The update succeeds exactly for a non-empty string and changes only the commercial name |
| Organizations.AddMember | src/organizations/model/organization.entity.js:53-55 | The member is appended, duplicates allowed, and nothing else changes |
| Organizations.RemoveMemberByPersonId | src/organizations/model/organization.entity.js:57-59 | Exactly the members whose person id is not strictly equal to the argument remain; nothing else changes |
| Organizations.InvitePerson | src/organizations/model/organization.entity.js:61-77 | Inviting fails exactly when the person already has a pending invitation; otherwise a pending invitation for the person is appended and returned |
| Organizations.Deactivate | src/organizations/model/organization.entity.js:79-81 | The status becomes INACTIVE and nothing else changes |
| Organizations.ToJson | src/organizations/model/organization.entity.js:91-100 | Six keys; the RUC goes out as its value or null; members and invitations are left out |
| Organizations.InvitePreservesAtMostOnePending | src/organizations/model/organization.entity.js:61-77 | A successful invitation of a named person keeps at most one pending invitation per person |
| Organizations.InviteWithoutPersonTwice | src/organizations/model/organization.entity.js:61-73 | With no person given, the guard checks `undefined` while the invitation stores '', so two pending invitations for '' can coexist |
| Organizations.ReinviteAfterDecision | src/organizations/model/organization.entity.js:62-67 | A person whose invitations are all accepted or rejected can be invited again |
| Organizations.RemoveKeepsOrder | src/organizations/model/organization.entity.js:57-59 | Removal distributes over concatenation of the member list, so the survivors keep their order |
| Organizations.AddThenRemove | src/organizations/model/organization.entity.js:53-59 | Adding a member and then removing its person id leaves what removing from the original list leaves |
| Organizations.DeactivateIdempotent | src/organizations/model/organization.entity.js:79-81 | Deactivating twice is the same as deactivating once |
| OrganizationAssemblers.InvitationFromResource | src/organizations/services/organization-invitation.assembler.js:4-15 | Reading fails exactly for a nullish resource; the invitation date is parsed, a missing status is PENDING, a falsy acceptance date is null and a non-integer id is null |
| OrganizationAssemblers.InvitationsFromResponse | src/organizations/services/organization-invitation.assembler.js:17-20 | A list maps element by element (a single resource counts as a list of one); the batch fails exactly when some element is nullish |
| OrganizationAssemblers.MemberFromResource | src/organizations/services/organization-member.assembler.js:4-12 | Reading fails exactly for a nullish resource; a falsy join date is the current time, a missing type is CONTRACTOR, a text id is null |
| OrganizationAssemblers.MembersFromResponse | src/organizations/services/organization-member.assembler.js:14-17 | A list maps element by element (a single resource counts as a list of one); the batch fails exactly when some element is nullish |
| OrganizationAssemblers.InvitationArgs | src/organizations/model/organization-invitation.entity.js:4-13 | An invitation's fields form the constructor's eight named arguments |
| OrganizationAssemblers.NewInvitationOfOwnFields | src/organizations/model/organization-invitation.entity.js:4-22 | The constructor rebuilds a well-formed invitation from its own fields |
| OrganizationAssemblers.ReadBackFields | src/organizations/services/organization-invitation.assembler.js:4-15 | Any serialised invitation whose date texts parse back to its dates is read back as the same invitation |
| OrganizationAssemblers.InvitationRoundTrip | src/organizations/services/organization-invitation.assembler.js:4-15 | An invitation serialised with `toJSON` and read by the assembler is the same invitation, given a parser that reads ISO text |
| OrganizationAssemblers.MemberRoundTrip | src/organizations/services/organization-member.assembler.js:4-12 | A well-formed member with a join date, serialised and read back, is the same member |
| OrganizationAssemblers.SingleInvitationIsWrapped | src/organizations/services/organization-invitation.assembler.js:17-20 | A single invitation resource is read as a list of one |
| OrganizationAssemblers.SingleMemberIsWrapped | src/organizations/services/organization-member.assembler.js:14-17 | A single member resource is read as a list of one |
| Projects.NewProject | src/projects/model/project.entity.js:9-48 | Corrected (every identifier class available): the name, then the description, then the budget are checked with their own messages; a result keeps them, defaults the status to BASIC_STUDIES and the team to empty |
| Projects.NewProjectAsWritten | src/projects/model/project.entity.js:3-20 | As written: a missing organization id or contractor throws while the parameters are bound, since neither identifier class is exported where it is imported from; a result keeps both as given |
| Projects.AsWrittenNeedsBothIds | src/projects/model/project.entity.js:3-33 | As written, a project is built exactly when the corrected constructor builds it and both the organization id and the contractor are supplied, and then the two agree |
| Projects.AsWrittenRefusesMissingOrganization | src/projects/model/project.entity.js:19 | A named, described, budgeted project with no organization id is built by the corrected constructor and refused as written |
| Projects.AcceptsExactly | src/projects/model/project.entity.js:23-33 | Corrected: construction succeeds exactly for a non-empty string name and description and a truthy numeric budget |
| Projects.StatusIsNotChecked | src/projects/model/project.entity.js:13-39 | The constructor stores any given status unchecked |
| Projects.UpdateStatus | src/projects/model/project.entity.js:50-55 | The update succeeds exactly for one of the six statuses and changes only the status |
| Projects.UpdateDescription | src/projects/model/project.entity.js:57-62 | The update succeeds exactly for a non-empty string and changes only the description |
| Projects.AddTeamMember | src/projects/model/project.entity.js:64-70 | Adding succeeds exactly for a ProjectTeamMember instance, which is appended; nothing else changes |
| Projects.RemoveTeamMember | src/projects/model/project.entity.js:73-79 | Removal needs a ProjectTeamMemberId; exactly the members whose member id value differs remain, and nothing else changes |
| Projects.ToJson | src/projects/model/project.entity.js:82-94 | Eight keys; the id goes out as its value or null; the team and the owning parties are left out |
| Projects.StatusStaysValid | src/projects/model/project.entity.js:50-79 | Every mutator keeps a valid status valid |
| Projects.DefaultStatusIsValid | src/projects/model/project.entity.js:13 | A project built without a status has BASIC_STUDIES, a valid status |
| Projects.RemoveAfterAdd | src/projects/model/project.entity.js:64-79 | Removing after appending a member is removing from the old team and then deciding about that member alone |
| Projects.AddThenRemoveSame | src/projects/model/project.entity.js:64-79 | A member added and removed by its own member id leaves what removal alone leaves |
| Projects.RemoveIdempotent | src/projects/model/project.entity.js:73-79 | Removing twice with one id is removing once |
| TeamMembers.NewTeamMember | src/projects/model/project-team-member.entity.js:4-31 | A result is well formed and keeps the role, the specialty and any given identifiers |
| TeamMembers.ToJson | src/projects/model/project-team-member.entity.js:33-40 | Four keys, with both identifiers unwrapped to their values |
| TeamMembers.IdToJson | src/projects/model/project-team-member.entity.js:48-52 | A ProjectTeamMemberId serialises as an object holding only its value |
| TeamMembers.RebuildFromFields | src/projects/model/project-team-member.entity.js:4-31 | A well-formed member rebuilt from its own fields is the same member |
| TeamMembers.JsonRoundTrip | src/projects/model/project-team-member.entity.js:33-40 | The serialised values wrapped back into identifiers rebuild the same member |
| TeamMembers.AcceptsExactly | src/projects/model/project-team-member.entity.js:10-25 | Construction succeeds exactly for the right identifier classes (the member id with a truthy value) and a truthy role and specialty |
| TeamMembers.RawIdIsRefused | src/projects/model/project-team-member.entity.js:10-12 | Any given id that is not a ProjectTeamMemberId, a plain number included, is refused with the id message |
| Identifiers.NewId | src/projects/model/project-team-member.entity.js:43-46 | An identifier keeps a truthy value and otherwise holds a fresh UUID |
| Identifiers.GeneratedId | src/suscription/model/subscription-plan.entity.js:76-80 | An identifier whose constructor ignores its argument holds the fresh UUID |
| Identifiers.NewIdIsTruthy | src/projects/model/project.entity.js:97-101 | With a non-empty UUID, a new identifier always holds a truthy value |
| Identifiers.NewIdOfOwnValue | src/projects/model/project-team-member.entity.js:43-46 | Wrapping an identifier's own value again gives the same identifier |
| TeamMemberAssembler.ReadId | src/projects/services/project-team-member.assembler.js:13 | The id read is a number or null, and a numeric id is kept |
| TeamMemberAssembler.ReadMemberId | src/projects/services/project-team-member.assembler.js:14-15 | The member id read is a number or null; a numeric one is kept, text goes through `parseInt` |
| TeamMemberAssembler.ReadRole | src/projects/services/project-team-member.assembler.js:18-20 | The role is always a ProjectRole member: the given one when it is one, SPECIALIST otherwise |
| TeamMemberAssembler.ReadSpecialty | src/projects/services/project-team-member.assembler.js:23-28 | Only a SPECIALIST gets a specialty, always a Specialty member (the given one when valid); other roles get null |
| TeamMemberAssembler.AttemptAsWritten | src/projects/services/project-team-member.assembler.js:11-36 | A nullish resource cannot be read |
| TeamMemberAssembler.FromResourceAsWritten | src/projects/services/project-team-member.assembler.js:10-46 | Whatever it returns is a well-formed member |
| TeamMemberAssembler.ResponseAsWritten | src/projects/services/project-team-member.assembler.js:51-65 | The batch never returns more members than resources; element `i` draws its identifiers from its own UUID source |
| TeamMemberAssembler.AttemptAsWrittenFails | src/projects/services/project-team-member.assembler.js:31-36 | The first attempt always throws, because a plain number or null is passed as the id |
| TeamMemberAssembler.FallbackAsWrittenFails | src/projects/services/project-team-member.assembler.js:40-44 | The fallback always throws on its plain member id 0 |
| TeamMemberAssembler.AsWrittenAlwaysFails | src/projects/services/project-team-member.assembler.js:10-46 | Every conversion throws the member-id error |
| TeamMemberAssembler.AsWrittenResponseIsEmpty | src/projects/services/project-team-member.assembler.js:51-65 | The batch conversion returns no member at all, whatever the response |
| TeamMemberAssembler.Attempt | src/projects/services/project-team-member.assembler.js:11-36 | Corrected first attempt: a nullish resource cannot be read |
| TeamMemberAssembler.Fallback | src/projects/services/project-team-member.assembler.js:40-44 | The corrected fallback succeeds and is a SPECIALIST |
| TeamMemberAssembler.FromResource | src/projects/services/project-team-member.assembler.js:10-46 | Whatever the corrected conversion returns is a well-formed member |
| TeamMemberAssembler.Response | src/projects/services/project-team-member.assembler.js:51-65 | The corrected batch never returns more members than resources; element `i` draws its identifiers from its own UUID source |
| TeamMemberAssembler.FromResourceNeverFails | src/projects/services/project-team-member.assembler.js:10-46 | With identifiers wrapped, conversion never fails: at worst it yields the fallback member |
| TeamMemberAssembler.FromResourceReadsSpecialist | src/projects/services/project-team-member.assembler.js:13-36 | A SPECIALIST resource with a valid specialty and a non-zero numeric member id is read faithfully |
| TeamMemberAssembler.CorrectedRoundTrip | src/projects/services/project-team-member.assembler.js:10-36 | A SPECIALIST member with numeric identifiers survives `toJSON` and the corrected reading unchanged |
| TeamMemberAssembler.ResponseKeepsAll | src/projects/services/project-team-member.assembler.js:51-65 | The corrected batch keeps every resource of a non-empty response, in order, element `i` converted with its own UUID source |
| TeamMemberAssembler.ToResourceRebuilds | src/projects/services/project-team-member.assembler.js:70-77 | The resource form of a well-formed member rebuilds that member |
| Tasks.NewTask | src/projects/model/task.entity.js:6-55 | A result is well formed (dates valid and ordered) and keeps the name, specialty, status (DRAFT by default), milestone and responsible; a non-numeric id becomes null |
| Tasks.AcceptsExactly | src/projects/model/task.entity.js:20-45 | Construction succeeds exactly for a non-empty name, a Specialty, a TaskStatus, two valid dates in order and a null or numeric responsible |
| Tasks.DueBeforeStartIsRefused | src/projects/model/task.entity.js:40-42 | A due date earlier than the starting date is refused with the ordering message |
| Tasks.DefaultDatesAreOrdered | src/projects/model/task.entity.js:11-12 | With no dates given, both are the current time and a Task is made |
| Tasks.AssignResponsible | src/projects/model/task.entity.js:65-70 | Assignment succeeds exactly for a number and changes only the responsible |
| Tasks.UpdateStatus | src/projects/model/task.entity.js:72-77 | The update succeeds exactly for a TaskStatus member and changes only the status |
| Tasks.LifetimeKeepsDates | src/projects/model/task.entity.js:65-77 | Any run of mutator calls keeps a task well formed and never changes either date |
| Tasks.ToJson | src/projects/model/task.entity.js:77-89 | The serialised task has the eight fields, `milestoneId` included |
| Tasks.JsonRebuilds | src/projects/model/task.entity.js:6-89 | Handing the serialised task back to the constructor rebuilds the same task |
| TaskSpecs.NewTaskSpec | src/projects/model/task-spec.js:5-28 | A result is well formed and keeps the name, the specialty, and any given responsible and due date |
| TaskSpecs.AcceptsExactly | src/projects/model/task-spec.js:12-22 | Construction succeeds exactly for a non-empty name, a Specialty and a ProjectTeamMemberId with a truthy value (a missing one gets a fresh UUID) |
| TaskSpecs.DueDateIsNotChecked | src/projects/model/task-spec.js:9-27 | A given due date is stored unchecked, even when it is not a Date |
| TaskSpecs.ToJson | src/projects/model/task-spec.js:30-37 | The serialised spec has exactly the four fields |
| TaskSpecs.JsonRebuilds | src/projects/model/task-spec.js:5-37 | The serialised spec handed back to the constructor rebuilds the same spec |
| TaskSubmissions.NewSubmission | src/projects/model/task-submission.entity.js:2-35 | A result is well formed and keeps both notes; the id, reviewer and submitter are kept only when numeric and are null otherwise |
| TaskSubmissions.AcceptsExactly | src/projects/model/task-submission.entity.js:12-26 | Construction succeeds exactly for Dates (or nothing) as both dates and non-empty strings as both notes |
| TaskSubmissions.DefaultsAreRefused | src/projects/model/task-submission.entity.js:5-22 | The defaults alone never make a submission: the empty default notes fail the notes check |
| TaskSubmissions.ToJson | src/projects/model/task-submission.entity.js:37-47 | The serialised submission has exactly the seven fields |
| TaskSubmissions.JsonRebuilds | src/projects/model/task-submission.entity.js:2-47 | The serialised submission handed back to the constructor rebuilds the same submission |
| TaskAssembler.ReadSpecialty | src/projects/services/task.assembler.js:13-15 | The specialty is always a Specialty member: the given one when valid, ARCHITECTURE otherwise |
| TaskAssembler.ReadStatus | src/projects/services/task.assembler.js:17-19 | The status is always a TaskStatus member: the given one when valid, DRAFT otherwise |
| TaskAssembler.ResourceArgs | src/projects/services/task.assembler.js:10-29 | The normalised argument has a valid specialty and status, a numeric or null id, a truthy name, and a truthy-or-null responsible and milestone |
| TaskAssembler.Attempt | src/projects/services/task.assembler.js:8-30 | A nullish resource throws on its first field read |
| TaskAssembler.Fallback | src/projects/services/task.assembler.js:34-39 | The fallback is the GENERAL DRAFT "Error Task" dated now, and it exists exactly when now is a valid time |
| TaskAssembler.FromResource | src/projects/services/task.assembler.js:7-41 | Every task the conversion returns is well formed |
| TaskAssembler.Response | src/projects/services/task.assembler.js:43-57 | A falsy response gives no tasks; never more tasks than resources, each well formed |
| TaskAssembler.FromResourceNeverFails | src/projects/services/task.assembler.js:7-41 | At a valid time conversion never fails: at worst it is the "Error Task" |
| TaskAssembler.NullishGivesErrorTask | src/projects/services/task.assembler.js:31-40 | A null or undefined resource gives the "Error Task" |
| TaskAssembler.DueBeforeStartGivesErrorTask | src/projects/services/task.assembler.js:21-40 | A resource whose due date precedes its start makes the constructor throw, so the result is the "Error Task" |
| TaskAssembler.FalsyResponsibleIsNull | src/projects/services/task.assembler.js:28 | A falsy responsible, 0 included, is read as null |
| TaskAssembler.ResponseKeepsAll | src/projects/services/task.assembler.js:43-57 | At a valid time the batch keeps every resource of a non-empty response, in order |
| TaskAssembler.IsoOrNull | src/projects/services/task.assembler.js:65-66 | A non-Date is sent as null, a Date as its ISO text |
| TaskAssembler.ResourceFields | src/projects/services/task.assembler.js:60-68 | The resource has exactly seven keys, carrying the given date texts, the id and the responsible |
| TaskAssembler.ToResource | src/projects/services/task.assembler.js:59-69 | Writing a resource succeeds exactly when both dates convert; the milestone is never sent |
| TaskAssembler.ArgsOfResource | src/projects/services/task.assembler.js:10-29 | The argument read from a resource written from a task holds that task's fields, the milestone aside |
| TaskAssembler.ReadBackFields | src/projects/services/task.assembler.js:7-30 | A resource whose date texts read back as a Task's dates is read back as that Task without its milestone |
| TaskAssembler.RoundTripLosesMilestone | src/projects/services/task.assembler.js:59-69 | A task written as a resource and read back is the same task, except that its milestone is lost |
| ScheduleItems.TaskSpecArgs | src/projects/model/task.factory.js:4-11 | The factory passes exactly name, specialty, the two dates and the responsible; id, status and milestone are left to the defaults |
| ScheduleItems.CreateTask | src/projects/model/task.factory.js:3-12 | A nullish spec cannot be read; a created task is a DRAFT with no id or milestone, holding the spec's name, specialty, dates and responsible |
| ScheduleItems.CreateTaskPropagatesErrors | src/projects/model/task.factory.js:3-12 | `Task` constructor name and specialty errors reach the caller uncaught |
| ScheduleItems.SpecIsNeverCreated | src/projects/model/task.factory.js:4-12 | A well-formed `TaskSpec` never becomes a Task: its ProjectTeamMemberId responsible is refused, unless a due date before now fails first |
| ScheduleItems.CreateMeeting | src/projects/model/meeting.factory.js:4-22 | A nullish argument cannot be destructured; a created meeting keeps the topic and any given participants |
| ScheduleItems.Create | src/projects/model/schedule-item.factory.js:5-13 | 'meeting' and 'task' dispatch to their factories, with the same outcome and errors; any other type throws the unsupported-type error |
| ScheduleItems.TypeIsCaseSensitive | src/projects/model/schedule-item.factory.js:6-12 | 'Task' is not 'task': it is unsupported |
| Meetings.NewMeeting | src/projects/model/meeting.entity.js:4-44 | A result is well formed (dates in order) and keeps the topic, description, caller and participants; a missing id is an empty MeetingId |
| Meetings.AcceptsExactly | src/projects/model/meeting.entity.js:13-35 | Construction succeeds exactly for a non-empty topic, two Dates in order, a ProjectTeamMemberId caller and an array of participants |
| Meetings.MeetingIdText | src/projects/model/meeting.entity.js:98-100 | A MeetingId's text is its stored value |
| Meetings.IdConvertsAsItsValue | src/projects/model/meeting.entity.js:98-100 | `String`, `Number` and `new Date` convert a MeetingId holding a primitive exactly as that primitive |
| Meetings.DefaultIdHasNoValue | src/projects/model/meeting.entity.js:93-96 | A meeting built without an id holds a MeetingId with no value |
| Meetings.UpdateTopic | src/projects/model/meeting.entity.js:54-59 | The update succeeds exactly for a non-empty string and changes only the topic |
| Meetings.UpdateStartingDate | src/projects/model/meeting.entity.js:61-66 | The update succeeds exactly for a Date and changes only the starting date |
| Meetings.UpdateEndingDate | src/projects/model/meeting.entity.js:68-76 | The update succeeds exactly for a Date not earlier than the start, and changes only the ending date |
| Meetings.UpdateCalledBy | src/projects/model/meeting.entity.js:78-83 | The update succeeds exactly for a ProjectTeamMemberId and changes only the caller |
| Meetings.SetParticipants | src/projects/model/meeting.entity.js:85-90 | The update succeeds exactly for an array and changes only the participants |
| Meetings.UpdatesKeepWellFormed | src/projects/model/meeting.entity.js:54-90 | Every mutator but `updateStartingDate` keeps a meeting well formed |
| Meetings.StartAfterEndIsAccepted | src/projects/model/meeting.entity.js:61-66 | `updateStartingDate` does not compare with the end, so a start after the end is accepted |
| Milestones.NewMilestone | src/projects/model/milestone.entity.js:4-32 | A result is well formed (dates in order) and keeps the name, any given dates and items; a missing id is a fresh MilestoneId |
| Milestones.AcceptsExactly | src/projects/model/milestone.entity.js:11-25 | Construction succeeds exactly for a non-empty string name and two Dates in order |
| Milestones.UpdateName | src/projects/model/milestone.entity.js:34-39 | The update succeeds exactly for a non-empty string and changes only the name |
| Milestones.UpdateStartDate | src/projects/model/milestone.entity.js:41-46 | The update succeeds exactly for a Date and changes only the start date |
| Milestones.UpdateEndDate | src/projects/model/milestone.entity.js:48-53 | The update succeeds exactly for a Date and changes only the end date |
| Milestones.EndBeforeStartIsAccepted | src/projects/model/milestone.entity.js:48-53 | The date updates do not compare the two dates, so an end before the start is accepted |
| Milestones.AddItem | src/projects/model/milestone.entity.js:55-60 | Adding succeeds exactly for a ScheduleItem on an array of items, which it appends; nothing else changes; null or undefined items cannot be read |
| Milestones.MeetingsAreRefused | src/projects/model/milestone.entity.js:55-58 | A Meeting is not a ScheduleItem and is never added |
| Milestones.IndexOf | src/projects/model/milestone.entity.js:63 | The index is the first position holding the item by strict equality, or -1 exactly when there is none |
| Milestones.RemoveItem | src/projects/model/milestone.entity.js:62-68 | On an array, removal succeeds exactly when the item is present and splices out its first occurrence; nothing else changes. Items held in a string are searched as text and cannot be spliced; null or undefined items cannot be read |
| Milestones.RemoveDropsOne | src/projects/model/milestone.entity.js:62-68 | A removal shortens the list by one and removes exactly one copy of the item |
| Milestones.RemoveAfterAdd | src/projects/model/milestone.entity.js:55-68 | Adding an item not yet present and removing it gives the milestone back |
| Milestones.IdToJson | src/projects/model/milestone.entity.js:87-89 | A MilestoneId serialises as its bare value |
| Milestones.ToJson | src/projects/model/milestone.entity.js:70-79 | The id goes out as its value, or null when there is none; the name and items are kept |
| Milestones.JsonRebuilds | src/projects/model/milestone.entity.js:4-89 | The serialised milestone, its id wrapped again, rebuilds the same milestone |
| MilestoneAssembler.ReadNumeric | src/projects/services/milestone.assembler.js:9-12 | Numeric text becomes its number; any other value, non-numeric text included, is kept |
| MilestoneAssembler.EmptyTextIsZero | src/projects/services/milestone.assembler.js:10-11 | The empty text counts as numeric and becomes 0 |
| MilestoneAssembler.ReadItems | src/projects/services/milestone.assembler.js:24 | A falsy value gives an empty list; an array keeps its length |
| MilestoneAssembler.ResourceArgs | src/projects/services/milestone.assembler.js:5-26 | Both dates in the argument are Dates, the items are set and the name is the resource's |
| MilestoneAssembler.FromResource | src/projects/services/milestone.assembler.js:3-27 | A nullish resource cannot be read; a result is well formed; a missing name is the constructor's name error |
| MilestoneAssembler.OlderDateNamesAreRead | src/projects/services/milestone.assembler.js:5-6 | When the newer date fields are falsy, `startingDate` and `endingDate` are read |
| MilestoneAssembler.NumericTextIdIsLost | src/projects/services/milestone.assembler.js:9-12 | A numeric text id is stored as a bare number, so `toJSON` writes the id as null |
| MilestoneAssembler.Response | src/projects/services/milestone.assembler.js:29-32 | Element-by-element conversion of the list, with a single resource counted as a list of one. Element `i` is built with its own UUID. The batch fails exactly when some element fails |
| MilestoneAssembler.ResponseDrawsDistinctIds | src/projects/services/milestone.assembler.js:29-32 | Two resources without an id get the MilestoneIds of their own UUIDs, which differ when the UUIDs do |
| MilestoneAssembler.MissingResponseFails | src/projects/services/milestone.assembler.js:30 | A missing response is wrapped too, and fails on its undefined element |
| Schedules.NewSchedule | src/projects/model/schedule.entity.js:4-9 | A missing argument gives an empty schedule and any array is kept as it is, plain values included; any other value throws the array message |
| Schedules.AbsentIsEmptyArray | src/projects/model/schedule.entity.js:4 | A missing argument and an empty array make the same empty schedule |
| Schedules.AddMilestone | src/projects/model/schedule.entity.js:11-17 | Adding succeeds exactly for a Milestone instance, which is appended |
| Schedules.IdValue | src/projects/model/schedule.entity.js:25 | Reading `milestone.id.value` gives the id's value, and throws exactly for a nullish element or a nullish id |
| Schedules.RemoveMilestoneAsWritten | src/projects/model/schedule.entity.js:19-27 | As written: removal succeeds exactly for a number (with every milestone id readable); anything else is the id error |
| Schedules.AsWrittenKeepsIdentified | src/projects/model/schedule.entity.js:24-26 | As written, no milestone whose id value is defined (a MilestoneId's, say) is ever removed, whatever number is given |
| Schedules.AsWrittenMissesSeven | src/projects/model/schedule.entity.js:24-26 | As written, the milestone with id 7 survives `removeMilestone(7)` |
| Schedules.AsWrittenDropsUnwrapped | src/projects/model/schedule.entity.js:24-26 | As written, a milestone whose id is a bare number is removed whatever number is given |
| Schedules.RemoveMilestone | src/projects/model/schedule.entity.js:19-27 | Corrected: succeeds exactly for a number when every id value can be read, and exactly the elements whose id value is not that number remain |
| Schedules.RemovesSeven | src/projects/model/schedule.entity.js:19-27 | Corrected removal takes out the milestone with id 7 |
| Schedules.RemoveAfterAdd | src/projects/model/schedule.entity.js:11-27 | Adding a milestone and removing it by its id is the same as removing alone |
| Schedules.RemoveIdempotent | src/projects/model/schedule.entity.js:19-27 | Removing twice by the same id is removing once |
| JsonMethods.OwnToJson | src/projects/model/milestone.entity.js:87-89 | A plain value's own `toJSON` method: a Date gives its ISO text or null, a MilestoneId its bare value, a ProjectTeamMemberId (project-team-member.entity.js:47-51) `{value}`; no other value has one |
| Schedules.ElementToJson | src/projects/model/schedule.entity.js:31 | A milestone serialises as its own `toJSON`, and so does a plain value that has one (a Date, a MilestoneId, a ProjectTeamMemberId); this fails exactly for the other elements, a nullish one with the read error |
| Schedules.ToJson | src/projects/model/schedule.entity.js:29-33 | Each element serialises in order through its `toJSON`; this fails exactly when some element is neither a Milestone nor a value with a `toJSON` method |
| Schedules.RawMilestoneIdSerialises | src/projects/model/schedule.entity.js:29-33 | A schedule holding a bare MilestoneId 7 serialises it as 7 |
| Schedules.ToJsonAfterAdd | src/projects/model/schedule.entity.js:11-33 | Serialising after an addition fails exactly when serialising before it did, and otherwise appends the new milestone's form |
| ScheduleBuilder.AddMilestone | src/projects/model/schedule.builder.js:14-22 | Adding succeeds exactly for a non-empty string name, and appends a milestone of that name with no items |
| ScheduleBuilder.LastMilestone | src/projects/model/schedule.builder.js:57-60 | The last milestone, or none exactly when the schedule has none |
| ScheduleBuilder.ItemFactory | src/projects/model/schedule.builder.js:39 | A factory whose `create()` succeeds or throws as the given schedule item factory does |
| ScheduleBuilder.AddItemToLastMilestone | src/projects/model/schedule.builder.js:29-43 | A non-factory is refused first. An empty schedule, or a falsy plain last element, is refused next. Then the factory's error comes. On success only the last milestone changes, by its `addItem` |
| ScheduleBuilder.Build | src/projects/model/schedule.builder.js:49-51 | Building hands out the milestones added so far |
| ScheduleBuilder.ScheduleItemFactoryFails | src/projects/model/schedule.builder.js:39 | Passing `ScheduleItemFactory` itself never adds anything: `create()` with no type throws |
| ScheduleBuilder.OneMilestoneOneTask | src/projects/model/schedule.builder.js:14-43 | A task added after a first milestone is that milestone's only item |
| BillingItems.CalculateSubtotal | src/billing/model/billing-item.entity.js:23-25 | The subtotal is a Money of the unit price's amount; a valid unit price is rebuilt as itself, a blank currency throws |
| BillingItems.NewBillingItem | src/billing/model/billing-item.entity.js:5-21 | A unit price that is not Money throws; otherwise the id, description (`''`) and invoice id take their defaults, a truthy subtotal is kept and a falsy one is computed from the unit price |
| BillingItems.AcceptsExactly | src/billing/model/billing-item.entity.js:5-21 | Construction succeeds exactly for a Money unit price whose currency is not blank, unless a subtotal is supplied |
| BillingItems.SubtotalIsUnitPrice | src/billing/model/billing-item.entity.js:19 | With no subtotal given, the subtotal of a valid unit price equals that price |
| BillingItems.EmptyItem | src/billing/model/billing-item.entity.js:5-21 | An item given nothing costs zero soles and belongs to no invoice |
| BillingItems.SubtotalIsNotChecked | src/billing/model/billing-item.entity.js:19 | A supplied subtotal is kept whatever the unit price |
| BillingItems.SubtotalJson | src/billing/model/billing-item.entity.js:32 | `subtotal?.toJSON()`: Money serialises, a nullish subtotal gives undefined, a value with its own `toJSON` gives that method's result, and exactly the other values throw |
| BillingItems.JsonFields | src/billing/model/billing-item.entity.js:27-35 | The serialised item has exactly the five fields, with the unit price's JSON and the given invoice id |
| BillingItems.ToJsonAsWritten | src/billing/model/billing-item.entity.js:27-35 | As written: the invoice id is read through `.value`, so only an identifier object keeps it |
| BillingItems.AsWrittenLosesInvoiceId | src/billing/model/billing-item.entity.js:33 | As written, an item of invoice 5 serialises with a null invoice id |
| BillingItems.InvoiceIdJson | src/billing/model/billing-item.entity.js:33 | Corrected: a numeric invoice id is kept; any other is read as before |
| BillingItems.ToJson | src/billing/model/billing-item.entity.js:27-35 | Corrected serialisation: the five fields, the invoice id kept when it is a number |
| BillingItems.ToJsonDiffersOnlyInInvoiceId | src/billing/model/billing-item.entity.js:27-35 | The two serialisations fail together, agree on every other field, and agree entirely when the invoice id is not a number |
| BillingItems.PricesRebuild | src/billing/model/billing-item.entity.js:31-32 | The serialised unit price and subtotal construct the same Money again |
| Invoices.SubtotalAmount | src/billing/model/invoice.entity.js:34 | Reading `item.subtotal.amount` for `acc + amount` gives the Money's amount, or the number `+` converts a null, boolean or numeric amount to, and throws exactly for a nullish subtotal |
| Invoices.ElementSubtotal | src/billing/model/invoice.entity.js:34 | Reading `item.subtotal` gives a billing item's subtotal or a plain element's field, and throws exactly for a nullish element |
| Invoices.SumIsAmountSum | src/billing/model/invoice.entity.js:34 | The running `reduce` over priced items equals the reference sum of their subtotals |
| Invoices.AmountSumLast | src/billing/model/invoice.entity.js:34 | The reference sum splits off its last item, as the left fold does |
| Invoices.FirstCurrency | src/billing/model/invoice.entity.js:35 | The first element's subtotal currency read through `?.`: PEN for no items, and PEN when that element is nullish |
| Invoices.Total | src/billing/model/invoice.entity.js:33-37 | The total succeeds exactly when the running sum is a number and the first item's currency a non-blank text; it is then valid Money of that sum in that currency |
| Invoices.NullAmountCountsZero | src/billing/model/invoice.entity.js:33-37 | A lone item whose raw subtotal has a null amount totals zero soles |
| Invoices.TotalIsSum | src/billing/model/invoice.entity.js:33-37 | For priced items the total succeeds, sums all subtotals, and is in the first item's currency or PEN |
| Invoices.NewInvoice | src/billing/model/invoice.entity.js:5-21 | Construction succeeds exactly when the items argument is a list and its total succeeds, and the items are stored as given; null and other non-arrays throw, and an empty invoice totals zero soles. Non-numeric ids and payers become null; status, `issuedDate` and `dueDate` are the given values or their defaults |
| Invoices.ItemsOf | src/billing/model/invoice.entity.js:12-18 | A missing argument is `[]`; any array is kept, plain values included; null cannot be read and any other value has no `reduce` |
| Invoices.PlainItemsAreTotalled | src/billing/model/invoice.entity.js:12-20 | A plain array is accepted, and an element whose plain subtotal is an amount in soles is totalled |
| Invoices.PlainItemWithoutSubtotalFails | src/billing/model/invoice.entity.js:33-34 | A plain element without a subtotal makes construction throw on reading `amount` of undefined |
| Invoices.SumAppend | src/billing/model/invoice.entity.js:34 | The running sum of one more item is the previous sum plus its amount |
| Invoices.Attached | src/billing/model/invoice.entity.js:27-28 | The pushed item names this invoice and its subtotal is recomputed from its unit price |
| Invoices.AddItem | src/billing/model/invoice.entity.js:23-31 | A non-BillingItem throws; otherwise only the items (one appended) and the recomputed total change |
| Invoices.AddItemGrowsTotal | src/billing/model/invoice.entity.js:23-37 | Adding a priced item grows the total by its unit price and keeps the first item's currency |
| Invoices.MixedCurrenciesAreAdded | src/billing/model/invoice.entity.js:33-37 | 5 USD and 10 PEN total 15 USD: later currencies are not converted |
| Invoices.MarkAsPaid | src/billing/model/invoice.entity.js:39-41 | The status becomes PAID and nothing else changes |
| Invoices.OverdueExactly | src/billing/model/invoice.entity.js:43-45 | A paid invoice is never overdue; an unpaid one is overdue exactly when its due date is strictly earlier |
| Invoices.ItemJson | src/billing/model/invoice.entity.js:55 | One item's serialised form, failing exactly when its subtotal cannot serialise; as written the invoice id is read through `?.value`, under the corrected reading a numeric one is kept |
| Invoices.ElementJson | src/billing/model/invoice.entity.js:55 | A billing item serialises as `ItemJson`, and a plain value with its own `toJSON` as that method's result; a nullish element cannot be read and every other plain value throws |
| Invoices.ItemsJson | src/billing/model/invoice.entity.js:55 | Each element serialises in order under the chosen reading; this fails exactly when some billing item's subtotal cannot serialise or some plain element has no `toJSON` method |
| Invoices.RawTeamMemberIdSerialises | src/billing/model/invoice.entity.js:55 | An invoice holding a bare ProjectTeamMemberId 7 serialises it as `{value: 7}`, under either reading |
| Invoices.ToJson | src/billing/model/invoice.entity.js:47-57 | As written: the seven fields, the total as Money JSON and the items as billing-item.entity.js serialises them; fails exactly when an item cannot serialise |
| Invoices.CorrectedToJson | src/billing/model/invoice.entity.js:47-57 | Corrected: the same seven fields with the items serialised keeping a numeric invoice id; fails exactly when an item cannot serialise |
| Invoices.ReadingsDifferOnlyInItemInvoiceIds | src/billing/model/invoice.entity.js:47-57 | The two invoice serialisations fail together and agree on every field but the items. They agree on each plain element, and on each billing item except for its invoice id |
| Invoices.LastAdded | src/billing/model/invoice.entity.js:23-31 | A valid item added to a consistent invoice is appended with this invoice's id and its unit price as subtotal |
| Invoices.AddedItemLosesInvoice | src/billing/model/invoice.entity.js:23-31 | As written, an item added to an invoice with a numeric id serialises with a null invoice id |
| Invoices.AddedItemNamesInvoice | src/billing/model/invoice.entity.js:23-31 | Corrected: an item added to an invoice with a numeric id serialises with that id |
| Payments.NewPaymentAsWritten | src/payments/model/payment.entity.js:1-16 | As written, construction always throws a ReferenceError: `Money` is used on line 14 but never imported |
| Payments.AsWrittenNeverConstructs | src/payments/model/payment.entity.js:14 | Even arguments the corrected constructor accepts make no payment as written |
| Payments.NewPayment | src/payments/model/payment.entity.js:5-33 | Corrected: construction succeeds exactly for a Money amount, a known status (PENDING by default) and a known method, with the amount, then status, then method errors in that order |
| Payments.MarkAsPaid | src/payments/model/payment.entity.js:35-41 | Refused exactly for a CONFIRMED payment; otherwise the status is CONFIRMED and `paidAt` the given date or now, nothing else changing |
| Payments.Cancel | src/payments/model/payment.entity.js:43-48 | Only a PENDING payment can be cancelled, and it becomes FAILED |
| Payments.LifetimeKeepsPaid | src/payments/model/payment.entity.js:35-52 | Any run of calls keeps a payment well formed and its amount unchanged; on a paid payment every call throws |
| Payments.FailedCanBePaid | src/payments/model/payment.entity.js:35-48 | A cancelled (FAILED) payment can still be marked as paid |
| Payments.AgreementJson | src/payments/model/payment.entity.js:62 | An agreement serialises itself; another value with a `toJSON` method gives its result, null in place of a nullish one; a record whose `toJSON` field is not a function throws; every other value gives null |
| Payments.ToJson | src/payments/model/payment.entity.js:54-64 | Throws exactly when the agreement's `toJSON` throws; otherwise the seven fields, the agreement as `AgreementJson` gives it |
| Payments.JsonFields | src/payments/model/payment.entity.js:54-64 | The seven fields; the amount as Money JSON; the invoice id unwrapped from an identifier, kept otherwise; the agreement as given |
| Payments.RawMilestoneIdAgreement | src/payments/model/payment.entity.js:62 | A bare MilestoneId 7 in the agreement's place serialises as 7 |
| Payments.JsonKeepsAmountAndInvoice | src/payments/model/payment.entity.js:54-64 | Whatever the agreement serialises to, the serialised amount constructs the same Money, and a numeric invoice id survives serialisation |
| Transactions.Build | src/payments/model/transaction-entity.js:6-22 | Construction succeeds exactly for a known status (INITIATED by default), keeping the given payment id, defaults for the rest |
| Transactions.NewTransactionAsWritten | src/payments/model/transaction-entity.js:6-22 | As written: a payment id that is not a PaymentId is replaced by a fresh one, since the PaymentId constructor ignores its argument |
| Transactions.AsWrittenLosesPaymentId | src/payments/model/transaction-entity.js:18 | As written, a transaction for payment 42 serialises a random UUID as its payment id |
| Transactions.NewTransaction | src/payments/model/transaction-entity.js:6-22 | Corrected: a raw payment id is kept inside the PaymentId that wraps it |
| Transactions.ReadingsDifferOnlyInPaymentId | src/payments/model/transaction-entity.js:6-22 | Both readings accept the same arguments and differ only in a raw payment id |
| Transactions.KeepsPaymentId | src/payments/model/transaction-entity.js:18 | Corrected, a transaction for payment 42 serialises payment 42 |
| Transactions.Succeed | src/payments/model/transaction-entity.js:24-27 | The status becomes SUCCESS with the given (or empty) response; nothing else changes |
| Transactions.Fail | src/payments/model/transaction-entity.js:29-32 | The status becomes FAILED with the given (or empty) response; nothing else changes |
| Transactions.PendingOnlyWhenSaid | src/payments/model/transaction-entity.js:10-36 | A new transaction is INITIATED and not pending; neither outcome is pending, and the last outcome recorded wins |
| Transactions.ToJson | src/payments/model/transaction-entity.js:38-46 | The five fields with both identifiers unwrapped |
| Transactions.JsonRebuilds | src/payments/model/transaction-entity.js:6-46 | The serialised fields construct the same transaction again |
| Agreements.NewAgreementAsWritten | src/payments/model/recurrent-payment-agreement.entity.js:1-19 | As written: every construction fails; an unknown payment method gives its message, and otherwise the `instanceof` test against the missing `PersonId` throws a TypeError |
| Agreements.AsWrittenNeverConstructs | src/payments/model/recurrent-payment-agreement.entity.js:1-19 | As written, nothing the corrected constructor accepts is built, and both fail alike on an unknown payment method |
| Agreements.NewAgreement | src/payments/model/recurrent-payment-agreement.entity.js:5-27 | Corrected (`PersonId` an identifier class): construction succeeds exactly for a known method and a PersonId, and the method error comes first. The method and person id are stored as given. The start date goes through `new Date`, and is now when missing. A falsy next payment date is null and a truthy one becomes its Date |
| Agreements.Deactivate | src/payments/model/recurrent-payment-agreement.entity.js:29-31 | The agreement becomes inactive; nothing else changes |
| Agreements.Reactivate | src/payments/model/recurrent-payment-agreement.entity.js:33-35 | The agreement becomes active; nothing else changes |
| Agreements.SwitchesAreUnconditional | src/payments/model/recurrent-payment-agreement.entity.js:29-35 | Each switch is idempotent, and switching an active agreement off and on restores it |
| Agreements.ScheduleNextPayment | src/payments/model/recurrent-payment-agreement.entity.js:37-42 | Accepted exactly for a Date, which becomes the next payment date; nothing else changes |
| Agreements.LifetimeKeepsParties | src/payments/model/recurrent-payment-agreement.entity.js:29-42 | No run of calls changes the person, the method or the start date, and each keeps the agreement well formed |
| Agreements.ToJson | src/payments/model/recurrent-payment-agreement.entity.js:44-53 | The six fields with both identifiers unwrapped |
| Agreements.JsonRebuilds | src/payments/model/recurrent-payment-agreement.entity.js:5-53 | Through the corrected constructor, the serialised fields, identifiers wrapped again, construct the same agreement |
| Subscriptions.NewSubscription | src/subscription/model/subscription.entity.js:4-20 | Non-numeric references become null, both dates go through `new Date` (now when missing), the status is ACTIVE and auto-renew false unless given |
| Subscriptions.Cancel | src/subscription/model/subscription.entity.js:22-27 | Only an ACTIVE subscription can be cancelled, and it becomes CANCELLED |
| Subscriptions.ActiveExactly | src/subscription/model/subscription.entity.js:29-36 | Active exactly when ACTIVE and the time lies between valid start and end dates, both ends included |
| Subscriptions.CancelledStaysInactive | src/subscription/model/subscription.entity.js:22-36 | A cancelled subscription is never active and cannot be cancelled again |
| Subscriptions.Extend | src/subscription/model/subscription.entity.js:38-43 | Refused exactly when the new end compares as a number no later than a valid current end; otherwise only the end date changes |
| Subscriptions.ExtendMovesEndLater | src/subscription/model/subscription.entity.js:38-43 | Between valid Dates, extension succeeds exactly when it moves the end strictly later, keeping start and status |
| Subscriptions.TextDateIsNotCompared | src/subscription/model/subscription.entity.js:39 | A date given as text compares as NaN and is accepted even when earlier than the current end |
| Subscriptions.ToJson | src/subscription/model/subscription.entity.js:45-55 | The seven fields with both dates as Dates |
| Subscriptions.JsonRebuilds | src/subscription/model/subscription.entity.js:4-55 | The constructor rebuilds a subscription from its serialised object |
| SubscriptionPlans.NewPlan | src/suscription/model/subscription-plan.entity.js:4-38 | Construction succeeds exactly for a valid name, a Money price (zero soles if missing) and a duration that is not below zero, checked in that order. Each other field is the given value or its default (`''` for the description and plan type) |
| SubscriptionPlans.DefaultsMakeAFreeTrial | src/suscription/model/subscription-plan.entity.js:4-58 | No name fails; a name alone makes a free zero-day trial with no features |
| SubscriptionPlans.NaNDurationAccepted | src/suscription/model/subscription-plan.entity.js:24-26 | A NaN duration is accepted while -1 is refused |
| SubscriptionPlans.PriceClassification | src/suscription/model/subscription-plan.entity.js:44-54 | Free plans are trials and not paid; a plan neither free nor paid has a negative price; a non-free trial lasts zero days |
| SubscriptionPlans.HasFeature | src/suscription/model/subscription-plan.entity.js:56-58 | An array of features holds the key as an element, a string as a substring; any other features value throws |
| SubscriptionPlans.AddedFeatureIsFound | src/suscription/model/subscription-plan.entity.js:56-58 | A feature appended to the list is found, and every earlier feature still is |
| SubscriptionPlans.ToJson | src/suscription/model/subscription-plan.entity.js:60-73 | The ten fields, the id unwrapped and the price as Money JSON |
| SubscriptionPlans.JsonRebuilds | src/suscription/model/subscription-plan.entity.js:4-73 | The serialised price constructs the same Money, and the fields construct the same plan again |
| Workspaces.NewWorkspace | src/subscription/model/workspace.entity.js:2-29 | Construction succeeds exactly when the organization and creator are numbers, the organization error first; non-numeric id and subscription become null; the limits default to 0 |
| Workspaces.GetLimits | src/subscription/model/workspace.entity.js:44-50 | The three limits, which together with the other fields make up the workspace |
| Workspaces.SetLimits | src/subscription/model/workspace.entity.js:38-42 | A null or undefined argument throws; otherwise only the limits may change |
| Workspaces.SetLimitsExactly | src/subscription/model/workspace.entity.js:38-42 | Each limit given and not null replaces the old one, the others stay; naming none changes nothing; setting twice is setting once |
| Workspaces.SetLimitsKeepsWellFormed | src/subscription/model/workspace.entity.js:38-42 | Setting limits keeps a workspace well formed |
| Workspaces.PlanProperty | src/suscription/model/subscription-plan.entity.js:28-37 | A plan has no `maxStorageSizeInBytes` property |
| Workspaces.ReadPlan | src/subscription/model/workspace.entity.js:32-35 | A plan's property as `plan[key]` reads it |
| Workspaces.TakePlan | src/subscription/model/workspace.entity.js:31-36 | Reading from a null or undefined plan throws; otherwise only the limits and the subscription change |
| Workspaces.ApplyPlanAsWritten | src/subscription/model/workspace.entity.js:31-36 | As written, applying any plan leaves the storage limit undefined |
| Workspaces.AsWrittenLosesStorage | src/subscription/model/workspace.entity.js:33 | As written, a plan allowing 1000 bytes gives a workspace with no storage limit, which is no longer well formed |
| Workspaces.ApplyPlan | src/subscription/model/workspace.entity.js:31-36 | Corrected: the workspace takes the plan's id and its three limits, storage from `maxStorage` |
| Workspaces.ApplyPlanSetsAllLimits | src/subscription/model/workspace.entity.js:31-36 | The two readings differ only in storage; the limits after applying a plan do not depend on the limits before, and none is undefined |
| Workspaces.ToJson | src/subscription/model/workspace.entity.js:52-63 | The eight fields |
| Workspaces.JsonRebuilds | src/subscription/model/workspace.entity.js:2-63 | The constructor rebuilds a well-formed workspace from its serialised object |
| Cache.GetData | src/shared/services/cache.service.js:13-39 | A fresh entry is served without fetching; otherwise fetched data is stored with the time read before the fetch; a failed fetch falls back on any entry, however old, and fails only when there is none |
| Cache.DefaultTtl | src/shared/services/cache.service.js:4-17 | A falsy time-to-live means one minute, and an entry exactly as old as its time-to-live is stale |
| Cache.ReadTouchesOnlyItsKey | src/shared/services/cache.service.js:13-39 | A read leaves every other key as it was and adds at most its own |
| Cache.ReadAgainWithinTtl | src/shared/services/cache.service.js:13-39 | After a miss is fetched, reading the key again within the time-to-live returns the same data without fetching |
| Cache.Invalidate | src/shared/services/cache.service.js:45-50 | The key is gone and every other entry is kept |
| Cache.InvalidateAll | src/shared/services/cache.service.js:55-58 | No key remains |
| Cache.InvalidatedKeyIsFetched | src/shared/services/cache.service.js:13-50 | After `invalidate(key)` that key is always fetched, and other keys read as before |
| Cache.EverythingIsFetchedAfterInvalidateAll | src/shared/services/cache.service.js:13-58 | After `invalidateAll()` every read fetches, succeeding exactly when the fetch does |
| ApiConfig.BaseUrl | src/shared/config/api.config.js:7 | The environment's URL when set, the local default otherwise |
| ApiConfig.RouteUrl | src/shared/config/api.config.js:16-35 | A builder's URL begins with its collection URL and `/`, and ends with the id's text right after the builder's fixed prefix |
| ApiConfig.ById | src/shared/config/api.config.js:16-35 | Each `*_BY_ID` builder writes the id's text, unescaped, after its fixed prefix; a MeetingId's text is its value |
| ApiConfig.MeetingIdUrl | src/shared/config/api.config.js:16-35 | A MeetingId reaches the same URL as the primitive it holds, since the template literal calls its `toString` |
| ApiConfig.FrontOfConcat | src/shared/config/api.config.js:16-35 | A string begins any concatenation it is the front of |
| ApiConfig.IntTextStart | src/shared/config/api.config.js:16-35 | An integer's text starts with a digit or a minus sign |
| ApiConfig.CollectionsDifferEarly | src/shared/config/api.config.js:16-35 | The four collection paths differ in their first letter |
| ApiConfig.QualifiersDifferEarly | src/shared/config/api.config.js:23-30 | Two builders of one collection differ in the first character after the collection's `/`, for numeric ids |
| ApiConfig.NumericUrl | src/shared/config/api.config.js:16-35 | A numeric id's URL is the base, the collection path, `/`, the qualifier and the number |
| ApiConfig.NumericUrlNamesItsRoute | src/shared/config/api.config.js:16-35 | For numeric ids no two builders give the same URL |
| ApiConfig.TextIdReachesAnotherRoute | src/shared/config/api.config.js:23-25 | The invitation with text id `person/5` has the URL of person 5's invitations |
| ApiConfig.CreateRequestConfig | src/shared/config/api.config.js:68-88 | Fails exactly for null options; no options give just the JSON headers and no parameters |
| ApiConfig.OptionsRead | src/shared/config/api.config.js:68-88 | Plain options give the JSON headers, plus no-cache ones when asked, overridden by the caller's headers; and `_t` when asked, overridden by the caller's parameters |
| ApiConfig.HeaderPrecedence | src/shared/config/api.config.js:70-85 | Each header is the caller's if named, else the no-cache one if asked for, else the JSON one; no other header appears |
| ApiConfig.ParamPrecedence | src/shared/config/api.config.js:74-81 | Each parameter is the caller's if named, else `_t` is the time when asked for no caching; no other parameter appears |
| ApiConfig.NoCacheIsTheOnlyClock | src/shared/config/api.config.js:56-88 | Without `noCache` the configuration does not depend on the time, and empty options are the same as none |
| FileUpload.MimeToExtension | src/shared/services/file-upload.service.js:138-149 | A listed MIME type gives its extension, any other `jpg` |
| FileUpload.MimeExtensions | src/shared/services/file-upload.service.js:138-149 | The result is one of five extensions, and not `jpg` exactly for the PNG, GIF, WebP and SVG types |
| FileUpload.DataUrlMime | src/shared/services/file-upload.service.js:114-117 | The MIME type read from a data URL holds no `;` or `:` |
| FileUpload.DataUrlMimeRoundTrip | src/shared/services/file-upload.service.js:114-117 | A data URL written for a MIME type reads that type back |
| FileUpload.LastSegment | src/shared/services/file-upload.service.js:125-127 | The text after the last `.` holds no `.` |
| FileUpload.LastSegmentOf | src/shared/services/file-upload.service.js:125-127 | A name with an extension gives that extension in lower case |
| FileUpload.FileExtension | src/shared/services/file-upload.service.js:112-131 | The data URL's MIME type first, then a File's or Blob's non-empty type, then the name's last segment, then `jpg` |
| FileUpload.DataUrlDecides | src/shared/services/file-upload.service.js:114-117 | A data URL's extension comes from its MIME type alone, whatever the file name |
| FileUpload.NameDecides | src/shared/services/file-upload.service.js:125-127 | Text that is not a data URL takes the name's extension, lower-cased: `.PNG` gives `png` |
| FileUpload.NothingGivesJpg | src/shared/services/file-upload.service.js:130 | With nothing to go on the extension is `jpg` |
| FileUpload.UploadFile | src/shared/services/file-upload.service.js:29-62 | A data URL comes back unchanged, a File or Blob as the data URL read from it, anything else as undefined |
| FileUpload.UploadIsIdempotent | src/shared/services/file-upload.service.js:29-62 | Uploading the URL an upload returned gives it back again |
| ServiceFactory.StripLeadingSlashes | src/shared/services/create.service.js:12 | The result is a suffix of the path with only slashes removed before it, and it does not start with a slash |
| ServiceFactory.ExtractPath | src/shared/services/create.service.js:11-13 | A full path is kept; otherwise exactly the leading slashes are removed |
| ServiceFactory.ExtractParamValue | src/shared/services/create.service.js:16-21 | A value object stands for its `value`, anything else for itself |
| ServiceFactory.ReplaceWithoutPlaceholders | src/shared/services/create.service.js:24-30 | A template with no `:` followed by a letter comes back unchanged |
| ServiceFactory.ReplaceSinglePlaceholder | src/shared/services/create.service.js:24-30 | A template that is one placeholder is replaced by the substitution of its key |
| ServiceFactory.LetterRunOfLetters | src/shared/services/create.service.js:25 | A key made of letters is matched whole |
| ServiceFactory.LetterRunOfConcat | src/shared/services/create.service.js:25 | A match stops where the letters stop |
| ServiceFactory.ReplaceConcat | src/shared/services/create.service.js:24-30 | Replacement distributes over a concatenation that does not split a key |
| ServiceFactory.ReplaceConcatAtPlaceholder | src/shared/services/create.service.js:24-30 | The same, when the first part starts with a placeholder |
| ServiceFactory.ReplaceConcatAtLiteral | src/shared/services/create.service.js:24-30 | The same, when the first part starts with a plain character |
| ServiceFactory.ReplaceWithIdentity | src/shared/services/create.service.js:24-30 | A substitution that gives each placeholder back leaves the template unchanged |
| ServiceFactory.IdentityAtPlaceholder | src/shared/services/create.service.js:24-30 | The same, when the template starts with a placeholder |
| ServiceFactory.IdentityAtLiteral | src/shared/services/create.service.js:24-30 | The same, when the template starts with a plain character |
| ServiceFactory.ReplaceWithoutValues | src/shared/services/create.service.js:24-30 | A payload with no usable field, such as an empty object, leaves every placeholder in place |
| ServiceFactory.ExpandWithoutDollar | src/shared/services/create.service.js:75 | Replacement text without `$` is inserted literally |
| ServiceFactory.RemoveId | src/shared/services/create.service.js:33-36 | The object's fields other than `id`, each unchanged |
| ServiceFactory.PrimitivePayloadShape | src/shared/services/create.service.js:73-76 | A string or number fills the first `:id` and leaves no body |
| ServiceFactory.ObjectPayloadBody | src/shared/services/create.service.js:77-86 | An object payload fills the placeholders, and loses `id` from the body unless the verb is POST |
| ServiceFactory.NullPayloadUntouched | src/shared/services/create.service.js:68-86 | A null payload leaves the path and the body as they were |
| ServiceFactory.SafeConcat | src/shared/services/create.service.js:56-59 | Concatenating safe texts is safe |
| ServiceFactory.PercentBytesSafe | src/shared/services/create.service.js:57 | Percent-encoded bytes are safe text |
| ServiceFactory.FormEncodeIsSafe | src/shared/services/create.service.js:57 | An encoded name or value never holds `&`, `=`, `?` or `#` |
| ServiceFactory.SerializeQuery | src/shared/services/create.service.js:57 | The query text is empty exactly when there are no parameters |
| ServiceFactory.AddQueryParams | src/shared/services/create.service.js:56-59 | No parameters leave the URL unchanged; otherwise `?` and the query follow it |
| ServiceFactory.CreateService | src/shared/services/create.service.js:61-96 | One operation per table row, with the row's verb and the defaults `path = ''` and `fullPath = false` |
| ServiceFactory.Invoke | src/shared/services/create.service.js:68-92 | An unknown verb throws at call time; otherwise the request has the resolved path plus query, and a body for every verb but DELETE |
| ServiceFactory.Call | src/shared/services/create.service.js:65-95 | A name in the table calls its operation; any other name is not a function |
| ServiceFactory.ReplaceAfterLiteral | src/shared/services/create.service.js:24-30 | Literal text in front of a template passes through unchanged |
| ServiceFactory.ReplaceLeadingPlaceholder | src/shared/services/create.service.js:24-30 | A leading placeholder is replaced on its own |
| ServiceFactory.ReplaceFirstPlaceholder | src/shared/services/create.service.js:24-30 | The prefix before the first placeholder is kept and the placeholder substituted |
| ServiceFactory.ScalarShorthandMatchesIdField | src/shared/services/create.service.js:73-81 | A bare string or number gives the same path as an object whose `id` holds it |
| ServiceFactory.ShorthandCallMatchesObjectCall | src/shared/services/create.service.js:68-92 | `op(42)` and `op({id: 42})` reach the same URL |
| ServiceFactory.ScalarShorthandFirst | src/shared/services/create.service.js:75 | `replace(':id', text)` fills the one `:id` with the text |
| ServiceFactory.TaskAssignResponsibleOperation | src/projects/services/task.service.js:32-40 | The `taskService`'s `assignResponsible` is a PUT to `:id/responsible`, relative to the resource |
| Lists.MapAll | src/billing/model/invoice.entity.js:55 | `map` with a throwing callback succeeds exactly when every element does, giving each element's result in order |
| Lists.MapAllAppend | src/projects/model/schedule.entity.js:31 | Mapping a list extended by one element gives the first error, or the mapped list extended by that element's image |
| Lists.Successes | src/projects/services/task.assembler.js:43-57 | Only results of conversions that succeeded are kept, never more than there were inputs |
| Lists.SuccessesAllOk | src/projects/services/task.assembler.js:43-57 | When every conversion succeeds nothing is dropped and the order is kept |
| Lists.SuccessesAllErr | src/projects/services/project-team-member.assembler.js:51-65 | When every conversion fails nothing is left |
| Lists.Filter | src/projects/model/schedule.entity.js:24-26 | `filter` keeps exactly the elements that pass, within the original |
| Lists.FilterConcat | src/projects/model/schedule.entity.js:24-26 | Filtering distributes over concatenation, so order is kept |
| Lists.FilterIdempotent | src/projects/model/schedule.entity.js:24-26 | Filtering twice with one test is filtering once |
| Lists.FilterAll | src/projects/model/schedule.entity.js:24-26 | Filtering keeps everything when everything passes |
| Text.ToUpperKeepsBlank | src/shared/model/money.js:8-12 | Upper-casing keeps a blank string blank and a non-blank one non-blank |
| Text.ToUpperIdempotent | src/shared/model/money.js:12 | An upper-case string is its own upper case |

## Left out

- Console logging, the HTTP transport (`BaseService`, axios) and the services that only forward calls to it are not modelled. An operation of the service factory yields the request it would dispatch.
- `new Date()` is the parameter `now`, and `crypto.randomUUID()` is a supplied string. `Date.parse` is a parameter `parse`. Only `IsoDates.IsoReadBack` states the one property of it that is needed.
- Numbers are integers or NaN: fractions, infinities and the float rounding of `Money.multiply` are not modelled. `Number(text)` accepts optionally signed decimal integers only.
- The enumerations' own files are not part of this model. Each enumeration holds the members the code refers to, with its name as its value. `PaymentMethodType` names no member anywhere, so its set of values is a parameter.
- Object identity is not modelled: `includes`, `indexOf` and `===` on entities compare by content. `Milestones.RemoveItem` therefore removes the first equal item, not the first identical one.
- `Invoices.AddItem` does not model the partial mutation of a thrown call: the program sets `item.invoiceId` before `calculateSubtotal` can throw, while the model returns the error with nothing changed.
- `Cache.GetData` takes the store and returns it, instead of a static `Map`. Two concurrent reads of one key are not modelled.
- The unused `API_PREFIX` and `API_VERSION` constants and the stand-alone `getAntiCacheParam` are not modelled separately: its `_t` is `now` inside `ApiConfig.CreateRequestConfig`.
- `ApiConfig.CreateRequestConfig` models `Object.assign` through `Js.OwnFields`: the own fields of a record, array or string. Getters and symbol keys are not modelled.
- File upload: `getFileById`, `_fileToBase64`, the `FileReader` and `_generateUniqueFileName` are not modelled. The first three are I/O. The last only feeds a log line and depends on the clock and randomness. The data URL a File or Blob reads as is a parameter, and the file name is a string.
- `FileUpload.MimeToExtension` does not model keys inherited from `Object.prototype` (`mimeMap['constructor']`), which are not MIME types.
- `Text.ToLower` and `Text.ToUpper` map the ASCII range only; the Unicode case tables are not modelled.
- The class in `src/projects/model/project.entity.js` is named `Organization`. It is modelled as `Projects.Project`; the two identifier classes it imports from modules that do not export them are a finding (see "## Findings").
- An imported name that its module does not export is read as an undefined binding, which is what a bundler leaves (`Projects.NewProjectAsWritten`, `Agreements.NewAgreementAsWritten`). Under native module linking such a file does not load at all; that failure is not modelled.
- `src/payments/model/transaction-entity.js` imports `TransactionId` from `./transaction.entity.js`, a file that is not part of this model, and also declares its own `TransactionId` class. Binding one name twice in a module is an early SyntaxError, so as written the module never loads. The model leaves that failure out and uses the class the file declares.
- `src/billing/model/billing-item.entity.js` imports `BillingItemId` from itself and also declares it, which is the same early SyntaxError. It keeps both that module and `invoice.entity.js`, which imports it, from loading. The model leaves that failure out and reads the module without the import.
- `TaskFactory.create` does not fit `TaskSpec`: a spec's responsible is a ProjectTeamMemberId, which the `Task` constructor refuses. This is modelled as written (`ScheduleItems.SpecIsNeverCreated`). The code does not show which number was meant for the responsible, so no corrected factory is modelled.
- `Meeting` does not extend `ScheduleItem`, so `Milestone.addItem` refuses meetings (`Milestones.MeetingsAreRefused`). This is modelled as written.
- The milestone assembler has no `catch`, so entity errors propagate. The `projectId` it computes is not passed to the entity, which drops it.
- `createService` takes two parameters: the assembler `taskService` passes as a third is dropped, and the model's factory has no such parameter.
- `Organizations.InvitePerson`: the duplicate-invitation guard compares the person id as given, while an invitation stores `''` for a missing one. Inviting with no person id twice is therefore allowed; this is modelled as written.
- `Payments.MarkAsPaid` allows a FAILED payment to be paid, and `SubscriptionPlans.NewPlan` accepts a NaN duration. `Subscriptions.Extend` does not compare a date given as text. All three are modelled as written.
- Text ids are not escaped in the `*_BY_ID` URL builders, so a text id can reach another builder's URL (`ApiConfig.TextIdReachesAnotherRoute`). This is modelled as written.

- A property read on null or undefined fails with "TypeError: Cannot read properties of null" (or "of undefined"). The engine's suffix naming the property, such as "(reading 'id')", is not modelled.
- Host-dependent Date text: `String(date)` is the host's local-time text (`Date.prototype.toString`), which depends on the time zone. The model writes the ISO text of a valid Date instead ("Invalid Date" for an invalid one is exact). The members that can render a Date through it are listed below.
- Js.ToStr: a valid Date is written as its ISO text, not the host's local-time text. A MeetingId holding an object makes JavaScript throw "Cannot convert object to primitive value"; the model writes "[object Object]" for it, and `Js.ToNumber` and `Js.NewDate` go through that text.
- ApiConfig.ById: a Date id is written into the URL as its ISO text, not the host's local-time text.
- ServiceFactory.Substitute: a Date path parameter is written as its ISO text, not the host's local-time text.
- ServiceFactory.EncodePair: a Date query value is encoded from its ISO text, not the host's local-time text.
- ServiceFactory.Invoke: a Date given as the HTTP verb appears in the error message as its ISO text, not the host's local-time text.
- SubscriptionPlans.HasFeature: a Date key looked up in a string of features is searched as its ISO text, not the host's local-time text.
- ScheduleItems.Create: a Date given as the item type appears in the error message as its ISO text, not the host's local-time text.
- Milestones.RemoveItem: a plain Date item looked up in a string of items is searched as its ISO text, not the host's local-time text.

## Findings

| source | as written | input that shows it | evidently intended | confidence | as-written member | corrected member |
|---|---|---|---|---|---|---|
| src/projects/services/project-team-member.assembler.js:31-44 | The entity is built from a raw number id and member id, which its constructor refuses, and the fallback does the same, so every conversion throws | any resource, e.g. `{id: 1, role: 'SPECIALIST', specialty: 'ARCHITECTURE', memberId: 3}` | wrap the ids in `ProjectTeamMemberId` and `OrganizationMemberId` before constructing | high (not executed) | TeamMemberAssembler.AsWrittenAlwaysFails | TeamMemberAssembler.FromResourceNeverFails |
| src/projects/model/schedule.entity.js:24-26 | `removeMilestone(n)` compares each `milestone.id.value` with `n.value`, which is undefined for a number | a schedule holding the milestone with id 7, `removeMilestone(7)` | remove the milestones whose id value is `n` | high (not executed) | Schedules.AsWrittenMissesSeven | Schedules.RemovesSeven |
| src/billing/model/billing-item.entity.js:33 | `toJSON` reads `invoiceId?.value`, but `Invoice.addItem` stores the invoice's numeric id | an item added to invoice 5 serialises `invoiceId: null` | serialise the numeric invoice id | high (not executed) | Invoices.AddedItemLosesInvoice | Invoices.AddedItemNamesInvoice |
| src/payments/model/payment.entity.js:14 | `Money` is used without being imported, so every construction throws a ReferenceError | any arguments, e.g. a Money amount, status PENDING and a known method | import `Money` and check the amount | high (not executed) | Payments.AsWrittenNeverConstructs | Payments.NewPayment |
| src/payments/model/transaction-entity.js:18 | a raw payment id goes through `new PaymentId(paymentId)`, whose constructor ignores its argument | `new Transaction({paymentId: 42})` serialises a random UUID | keep 42 as the payment id's value | medium (not executed) | Transactions.AsWrittenLosesPaymentId | Transactions.KeepsPaymentId |
| src/subscription/model/workspace.entity.js:33 | `applySubscriptionPlan` reads `plan.maxStorageSizeInBytes`, but a plan's field is `maxStorage` | a plan with `maxStorage: 1000` leaves the workspace's storage limit undefined | take the storage limit from `plan.maxStorage` | high (not executed) | Workspaces.AsWrittenLosesStorage | Workspaces.ApplyPlanSetsAllLimits |
| src/projects/model/project.entity.js:3-20 | `OrganizationId` and `OrganizationMemberId` are imported from modules that export neither, and both are parameter defaults, so leaving out either argument throws before any check | a project with a name, a description and a budget but no `organizationId` | take the identifier classes from modules that define them, so the defaults construct | high (not executed) | Projects.AsWrittenRefusesMissingOrganization | Projects.AcceptsExactly |
| src/payments/model/recurrent-payment-agreement.entity.js:1-19 | `PersonId` is imported from person.entity.js, which exports only `Person`, so `personId instanceof PersonId` throws for every argument with a known payment method | any arguments, e.g. a known payment method and a person id object | test against an exported `PersonId` identifier class | high (not executed) | Agreements.AsWrittenNeverConstructs | Agreements.NewAgreement |

=== FILE: agreements.dfy ===
/** `RecurringPaymentAgreement`: a person's standing order to pay by some
    payment method, active or not, with a start date and the date of the
    next payment; and `RecurringPaymentAgreementId`, which always takes a
    fresh UUID.  The members of `PaymentMethodType` are a parameter. */
module Agreements {
  import opened Wrappers
  import opened Dates
  import opened Js
  import opened Identifiers

  datatype Agreement = Agreement(
    id: Value,
    isActive: Value,
    paymentMethod: Value,
    startDate: Date,
    nextPaymentDate: Value,
    personId: Value)

  /** The constructor's destructured argument; an absent field is `Undefined`. */
  datatype AgreementArgs = AgreementArgs(
    id: Value,
    isActive: Value,
    paymentMethod: Value,
    startDate: Value,
    nextPaymentDate: Value,
    personId: Value)

  /** What every constructed agreement satisfies: `methods` are the values
      of `PaymentMethodType`. */
  predicate WellFormed(a: Agreement, methods: set<Value>) {
    a.paymentMethod in methods && IsInstance(a.personId, PersonIdClass)
    && (a.nextPaymentDate == Null || a.nextPaymentDate.DateV?)
  }

  /** `new RecurringPaymentAgreement({...})` with `PersonId` taken to be an
      identifier class: the start date is copied
      through `new Date(...)` (`now` when missing), and a next payment date
      only when it is truthy. */
  function NewAgreement(args: AgreementArgs, methods: set<Value>, now: int, uuid: string, parse: string -> Date)
    : (r: Result<Agreement>)
    ensures r.Ok? <==> args.paymentMethod in methods && IsInstance(args.personId, PersonIdClass)
    ensures args.paymentMethod !in methods ==> r == Err("Invalid payment method")
    ensures r.Ok? ==> WellFormed(r.value, methods)
    ensures r.Ok? ==> r.value.id == Default(args.id, GeneratedId(RecurringPaymentAgreementIdClass, uuid))
    ensures r.Ok? ==> r.value.isActive == Default(args.isActive, Bool(true))
    ensures r.Ok? && args.startDate.DateV? ==> r.value.startDate == args.startDate.d
    ensures r.Ok? && args.startDate == Undefined ==> r.value.startDate == ClockDate(now)
    ensures r.Ok? && !args.startDate.DateV? ==>
      r.value.startDate == NewDate(Default(args.startDate, DateV(ClockDate(now))), parse)
    ensures r.Ok? ==> (r.value.nextPaymentDate == Null <==> !Truthy(args.nextPaymentDate))
    ensures r.Ok? && Truthy(args.nextPaymentDate) ==>
      r.value.nextPaymentDate == DateV(NewDate(args.nextPaymentDate, parse))
    ensures r.Ok? ==> r.value.paymentMethod == args.paymentMethod && r.value.personId == args.personId
  {
    if args.paymentMethod !in methods then Err("Invalid payment method")
    else if !IsInstance(args.personId, PersonIdClass) then Err("personId must be an instance of PersonId")
    else
      Ok(Agreement(
        Default(args.id, GeneratedId(RecurringPaymentAgreementIdClass, uuid)),
        Default(args.isActive, Bool(true)),
        args.paymentMethod,
        NewDate(Default(args.startDate, DateV(ClockDate(now))), parse),
        if Truthy(args.nextPaymentDate) then DateV(NewDate(args.nextPaymentDate, parse)) else Null,
        args.personId))
  }

  /** `new RecurringPaymentAgreement({...})` as written.  Its file imports
      `PersonId` from iam/model/person.entity.js, which exports only
      `Person`.  Read as an undefined binding, `personId instanceof PersonId`
      throws a TypeError once the payment method has passed, whatever the
      person id is. */
  function NewAgreementAsWritten(args: AgreementArgs, methods: set<Value>): (r: Result<Agreement>)
    ensures r.Err?
    ensures args.paymentMethod !in methods <==> r == Err("Invalid payment method")
  {
    if args.paymentMethod !in methods then Err("Invalid payment method")
    else Err("TypeError: Right-hand side of 'instanceof' is not callable")
  }

  /** So no agreement is ever built as written, even from the arguments the
      corrected constructor accepts; the two fail alike on the payment
      method. */
  lemma AsWrittenNeverConstructs(args: AgreementArgs, methods: set<Value>, now: int, uuid: string, parse: string -> Date)
    ensures NewAgreement(args, methods, now, uuid, parse).Ok? ==>
      NewAgreementAsWritten(args, methods) != NewAgreement(args, methods, now, uuid, parse)
    ensures args.paymentMethod !in methods ==>
      NewAgreementAsWritten(args, methods) == NewAgreement(args, methods, now, uuid, parse)
  {
  }

  /** `deactivate` */
  function Deactivate(a: Agreement): (r: Agreement)
    ensures !Truthy(r.isActive)
    ensures r.(isActive := a.isActive) == a
  {
    a.(isActive := Bool(false))
  }

  /** `reactivate` */
  function Reactivate(a: Agreement): (r: Agreement)
    ensures Truthy(r.isActive)
    ensures r.(isActive := a.isActive) == a
  {
    a.(isActive := Bool(true))
  }

  /** Neither switch looks at the current state: each is idempotent, and
      switching off and on again leaves an active agreement as it was. */
  lemma SwitchesAreUnconditional(a: Agreement)
    ensures Deactivate(Deactivate(a)) == Deactivate(a)
    ensures Reactivate(Reactivate(a)) == Reactivate(a)
    ensures a.isActive == Bool(true) ==> Reactivate(Deactivate(a)) == a
    ensures Deactivate(Reactivate(a)) == Deactivate(a)
  {
  }

  /** `scheduleNextPayment(date)` */
  function ScheduleNextPayment(a: Agreement, date: Value): (r: Result<Agreement>)
    ensures r.Ok? <==> date.DateV?
    ensures r.Err? ==> r.error == "Next payment date must be a Date"
    ensures r.Ok? ==> r.value.nextPaymentDate == date && r.value.(nextPaymentDate := a.nextPaymentDate) == a
  {
    if !date.DateV? then Err("Next payment date must be a Date")
    else Ok(a.(nextPaymentDate := date))
  }

  /** The calls an agreement accepts after construction. */
  datatype AgreementCall = Off | On | Schedule(date: Value)

  function Apply(a: Agreement, call: AgreementCall): Result<Agreement> {
    match call
    case Off => Ok(Deactivate(a))
    case On => Ok(Reactivate(a))
    case Schedule(d) => ScheduleNextPayment(a, d)
  }

  /** A run of calls, stopping at the first that throws. */
  function ApplyAll(a: Agreement, calls: seq<AgreementCall>): (r: Result<Agreement>)
    decreases |calls|
  {
    if |calls| == 0 then Ok(a)
    else
      var b :- Apply(a, calls[0]);
      ApplyAll(b, calls[1..])
  }

  /** No call changes the person, the payment method or the start date, and
      every call keeps an agreement well formed. */
  lemma {:induction false} LifetimeKeepsParties(a: Agreement, methods: set<Value>, calls: seq<AgreementCall>)
    requires WellFormed(a, methods)
    ensures ApplyAll(a, calls).Ok? ==> WellFormed(ApplyAll(a, calls).value, methods)
    ensures ApplyAll(a, calls).Ok? ==>
      var b := ApplyAll(a, calls).value;
      b.personId == a.personId && b.paymentMethod == a.paymentMethod && b.startDate == a.startDate
    decreases |calls|
  {
    if |calls| > 0 {
      var b := Apply(a, calls[0]);
      if b.Ok? {
        LifetimeKeepsParties(b.value, methods, calls[1..]);
      }
    }
  }

  /** `toJSON`: both identifiers unwrapped to their values. */
  function ToJson(a: Agreement): (j: map<string, Value>)
    ensures j.Keys == {"id", "isActive", "paymentMethod", "startDate", "nextPaymentDate", "personId"}
    ensures IsInstance(a.personId, PersonIdClass) ==> j["personId"] == a.personId.value
    ensures j["startDate"] == DateV(a.startDate) && j["nextPaymentDate"] == a.nextPaymentDate
  {
    map[
      "id" := OptValue(a.id),
      "isActive" := a.isActive,
      "paymentMethod" := a.paymentMethod,
      "startDate" := DateV(a.startDate),
      "nextPaymentDate" := a.nextPaymentDate,
      "personId" := OptValue(a.personId)]
  }

  /** The serialised fields, with the identifiers wrapped again, rebuild
      the agreement. */
  lemma JsonRebuilds(a: Agreement, methods: set<Value>, now: int, uuid: string, parse: string -> Date)
    requires WellFormed(a, methods) && IsInstance(a.id, RecurringPaymentAgreementIdClass)
    requires a.isActive != Undefined && (a.nextPaymentDate == Null || Truthy(a.nextPaymentDate))
    ensures var j := ToJson(a);
      NewAgreement(AgreementArgs(Id(RecurringPaymentAgreementIdClass, j["id"]), j["isActive"], j["paymentMethod"],
                                 j["startDate"], j["nextPaymentDate"], Id(PersonIdClass, j["personId"])),
                   methods, now, uuid, parse) == Ok(a)
  {
  }
}

=== FILE: api_config.dfy ===
/** The centralised API configuration: the endpoint URLs under the base URL,
    and `createRequestConfig`, which merges the JSON headers, the no-cache
    headers and parameter, and the caller's own parameters and headers. */
module ApiConfig {
  import opened Wrappers
  import opened Text
  import opened Js

  /** `API_BASE_URL` when the environment does not set it. */
  const DEFAULT_BASE_URL: string := "http://localhost:3000"

  /** `import.meta.env.VITE_PROPGMS_API_URL || 'http://localhost:3000'` */
  function BaseUrl(env: string): (base: string)
    ensures env != "" ==> base == env
    ensures env == "" ==> base == DEFAULT_BASE_URL
  {
    if env != "" then env else DEFAULT_BASE_URL
  }

  /** The four collection endpoints. */
  datatype Collection = Organizations | Invitations | Members | Persons

  /** The seven `*_BY_ID` builders of `API_ENDPOINTS`. */
  datatype ByIdRoute =
    | OrganizationById
    | InvitationsByPersonId
    | InvitationsByOrgId
    | InvitationById
    | MembersByOrgId
    | MembersByPersonId
    | PersonById

  function CollectionPath(c: Collection): string {
    match c
    case Organizations => "/organizations"
    case Invitations => "/invitations"
    case Members => "/members"
    case Persons => "/persons"
  }

  /** The collection a builder's URLs fall under. */
  function CollectionOf(r: ByIdRoute): Collection {
    match r
    case OrganizationById => Organizations
    case InvitationsByPersonId => Invitations
    case InvitationsByOrgId => Invitations
    case InvitationById => Invitations
    case MembersByOrgId => Members
    case MembersByPersonId => Members
    case PersonById => Persons
  }

  /** What a builder adds after its collection's path and `/`: nothing for
      a lookup by the resource's own id, otherwise the owner's kind. */
  function Qualifier(r: ByIdRoute): string {
    match r
    case InvitationsByPersonId => "person/"
    case MembersByPersonId => "person/"
    case InvitationsByOrgId => "organization/"
    case MembersByOrgId => "organization/"
    case _ => ""
  }

  /** The fixed text a builder puts between the base URL and the id. */
  function RoutePrefix(r: ByIdRoute): string {
    CollectionPath(CollectionOf(r)) + "/" + Qualifier(r)
  }

  /** `API_ENDPOINTS.ORGANIZATIONS` and the other collection URLs. */
  function CollectionUrl(base: string, c: Collection): string {
    base + CollectionPath(c)
  }

  /** A string begins every string it is the front of. */
  lemma FrontOfConcat(x: string, y: string)
    ensures StartsWith(x + y, x) && (x + y)[|x|..] == y
  {
    assert (x + y)[..|x|] == x;
  }

  /** The URL a builder makes from the text of an id. */
  function RouteUrl(base: string, r: ByIdRoute, text: string): (url: string)
    ensures StartsWith(url, CollectionUrl(base, CollectionOf(r)) + "/")
    ensures StartsWith(url, base + RoutePrefix(r)) && url[|base + RoutePrefix(r)|..] == text
  {
    var head := base + CollectionPath(CollectionOf(r)) + "/";
    var front := base + RoutePrefix(r);
    assert front == head + Qualifier(r);
    assert front + text == head + (Qualifier(r) + text);
    FrontOfConcat(head, Qualifier(r) + text);
    FrontOfConcat(front, text);
    front + text
  }

  /** `API_ENDPOINTS.ORGANIZATION_BY_ID(id)` and the other builders: the id
      is written into the template as text, with no escaping. */
  function ById(base: string, r: ByIdRoute, id: Value): (url: string)
    ensures StartsWith(url, CollectionUrl(base, CollectionOf(r)) + "/")
    ensures StartsWith(url, base + RoutePrefix(r)) && url[|base + RoutePrefix(r)|..] == ToStr(id)
  {
    RouteUrl(base, r, ToStr(id))
  }

  /** A MeetingId is written into the URL as the primitive it holds, since
      the template literal calls its `toString`. */
  lemma MeetingIdUrl(base: string, r: ByIdRoute, x: Value)
    requires !IsObject(x)
    ensures ById(base, r, Id(MeetingIdClass, x)) == ById(base, r, x)
  {
  }

  /** The text of an integer starts with a digit or a minus sign. */
  lemma IntTextStart(n: int)
    ensures |IntToString(n)| > 0
    ensures IsDigit(IntToString(n)[0]) || IntToString(n)[0] == '-'
  {
  }

  /** Every collection path is `/` and a name; the names start with
      different letters. */
  lemma CollectionsDifferEarly(c1: Collection, c2: Collection)
    requires c1 != c2
    ensures |CollectionPath(c1)| > 1 && |CollectionPath(c2)| > 1
    ensures CollectionPath(c1)[1] != CollectionPath(c2)[1]
  {
  }

  /** Two builders of one collection differ in the first character after
      the collection's path and `/`, whatever the numeric ids. */
  lemma QualifiersDifferEarly(r1: ByIdRoute, r2: ByIdRoute, a: int, b: int)
    requires r1 != r2 && CollectionOf(r1) == CollectionOf(r2)
    ensures |Qualifier(r1) + IntToString(a)| > 0 && |Qualifier(r2) + IntToString(b)| > 0
    ensures (Qualifier(r1) + IntToString(a))[0] != (Qualifier(r2) + IntToString(b))[0]
  {
    IntTextStart(a);
    IntTextStart(b);
  }

  /** A URL built from an id's text, spelled out. */
  lemma RouteUrlSpelled(base: string, r: ByIdRoute, text: string)
    ensures RouteUrl(base, r, text) == (base + CollectionPath(CollectionOf(r))) + ("/" + (Qualifier(r) + text))
  {
    var c := CollectionPath(CollectionOf(r));
    assert RouteUrl(base, r, text) == (base + (c + "/" + Qualifier(r))) + text;
  }

  /** A URL built for a numeric id, spelled out. */
  lemma NumericUrl(base: string, r: ByIdRoute, n: int)
    ensures ById(base, r, Num(n)) == (base + CollectionPath(CollectionOf(r))) + ("/" + (Qualifier(r) + IntToString(n)))
  {
    assert ToStr(Num(n)) == IntToString(n);
    RouteUrlSpelled(base, r, IntToString(n));
  }

  /** For numeric ids, a URL names its builder: no two builders give the
      same URL, even though one builder's prefix begins another's (as
      `/invitations/` begins `/invitations/person/`). */
  lemma NumericUrlNamesItsRoute(base: string, r1: ByIdRoute, r2: ByIdRoute, a: int, b: int)
    requires r1 != r2
    ensures ById(base, r1, Num(a)) != ById(base, r2, Num(b))
  {
    var c1, c2 := CollectionOf(r1), CollectionOf(r2);
    var q1, q2 := Qualifier(r1) + IntToString(a), Qualifier(r2) + IntToString(b);
    NumericUrl(base, r1, a);
    NumericUrl(base, r2, b);
    var u1 := (base + CollectionPath(c1)) + ("/" + q1);
    var u2 := (base + CollectionPath(c2)) + ("/" + q2);
    if c1 != c2 {
      CollectionsDifferEarly(c1, c2);
      assert u1[|base| + 1] == CollectionPath(c1)[1];
      assert u2[|base| + 1] == CollectionPath(c2)[1];
    } else {
      QualifiersDifferEarly(r1, r2, a, b);
      var k := |base + CollectionPath(c1)| + 1;
      assert u1[k] == q1[0];
      assert u2[k] == q2[0];
    }
  }

  /** Text ids are not escaped, so they can reach another builder's URL:
      the invitation with id `person/5` has the URL of person 5's
      invitations. */
  lemma TextIdReachesAnotherRoute(base: string)
    ensures ById(base, InvitationById, Str("person/5")) == ById(base, InvitationsByPersonId, Num(5))
  {
    assert IntToString(5) == "5";
  }

  /** `API_HEADERS.JSON` */
  const JSON_HEADERS: map<string, Value> :=
    map["Content-Type" := Str("application/json"), "Accept" := Str("application/json")]

  /** `API_HEADERS.NO_CACHE` */
  const NO_CACHE_HEADERS: map<string, Value> :=
    map["Cache-Control" := Str("no-cache, no-store, must-revalidate"), "Pragma" := Str("no-cache"),
        "Expires" := Str("0")]

  datatype RequestConfig = RequestConfig(headers: map<string, Value>, params: map<string, Value>)

  /** `createRequestConfig(options)` at time `now`: the headers start as a
      copy of the JSON headers; `noCache` adds the no-cache headers and a
      `_t` parameter holding the time; then the caller's parameters, then
      the caller's headers, are assigned over them.  Reading the options
      of `null` throws. */
  function CreateRequestConfig(options: Value, now: int): (r: Result<RequestConfig>)
    ensures r.Ok? <==> options != Null
    ensures r.Err? ==> r.error == ReadError(Null)
    ensures r.Ok? && IsNullish(options) ==> r.value == RequestConfig(JSON_HEADERS, map[])
  {
    var o := Default(options, Obj(map[]));
    if o.Null? then Err(ReadError(Null))
    else
      var noCache := Truthy(Prop(o, "noCache"));
      var headers := if noCache then JSON_HEADERS + NO_CACHE_HEADERS else JSON_HEADERS;
      var params: map<string, Value> := if noCache then map["_t" := Num(now)] else map[];
      var params := if Truthy(Prop(o, "params")) then params + OwnFields(Prop(o, "params")) else params;
      var headers := if Truthy(Prop(o, "headers")) then headers + OwnFields(Prop(o, "headers")) else headers;
      Ok(RequestConfig(headers, params))
  }

  /** The options object `{noCache, params, headers}` with plain records. */
  function Options(noCache: bool, params: map<string, Value>, headers: map<string, Value>): Value {
    Obj(map["noCache" := Bool(noCache), "params" := Obj(params), "headers" := Obj(headers)])
  }

  /** The configuration made from plain options is made with the three
      options read back as given. */
  lemma OptionsRead(noCache: bool, params: map<string, Value>, headers: map<string, Value>, now: int)
    ensures var c := CreateRequestConfig(Options(noCache, params, headers), now);
      c.Ok? && c.value.headers == (if noCache then JSON_HEADERS + NO_CACHE_HEADERS else JSON_HEADERS) + headers
      && c.value.params == (if noCache then map["_t" := Num(now)] else map[]) + params
  {
    var o := Options(noCache, params, headers);
    assert Prop(o, "noCache") == Bool(noCache);
    assert Prop(o, "params") == Obj(params) && Prop(o, "headers") == Obj(headers);
  }

  /** Each header is the caller's when the caller names it, otherwise the
      no-cache one when asked for and defined there, otherwise the JSON one;
      no other header appears. */
  lemma HeaderPrecedence(noCache: bool, params: map<string, Value>, headers: map<string, Value>, now: int)
    ensures CreateRequestConfig(Options(noCache, params, headers), now).Ok?
    ensures var h := CreateRequestConfig(Options(noCache, params, headers), now).value.headers;
      h.Keys == JSON_HEADERS.Keys + (if noCache then NO_CACHE_HEADERS.Keys else {}) + headers.Keys
      && (forall k :: k in headers ==> h[k] == headers[k])
      && (forall k :: k !in headers && noCache && k in NO_CACHE_HEADERS ==> h[k] == NO_CACHE_HEADERS[k])
      && (forall k :: k !in headers && k !in NO_CACHE_HEADERS && k in JSON_HEADERS ==> h[k] == JSON_HEADERS[k])
  {
    OptionsRead(noCache, params, headers, now);
  }

  /** Each parameter is the caller's when the caller names it, `_t` the
      time when asked for no caching and not overridden; no other parameter
      appears. */
  lemma ParamPrecedence(noCache: bool, params: map<string, Value>, headers: map<string, Value>, now: int)
    ensures CreateRequestConfig(Options(noCache, params, headers), now).Ok?
    ensures var q := CreateRequestConfig(Options(noCache, params, headers), now).value.params;
      q.Keys == params.Keys + (if noCache then {"_t"} else {})
      && (forall k :: k in params ==> q[k] == params[k])
      && ("_t" !in params && noCache ==> q["_t"] == Num(now))
  {
    OptionsRead(noCache, params, headers, now);
  }

  /** Without `noCache`, the configuration does not depend on the time; and
      an empty options object is the same as none. */
  lemma NoCacheIsTheOnlyClock(options: Value, now: int, later: int)
    requires !IsObject(options) || !Truthy(Prop(options, "noCache"))
    ensures CreateRequestConfig(options, now) == CreateRequestConfig(options, later)
    ensures CreateRequestConfig(Obj(map[]), now) == CreateRequestConfig(Undefined, later) == Ok(RequestConfig(JSON_HEADERS, map[]))
  {
  }
}

=== FILE: billing_items.dfy ===
/** `BillingItem`: one priced line of an invoice, with a unit price, a
    subtotal and the invoice it was added to; and `BillingItemId`, which
    always takes a fresh UUID. */
module BillingItems {
  import opened Wrappers
  import opened Text
  import opened Js
  import opened Identifiers
  import opened MoneyModel
  import opened JsonMethods

  datatype BillingItem = BillingItem(
    id: Value,
    description: Value,
    unitPrice: Money,
    subtotal: Arg<Money>,
    invoiceId: Value)

  /** The constructor's destructured argument; an absent field is
      `Undefined` (for the two prices, `Raw(Undefined)`). */
  datatype BillingItemArgs = BillingItemArgs(
    id: Value,
    description: Value,
    unitPrice: Arg<Money>,
    subtotal: Arg<Money>,
    invoiceId: Value)

  /** The truthiness of a price argument: every instance is truthy. */
  predicate TruthyArg(a: Arg<Money>) {
    a.Inst? || Truthy(a.v)
  }

  /** `calculateSubtotal`: a new Money with the unit price's amount and
      currency. */
  function CalculateSubtotal(price: Money): (r: Result<Money>)
    ensures r.Ok? <==> !IsBlank(price.currency)
    ensures Valid(price) ==> r == Ok(price)
    ensures r.Ok? ==> Valid(r.value) && r.value.amount == price.amount
  {
    assert Valid(price) ==> ToUpper(price.currency) == price.currency by {
      if Valid(price) { UpperOfValid(price); }
    }
    NewMoney(Num(price.amount), Str(price.currency))
  }

  /** `new BillingItem({...})`: a missing unit price is zero soles, a falsy
      subtotal is computed from the unit price, a missing id is a fresh
      BillingItemId holding `uuid`. */
  function NewBillingItem(args: BillingItemArgs, uuid: string): (r: Result<BillingItem>)
    ensures DefaultArg(args.unitPrice, Inst(ZERO_PEN)).Raw? ==> r == Err("unitPrice must be an instance of Money")
    ensures r.Ok? ==> r.value.unitPrice == DefaultArg(args.unitPrice, Inst(ZERO_PEN)).obj
    ensures r.Ok? ==> r.value.id == Default(args.id, GeneratedId(BillingItemIdClass, uuid))
    ensures r.Ok? ==> r.value.invoiceId == Default(args.invoiceId, Null)
    ensures r.Ok? ==> r.value.description == Default(args.description, Str(""))
    ensures r.Ok? && TruthyArg(args.subtotal) ==> r.value.subtotal == args.subtotal
    ensures r.Ok? && !TruthyArg(args.subtotal) ==>
      r.value.subtotal.Inst? && r.value.subtotal.obj.amount == r.value.unitPrice.amount
  {
    var price := DefaultArg(args.unitPrice, Inst(ZERO_PEN));
    if price.Raw? then Err("unitPrice must be an instance of Money")
    else
      var subtotal :-
        if TruthyArg(args.subtotal) then Ok(args.subtotal)
        else
          var s :- CalculateSubtotal(price.obj);
          Ok(Inst(s));
      Ok(BillingItem(Default(args.id, GeneratedId(BillingItemIdClass, uuid)), Default(args.description, Str("")),
                     price.obj, subtotal, Default(args.invoiceId, Null)))
  }

  /** The constructor accepts exactly a Money unit price, missing or given,
      whose currency is not blank unless a subtotal is supplied. */
  lemma AcceptsExactly(args: BillingItemArgs, uuid: string)
    ensures NewBillingItem(args, uuid).Ok? <==>
      (var price := DefaultArg(args.unitPrice, Inst(ZERO_PEN));
       price.Inst? && (TruthyArg(args.subtotal) || !IsBlank(price.obj.currency)))
  {
  }

  /** With no subtotal given, the subtotal of a valid unit price is that
      price. */
  lemma SubtotalIsUnitPrice(args: BillingItemArgs, price: Money, uuid: string)
    requires args.unitPrice == Inst(price) && Valid(price) && !TruthyArg(args.subtotal)
    ensures NewBillingItem(args, uuid).Ok?
    ensures NewBillingItem(args, uuid).value.subtotal == Inst(price)
  {
  }

  /** An item given nothing is a zero-soles item on no invoice. */
  lemma EmptyItem(uuid: string)
    ensures NewBillingItem(BillingItemArgs(Undefined, Undefined, Raw(Undefined), Raw(Undefined), Undefined), uuid)
      == Ok(BillingItem(GeneratedId(BillingItemIdClass, uuid), Str(""), ZERO_PEN, Inst(ZERO_PEN), Null))
  {
    ZeroPenIsValid();
  }

  /** A supplied subtotal is not compared with the unit price. */
  lemma SubtotalIsNotChecked(price: Money, subtotal: Money, uuid: string)
    requires Valid(price)
    ensures NewBillingItem(BillingItemArgs(Undefined, Undefined, Inst(price), Inst(subtotal), Undefined), uuid).Ok?
    ensures NewBillingItem(BillingItemArgs(Undefined, Undefined, Inst(price), Inst(subtotal), Undefined), uuid)
      .value.subtotal == Inst(subtotal)
  {
  }

  /** `subtotal?.toJSON()`: nothing for a missing subtotal, Money's own
      form, or the result of another value's `toJSON` method; a value
      without one throws. */
  function SubtotalJson(s: Arg<Money>): (r: Result<Value>)
    ensures s.Inst? ==> r == Ok(Obj(MoneyModel.ToJson(s.obj)))
    ensures s.Raw? && IsNullish(s.v) ==> r == Ok(Undefined)
    ensures s.Raw? && HasToJson(s.v) ==> r == Ok(OwnToJson(s.v))
    ensures r.Err? <==> s.Raw? && !IsNullish(s.v) && !HasToJson(s.v)
  {
    match s
    case Inst(m) => Ok(Obj(MoneyModel.ToJson(m)))
    case Raw(v) =>
      if IsNullish(v) then Ok(Undefined)
      else if HasToJson(v) then Ok(OwnToJson(v))
      else Err("TypeError: this.subtotal?.toJSON is not a function")
  }

  /** The object `toJSON` returns, given its `invoiceId` entry. */
  function JsonFields(item: BillingItem, subtotal: Value, invoiceId: Value): (j: map<string, Value>)
    ensures j.Keys == {"id", "description", "unitPrice", "subtotal", "invoiceId"}
    ensures j["unitPrice"] == Obj(MoneyModel.ToJson(item.unitPrice)) && j["invoiceId"] == invoiceId
  {
    map[
      "id" := OptValue(item.id),
      "description" := item.description,
      "unitPrice" := Obj(MoneyModel.ToJson(item.unitPrice)),
      "subtotal" := subtotal,
      "invoiceId" := invoiceId]
  }

  /** `toJSON` as written: the invoice id is read through `?.value`, as if
      it were an identifier object. */
  function ToJsonAsWritten(item: BillingItem): (r: Result<map<string, Value>>)
    ensures r.Ok? <==> SubtotalJson(item.subtotal).Ok?
    ensures r.Ok? ==> r.value.Keys == {"id", "description", "unitPrice", "subtotal", "invoiceId"}
    ensures r.Ok? ==> r.value["invoiceId"] == ValueOrNull(item.invoiceId)
  {
    var s :- SubtotalJson(item.subtotal);
    Ok(JsonFields(item, s, ValueOrNull(item.invoiceId)))
  }

  /** An invoice id is a number, and a number has no `value`: the item of
      invoice 5 serialises with no invoice. */
  lemma AsWrittenLosesInvoiceId(item: BillingItem)
    requires item.invoiceId == Num(5) && item.subtotal.Inst?
    ensures ToJsonAsWritten(item).Ok? && ToJsonAsWritten(item).value["invoiceId"] == Null
  {
  }

  /** The invoice id an item serialises: the number an invoice stored, or
      the `value` of an identifier, or null. */
  function InvoiceIdJson(invoiceId: Value): (v: Value)
    ensures IsNumber(invoiceId) ==> v == invoiceId
    ensures !IsNumber(invoiceId) ==> v == ValueOrNull(invoiceId)
  {
    if IsNumber(invoiceId) then invoiceId else ValueOrNull(invoiceId)
  }

  /** `toJSON`, with the invoice id kept when it is a number. */
  function ToJson(item: BillingItem): (r: Result<map<string, Value>>)
    ensures r.Ok? <==> SubtotalJson(item.subtotal).Ok?
    ensures r.Ok? ==> r.value.Keys == {"id", "description", "unitPrice", "subtotal", "invoiceId"}
    ensures r.Ok? ==> r.value["invoiceId"] == InvoiceIdJson(item.invoiceId)
    ensures r.Ok? ==> r.value["unitPrice"] == Obj(MoneyModel.ToJson(item.unitPrice))
  {
    var s :- SubtotalJson(item.subtotal);
    Ok(JsonFields(item, s, InvoiceIdJson(item.invoiceId)))
  }

  /** Both serialisations agree except on the invoice id, and they agree
      there too unless it is a number. */
  lemma ToJsonDiffersOnlyInInvoiceId(item: BillingItem)
    ensures ToJson(item).Ok? <==> ToJsonAsWritten(item).Ok?
    ensures ToJson(item).Ok? ==>
      ToJson(item).value["invoiceId" := Null] == ToJsonAsWritten(item).value["invoiceId" := Null]
    ensures ToJson(item).Ok? && !IsNumber(item.invoiceId) ==> ToJson(item) == ToJsonAsWritten(item)
  {
  }

  /** The serialised unit price and subtotal rebuild the same Money. */
  lemma PricesRebuild(item: BillingItem)
    requires Valid(item.unitPrice) && item.subtotal.Inst? && Valid(item.subtotal.obj)
    ensures var j := ToJson(item).value;
      j["unitPrice"].Obj? && j["subtotal"].Obj?
      && NewMoney(j["unitPrice"].fields["amount"], j["unitPrice"].fields["currency"]) == Ok(item.unitPrice)
      && NewMoney(j["subtotal"].fields["amount"], j["subtotal"].fields["currency"]) == Ok(item.subtotal.obj)
  {
    JsonRoundTrip(item.unitPrice);
    JsonRoundTrip(item.subtotal.obj);
  }
}

=== FILE: cache.dfy ===
/** `CacheService`: a read cache of fetched data by key.  Each entry carries
    the time it was stored and is fresh for a time-to-live (one minute
    unless the caller gives one).  The clock reading and the outcome of the
    fetch are parameters. */
module Cache {
  import opened Wrappers
  import opened Js

  /** `CacheService.cacheTTL`, in milliseconds. */
  const DEFAULT_TTL: int := 60000

  datatype Entry = Entry(data: Value, timestamp: int)

  type Store = map<string, Entry>

  /** What the fetch function gives when it is awaited. */
  datatype Fetch = Fetched(data: Value) | Failed(error: string)

  /** The data `getData` resolves to, the cache afterwards, and whether the
      fetch function was called. */
  datatype Read = Read(data: Value, cache: Store, fetched: bool)

  /** `now - entry.timestamp < (ttl || this.cacheTTL)`.  The right-hand side
      is compared as a number, so a time-to-live that reads as NaN makes
      every entry stale. */
  predicate Fresh(e: Entry, now: int, ttl: Value) {
    var limit := ToNumber(Or(ttl, Num(DEFAULT_TTL)));
    limit.Num? && now - e.timestamp < limit.n
  }

  /** `getData(key, fetchFunction, ttl)` at time `now`: a fresh entry is
      returned without fetching; otherwise the fetched data is stored with
      the time read before the fetch; a failed fetch falls back on the entry
      however old it is, and is rethrown when there is none. */
  function GetData(cache: Store, key: string, fetch: Fetch, ttl: Value, now: int): (r: Result<Read>)
    ensures (r.Ok? && !r.value.fetched) <==> key in cache && Fresh(cache[key], now, ttl)
    ensures r.Ok? && !r.value.fetched ==> r.value == Read(cache[key].data, cache, false)
    ensures r.Err? <==> key !in cache && fetch.Failed?
    ensures r.Err? ==> r.error == fetch.error
    ensures r.Ok? && fetch.Failed? ==> r.value.data == cache[key].data && r.value.cache == cache
    ensures r.Ok? && r.value.fetched && fetch.Fetched? ==>
      r.value.data == fetch.data && r.value.cache == cache[key := Entry(fetch.data, now)]
  {
    if key in cache && Fresh(cache[key], now, ttl) then Ok(Read(cache[key].data, cache, false))
    else
      match fetch
      case Fetched(d) => Ok(Read(d, cache[key := Entry(d, now)], true))
      case Failed(e) => if key in cache then Ok(Read(cache[key].data, cache, true)) else Err(e)
  }

  /** A falsy time-to-live (missing, null, 0, empty) means one minute, and
      an entry exactly as old as its time-to-live is stale. */
  lemma DefaultTtl(e: Entry, now: int, ttl: Value, t: int)
    requires !Truthy(ttl)
    ensures Fresh(e, now, ttl) <==> now - e.timestamp < DEFAULT_TTL
    ensures t != 0 ==> !Fresh(e, e.timestamp + t, Num(t))
    ensures !Fresh(e, e.timestamp + DEFAULT_TTL, ttl)
  {
  }

  /** A read leaves every other key as it was, and at most adds its own. */
  lemma ReadTouchesOnlyItsKey(cache: Store, key: string, fetch: Fetch, ttl: Value, now: int, k: string)
    requires GetData(cache, key, fetch, ttl, now).Ok? && k != key
    ensures var c := GetData(cache, key, fetch, ttl, now).value.cache;
      c.Keys == cache.Keys + {key} || c == cache
    ensures var c := GetData(cache, key, fetch, ttl, now).value.cache;
      (k in c <==> k in cache) && (k in cache ==> c[k] == cache[k])
  {
  }

  /** Once data is fetched on a miss, reading the same key again within
      the time-to-live gives the same data without fetching, whatever the
      fetch would have done.  (A hit does not restamp the entry.) */
  lemma ReadAgainWithinTtl(cache: Store, key: string, d: Value, later: Fetch, ttl: int, now: int, age: nat)
    requires ttl > 0 && age < ttl
    requires !(key in cache && Fresh(cache[key], now, Num(ttl)))
    ensures GetData(cache, key, Fetched(d), Num(ttl), now).Ok?
    ensures var c := GetData(cache, key, Fetched(d), Num(ttl), now).value.cache;
      key in c && GetData(c, key, later, Num(ttl), now + age).Ok?
      && GetData(c, key, later, Num(ttl), now + age).value.data
         == GetData(cache, key, Fetched(d), Num(ttl), now).value.data
      && !GetData(c, key, later, Num(ttl), now + age).value.fetched
  {
  }

  /** `invalidate(key)` */
  function Invalidate(cache: Store, key: string): (c: Store)
    ensures key !in c
    ensures forall k :: k != key ==> (k in c <==> k in cache)
    ensures forall k :: k in c ==> c[k] == cache[k]
  {
    cache - {key}
  }

  /** `invalidateAll()` */
  function InvalidateAll(cache: Store): (c: Store)
    ensures forall k :: k !in c
  {
    map[]
  }

  /** After `invalidate(key)` a read of that key always calls the fetch,
      and fails when the fetch fails; a read of any other key goes exactly
      as it would have before. */
  lemma InvalidatedKeyIsFetched(cache: Store, key: string, fetch: Fetch, ttl: Value, now: int, k: string)
    ensures var r := GetData(Invalidate(cache, key), key, fetch, ttl, now);
      (r.Ok? ==> r.value.fetched) && (fetch.Failed? ==> r.Err?)
    ensures k != key ==>
      var before := GetData(cache, k, fetch, ttl, now);
      var after := GetData(Invalidate(cache, key), k, fetch, ttl, now);
      before.Ok? == after.Ok? && (before.Ok? ==> after.value.data == before.value.data
                                                 && after.value.fetched == before.value.fetched)
  {
  }

  /** After `invalidateAll()` no key is served without fetching. */
  lemma EverythingIsFetchedAfterInvalidateAll(cache: Store, key: string, fetch: Fetch, ttl: Value, now: int)
    ensures var r := GetData(InvalidateAll(cache), key, fetch, ttl, now);
      (r.Ok? <==> fetch.Fetched?) && (r.Ok? ==> r.value.fetched && r.value.cache == map[key := Entry(fetch.data, now)])
  {
  }
}

=== FILE: dates.dfy ===
/** JavaScript `Date` objects as values: a time value in milliseconds since
    the epoch, or the invalid date whose time value is NaN.  The clock is never
    read: wherever the program calls `new Date()` the model takes `now`. */
module Dates {
  import opened Text

  datatype Date = ValidDate(ms: int) | InvalidDate

  /** The largest time value a Date can hold (ECMAScript section 21.4.1.1). */
  const MaxTime: int := 8_640_000_000_000_000

  const MsPerDay: int := 86_400_000

  /** TimeClip (ECMAScript section 21.4.1.31) for integer time values. */
  function TimeClip(t: int): (d: Date)
    ensures d.ValidDate? <==> -MaxTime <= t <= MaxTime
    ensures d.ValidDate? ==> d.ms == t
  {
    if -MaxTime <= t <= MaxTime then ValidDate(t) else InvalidDate
  }

  /** `new Date()` read at time `now`. */
  function ClockDate(now: int): (d: Date)
    ensures -MaxTime <= now <= MaxTime ==> d == ValidDate(now)
  {
    TimeClip(now)
  }

  /** `a < b` on two Dates: both are converted to their time values, and a
      comparison with NaN is false. */
  predicate Before(a: Date, b: Date) {
    a.ValidDate? && b.ValidDate? && a.ms < b.ms
  }

  /** `isNaN(d)` */
  predicate IsNaNDate(d: Date) {
    d.InvalidDate?
  }

  /** Proleptic Gregorian (year, month, day) of a day number counted from
      1970-01-01, by the days-to-civil algorithm. */
  function CivilFromDays(days: int): (int, int, int) {
    var z := days + 719_468;
    var era := z / 146_097;
    var doe := z - era * 146_097;
    var yoe := (doe - doe / 1460 + doe / 36_524 - doe / 146_096) / 365;
    var doy := doe - (365 * yoe + yoe / 4 - yoe / 100);
    var mp := (5 * doy + 2) / 153;
    var d := doy - (153 * mp + 2) / 5 + 1;
    var m := if mp < 10 then mp + 3 else mp - 9;
    var y := yoe + era * 400 + (if m <= 2 then 1 else 0);
    (y, m, d)
  }

  function Pad(n: int, width: nat): string {
    if n < 0 then "-" + PadNat(-n, width) else PadNat(n, width)
  }

  /** The year field of `toISOString`: four digits for years 0 to 9999,
      otherwise a sign and six digits. */
  function YearText(y: int): (s: string)
    ensures |s| >= 4
  {
    if 0 <= y <= 9999 then PadNat(y, 4)
    else if y < 0 then "-" + PadNat(-y, 6)
    else "+" + PadNat(y, 6)
  }

  /** `Date.prototype.toISOString` of a valid date: `YYYY-MM-DDTHH:mm:ss.sssZ`. */
  function IsoString(ms: int): string {
    var days := ms / MsPerDay;
    var inDay := ms % MsPerDay;
    var (y, m, d) := CivilFromDays(days);
    Join([YearText(y), "-", Pad(m, 2), "-", Pad(d, 2),
          "T", PadNat(inDay / 3_600_000, 2), ":", PadNat(inDay / 60_000 % 60, 2),
          ":", PadNat(inDay / 1000 % 60, 2), ".", PadNat(inDay % 1000, 3), "Z"], "")
  }
}

=== FILE: enums.dfy ===
/** The enumerations the entities check membership in.  The files that
    declare them are not part of this model: each holds here the members the
    code refers to, and each member's value is the string of its own name
    (the `ProjectStatus` members are the six of the status label table).
    `Object.values(E).includes(v)` becomes `v in E_VALUES`. */
module Enums {
  import opened Js

  // ProjectStatus
  const BASIC_STUDIES: Value := Str("BASIC_STUDIES")
  const DESIGN_IN_PROCESS: Value := Str("DESIGN_IN_PROCESS")
  const UNDER_REVIEW: Value := Str("UNDER_REVIEW")
  const CHANGE_REQUESTED: Value := Str("CHANGE_REQUESTED")
  const CHANGE_PENDING: Value := Str("CHANGE_PENDING")
  const APPROVED: Value := Str("APPROVED")
  const PROJECT_STATUSES: set<Value> :=
    {BASIC_STUDIES, DESIGN_IN_PROCESS, UNDER_REVIEW, CHANGE_REQUESTED, CHANGE_PENDING, APPROVED}

  // Specialty
  const ARCHITECTURE: Value := Str("ARCHITECTURE")
  const GENERAL: Value := Str("GENERAL")
  const SPECIALTIES: set<Value> := {ARCHITECTURE, GENERAL}

  // TaskStatus
  const DRAFT: Value := Str("DRAFT")
  const TASK_PENDING: Value := Str("PENDING")
  const TASK_STATUSES: set<Value> := {DRAFT, TASK_PENDING}

  // ProjectRole
  const SPECIALIST: Value := Str("SPECIALIST")
  const COORDINATOR: Value := Str("COORDINATOR")
  const PROJECT_ROLES: set<Value> := {SPECIALIST, COORDINATOR}

  // OrganizationInvitationStatus
  const INVITATION_PENDING: Value := Str("PENDING")
  const INVITATION_ACCEPTED: Value := Str("ACCEPTED")
  const INVITATION_REJECTED: Value := Str("REJECTED")

  // OrganizationStatus
  const ORGANIZATION_INACTIVE: Value := Str("INACTIVE")

  // OrganizationMemberType
  const WORKER: Value := Str("WORKER")
  const CONTRACTOR: Value := Str("CONTRACTOR")

  // PaymentStatus of the billing context
  const INVOICE_PENDING: Value := Str("PENDING")
  const INVOICE_PAID: Value := Str("PAID")

  // PaymentStatus of the payments context
  const PAYMENT_PENDING: Value := Str("PENDING")
  const PAYMENT_CONFIRMED: Value := Str("CONFIRMED")
  const PAYMENT_FAILED: Value := Str("FAILED")
  const PAYMENT_STATUSES: set<Value> := {PAYMENT_PENDING, PAYMENT_CONFIRMED, PAYMENT_FAILED}

  // TransactionStatus
  const INITIATED: Value := Str("INITIATED")
  const SUCCESS: Value := Str("SUCCESS")
  const TRANSACTION_FAILED: Value := Str("FAILED")
  const TRANSACTION_PENDING: Value := Str("PENDING")
  const TRANSACTION_STATUSES: set<Value> := {INITIATED, SUCCESS, TRANSACTION_FAILED, TRANSACTION_PENDING}

  // SubscriptionStatus
  const ACTIVE: Value := Str("ACTIVE")
  const CANCELLED: Value := Str("CANCELLED")
}

=== FILE: file_upload.dfy ===
/** The file-upload service's naming rules: the extension of an uploaded
    file, taken from a data URL's MIME type, a File's or Blob's type, or the
    file name; and `uploadFile`, which hands a data URL back unchanged.
    Reading a File or Blob into a data URL is the browser's work: its result
    is a parameter. */
module FileUpload {
  import opened Text
  import opened Js

  /** What `uploadFile` is given: text, a File or Blob with its `type`, or
      any other value. */
  datatype Upload = Text(s: string) | BlobFile(mimeType: string) | OtherValue(v: Value)

  /** The `mimeMap` of `_mimeToExtension`. */
  const MIME_MAP: map<string, string> := map[
    "image/jpeg" := "jpg",
    "image/jpg" := "jpg",
    "image/png" := "png",
    "image/gif" := "gif",
    "image/webp" := "webp",
    "image/svg+xml" := "svg"]

  /** `_mimeToExtension(mime)`: a listed image type's extension, otherwise
      `jpg`. */
  function MimeToExtension(mime: string): (ext: string)
    ensures mime in MIME_MAP ==> ext == MIME_MAP[mime]
    ensures mime !in MIME_MAP ==> ext == "jpg"
  {
    if mime in MIME_MAP && MIME_MAP[mime] != "" then MIME_MAP[mime] else "jpg"
  }

  /** Only the four non-JPEG types give anything but `jpg`, and each gives
      its own extension. */
  lemma MimeExtensions(mime: string)
    ensures MimeToExtension(mime) in {"jpg", "png", "gif", "webp", "svg"}
    ensures MimeToExtension(mime) != "jpg" <==> mime in {"image/png", "image/gif", "image/webp", "image/svg+xml"}
  {
  }

  /** `typeof file === 'string' && file.startsWith('data:')` */
  predicate IsDataUrl(u: Upload) {
    u.Text? && StartsWith(u.s, "data:")
  }

  /** `file.split(';')[0].split(':')[1]` for a data URL: the text after the
      first `:` up to the next `:` or `;`. */
  function DataUrlMime(s: string): (mime: string)
    requires StartsWith(s, "data:")
    ensures !Contains(mime, ';') && !Contains(mime, ':')
  {
    var head := BeforeFirst(s, ';');
    assert head[..5] == "data:" by {
      assert !Contains("data:", ';') by { assert forall i :: 0 <= i < 5 ==> "data:"[i] != ';'; }
      assert s[..5] == "data:";
    }
    assert IndexOfChar(head, ':') == 4 by {
      assert head[4] == ':';
      assert forall i :: 0 <= i < 4 ==> head[i] != ':' by {
        assert forall i :: 0 <= i < 4 ==> head[i] == "data:"[i];
      }
    }
    var mime := BeforeFirst(head[5..], ':');
    assert !Contains(mime, ';') by {
      assert StartsWith(head[5..], mime);
      assert forall i :: 0 <= i < |mime| ==> mime[i] == head[5 + i];
    }
    mime
  }

  /** A data URL written for a MIME type reads that type back. */
  lemma DataUrlMimeRoundTrip(mime: string, rest: string)
    requires !Contains(mime, ';') && !Contains(mime, ':')
    ensures StartsWith("data:" + mime + ";" + rest, "data:")
    ensures DataUrlMime("data:" + mime + ";" + rest) == mime
  {
    var s := "data:" + mime + ";" + rest;
    assert s[..5] == "data:";
    assert BeforeFirst(s, ';') == "data:" + mime by {
      assert s[5 + |mime|] == ';';
      assert forall i :: 0 <= i < 5 + |mime| ==> s[i] == ("data:" + mime)[i];
      assert !Contains("data:", ';') by { assert forall i :: 0 <= i < 5 ==> "data:"[i] != ';'; }
      assert !Contains("data:" + mime, ';') by {
        assert forall i :: 0 <= i < 5 ==> ("data:" + mime)[i] != ';';
        assert forall i :: 5 <= i < 5 + |mime| ==> ("data:" + mime)[i] == mime[i - 5];
      }
      assert s[..5 + |mime|] == "data:" + mime;
    }
    assert ("data:" + mime)[5..] == mime;
  }

  /** `fileName.split('.').pop().toLowerCase()`: the text after the last
      `.`, lower-cased. */
  function LastSegment(name: string): (seg: string)
    ensures !Contains(seg, '.')
  {
    AfterLastDot(name);
    ToLower(name[LastIndexOfChar(name, '.') + 1..])
  }

  /** The text after the last `.` holds no `.`, nor does its lower case. */
  lemma AfterLastDot(name: string)
    ensures !Contains(ToLower(name[LastIndexOfChar(name, '.') + 1..]), '.')
  {
    var k := LastIndexOfChar(name, '.');
    var rest := name[k + 1..];
    forall i | 0 <= i < |rest|
      ensures rest[i] != '.'
    {
      assert rest[i] == name[k + 1 + i];
    }
    LowerKeepsDotFree(rest);
  }

  /** Lower-casing puts no `.` into a text without one. */
  lemma LowerKeepsDotFree(s: string)
    requires forall i :: 0 <= i < |s| ==> s[i] != '.'
    ensures !Contains(ToLower(s), '.')
  {
    forall i | 0 <= i < |s|
      ensures ToLower(s)[i] != '.'
    {
      assert ToLower(s)[i] == LowerChar(s[i]);
    }
  }

  /** A file name with an extension gives that extension in lower case. */
  lemma LastSegmentOf(stem: string, ext: string)
    requires !Contains(ext, '.')
    ensures LastSegment(stem + "." + ext) == ToLower(ext)
  {
    var name := stem + "." + ext;
    var k := LastIndexOfChar(name, '.');
    assert name[|stem|] == '.';
    assert forall i :: |stem| < i < |name| ==> name[i] == ext[i - |stem| - 1];
    assert k == |stem|;
    assert name[k + 1..] == ext;
  }

  /** `_getFileExtension(file, fileName)`: the data URL's MIME type first,
      then a File's or Blob's non-empty type, then the name's last
      `.`-segment, and `jpg` when there is nothing to go on. */
  function FileExtension(file: Upload, fileName: string): (ext: string)
    ensures IsDataUrl(file) ==> ext == MimeToExtension(DataUrlMime(file.s))
    ensures file.BlobFile? && file.mimeType != "" ==> ext == MimeToExtension(file.mimeType)
    ensures !IsDataUrl(file) && !(file.BlobFile? && file.mimeType != "") ==>
      ext == (if Contains(fileName, '.') then LastSegment(fileName) else "jpg")
  {
    if IsDataUrl(file) then MimeToExtension(DataUrlMime(file.s))
    else if file.BlobFile? && file.mimeType != "" then MimeToExtension(file.mimeType)
    else if fileName != "" && IndexOfChar(fileName, '.') != -1 then LastSegment(fileName)
    else "jpg"
  }

  /** A data URL decides the extension by its MIME type alone, whatever
      the file name says. */
  lemma DataUrlDecides(mime: string, rest: string, name1: string, name2: string)
    requires !Contains(mime, ';') && !Contains(mime, ':')
    ensures IsDataUrl(Text("data:" + mime + ";" + rest))
    ensures FileExtension(Text("data:" + mime + ";" + rest), name1) == MimeToExtension(mime)
    ensures FileExtension(Text("data:" + mime + ";" + rest), name1)
         == FileExtension(Text("data:" + mime + ";" + rest), name2)
  {
    DataUrlMimeRoundTrip(mime, rest);
  }

  /** Text that is not a data URL takes its extension from the file name,
      lower-cased: `photo.PNG` is a `png`. */
  lemma NameDecides(stem: string)
    requires !StartsWith(stem, "data:")
    ensures FileExtension(Text(stem), stem + ".PNG") == "png"
  {
    assert !Contains("PNG", '.') by { assert forall i :: 0 <= i < 3 ==> "PNG"[i] != '.'; }
    LastSegmentOf(stem, "PNG");
    assert stem + ".PNG" == stem + "." + "PNG";
    assert (stem + ".PNG")[|stem|] == '.';
    assert ToLower("PNG") == "png";
  }

  /** With no data URL, no typed File or Blob and no `.` in the name, the
      extension is `jpg`. */
  lemma NothingGivesJpg(v: Value, name: string)
    requires !Contains(name, '.')
    ensures FileExtension(OtherValue(v), name) == "jpg"
    ensures FileExtension(BlobFile(""), name) == "jpg"
  {
  }

  /** `uploadFile(file, fileName)`: a data URL comes back as it is; a File
      or Blob comes back as whatever the browser read it into; anything else
      gives `undefined`. */
  function UploadFile(file: Upload, fileName: string, readAsDataUrl: string): (url: Value)
    ensures IsDataUrl(file) ==> url == Str(file.s)
    ensures file.BlobFile? ==> url == Str(readAsDataUrl)
    ensures !IsDataUrl(file) && !file.BlobFile? ==> url == Undefined
  {
    if IsDataUrl(file) then Str(file.s)
    else if file.BlobFile? then Str(readAsDataUrl)
    else Undefined
  }

  /** Uploading the URL an upload returned gives it back again. */
  lemma UploadIsIdempotent(file: Upload, fileName: string, other: string, read: string)
    requires IsDataUrl(file) || (file.BlobFile? && StartsWith(read, "data:"))
    ensures var url := UploadFile(file, fileName, read);
      url.Str? && UploadFile(Text(url.s), other, read) == url
  {
  }
}

=== FILE: ids.dfy ===
/** The identifier classes: objects whose only state is a `value`.  Most
    keep a truthy value they are given and otherwise take a fresh UUID; the
    UUID the host would generate is a parameter. */
module Identifiers {
  import opened Js

  /** `new C(value)` for a class whose constructor is
      `this.value = value || crypto.randomUUID()`. */
  function NewId(cls: IdClass, value: Value, uuid: string): (r: Value)
    ensures r.Id? && r.cls == cls
    ensures Truthy(value) ==> r.value == value
    ensures !Truthy(value) ==> r.value == Str(uuid)
  {
    Id(cls, Or(value, Str(uuid)))
  }

  /** `new C()` for a class whose constructor ignores any argument and always
      takes a fresh UUID. */
  function GeneratedId(cls: IdClass, uuid: string): (r: Value)
    ensures r.Id? && r.cls == cls && r.value == Str(uuid)
  {
    Id(cls, Str(uuid))
  }

  /** `v instanceof C` */
  predicate IsInstance(v: Value, cls: IdClass) {
    v.Id? && v.cls == cls
  }

  /** A freshly made identifier always holds a truthy value, as long as the
      UUID is not empty. */
  lemma NewIdIsTruthy(cls: IdClass, value: Value, uuid: string)
    requires uuid != ""
    ensures IsInstance(NewId(cls, value, uuid), cls)
    ensures Truthy(Prop(NewId(cls, value, uuid), "value"))
  {
  }

  /** Wrapping the value of an identifier again gives the same identifier. */
  lemma NewIdOfOwnValue(cls: IdClass, value: Value, uuid: string)
    requires Truthy(value)
    ensures NewId(cls, Prop(NewId(cls, value, uuid), "value"), uuid) == NewId(cls, value, uuid)
  {
  }
}

=== FILE: invitations.dfy ===
/** `OrganizationInvitation`: an invitation of a person to an organization,
    PENDING until it is accepted or rejected. */
module Invitations {
  import opened Wrappers
  import opened Dates
  import opened Js
  import opened Enums

  datatype Invitation = Invitation(
    id: Value,
    organizationName: Value,
    personId: Value,
    invitedByFullName: Value,
    invitedByEmail: Value,
    invitedOn: Value,
    acceptedAt: Value,
    status: Value)

  /** `new OrganizationInvitation({...})`: nothing is rejected.  A non-integer
      id becomes null, `acceptedAt` is converted to a Date when truthy and is
      null otherwise, and the defaults fill what is missing. */
  function NewInvitation(args: map<string, Value>, now: int, parse: string -> Date): (inv: Invitation)
    ensures IsInteger(FieldOf(args, "id")) ==> inv.id == FieldOf(args, "id")
    ensures !IsInteger(FieldOf(args, "id")) ==> inv.id == Null
    ensures inv.status == Default(FieldOf(args, "status"), INVITATION_PENDING)
    ensures inv.personId == Default(FieldOf(args, "personId"), Str(""))
    ensures inv.organizationName == Default(FieldOf(args, "organizationName"), Str(""))
    ensures inv.invitedByFullName == Default(FieldOf(args, "invitedByFullName"), Str(""))
    ensures inv.invitedByEmail == Default(FieldOf(args, "invitedByEmail"), Str(""))
    ensures inv.invitedOn == Default(FieldOf(args, "invitedOn"), DateV(ClockDate(now)))
    ensures Truthy(FieldOf(args, "acceptedAt")) <==> inv.acceptedAt.DateV?
    ensures Truthy(FieldOf(args, "acceptedAt")) ==> inv.acceptedAt == DateV(NewDate(FieldOf(args, "acceptedAt"), parse))
    ensures !Truthy(FieldOf(args, "acceptedAt")) ==> inv.acceptedAt == Null
  {
    var id := Default(FieldOf(args, "id"), Null);
    var acceptedAt := Default(FieldOf(args, "acceptedAt"), Null);
    Invitation(
      if IsInteger(id) then id else Null,
      Default(FieldOf(args, "organizationName"), Str("")),
      Default(FieldOf(args, "personId"), Str("")),
      Default(FieldOf(args, "invitedByFullName"), Str("")),
      Default(FieldOf(args, "invitedByEmail"), Str("")),
      Default(FieldOf(args, "invitedOn"), DateV(ClockDate(now))),
      if Truthy(acceptedAt) then DateV(NewDate(acceptedAt, parse)) else Null,
      Default(FieldOf(args, "status"), INVITATION_PENDING))
  }

  /** `isPending` */
  predicate IsPending(inv: Invitation) {
    StrictEq(inv.status, INVITATION_PENDING)
  }

  /** `accept(date = new Date())` */
  function Accept(inv: Invitation, date: Value, now: int): (r: Result<Invitation>)
    ensures r.Ok? <==> IsPending(inv)
    ensures !IsPending(inv) ==> r == Err("Invitation cannot be accepted")
    ensures r.Ok? ==> r.value == inv.(status := INVITATION_ACCEPTED, acceptedAt := Default(date, DateV(ClockDate(now))))
  {
    if !IsPending(inv) then Err("Invitation cannot be accepted")
    else Ok(inv.(status := INVITATION_ACCEPTED, acceptedAt := Default(date, DateV(ClockDate(now)))))
  }

  /** `reject` */
  function Reject(inv: Invitation): (r: Result<Invitation>)
    ensures r.Ok? <==> IsPending(inv)
    ensures !IsPending(inv) ==> r == Err("Invitation cannot be rejected")
    ensures r.Ok? ==> r.value == inv.(status := INVITATION_REJECTED, acceptedAt := Null)
  {
    if !IsPending(inv) then Err("Invitation cannot be rejected")
    else Ok(inv.(status := INVITATION_REJECTED, acceptedAt := Null))
  }

  /** The object `toJSON` returns, given the texts of the two dates. */
  function JsonFields(inv: Invitation, invitedOn: Value, acceptedAt: Value): (j: map<string, Value>)
    ensures j.Keys == {"id", "organizationName", "personId", "invitedByFullName",
                       "invitedByEmail", "invitedOn", "acceptedAt", "status"}
  {
    map[
      "id" := inv.id,
      "organizationName" := inv.organizationName,
      "personId" := inv.personId,
      "invitedByFullName" := inv.invitedByFullName,
      "invitedByEmail" := inv.invitedByEmail,
      "invitedOn" := invitedOn,
      "acceptedAt" := acceptedAt,
      "status" := inv.status]
  }

  /** `toJSON`: the dates go out as ISO strings, which throws on an invalid
      date or a value that is not a Date. */
  function ToJson(inv: Invitation): (r: Result<map<string, Value>>)
    ensures r.Ok? <==> OptIsoString(inv.invitedOn).Ok? && OptIsoString(inv.acceptedAt).Ok?
    ensures r.Ok? ==> r.value == JsonFields(inv, OptIsoString(inv.invitedOn).value, OptIsoString(inv.acceptedAt).value)
  {
    var invitedOn :- OptIsoString(inv.invitedOn);
    var acceptedAt :- OptIsoString(inv.acceptedAt);
    Ok(JsonFields(inv, invitedOn, acceptedAt))
  }

  /** Both transitions leave a decided invitation for good: once accepted or
      rejected, it can be neither accepted nor rejected again. */
  lemma DecidedIsFinal(inv: Invitation, date: Value, later: Value, now: int)
    requires IsPending(inv)
    ensures Accept(Accept(inv, date, now).value, later, now).Err?
    ensures Reject(Accept(inv, date, now).value).Err?
    ensures Accept(Reject(inv).value, later, now).Err?
    ensures Reject(Reject(inv).value).Err?
  {
  }

  /** A transition changes the status and `acceptedAt` and nothing else. */
  lemma TransitionsKeepIdentity(inv: Invitation, date: Value, now: int)
    requires IsPending(inv)
    ensures var a := Accept(inv, date, now).value;
      a.id == inv.id && a.personId == inv.personId && a.invitedOn == inv.invitedOn
      && a.organizationName == inv.organizationName
    ensures var j := Reject(inv).value;
      j.id == inv.id && j.personId == inv.personId && j.invitedOn == inv.invitedOn
      && j.organizationName == inv.organizationName
  {
  }

  /** A fresh invitation is pending and not accepted. */
  lemma FreshIsPending(personId: Value, now: int, parse: string -> Date)
    ensures IsPending(NewInvitation(map["personId" := personId], now, parse))
    ensures NewInvitation(map["personId" := personId], now, parse).acceptedAt == Null
  {
  }
}

=== FILE: invoices.dfy ===
/** `Invoice`: a payer's list of billing items with a status, two dates
    and a total that is recomputed from the items' subtotals whenever the
    list changes. */
module Invoices {
  import opened Wrappers
  import opened Text
  import opened Dates
  import opened Js
  import opened Enums
  import opened MoneyModel
  import opened BillingItems
  import opened Lists
  import opened JsonMethods

  datatype Invoice = Invoice(
    id: Value,
    payer: Value,
    status: Value,
    issuedDate: Value,
    dueDate: Value,
    items: seq<Arg<BillingItem>>,
    totalAmount: Money)

  /** The `items` argument: a list of billing items, or any other value.
      `Other(Undefined)` is an absent argument, which the parameter default
      replaces with `[]`; `Other(Arr(vs))` is an array of plain values. */
  datatype ItemsArg = Given(list: seq<Arg<BillingItem>>) | Other(v: Value)

  /** The elements of a plain array. */
  function RawElements(vs: seq<Value>): (r: seq<Arg<BillingItem>>)
    ensures |r| == |vs| && forall i :: 0 <= i < |vs| ==> r[i] == Raw(vs[i])
  {
    seq(|vs|, i requires 0 <= i < |vs| => Raw(vs[i]))
  }

  /** The constructor's destructured argument; an absent field is `Undefined`. */
  datatype InvoiceArgs = InvoiceArgs(
    id: Value,
    payer: Value,
    status: Value,
    issuedDate: Value,
    dueDate: Value,
    items: ItemsArg)

  /** `item.subtotal`: a nullish element cannot be read. */
  function ElementSubtotal(e: Arg<BillingItem>): (r: Result<Arg<Money>>)
    ensures e.Inst? ==> r == Ok(e.obj.subtotal)
    ensures r.Err? <==> e.Raw? && IsNullish(e.v)
    ensures e.Raw? && r.Ok? ==> r.value == Raw(Prop(e.v, "subtotal"))
  {
    match e
    case Inst(it) => Ok(it.subtotal)
    case Raw(v) => if IsNullish(v) then Err(ReadError(v)) else Ok(Raw(Prop(v, "subtotal")))
  }

  /** `subtotal.amount`, as the running sum `acc + amount` sees it: a
      number once JavaScript's `+` has converted it (null and false count
      0, true counts 1), `None` for a value the sum turns into NaN or text,
      or a TypeError when there is no subtotal. */
  function SubtotalAmount(s: Arg<Money>): (r: Result<Option<int>>)
    ensures s.Inst? ==> r == Ok(Some(s.obj.amount))
    ensures r.Err? <==> s.Raw? && IsNullish(s.v)
    ensures s.Raw? && r.Ok? ==>
      (r.value.Some? <==> (var a := Prop(s.v, "amount"); a.Num? || a.Null? || a.Bool?))
    ensures s.Raw? && r.Ok? && r.value.Some? ==> ToNumber(Prop(s.v, "amount")) == Num(r.value.value)
  {
    match s
    case Inst(m) => Ok(Some(m.amount))
    case Raw(v) =>
      if IsNullish(v) then Err(ReadError(v))
      else match Prop(v, "amount")
        case Num(n) => Ok(Some(n))
        case Null => Ok(Some(0))
        case Bool(b) => Ok(Some(if b then 1 else 0))
        case _ => Ok(None)
  }

  /** `items.reduce((acc, item) => acc + item.subtotal.amount, 0)`: `None`
      once a term is not a number (the sum is then NaN or a text). */
  function SumAmounts(items: seq<Arg<BillingItem>>): (r: Result<Option<int>>)
    decreases |items|
  {
    if |items| == 0 then Ok(Some(0))
    else
      var acc :- SumAmounts(items[..|items| - 1]);
      var sub :- ElementSubtotal(items[|items| - 1]);
      var a :- SubtotalAmount(sub);
      Ok(if acc.Some? && a.Some? then Some(acc.value + a.value) else None)
  }

  /** `items[0]?.subtotal?.currency ?? 'PEN'` */
  function FirstCurrency(items: seq<Arg<BillingItem>>): (c: Value)
    ensures |items| == 0 ==> c == Str("PEN")
    ensures |items| > 0 && items[0].Inst? && items[0].obj.subtotal.Inst? ==> c == Str(items[0].obj.subtotal.obj.currency)
    ensures |items| > 0 && items[0].Raw? && IsNullish(items[0].v) ==> c == Str("PEN")
  {
    if |items| == 0 then Str("PEN")
    else
      var sub := match items[0]
        case Inst(it) => it.subtotal
        case Raw(v) => if IsNullish(v) then Raw(Undefined) else Raw(Prop(v, "subtotal"));
      match sub
      case Inst(m) => Str(m.currency)
      case Raw(v) => if IsNullish(v) then Str("PEN") else Coalesce(Prop(v, "currency"), Str("PEN"))
  }

  /** `calculateTotalAmount` */
  function Total(items: seq<Arg<BillingItem>>): (r: Result<Money>)
    ensures r.Ok? ==> Valid(r.value) && SumAmounts(items) == Ok(Some(r.value.amount))
    ensures r.Ok? ==> FirstCurrency(items).Str? && r.value.currency == ToUpper(FirstCurrency(items).s)
    ensures r.Ok? <==> SumAmounts(items).Ok? && SumAmounts(items).value.Some?
                       && FirstCurrency(items).Str? && !IsBlank(FirstCurrency(items).s)
  {
    var sum :- SumAmounts(items);
    NewMoney(if sum.Some? then Num(sum.value) else NaN, FirstCurrency(items))
  }

  /** Every item is a BillingItem holding a Money subtotal. */
  predicate Priced(items: seq<Arg<BillingItem>>) {
    forall i :: 0 <= i < |items| ==> items[i].Inst? && items[i].obj.subtotal.Inst?
  }

  /** The reference sum of the subtotal amounts of priced items. */
  function AmountSum(items: seq<Arg<BillingItem>>): int
    requires Priced(items)
  {
    if |items| == 0 then 0 else items[0].obj.subtotal.obj.amount + AmountSum(items[1..])
  }

  /** The reference sum splits at its last element. */
  lemma {:induction false} AmountSumLast(items: seq<Arg<BillingItem>>)
    requires Priced(items) && |items| > 0
    ensures Priced(items[..|items| - 1])
    ensures AmountSum(items) == AmountSum(items[..|items| - 1]) + items[|items| - 1].obj.subtotal.obj.amount
    decreases |items|
  {
    var init := items[..|items| - 1];
    if |items| > 1 {
      assert items[1..][..|items| - 2] == init[1..];
      AmountSumLast(items[1..]);
    }
  }

  /** The running sum of priced items is their reference sum, whatever
      their currencies. */
  lemma {:induction false} SumIsAmountSum(items: seq<Arg<BillingItem>>)
    requires Priced(items)
    ensures SumAmounts(items) == Ok(Some(AmountSum(items)))
    decreases |items|
  {
    if |items| > 0 {
      AmountSumLast(items);
      SumIsAmountSum(items[..|items| - 1]);
    }
  }

  /** The total of priced items is the sum of their subtotals, in the
      first item's currency, or zero soles for no items. */
  lemma TotalIsSum(items: seq<Arg<BillingItem>>)
    requires Priced(items) && (|items| > 0 ==> Valid(items[0].obj.subtotal.obj))
    ensures Total(items).Ok?
    ensures Total(items).value.amount == AmountSum(items)
    ensures Total(items).value.currency == if |items| == 0 then "PEN" else items[0].obj.subtotal.obj.currency
  {
    SumIsAmountSum(items);
    if |items| == 0 {
      ZeroPenIsValid();
      UpperOfValid(ZERO_PEN);
    } else {
      UpperOfValid(items[0].obj.subtotal.obj);
    }
  }

  /** The totalled amount and the items agree. */
  predicate Consistent(inv: Invoice) {
    Total(inv.items) == Ok(inv.totalAmount)
  }

  /** The list `this.items` holds: the given list, `[]` for an absent
      argument, the elements of a plain array; any other value has no
      `reduce`, and null cannot be read. */
  function ItemsOf(arg: ItemsArg): (r: Result<seq<Arg<BillingItem>>>)
    ensures arg.Given? ==> r == Ok(arg.list)
    ensures arg == Other(Undefined) ==> r == Ok([])
    ensures arg.Other? && arg.v.Arr? ==> r == Ok(RawElements(arg.v.elems))
    ensures arg == Other(Null) ==> r == Err(ReadError(Null))
    ensures r.Err? <==> arg.Other? && !arg.v.Undefined? && !arg.v.Arr?
  {
    match arg
    case Given(list) => Ok(list)
    case Other(v) =>
      if v.Undefined? then Ok([])
      else if v.Arr? then Ok(RawElements(v.elems))
      else if v.Null? then Err(ReadError(Null))
      else Err("TypeError: this.items.reduce is not a function")
  }

  /** `new Invoice({...})`: ids that are not numbers become null, the status
      is PENDING and both dates `now` unless given, and the total is
      computed from the items. */
  function NewInvoice(args: InvoiceArgs, now: int): (r: Result<Invoice>)
    ensures r.Ok? ==> Consistent(r.value)
    ensures args.items == Other(Undefined) ==> r.Ok? && r.value.items == [] && r.value.totalAmount == ZERO_PEN
    ensures r.Ok? <==> ItemsOf(args.items).Ok? && Total(ItemsOf(args.items).value).Ok?
    ensures r.Ok? ==> r.value.items == ItemsOf(args.items).value
    ensures r.Err? && ItemsOf(args.items).Err? ==> r.error == ItemsOf(args.items).error
    ensures r.Ok? ==> r.value.id == NumberOrNull(args.id) && r.value.payer == NumberOrNull(args.payer)
    ensures r.Ok? ==> r.value.status == Default(args.status, INVOICE_PENDING)
    ensures r.Ok? ==> r.value.issuedDate == Default(args.issuedDate, DateV(ClockDate(now)))
    ensures r.Ok? ==> r.value.dueDate == Default(args.dueDate, DateV(ClockDate(now)))
  {
    assert Total([]) == Ok(ZERO_PEN) by { TotalIsSum([]); }
    var items :- ItemsOf(args.items);
    var total :- Total(items);
    Ok(Invoice(NumberOrNull(args.id), NumberOrNull(args.payer), Default(args.status, INVOICE_PENDING),
               Default(args.issuedDate, DateV(ClockDate(now))), Default(args.dueDate, DateV(ClockDate(now))),
               items, total))
  }

  /** The running sum extended by one item. */
  lemma SumAppend(items: seq<Arg<BillingItem>>, item: BillingItem)
    ensures SumAmounts(items + [Inst(item)]) ==
      (var acc :- SumAmounts(items);
       var a :- SubtotalAmount(item.subtotal);
       Ok(if acc.Some? && a.Some? then Some(acc.value + a.value) else None))
  {
    assert (items + [Inst(item)])[..|items|] == items;
  }

  /** The item `addItem` pushes: tied to this invoice, its subtotal
      recomputed from its unit price. */
  function Attached(inv: Invoice, item: BillingItem): (r: Result<BillingItem>)
    ensures r.Ok? <==> !IsBlank(item.unitPrice.currency)
    ensures Valid(item.unitPrice) ==> r == Ok(item.(invoiceId := inv.id, subtotal := Inst(item.unitPrice)))
  {
    var sub :- CalculateSubtotal(item.unitPrice);
    Ok(item.(invoiceId := inv.id, subtotal := Inst(sub)))
  }

  /** `addItem` */
  function AddItem(inv: Invoice, item: Arg<BillingItem>): (r: Result<Invoice>)
    ensures item.Raw? ==> r == Err("Item must be an instance of BillingItem")
    ensures r.Ok? ==> item.Inst? && Attached(inv, item.obj).Ok?
    ensures r.Ok? ==> r.value.items == inv.items + [Inst(Attached(inv, item.obj).value)] && Consistent(r.value)
    ensures r.Ok? ==> r.value.(items := inv.items, totalAmount := inv.totalAmount) == inv
  {
    match item
    case Raw(_) => Err("Item must be an instance of BillingItem")
    case Inst(it) =>
      var added :- Attached(inv, it);
      var items := inv.items + [Inst(added)];
      var total :- Total(items);
      Ok(inv.(items := items, totalAmount := total))
  }

  /** Adding a valid item to a consistent invoice always succeeds, adds its
      unit price to the total and keeps the total's currency, which the
      first item fixed: the prices of later items are added without
      conversion. */
  lemma AddItemGrowsTotal(inv: Invoice, item: BillingItem)
    requires Consistent(inv) && Valid(item.unitPrice)
    ensures AddItem(inv, Inst(item)).Ok?
    ensures AddItem(inv, Inst(item)).value.totalAmount.amount == inv.totalAmount.amount + item.unitPrice.amount
    ensures |inv.items| > 0 ==> AddItem(inv, Inst(item)).value.totalAmount.currency == inv.totalAmount.currency
    ensures |inv.items| == 0 ==> AddItem(inv, Inst(item)).value.totalAmount.currency == item.unitPrice.currency
    ensures Last(AddItem(inv, Inst(item)).value.items) == Inst(item.(invoiceId := inv.id, subtotal := Inst(item.unitPrice)))
  {
    var added := item.(invoiceId := inv.id, subtotal := Inst(item.unitPrice));
    var items := inv.items + [Inst(added)];
    SumAppend(inv.items, added);
    if |inv.items| > 0 {
      assert items[0] == inv.items[0];
    } else {
      UpperOfValid(item.unitPrice);
    }
    assert Total(items).Ok?;
  }

  /** The last element of a non-empty list. */
  function Last(items: seq<Arg<BillingItem>>): Arg<BillingItem>
    requires |items| > 0
  {
    items[|items| - 1]
  }

  /** An invoice whose first item is in dollars totals every later item as
      dollars too. */
  lemma MixedCurrenciesAreAdded(uuid: string)
    ensures var usd := BillingItem(Undefined, Str(""), Money(5, "USD"), Inst(Money(5, "USD")), Null);
      var pen := BillingItem(Undefined, Str(""), Money(10, "PEN"), Inst(Money(10, "PEN")), Null);
      Total([Inst(usd), Inst(pen)]) == Ok(Money(15, "USD"))
  {
    var usd := BillingItem(Undefined, Str(""), Money(5, "USD"), Inst(Money(5, "USD")), Null);
    var pen := BillingItem(Undefined, Str(""), Money(10, "PEN"), Inst(Money(10, "PEN")), Null);
    var c := "USD";
    assert c[0] == 'U' && c[1] == 'S' && c[2] == 'D';
    assert !IsJsWhitespace(c[0]);
    UpperOfValid(Money(5, "USD"));
    assert [Inst(usd), Inst(pen)][..1] == [Inst(usd)];
    assert [Inst(usd)][..0] == [];
    assert SumAmounts([Inst(usd)]) == Ok(Some(5));
    assert SumAmounts([Inst(usd), Inst(pen)]) == Ok(Some(15));
    assert FirstCurrency([Inst(usd), Inst(pen)]) == Str("USD");
  }

  /** `markAsPaid`: the status becomes PAID, whatever it was. */
  function MarkAsPaid(inv: Invoice): (r: Invoice)
    ensures StrictEq(r.status, INVOICE_PAID)
    ensures r.(status := inv.status) == inv
  {
    inv.(status := INVOICE_PAID)
  }

  /** `isOverdue(currentDate)`: not paid, and the due date, read as a Date,
      before the given one. */
  predicate IsOverdue(inv: Invoice, currentDate: Date, parse: string -> Date) {
    !StrictEq(inv.status, INVOICE_PAID) && Before(NewDate(inv.dueDate, parse), currentDate)
  }

  /** A paid invoice is never overdue; an unpaid one with a Date due date
      is overdue exactly when that date is strictly earlier. */
  lemma OverdueExactly(inv: Invoice, currentDate: Date, parse: string -> Date)
    ensures !IsOverdue(MarkAsPaid(inv), currentDate, parse)
    ensures inv.status != INVOICE_PAID && inv.dueDate.DateV? ==>
      (IsOverdue(inv, currentDate, parse) <==> Before(inv.dueDate.d, currentDate))
    ensures inv.dueDate.DateV? ==> !IsOverdue(inv, inv.dueDate.d, parse)
  {
  }

  /** Which `BillingItem.toJSON` a serialisation uses: the one
      billing-item.entity.js has, which reads the invoice id through
      `?.value`, or the corrected one, which keeps a numeric invoice id. */
  datatype Reading = AsWritten | Corrected

  /** The item's `toJSON` under the given reading. */
  function ItemFields(item: BillingItem, reading: Reading): Result<map<string, Value>> {
    if reading == AsWritten then BillingItems.ToJsonAsWritten(item) else BillingItems.ToJson(item)
  }

  /** `i.toJSON()` as an element of the serialised list. */
  function ItemJson(item: BillingItem, reading: Reading): (r: Result<Value>)
    ensures r.Ok? <==> SubtotalJson(item.subtotal).Ok?
    ensures r.Ok? ==> r.value.Obj? && r.value.fields.Keys == {"id", "description", "unitPrice", "subtotal", "invoiceId"}
    ensures r.Ok? ==> r.value.fields["unitPrice"] == Obj(MoneyModel.ToJson(item.unitPrice))
    ensures r.Ok? && reading == AsWritten ==> r.value.fields["invoiceId"] == ValueOrNull(item.invoiceId)
    ensures r.Ok? && reading == Corrected ==> r.value.fields["invoiceId"] == InvoiceIdJson(item.invoiceId)
  {
    var j :- ItemFields(item, reading);
    Ok(Obj(j))
  }

  /** `i.toJSON()` for one element: a billing item's form under the
      reading, or the result of a plain value's own `toJSON` method; a
      nullish element cannot be read, and a plain value without that
      method throws. */
  function ElementJson(e: Arg<BillingItem>, reading: Reading): (r: Result<Value>)
    ensures e.Inst? ==> r == ItemJson(e.obj, reading)
    ensures e.Raw? && HasToJson(e.v) ==> r == Ok(OwnToJson(e.v))
    ensures e.Raw? && IsNullish(e.v) ==> r == Err(ReadError(e.v))
    ensures e.Raw? && !HasToJson(e.v) ==> r.Err?
  {
    match e
    case Inst(item) => ItemJson(item, reading)
    case Raw(v) =>
      if HasToJson(v) then Ok(OwnToJson(v))
      else if IsNullish(v) then Err(ReadError(v))
      else Err("TypeError: i.toJSON is not a function")
  }

  /** The element serialises, under either reading. */
  predicate Serialisable(e: Arg<BillingItem>) {
    if e.Inst? then SubtotalJson(e.obj.subtotal).Ok? else HasToJson(e.v)
  }

  /** `items.map(i => i.toJSON())` */
  function ItemsJson(items: seq<Arg<BillingItem>>, reading: Reading): (r: Result<seq<Value>>)
    ensures r.Ok? <==> forall i :: 0 <= i < |items| ==> Serialisable(items[i])
    ensures r.Ok? ==> |r.value| == |items|
    ensures r.Ok? ==> forall i :: 0 <= i < |items| ==> r.value[i] == ElementJson(items[i], reading).value
  {
    MapAll(items, e => ElementJson(e, reading))
  }

  /** An invoice holding a bare `ProjectTeamMemberId` serialises it as
      that class's `{value}` form, under either reading. */
  lemma RawTeamMemberIdSerialises(reading: Reading)
    ensures ItemsJson([Raw(Id(ProjectTeamMemberIdClass, Num(7)))], reading) == Ok([Obj(map["value" := Num(7)])])
  {
    var e: Arg<BillingItem> := Raw(Id(ProjectTeamMemberIdClass, Num(7)));
    assert Serialisable([e][0]);
    var r := ItemsJson([e], reading);
    assert r.Ok? && |r.value| == 1;
    var j := OwnToJson(e.v);
    assert j.fields == map["value" := Num(7)];
    assert r.value[0] == ElementJson(e, reading).value == Obj(map["value" := Num(7)]);
    assert r.value == [Obj(map["value" := Num(7)])];
  }

  /** The object `toJSON` returns, given the serialised items. */
  function JsonFields(inv: Invoice, items: seq<Value>): (j: map<string, Value>)
    ensures j.Keys == {"id", "payer", "status", "issuedDate", "dueDate", "totalAmount", "items"}
  {
    map[
      "id" := inv.id,
      "payer" := inv.payer,
      "status" := inv.status,
      "issuedDate" := inv.issuedDate,
      "dueDate" := inv.dueDate,
      "totalAmount" := Obj(MoneyModel.ToJson(inv.totalAmount)),
      "items" := Arr(items)]
  }

  /** `toJSON`, its items serialised as billing-item.entity.js writes them. */
  function ToJson(inv: Invoice): (r: Result<map<string, Value>>)
    ensures r.Ok? <==> forall i :: 0 <= i < |inv.items| ==> Serialisable(inv.items[i])
    ensures r.Ok? ==> r.value.Keys == {"id", "payer", "status", "issuedDate", "dueDate", "totalAmount", "items"}
    ensures r.Ok? ==> r.value["id"] == inv.id && r.value["payer"] == inv.payer && r.value["status"] == inv.status
    ensures r.Ok? ==> r.value["totalAmount"] == Obj(MoneyModel.ToJson(inv.totalAmount))
    ensures r.Ok? ==> r.value["items"] == Arr(ItemsJson(inv.items, AsWritten).value)
  {
    var items :- ItemsJson(inv.items, AsWritten);
    Ok(JsonFields(inv, items))
  }

  /** `toJSON` with the corrected item serialisation. */
  function CorrectedToJson(inv: Invoice): (r: Result<map<string, Value>>)
    ensures r.Ok? <==> forall i :: 0 <= i < |inv.items| ==> Serialisable(inv.items[i])
    ensures r.Ok? ==> r.value.Keys == {"id", "payer", "status", "issuedDate", "dueDate", "totalAmount", "items"}
    ensures r.Ok? ==> r.value["id"] == inv.id && r.value["payer"] == inv.payer && r.value["status"] == inv.status
    ensures r.Ok? ==> r.value["totalAmount"] == Obj(MoneyModel.ToJson(inv.totalAmount))
    ensures r.Ok? ==> r.value["items"] == Arr(ItemsJson(inv.items, Corrected).value)
  {
    var items :- ItemsJson(inv.items, Corrected);
    Ok(JsonFields(inv, items))
  }

  /** The two invoice serialisations fail together and agree on everything
      but the items; they agree on each plain element, and on each billing
      item everything but its invoice id. */
  lemma ReadingsDifferOnlyInItemInvoiceIds(inv: Invoice)
    ensures ToJson(inv).Ok? <==> CorrectedToJson(inv).Ok?
    ensures ToJson(inv).Ok? ==>
      ToJson(inv).value["items" := Null] == CorrectedToJson(inv).value["items" := Null]
    ensures ToJson(inv).Ok? ==> forall i :: 0 <= i < |inv.items| && inv.items[i].Raw? ==>
      ElementJson(inv.items[i], AsWritten) == ElementJson(inv.items[i], Corrected)
    ensures ToJson(inv).Ok? ==> forall i :: 0 <= i < |inv.items| && inv.items[i].Inst? ==>
      ItemJson(inv.items[i].obj, AsWritten).value.fields["invoiceId" := Null]
      == ItemJson(inv.items[i].obj, Corrected).value.fields["invoiceId" := Null]
  {
    if ToJson(inv).Ok? {
      var a := ItemsJson(inv.items, AsWritten).value;
      var c := ItemsJson(inv.items, Corrected).value;
      JsonFieldsOutsideItems(inv, a, c);
      forall i | 0 <= i < |inv.items| && inv.items[i].Inst?
        ensures ItemJson(inv.items[i].obj, AsWritten).value.fields["invoiceId" := Null]
                == ItemJson(inv.items[i].obj, Corrected).value.fields["invoiceId" := Null]
      {
        assert Serialisable(inv.items[i]);
        ToJsonDiffersOnlyInInvoiceId(inv.items[i].obj);
      }
    }
  }

  /** Two serialisations of one invoice differ at most in their items. */
  lemma JsonFieldsOutsideItems(inv: Invoice, a: seq<Value>, c: seq<Value>)
    ensures JsonFields(inv, a)["items" := Null] == JsonFields(inv, c)["items" := Null]
  {
  }

  /** The item `addItem` appends to a consistent invoice, for a valid unit
      price. */
  lemma LastAdded(inv: Invoice, item: BillingItem)
    requires Consistent(inv) && Valid(item.unitPrice)
    ensures AddItem(inv, Inst(item)).Ok?
    ensures Last(AddItem(inv, Inst(item)).value.items) == Inst(item.(invoiceId := inv.id, subtotal := Inst(item.unitPrice)))
  {
    AddItemGrowsTotal(inv, item);
  }

  /** As written, an item added to an invoice with a numeric id serialises
      with a null invoice id. */
  lemma AddedItemLosesInvoice(inv: Invoice, item: BillingItem)
    requires Consistent(inv) && Valid(item.unitPrice) && IsNumber(inv.id)
    ensures AddItem(inv, Inst(item)).Ok?
    ensures var added := Last(AddItem(inv, Inst(item)).value.items);
      added.Inst? && ItemJson(added.obj, AsWritten).Ok? && ItemJson(added.obj, AsWritten).value.fields["invoiceId"] == Null
  {
    LastAdded(inv, item);
    var added := item.(invoiceId := inv.id, subtotal := Inst(item.unitPrice));
    assert SubtotalJson(added.subtotal).Ok?;
    assert ItemJson(added, AsWritten).Ok?;
  }

  /** Corrected: an item added to an invoice serialises with that invoice's
      id. */
  lemma AddedItemNamesInvoice(inv: Invoice, item: BillingItem)
    requires Consistent(inv) && Valid(item.unitPrice) && IsNumber(inv.id)
    ensures AddItem(inv, Inst(item)).Ok?
    ensures var added := Last(AddItem(inv, Inst(item)).value.items);
      added.Inst? && ItemJson(added.obj, Corrected).Ok? && ItemJson(added.obj, Corrected).value.fields["invoiceId"] == inv.id
  {
    LastAdded(inv, item);
    var added := item.(invoiceId := inv.id, subtotal := Inst(item.unitPrice));
    assert SubtotalJson(added.subtotal).Ok?;
    assert ItemJson(added, Corrected).Ok?;
  }

  /** A raw subtotal whose amount is null counts as zero: the total of such
      an item alone is zero soles. */
  lemma NullAmountCountsZero(item: BillingItem)
    requires item.subtotal == Raw(Obj(map["amount" := Null]))
    ensures Total([Inst(item)]) == Ok(ZERO_PEN)
  {
    var v := Obj(map["amount" := Null]);
    assert "currency" !in v.fields;
    assert Prop(v, "amount") == Null && Prop(v, "currency") == Undefined;
    assert SubtotalAmount(item.subtotal) == Ok(Some(0));
    assert [Inst(item)][..0] == [];
    assert SumAmounts([Inst(item)]) == Ok(Some(0));
    assert FirstCurrency([Inst(item)]) == Str("PEN");
    ZeroPenIsValid();
    UpperOfValid(ZERO_PEN);
  }

  /** A plain array is accepted and totalled like billing items: an
      element whose subtotal reads as soles is counted. */
  lemma PlainItemsAreTotalled(args: InvoiceArgs, now: int, amount: int)
    requires args.items == Other(Arr([Obj(map["subtotal" := Obj(map["amount" := Num(amount), "currency" := Str("PEN")])])]))
    ensures NewInvoice(args, now).Ok?
    ensures NewInvoice(args, now).value.totalAmount == Money(amount, "PEN")
    ensures NewInvoice(args, now).value.items == [Raw(args.items.v.elems[0])]
  {
    var sub := Obj(map["amount" := Num(amount), "currency" := Str("PEN")]);
    var e := Obj(map["subtotal" := sub]);
    var items := RawElements([e]);
    assert items == [Raw(e)];
    assert Prop(e, "subtotal") == sub;
    assert Prop(sub, "amount") == Num(amount) && Prop(sub, "currency") == Str("PEN");
    assert items[..0] == [];
    assert SumAmounts(items) == Ok(Some(amount));
    assert FirstCurrency(items) == Str("PEN");
    ZeroPenIsValid();
    UpperOfValid(Money(amount, "PEN"));
  }

  /** A plain element without a subtotal makes the constructor throw, as
      the sum reads `amount` of undefined. */
  lemma PlainItemWithoutSubtotalFails(args: InvoiceArgs, now: int, v: Value)
    requires !IsNullish(v) && Prop(v, "subtotal") == Undefined
    requires args.items == Other(Arr([v]))
    ensures NewInvoice(args, now) == Err(ReadError(Undefined))
  {
    var items := RawElements([v]);
    assert items == [Raw(v)] && items[..0] == [];
    assert ItemsOf(args.items) == Ok(items);
    assert ElementSubtotal(Raw(v)) == Ok(Raw(Undefined));
    assert SumAmounts(items) == Err(ReadError(Undefined));
    assert Total(items) == Err(ReadError(Undefined));
  }
}

=== FILE: iso_dates.dfy ===
/** Dates that travel as ISO 8601 text: `toISOString` on the way out and
    `new Date(text)` on the way back. */
module IsoDates {
  import opened Dates
  import opened Js

  /** The host's `Date.parse` reads back what `toISOString` writes. */
  predicate ReadsIso(parse: string -> Date) {
    forall ms :: -MaxTime <= ms <= MaxTime ==> parse(IsoString(ms)) == ValidDate(ms)
  }

  /** A Date that `toISOString` can write: valid and within the time range. */
  predicate Sendable(v: Value) {
    v.DateV? && v.d.ValidDate? && -MaxTime <= v.d.ms <= MaxTime
  }

  /** A valid date's ISO text is non-empty and reads back as the same date. */
  lemma IsoReadBack(v: Value, parse: string -> Date)
    requires Sendable(v) && ReadsIso(parse)
    ensures OptIsoString(v).Ok? && Truthy(OptIsoString(v).value)
    ensures NewDate(OptIsoString(v).value, parse) == v.d
  {
    assert |IsoString(v.d.ms)| > 0 by {
      var (y, _, _) := CivilFromDays(v.d.ms / MsPerDay);
      assert |YearText(y)| >= 4;
    }
  }
}

=== FILE: js.dfy ===
/** The loosely typed JavaScript values the program passes around: wire
    resources, payloads, configuration objects and `toJSON` results. */
module Js {
  import opened Wrappers
  import opened Text
  import opened Dates

  /** The small identifier classes whose only state is a `value` field
      (`ProjectId`, `MilestoneId`, `ProjectTeamMemberId`, ...). */
  datatype IdClass =
    | ProjectIdClass
    | ProjectTeamMemberIdClass
    | OrganizationMemberIdClass
    | OrganizationIdClass
    | ContractingEntityIdClass
    | MilestoneIdClass
    | MeetingIdClass
    | BillingItemIdClass
    | PaymentIdClass
    | TransactionIdClass
    | RecurringPaymentAgreementIdClass
    | SubscriptionPlanIdClass
    | PersonIdClass

  /** A JavaScript value.  Numbers are integers or NaN; objects are either
      plain records (`Obj`), arrays, Dates, or instances of an identifier class. */
  datatype Value =
    | Undefined
    | Null
    | Bool(b: bool)
    | Num(n: int)
    | NaN
    | Str(s: string)
    | DateV(d: Date)
    | Arr(elems: seq<Value>)
    | Obj(fields: map<string, Value>)
    | Id(cls: IdClass, value: Value)

  /** An argument that the program tests with `instanceof T`: either an
      instance of the class, or any other value. */
  datatype Arg<T> = Inst(obj: T) | Raw(v: Value)

  /** `typeof v === 'number'` (NaN included). */
  predicate IsNumber(v: Value) {
    v.Num? || v.NaN?
  }

  /** `typeof v === 'number' && !isNaN(v)` */
  predicate IsValidNumber(v: Value) {
    v.Num?
  }

  /** `Number.isInteger(v)` */
  predicate IsInteger(v: Value) {
    v.Num?
  }

  /** `v === null || v === undefined` */
  predicate IsNullish(v: Value) {
    v.Null? || v.Undefined?
  }

  /** `typeof v === 'object' && v !== null` */
  predicate IsObject(v: Value) {
    v.DateV? || v.Arr? || v.Obj? || v.Id?
  }

  /** `Boolean(v)` */
  predicate Truthy(v: Value) {
    match v
    case Undefined => false
    case Null => false
    case Bool(b) => b
    case Num(n) => n != 0
    case NaN => false
    case Str(s) => s != ""
    case _ => true
  }

  /** `v && typeof v === 'string'`: the non-empty-string test the entities use. */
  predicate IsNonEmptyString(v: Value) {
    v.Str? && v.s != ""
  }

  /** `typeof v === 'number' ? v : null` */
  function NumberOrNull(v: Value): (r: Value)
    ensures IsNumber(v) ==> r == v
    ensures !IsNumber(v) ==> r == Null
  {
    if IsNumber(v) then v else Null
  }

  /** A destructuring default: it applies only when the field is `undefined`. */
  function Default(v: Value, d: Value): Value {
    if v.Undefined? then d else v
  }

  /** A destructuring default for an argument that may be an instance. */
  function DefaultArg<T>(a: Arg<T>, d: Arg<T>): Arg<T> {
    if a == Raw(Undefined) then d else a
  }

  /** `v || d` */
  function Or(v: Value, d: Value): Value {
    if Truthy(v) then v else d
  }

  /** `v ?? d` */
  function Coalesce(v: Value, d: Value): Value {
    if IsNullish(v) then d else v
  }

  /** `key in v` for an object (own `value` of identifier instances included). */
  predicate HasKey(v: Value, key: string) {
    (v.Obj? && key in v.fields) || (v.Id? && key == "value")
  }

  /** `v[key]` on a value that is not null or undefined.  Of the built-in
      properties only `length` of strings and arrays is represented. */
  function Prop(v: Value, key: string): Value {
    match v
    case Obj(f) => if key in f then f[key] else Undefined
    case Id(_, x) => if key == "value" then x else Undefined
    case Arr(es) => if key == "length" then Num(|es|) else Undefined
    case Str(s) => if key == "length" then Num(|s|) else Undefined
    case _ => Undefined
  }

  /** A destructured parameter object's field: `undefined` when absent. */
  function FieldOf(args: map<string, Value>, key: string): (v: Value)
    ensures key !in args ==> v == Undefined
    ensures key in args ==> v == args[key]
  {
    if key in args then args[key] else Undefined
  }

  /** The index-keyed fields of an array spread into an object. */
  function ElementsByIndex(es: seq<Value>, i: nat, acc: map<string, Value>): map<string, Value>
    requires i <= |es|
    decreases |es| - i
  {
    if i == |es| then acc else ElementsByIndex(es, i + 1, acc[IntToString(i) := es[i]])
  }

  /** The own enumerable properties `Object.assign` copies from a source:
      a record's fields, an array's or a string's elements under their
      indices, an identifier's `value`; nothing from the rest. */
  function OwnFields(v: Value): (f: map<string, Value>)
    ensures v.Obj? ==> f == v.fields
    ensures !IsObject(v) && !v.Str? ==> f == map[]
  {
    match v
    case Obj(fields) => fields
    case Arr(es) => ElementsByIndex(es, 0, map[])
    case Str(s) => ElementsByIndex(seq(|s|, i requires 0 <= i < |s| => Str([s[i]])), 0, map[])
    case Id(_, x) => map["value" := x]
    case _ => map[]
  }

  /** The TypeError reading a property of null or undefined raises. */
  function ReadError(v: Value): string {
    "TypeError: Cannot read properties of " + ToStr(v)
  }

  /** `v?.value` */
  function OptValue(v: Value): Value {
    if IsNullish(v) then Undefined else Prop(v, "value")
  }

  /** `v?.value ?? null` */
  function ValueOrNull(v: Value): Value {
    Coalesce(OptValue(v), Null)
  }

  /** `a === b`.  NaN is never equal to itself; objects are compared by
      content, since values here carry no identity. */
  predicate StrictEq(a: Value, b: Value) {
    !a.NaN? && a == b
  }

  /** `String(v)`.  A `MeetingId` is written through its own `toString`,
      which returns its value; the other objects have only the built-in
      one. */
  function ToStr(v: Value): string {
    match v
    case Undefined => "undefined"
    case Null => "null"
    case Bool(b) => if b then "true" else "false"
    case Num(n) => IntToString(n)
    case NaN => "NaN"
    case Str(s) => s
    case DateV(d) => if d.ValidDate? then IsoString(d.ms) else "Invalid Date"
    case Arr(es) =>
      Join(seq(|es|, i requires 0 <= i < |es| => if IsNullish(es[i]) then "" else ToStr(es[i])), ",")
    case Obj(_) => "[object Object]"
    case Id(cls, x) => if cls == MeetingIdClass && !IsObject(x) then ToStr(x) else "[object Object]"
  }

  /** `new Date(v)`.  `parse` is the host's `Date.parse`. */
  function NewDate(v: Value, parse: string -> Date): Date {
    match v
    case DateV(d) => d
    case Num(n) => TimeClip(n)
    case NaN => InvalidDate
    case Undefined => InvalidDate
    case Null => TimeClip(0)
    case Bool(b) => TimeClip(if b then 1 else 0)
    case Str(s) => parse(s)
    case Id(cls, x) => if cls == MeetingIdClass && !IsObject(x) then NewDate(x, parse) else parse(ToStr(v))
    case _ => parse(ToStr(v))
  }

  /** Both dates are Date objects and the end is not earlier than the
      start (a comparison with an invalid date is false, so an
      invalid date never counts as out of order). */
  predicate DatesInOrder(start: Value, end: Value) {
    start.DateV? && end.DateV? && !Before(end.d, start.d)
  }

  /** `v ? new Date(v) : new Date()` */
  function DateOrNow(v: Value, now: int, parse: string -> Date): (d: Value)
    ensures d.DateV?
    ensures Truthy(v) ==> d == DateV(NewDate(v, parse))
    ensures !Truthy(v) ==> d == DateV(ClockDate(now))
  {
    if Truthy(v) then DateV(NewDate(v, parse)) else DateV(ClockDate(now))
  }

  /** `date.toJSON()`: the ISO text, or null for an invalid date. */
  function DateJson(d: Date): (v: Value)
    ensures v == Null <==> d.InvalidDate?
  {
    if d.ValidDate? then Str(IsoString(d.ms)) else Null
  }

  /** `v?.toISOString()`: undefined for null and undefined, a RangeError for
      an invalid date, a TypeError for anything that is not a Date. */
  function OptIsoString(v: Value): Result<Value> {
    match v
    case Undefined => Ok(Undefined)
    case Null => Ok(Undefined)
    case DateV(d) =>
      if d.ValidDate? then Ok(Str(IsoString(d.ms))) else Err("RangeError: Invalid time value")
    case _ => Err("TypeError: toISOString is not a function")
  }

  /** `Number(s)` for a string: the StringToNumber grammar restricted to
      optionally signed decimal integers, surrounded by white space; an empty
      or blank string is 0; anything else is NaN. */
  function StringToNumber(s: string): Value {
    var t := TrimText(s);
    if |t| == 0 then Num(0)
    else if t[0] == '-' && |t| > 1 && AllDigits(t[1..]) then Num(0 - DigitsValue(t[1..]) as int)
    else if t[0] == '+' && |t| > 1 && AllDigits(t[1..]) then Num(DigitsValue(t[1..]))
    else if AllDigits(t) then Num(DigitsValue(t))
    else NaN
  }

  /** `Number(v)`: a `MeetingId` goes through the primitive its
      `toString` returns; other objects but Dates go through their text. */
  function ToNumber(v: Value): Value {
    match v
    case Num(n) => v
    case Str(s) => StringToNumber(s)
    case Bool(b) => Num(if b then 1 else 0)
    case Null => Num(0)
    case DateV(d) => if d.ValidDate? then Num(d.ms) else NaN
    case Id(cls, x) => if cls == MeetingIdClass && !IsObject(x) then ToNumber(x) else StringToNumber(ToStr(v))
    case _ => StringToNumber(ToStr(v))
  }

  /** The value of a string of decimal digits. */
  function DigitsValue(s: string): nat
    requires AllDigits(s)
  {
    if |s| == 0 then 0 else DigitsValue(s[..|s| - 1]) * 10 + (s[|s| - 1] as int - '0' as int)
  }

  /** `s.trim()` */
  function TrimText(s: string): (t: string)
    ensures |t| <= |s|
  {
    TrimEnd(TrimStart(s))
  }

  /** `s.trimStart()`: the suffix left once the leading white space is
      gone. */
  function TrimStart(s: string): (t: string)
    ensures |t| <= |s| && t == s[|s| - |t|..]
    ensures IsBlank(s[..|s| - |t|])
    ensures |t| > 0 ==> !IsJsWhitespace(t[0])
  {
    if |s| > 0 && IsJsWhitespace(s[0]) then
      var t := TrimStart(s[1..]);
      assert forall i :: 1 <= i < |s| - |t| ==> s[i] == s[1..][..|s| - 1 - |t|][i - 1];
      t
    else s
  }

  /** `s.trimEnd()`: the prefix left once the trailing white space is
      gone. */
  function TrimEnd(s: string): (t: string)
    ensures |t| <= |s| && t == s[..|t|]
    ensures IsBlank(s[|t|..])
    ensures |t| > 0 ==> !IsJsWhitespace(t[|t| - 1])
  {
    if |s| > 0 && IsJsWhitespace(s[|s| - 1]) then
      var init := s[..|s| - 1];
      var t := TrimEnd(init);
      assert forall i :: |t| <= i < |s| - 1 ==> s[i] == init[|t|..][i - |t|];
      t
    else s
  }

  /** `parseInt(s, 10)` for a string: leading white space and an optional
      sign, then the longest run of decimal digits; NaN when there is none. */
  function ParseInt10(s: string): Value {
    var t := TrimStart(s);
    var neg := |t| > 0 && t[0] == '-';
    var body := if |t| > 0 && (t[0] == '-' || t[0] == '+') then t[1..] else t;
    var k := DigitRun(body);
    if k == 0 then NaN
    else Num(if neg then 0 - DigitsValue(body[..k]) as int else DigitsValue(body[..k]))
  }

  function DigitRun(s: string): (k: nat)
    ensures k <= |s| && AllDigits(s[..k])
  {
    if |s| > 0 && IsDigit(s[0]) then
      var k := 1 + DigitRun(s[1..]);
      assert s[..k] == [s[0]] + s[1..][..k - 1];
      k
    else 0
  }
}

=== FILE: json_methods.dfy ===
/** `x.toJSON()` on a value that is not one of the program's entities.
    Entities are serialised by their own modules; what is left are the
    built-in and identifier classes that carry a `toJSON` method, and the
    values that carry none. */
module JsonMethods {
  import opened Js
  import opened Identifiers
  import Milestones
  import TeamMembers

  /** `typeof x.toJSON === 'function'`: a Date, a `MilestoneId` or a
      `ProjectTeamMemberId`.  Strings, numbers, booleans, arrays and the
      other identifier classes have no such method, and a record's own
      `toJSON` field is never a function, since functions are not values
      here. */
  predicate HasToJson(v: Value) {
    v.DateV? || IsInstance(v, MilestoneIdClass) || IsInstance(v, ProjectTeamMemberIdClass)
  }

  /** What that method returns: a Date's ISO text (null when invalid), a
      `MilestoneId`'s bare value, a `ProjectTeamMemberId`'s `{value}`. */
  function OwnToJson(v: Value): (r: Value)
    requires HasToJson(v)
    ensures v.DateV? ==> r == DateJson(v.d)
    ensures IsInstance(v, MilestoneIdClass) ==> r == v.value
    ensures IsInstance(v, ProjectTeamMemberIdClass) ==>
      r.Obj? && r.fields.Keys == {"value"} && r.fields["value"] == v.value
  {
    if v.DateV? then DateJson(v.d)
    else if v.cls == MilestoneIdClass then Milestones.IdToJson(v)
    else TeamMembers.IdToJson(v)
  }

  /** `x.toJSON` reads a property that is there but cannot be called: a
      record's own `toJSON` field holding a value.  `x?.toJSON?.()` throws
      on such a record and on nothing else. */
  predicate ToJsonNotCallable(v: Value) {
    v.Obj? && !IsNullish(Prop(v, "toJSON"))
  }
}

=== FILE: lists.dfy ===
/** The list shapes the assemblers and entities share: a response that is
    either one resource or an array of them, a mapping that stops at the
    first thrown error, and filtering that keeps order. */
module Lists {
  import opened Wrappers
  import opened Js

  /** `Array.isArray(v) ? v : [v]` */
  function AsList(v: Value): (l: seq<Value>)
    ensures v.Arr? ==> l == v.elems
    ensures !v.Arr? ==> l == [v]
  {
    if v.Arr? then v.elems else [v]
  }

  /** `xs.map(f)` where `f` may throw: the first error ends the mapping. */
  function MapAll<S, T>(xs: seq<S>, f: S -> Result<T>): (r: Result<seq<T>>)
    ensures r.Ok? <==> forall i :: 0 <= i < |xs| ==> f(xs[i]).Ok?
    ensures r.Ok? ==> |r.value| == |xs| && forall i :: 0 <= i < |xs| ==> r.value[i] == f(xs[i]).value
    decreases |xs|
  {
    if |xs| == 0 then Ok([])
    else
      var head :- f(xs[0]);
      var tail :- MapAll(xs[1..], f);
      assert forall i :: 1 <= i < |xs| ==> xs[i] == xs[1..][i - 1];
      Ok([head] + tail)
  }

  /** Each element paired with its position, for conversions that draw a
      fresh value (a UUID) per element. */
  function Indexed<S>(xs: seq<S>): (r: seq<(S, nat)>)
    ensures |r| == |xs|
    ensures forall i :: 0 <= i < |xs| ==> r[i] == (xs[i], i)
  {
    seq(|xs|, i requires 0 <= i < |xs| => (xs[i], i))
  }

  /** Mapping a list extended by one element: the first error, or the
      mapped list extended by the element's image. */
  lemma {:induction false} MapAllAppend<S, T>(xs: seq<S>, x: S, f: S -> Result<T>)
    ensures MapAll(xs + [x], f) ==
      (var a :- MapAll(xs, f);
       var b :- f(x);
       Ok(a + [b]))
    decreases |xs|
  {
    if |xs| == 0 {
      assert xs + [x] == [x] && [x][1..] == [];
      assert MapAll(xs, f) == Ok([]) && MapAll([x][1..], f) == Ok([]);
      if f(x).Ok? {
        assert MapAll([x], f) == Ok([f(x).value] + []);
        assert [] + [f(x).value] == [f(x).value] + [];
      }
    } else {
      assert (xs + [x])[0] == xs[0];
      assert (xs + [x])[1..] == xs[1..] + [x];
      MapAllAppend(xs[1..], x, f);
      if MapAll(xs, f).Ok? && f(x).Ok? {
        assert [f(xs[0]).value] + (MapAll(xs[1..], f).value + [f(x).value])
            == ([f(xs[0]).value] + MapAll(xs[1..], f).value) + [f(x).value];
      }
    }
  }

  /** `xs.filter(keep)` */
  function Filter<T>(xs: seq<T>, keep: T -> bool): (r: seq<T>)
    ensures |r| <= |xs|
    ensures forall x :: x in r ==> x in xs && keep(x)
    ensures forall x :: x in xs && keep(x) ==> x in r
    decreases |xs|
  {
    if |xs| == 0 then []
    else if keep(xs[0]) then [xs[0]] + Filter(xs[1..], keep)
    else Filter(xs[1..], keep)
  }

  /** Filtering keeps order: it distributes over concatenation. */
  lemma {:induction false} FilterConcat<T>(a: seq<T>, b: seq<T>, keep: T -> bool)
    ensures Filter(a + b, keep) == Filter(a, keep) + Filter(b, keep)
    decreases |a|
  {
    if |a| == 0 {
      assert a + b == b;
    } else {
      assert (a + b)[1..] == a[1..] + b;
      FilterConcat(a[1..], b, keep);
    }
  }

  /** Filtering twice with the same test is filtering once. */
  lemma {:induction false} FilterIdempotent<T>(xs: seq<T>, keep: T -> bool)
    ensures Filter(Filter(xs, keep), keep) == Filter(xs, keep)
    decreases |xs|
  {
    if |xs| > 0 {
      FilterIdempotent(xs[1..], keep);
    }
  }

  /** Filtering keeps everything when every element passes. */
  lemma {:induction false} FilterAll<T>(xs: seq<T>, keep: T -> bool)
    requires forall i :: 0 <= i < |xs| ==> keep(xs[i])
    ensures Filter(xs, keep) == xs
    decreases |xs|
  {
    if |xs| > 0 {
      FilterAll(xs[1..], keep);
      assert xs == [xs[0]] + xs[1..];
    }
  }

  /** `xs.map(x => { try { return f(x) } catch { return null } }).filter(x => x !== null)`:
      the results of the conversions that succeed, in order. */
  function Successes<S, T>(xs: seq<S>, f: S -> Result<T>): (r: seq<T>)
    ensures |r| <= |xs|
    ensures forall y :: y in r ==> exists i :: 0 <= i < |xs| && f(xs[i]) == Ok(y)
    decreases |xs|
  {
    if |xs| == 0 then []
    else
      var rest := Successes(xs[1..], f);
      assert forall y :: y in rest ==> exists i :: 0 <= i < |xs| && f(xs[i]) == Ok(y) by {
        forall y | y in rest ensures exists i :: 0 <= i < |xs| && f(xs[i]) == Ok(y) {
          var k :| 0 <= k < |xs[1..]| && f(xs[1..][k]) == Ok(y);
          assert f(xs[k + 1]) == Ok(y);
        }
      }
      match f(xs[0])
      case Ok(y) => [y] + rest
      case Err(_) => rest
  }

  /** When every conversion succeeds, nothing is dropped and the order is kept. */
  lemma {:induction false} SuccessesAllOk<S, T>(xs: seq<S>, f: S -> Result<T>)
    requires forall i :: 0 <= i < |xs| ==> f(xs[i]).Ok?
    ensures |Successes(xs, f)| == |xs|
    ensures forall i :: 0 <= i < |xs| ==> Successes(xs, f)[i] == f(xs[i]).value
    decreases |xs|
  {
    if |xs| > 0 {
      SuccessesAllOk(xs[1..], f);
      var rest := Successes(xs[1..], f);
      assert Successes(xs, f) == [f(xs[0]).value] + rest;
      forall i | 0 <= i < |xs| ensures Successes(xs, f)[i] == f(xs[i]).value {
        if i > 0 {
          assert xs[i] == xs[1..][i - 1];
        }
      }
    }
  }

  /** When every conversion fails, nothing is left. */
  lemma {:induction false} SuccessesAllErr<S, T>(xs: seq<S>, f: S -> Result<T>)
    requires forall i :: 0 <= i < |xs| ==> f(xs[i]).Err?
    ensures Successes(xs, f) == []
    decreases |xs|
  {
    if |xs| > 0 {
      SuccessesAllErr(xs[1..], f);
    }
  }
}

=== FILE: meetings.dfy ===
/** `Meeting`: a topic, a starting and an ending date, the team member who
    called it and its participants; and `MeetingId`, whose constructor keeps
    whatever it is given. */
module Meetings {
  import opened Wrappers
  import opened Dates
  import opened Js
  import opened Identifiers

  datatype Meeting = Meeting(
    id: Value,
    topic: Value,
    description: Value,
    startingDate: Value,
    endingDate: Value,
    calledBy: Value,
    participants: Value)

  /** The constructor's destructured argument; an absent field is `Undefined`. */
  datatype MeetingArgs = MeetingArgs(
    id: Value,
    topic: Value,
    description: Value,
    startingDate: Value,
    endingDate: Value,
    calledBy: Value,
    participants: Value)

  /** `new MeetingId()`: the value is whatever was passed, here nothing. */
  const EMPTY_MEETING_ID: Value := Id(MeetingIdClass, Undefined)

  /** What every constructed meeting satisfies. */
  predicate WellFormed(m: Meeting) {
    IsNonEmptyString(m.topic) && DatesInOrder(m.startingDate, m.endingDate)
    && IsInstance(m.calledBy, ProjectTeamMemberIdClass) && m.participants.Arr?
  }

  /** `new Meeting({...})`: missing dates are `now`, a missing caller is a
      fresh ProjectTeamMemberId holding `uuid`, a missing id is an empty
      MeetingId. */
  function NewMeeting(args: MeetingArgs, now: int, uuid: string): (r: Result<Meeting>)
    ensures r.Ok? ==> WellFormed(r.value)
    ensures r.Ok? ==> r.value.topic == args.topic
    ensures r.Ok? ==> r.value.id == Default(args.id, EMPTY_MEETING_ID)
    ensures r.Ok? ==> r.value.description == Default(args.description, Str(""))
    ensures r.Ok? && args.participants != Undefined ==> r.value.participants == args.participants
    ensures r.Ok? && args.calledBy != Undefined ==> r.value.calledBy == args.calledBy
  {
    var topic := Default(args.topic, Str(""));
    var start := Default(args.startingDate, DateV(ClockDate(now)));
    var end := Default(args.endingDate, DateV(ClockDate(now)));
    var calledBy := Default(args.calledBy, NewId(ProjectTeamMemberIdClass, Undefined, uuid));
    var participants := Default(args.participants, Arr([]));
    if !IsNonEmptyString(topic) then Err("Topic is required and must be a non-empty string")
    else if !start.DateV? then Err("Starting date must be a valid Date object")
    else if !end.DateV? then Err("Ending date must be a valid Date object")
    else if Before(end.d, start.d) then Err("Ending date cannot be earlier than starting date")
    else if !IsInstance(calledBy, ProjectTeamMemberIdClass) then Err("Called by must be a valid ProjectTeamMemberId object")
    else if !participants.Arr? then Err("Participants must be an array")
    else Ok(Meeting(Default(args.id, EMPTY_MEETING_ID), topic, Default(args.description, Str("")),
                    start, end, calledBy, participants))
  }

  /** The constructor accepts exactly a non-empty string topic, two Dates in
      order, a ProjectTeamMemberId caller and an array of participants, the
      defaults applied. */
  lemma AcceptsExactly(args: MeetingArgs, now: int, uuid: string)
    ensures NewMeeting(args, now, uuid).Ok? <==>
      IsNonEmptyString(args.topic)
      && DatesInOrder(Default(args.startingDate, DateV(ClockDate(now))), Default(args.endingDate, DateV(ClockDate(now))))
      && (args.calledBy == Undefined || IsInstance(args.calledBy, ProjectTeamMemberIdClass))
      && (args.participants == Undefined || args.participants.Arr?)
  {
  }

  /** `MeetingId.toString`: the stored value. */
  function MeetingIdText(id: Value): (v: Value)
    ensures IsInstance(id, MeetingIdClass) ==> v == id.value
  {
    Prop(id, "value")
  }

  /** Wherever JavaScript turns a MeetingId into a primitive (`String(id)`,
      a template literal, `Number(id)`, `new Date(id)`) it goes through
      `toString`, so the id behaves as the primitive it holds. */
  lemma IdConvertsAsItsValue(x: Value, parse: string -> Date)
    requires !IsObject(x)
    ensures ToStr(Id(MeetingIdClass, x)) == ToStr(MeetingIdText(Id(MeetingIdClass, x)))
    ensures ToNumber(Id(MeetingIdClass, x)) == ToNumber(MeetingIdText(Id(MeetingIdClass, x)))
    ensures NewDate(Id(MeetingIdClass, x), parse) == NewDate(MeetingIdText(Id(MeetingIdClass, x)), parse)
  {
  }

  /** Unlike the other identifier classes, a meeting given no id holds one
      with no value at all. */
  lemma DefaultIdHasNoValue(args: MeetingArgs, now: int, uuid: string)
    requires args.id == Undefined && NewMeeting(args, now, uuid).Ok?
    ensures MeetingIdText(NewMeeting(args, now, uuid).value.id) == Undefined
  {
  }

  /** `updateTopic` */
  function UpdateTopic(m: Meeting, topic: Value): (r: Result<Meeting>)
    ensures r.Ok? <==> IsNonEmptyString(topic)
    ensures r.Err? ==> r.error == "Topic must be a non-empty string"
    ensures r.Ok? ==> r.value.topic == topic && r.value.(topic := m.topic) == m
  {
    if !IsNonEmptyString(topic) then Err("Topic must be a non-empty string")
    else Ok(m.(topic := topic))
  }

  /** `updateStartingDate`: only the type is checked. */
  function UpdateStartingDate(m: Meeting, date: Value): (r: Result<Meeting>)
    ensures r.Ok? <==> date.DateV?
    ensures r.Err? ==> r.error == "Starting date must be a valid Date object"
    ensures r.Ok? ==> r.value.startingDate == date && r.value.(startingDate := m.startingDate) == m
  {
    if !date.DateV? then Err("Starting date must be a valid Date object")
    else Ok(m.(startingDate := date))
  }

  /** `updateEndingDate`: a Date not earlier than the current start. */
  function UpdateEndingDate(m: Meeting, date: Value): (r: Result<Meeting>)
    ensures r.Ok? <==> date.DateV? && !(m.startingDate.DateV? && Before(date.d, m.startingDate.d))
    ensures !date.DateV? ==> r == Err("Ending date must be a valid Date object")
    ensures r.Ok? ==> r.value.endingDate == date && r.value.(endingDate := m.endingDate) == m
  {
    if !date.DateV? then Err("Ending date must be a valid Date object")
    else if m.startingDate.DateV? && Before(date.d, m.startingDate.d) then
      Err("Ending date cannot be earlier than starting date")
    else Ok(m.(endingDate := date))
  }

  /** `updateCalledBy` */
  function UpdateCalledBy(m: Meeting, calledBy: Value): (r: Result<Meeting>)
    ensures r.Ok? <==> IsInstance(calledBy, ProjectTeamMemberIdClass)
    ensures r.Err? ==> r.error == "Called by must be a valid ProjectTeamMemberId object"
    ensures r.Ok? ==> r.value.calledBy == calledBy && r.value.(calledBy := m.calledBy) == m
  {
    if !IsInstance(calledBy, ProjectTeamMemberIdClass) then Err("Called by must be a valid ProjectTeamMemberId object")
    else Ok(m.(calledBy := calledBy))
  }

  /** `setParticipants`: the list is replaced. */
  function SetParticipants(m: Meeting, participants: Value): (r: Result<Meeting>)
    ensures r.Ok? <==> participants.Arr?
    ensures r.Err? ==> r.error == "Participants must be an array"
    ensures r.Ok? ==> r.value.participants == participants && r.value.(participants := m.participants) == m
  {
    if !participants.Arr? then Err("Participants must be an array")
    else Ok(m.(participants := participants))
  }

  /** Every mutator but `updateStartingDate` keeps a meeting well formed; in
      particular a new ending date is never earlier than the start. */
  lemma UpdatesKeepWellFormed(m: Meeting, topic: Value, end: Value, calledBy: Value, participants: Value)
    requires WellFormed(m)
    ensures UpdateTopic(m, topic).Ok? ==> WellFormed(UpdateTopic(m, topic).value)
    ensures UpdateEndingDate(m, end).Ok? ==> WellFormed(UpdateEndingDate(m, end).value)
    ensures UpdateCalledBy(m, calledBy).Ok? ==> WellFormed(UpdateCalledBy(m, calledBy).value)
    ensures SetParticipants(m, participants).Ok? ==> WellFormed(SetParticipants(m, participants).value)
  {
  }

  /** `updateStartingDate` does not compare with the ending date: a start
      after the end is accepted and leaves the meeting out of order. */
  lemma StartAfterEndIsAccepted(m: Meeting)
    requires WellFormed(m) && m.endingDate.d.ValidDate?
    ensures var r := UpdateStartingDate(m, DateV(ValidDate(m.endingDate.d.ms + 1)));
      r.Ok? && !DatesInOrder(r.value.startingDate, r.value.endingDate)
  {
  }
}

=== FILE: members.dfy ===
/** `OrganizationMember`: a person's membership in an organization, as a
    WORKER or a CONTRACTOR. */
module Members {
  import opened Dates
  import opened Js
  import opened Enums

  datatype Member = Member(id: Value, personId: Value, organizationId: Value, kind: Value, joinedAt: Value)

  /** `new OrganizationMember({...})`: each identifier is kept when it is a
      number and is null otherwise; the type defaults to CONTRACTOR and the
      joining date to now. */
  function NewMember(args: map<string, Value>, now: int): (m: Member)
    ensures IsNumber(FieldOf(args, "id")) ==> m.id == FieldOf(args, "id")
    ensures !IsNumber(FieldOf(args, "id")) ==> m.id == Null
    ensures IsNumber(FieldOf(args, "personId")) ==> m.personId == FieldOf(args, "personId")
    ensures !IsNumber(FieldOf(args, "personId")) ==> m.personId == Null
    ensures IsNumber(FieldOf(args, "organizationId")) ==> m.organizationId == FieldOf(args, "organizationId")
    ensures !IsNumber(FieldOf(args, "organizationId")) ==> m.organizationId == Null
    ensures FieldOf(args, "type") == Undefined ==> m.kind == CONTRACTOR
    ensures FieldOf(args, "type") != Undefined ==> m.kind == FieldOf(args, "type")
    ensures FieldOf(args, "joinedAt") == Undefined ==> m.joinedAt == DateV(ClockDate(now))
    ensures FieldOf(args, "joinedAt") != Undefined ==> m.joinedAt == FieldOf(args, "joinedAt")
  {
    Member(
      NumberOrNull(Default(FieldOf(args, "id"), Null)),
      NumberOrNull(Default(FieldOf(args, "personId"), Null)),
      NumberOrNull(Default(FieldOf(args, "organizationId"), Null)),
      Default(FieldOf(args, "type"), CONTRACTOR),
      Default(FieldOf(args, "joinedAt"), DateV(ClockDate(now))))
  }

  /** What a constructed member satisfies. */
  predicate WellFormed(m: Member) {
    (IsNumber(m.id) || m.id == Null)
    && (IsNumber(m.personId) || m.personId == Null)
    && (IsNumber(m.organizationId) || m.organizationId == Null)
    && m.kind != Undefined && m.joinedAt != Undefined
  }

  /** `changeType`: any value is accepted. */
  function ChangeType(m: Member, newType: Value): (r: Member)
    ensures r.kind == newType
    ensures r.(kind := m.kind) == m
  {
    m.(kind := newType)
  }

  /** `isWorker` */
  predicate IsWorker(m: Member) {
    StrictEq(m.kind, WORKER)
  }

  /** `isContractor` */
  predicate IsContractor(m: Member) {
    StrictEq(m.kind, CONTRACTOR)
  }

  /** `toJSON`: the five fields as they are. */
  function ToJson(m: Member): (j: map<string, Value>)
    ensures j.Keys == {"id", "personId", "organizationId", "type", "joinedAt"}
    ensures j["id"] == m.id && j["personId"] == m.personId && j["organizationId"] == m.organizationId
    ensures j["type"] == m.kind && j["joinedAt"] == m.joinedAt
  {
    map["id" := m.id, "personId" := m.personId, "organizationId" := m.organizationId,
        "type" := m.kind, "joinedAt" := m.joinedAt]
  }

  /** Every constructed member is well formed. */
  lemma NewMemberWellFormed(args: map<string, Value>, now: int)
    ensures WellFormed(NewMember(args, now))
  {
  }

  /** No member is both a worker and a contractor. */
  lemma NeverBoth(m: Member)
    ensures !(IsWorker(m) && IsContractor(m))
  {
  }

  /** After `changeType(t)` the member is a worker exactly when `t` is WORKER,
      and a contractor exactly when `t` is CONTRACTOR. */
  lemma ChangeTypeDecides(m: Member, t: Value)
    ensures IsWorker(ChangeType(m, t)) <==> t == WORKER
    ensures IsContractor(ChangeType(m, t)) <==> t == CONTRACTOR
  {
  }

  /** A member built from its own `toJSON` is the same member. */
  lemma JsonRoundTrip(m: Member, now: int)
    requires WellFormed(m)
    ensures NewMember(ToJson(m), now) == m
  {
  }
}

=== FILE: milestone_assembler.dfy ===
/** `MilestoneAssembler`: milestones read from API resources.  Both spellings
    of the date fields are accepted and numeric texts become numbers; there
    is no `catch`, so the constructor's errors reach the caller. */
module MilestoneAssembler {
  import opened Wrappers
  import opened Dates
  import opened Js
  import opened Lists
  import opened Identifiers
  import opened Milestones

  /** `typeof v === 'string' && !isNaN(Number(v)) ? Number(v) : v` */
  function ReadNumeric(v: Value): (r: Value)
    ensures !v.Str? ==> r == v
    ensures v.Str? && !StringToNumber(v.s).NaN? ==> r == StringToNumber(v.s) && r.Num?
    ensures v.Str? && StringToNumber(v.s).NaN? ==> r == v
  {
    if v.Str? && !StringToNumber(v.s).NaN? then StringToNumber(v.s) else v
  }

  /** The empty text is a number too: `Number('')` is 0. */
  lemma EmptyTextIsZero()
    ensures ReadNumeric(Str("")) == Num(0)
  {
    assert TrimText("") == "";
  }

  /** `resource.items || []`: an array becomes a list of plain items. */
  function ReadItems(v: Value): (items: ItemList)
    ensures !Truthy(v) ==> items == Items([])
    ensures v.Arr? ==> items.Items? && |items.elems| == |v.elems|
  {
    if !Truthy(v) then Items([])
    else if v.Arr? then Items(seq(|v.elems|, i requires 0 <= i < |v.elems| => Plain(v.elems[i])))
    else NotArray(v)
  }

  /** The constructor argument: `startDate || startingDate` and
      `endDate || endingDate`, each then `new Date(...)` or `now`. */
  function ResourceArgs(resource: Value, now: int, parse: string -> Date): (args: MilestoneArgs)
    ensures args.startDate.DateV? && args.endDate.DateV? && args.items != NO_ITEMS
    ensures args.name == Prop(resource, "name")
  {
    MilestoneArgs(
      ReadNumeric(Prop(resource, "id")),
      Prop(resource, "name"),
      DateOrNow(Or(Prop(resource, "startDate"), Prop(resource, "startingDate")), now, parse),
      DateOrNow(Or(Prop(resource, "endDate"), Prop(resource, "endingDate")), now, parse),
      ReadItems(Prop(resource, "items")))
  }

  /** `toEntityFromResource`.  The `projectId` the assembler also normalises is
      not a constructor field and is dropped. */
  function FromResource(resource: Value, now: int, parse: string -> Date, uuid: string): (r: Result<Milestone>)
    ensures IsNullish(resource) ==> r == Err(ReadError(resource))
    ensures r.Ok? ==> WellFormed(r.value)
    ensures !IsNullish(resource) && !IsNonEmptyString(Prop(resource, "name"))
      ==> r == Err("Name is required and must be a non-empty string")
  {
    if IsNullish(resource) then Err(ReadError(resource))
    else NewMilestone(ResourceArgs(resource, now, parse), now, uuid)
  }

  /** The older field names are read when the newer ones are falsy. */
  lemma OlderDateNamesAreRead(resource: Value, now: int, parse: string -> Date, uuid: string)
    requires FromResource(resource, now, parse, uuid).Ok?
    requires !Truthy(Prop(resource, "startDate")) && Truthy(Prop(resource, "startingDate"))
    requires !Truthy(Prop(resource, "endDate")) && Truthy(Prop(resource, "endingDate"))
    ensures FromResource(resource, now, parse, uuid).value.startDate == DateV(NewDate(Prop(resource, "startingDate"), parse))
    ensures FromResource(resource, now, parse, uuid).value.endDate == DateV(NewDate(Prop(resource, "endingDate"), parse))
  {
  }

  /** A numeric text id becomes a number, which is stored unwrapped, so
      `toJSON` writes its id as null. */
  lemma NumericTextIdIsLost(resource: Value, now: int, parse: string -> Date, uuid: string)
    requires FromResource(resource, now, parse, uuid).Ok?
    requires Prop(resource, "id").Str? && !StringToNumber(Prop(resource, "id").s).NaN?
    ensures FromResource(resource, now, parse, uuid).value.id == StringToNumber(Prop(resource, "id").s)
    ensures Milestones.ToJson(FromResource(resource, now, parse, uuid).value).id == Null
  {
  }

  /** `toEntitiesFromResponse`: a single resource is a list of one; the
      first error is thrown.  Each construction draws its own UUID: element
      `i` gets `uuids(i)`. */
  function Response(response: Value, now: int, parse: string -> Date, uuids: nat -> string): (r: Result<seq<Milestone>>)
    ensures r.Ok? ==> |r.value| == |AsList(response)|
    ensures r.Ok? ==> forall i :: 0 <= i < |r.value| ==>
      Ok(r.value[i]) == FromResource(AsList(response)[i], now, parse, uuids(i))
    ensures r.Ok? <==> forall i :: 0 <= i < |AsList(response)| ==> FromResource(AsList(response)[i], now, parse, uuids(i)).Ok?
  {
    MapAll(Indexed(AsList(response)), (p: (Value, nat)) => FromResource(p.0, now, parse, uuids(p.1)))
  }

  /** Two resources without an id get different MilestoneIds whenever
      their UUIDs differ. */
  lemma ResponseDrawsDistinctIds(response: Value, now: int, parse: string -> Date, uuids: nat -> string, i: nat, j: nat)
    requires Response(response, now, parse, uuids).Ok?
    requires i < j < |AsList(response)| && uuids(i) != uuids(j)
    requires Prop(AsList(response)[i], "id") == Undefined && Prop(AsList(response)[j], "id") == Undefined
    ensures Response(response, now, parse, uuids).value[i].id == Id(MilestoneIdClass, Str(uuids(i)))
    ensures Response(response, now, parse, uuids).value[i].id != Response(response, now, parse, uuids).value[j].id
  {
    var ms := Response(response, now, parse, uuids).value;
    var xs := AsList(response);
    assert Ok(ms[i]) == FromResource(xs[i], now, parse, uuids(i));
    assert Ok(ms[j]) == FromResource(xs[j], now, parse, uuids(j));
  }

  /** Even a missing response is wrapped, so it fails on its single
      undefined resource. */
  lemma MissingResponseFails(now: int, parse: string -> Date, uuids: nat -> string)
    ensures Response(Undefined, now, parse, uuids).Err?
  {
    assert AsList(Undefined) == [Undefined];
  }
}

=== FILE: milestones.dfy ===
/** `Milestone`: a named span of time holding schedule items; and
    `MilestoneId`. */
module Milestones {
  import opened Wrappers
  import opened Dates
  import opened Js
  import opened Identifiers
  import opened ScheduleItems
  import Meetings

  /** An element of a milestone's item list: an item made by the factories,
      or any other value a resource carried. */
  datatype Item = Scheduled(item: ScheduleItem) | Plain(v: Value)

  /** The `items` field: an array, or whatever else the constructor was
      given (it is not checked).  An array value is always written as
      `Items`, so `NotArray` holds no array. */
  datatype ItemList = Items(elems: seq<Item>) | NotArray(v: Value)

  /** An absent `items` argument. */
  const NO_ITEMS: ItemList := NotArray(Undefined)

  datatype Milestone = Milestone(id: Value, name: Value, startDate: Value, endDate: Value, items: ItemList)

  /** The constructor's destructured argument; an absent field is `Undefined`
      (for the items, `NO_ITEMS`). */
  datatype MilestoneArgs = MilestoneArgs(id: Value, name: Value, startDate: Value, endDate: Value, items: ItemList)

  /** What every constructed milestone satisfies. */
  predicate WellFormed(m: Milestone) {
    IsNonEmptyString(m.name) && DatesInOrder(m.startDate, m.endDate)
  }

  /** `new Milestone({...})`: a missing id is a MilestoneId holding `uuid`,
      missing dates are `now`, missing items are `[]`. */
  function NewMilestone(args: MilestoneArgs, now: int, uuid: string): (r: Result<Milestone>)
    ensures r.Ok? ==> WellFormed(r.value)
    ensures r.Ok? ==> r.value.name == args.name && r.value.id == Default(args.id, NewId(MilestoneIdClass, Undefined, uuid))
    ensures r.Ok? && args.startDate != Undefined ==> r.value.startDate == args.startDate
    ensures r.Ok? && args.endDate != Undefined ==> r.value.endDate == args.endDate
    ensures r.Ok? ==> r.value.items == (if args.items == NO_ITEMS then Items([]) else args.items)
  {
    var name := Default(args.name, Str(""));
    var start := Default(args.startDate, DateV(ClockDate(now)));
    var end := Default(args.endDate, DateV(ClockDate(now)));
    if !IsNonEmptyString(name) then Err("Name is required and must be a non-empty string")
    else if !start.DateV? then Err("Start date must be a valid Date object")
    else if !end.DateV? then Err("End date must be a valid Date object")
    else if Before(end.d, start.d) then Err("End date cannot be earlier than start date")
    else Ok(Milestone(Default(args.id, NewId(MilestoneIdClass, Undefined, uuid)), name, start, end,
                      if args.items == NO_ITEMS then Items([]) else args.items))
  }

  /** The constructor accepts exactly a non-empty string name and two Dates
      in order, the defaults applied. */
  lemma AcceptsExactly(args: MilestoneArgs, now: int, uuid: string)
    ensures NewMilestone(args, now, uuid).Ok? <==>
      IsNonEmptyString(args.name)
      && DatesInOrder(Default(args.startDate, DateV(ClockDate(now))), Default(args.endDate, DateV(ClockDate(now))))
  {
  }

  /** `updateName` */
  function UpdateName(m: Milestone, name: Value): (r: Result<Milestone>)
    ensures r.Ok? <==> IsNonEmptyString(name)
    ensures r.Err? ==> r.error == "New name is required and must be a non-empty string"
    ensures r.Ok? ==> r.value.name == name && r.value.(name := m.name) == m
  {
    if !IsNonEmptyString(name) then Err("New name is required and must be a non-empty string")
    else Ok(m.(name := name))
  }

  /** `updateStartDate`: only the type is checked. */
  function UpdateStartDate(m: Milestone, date: Value): (r: Result<Milestone>)
    ensures r.Ok? <==> date.DateV?
    ensures r.Err? ==> r.error == "New start date is required and must be a Date object"
    ensures r.Ok? ==> r.value.startDate == date && r.value.(startDate := m.startDate) == m
  {
    if !date.DateV? then Err("New start date is required and must be a Date object")
    else Ok(m.(startDate := date))
  }

  /** `updateEndDate`: only the type is checked. */
  function UpdateEndDate(m: Milestone, date: Value): (r: Result<Milestone>)
    ensures r.Ok? <==> date.DateV?
    ensures r.Err? ==> r.error == "New end date is required and must be a Date object"
    ensures r.Ok? ==> r.value.endDate == date && r.value.(endDate := m.endDate) == m
  {
    if !date.DateV? then Err("New end date is required and must be a Date object")
    else Ok(m.(endDate := date))
  }

  /** Neither date update compares with the other date: an end before the
      start is accepted and leaves the milestone out of order. */
  lemma EndBeforeStartIsAccepted(m: Milestone)
    requires WellFormed(m) && m.startDate.d.ValidDate?
    ensures var r := UpdateEndDate(m, DateV(ValidDate(m.startDate.d.ms - 1)));
      r.Ok? && !WellFormed(r.value)
  {
  }

  /** `item instanceof ScheduleItem`: tasks extend ScheduleItem, meetings do
      not, and plain values are no instances. */
  predicate IsScheduleItem(item: Item) {
    item.Scheduled? && item.item.TaskItem?
  }

  /** `addItem`: a schedule item is pushed onto the array. */
  function AddItem(m: Milestone, item: Item): (r: Result<Milestone>)
    ensures r.Ok? <==> IsScheduleItem(item) && m.items.Items?
    ensures !IsScheduleItem(item) ==> r == Err("Item must be a valid ScheduleItem")
    ensures IsScheduleItem(item) && m.items.NotArray? && IsNullish(m.items.v) ==> r == Err(ReadError(m.items.v))
    ensures r.Ok? ==> m.items.Items? && r.value.items == Items(m.items.elems + [item]) && r.value.(items := m.items) == m
  {
    if !IsScheduleItem(item) then Err("Item must be a valid ScheduleItem")
    else if !m.items.Items? then
      Err(if IsNullish(m.items.v) then ReadError(m.items.v) else "TypeError: this.items.push is not a function")
    else Ok(m.(items := Items(m.items.elems + [item])))
  }

  /** A meeting is never added to a milestone. */
  lemma MeetingsAreRefused(m: Milestone, meeting: Meetings.Meeting)
    ensures AddItem(m, Scheduled(MeetingItem(meeting))) == Err("Item must be a valid ScheduleItem")
  {
  }

  /** `===` on items: the same item, NaN excepted. */
  predicate SameItem(a: Item, b: Item) {
    a == b && a != Plain(NaN)
  }

  /** `items.indexOf(item)`: the first position holding the item, or -1. */
  function IndexOf(items: seq<Item>, item: Item): (k: int)
    ensures -1 <= k < |items|
    ensures k >= 0 ==> SameItem(items[k], item) && forall j :: 0 <= j < k ==> !SameItem(items[j], item)
    ensures k == -1 <==> forall j :: 0 <= j < |items| ==> !SameItem(items[j], item)
    decreases |items|
  {
    if |items| == 0 then -1
    else if SameItem(items[0], item) then 0
    else
      var k := IndexOf(items[1..], item);
      assert forall j :: 1 <= j < |items| ==> items[j] == items[1..][j - 1];
      if k == -1 then -1 else k + 1
  }

  /** `String(item)`, the text a string's `indexOf` looks for. */
  function ItemText(item: Item): string {
    match item
    case Scheduled(_) => "[object Object]"
    case Plain(v) => ToStr(v)
  }

  /** `removeItem`: the first occurrence is spliced out.  Items held in a
      string are searched as text, and a string cannot be spliced. */
  function RemoveItem(m: Milestone, item: Item): (r: Result<Milestone>)
    ensures r.Ok? ==> m.items.Items?
    ensures m.items.Items? ==> (r.Ok? <==> IndexOf(m.items.elems, item) >= 0)
    ensures m.items.Items? && r.Err? ==> r.error == "Item not found in the milestone"
    ensures m.items.NotArray? && IsNullish(m.items.v) ==> r == Err(ReadError(m.items.v))
    ensures m.items.NotArray? && m.items.v.Str? ==>
      r == Err(if Text.IndexOf(m.items.v.s, ItemText(item), 0) == -1 then "Item not found in the milestone"
               else "TypeError: this.items.splice is not a function")
    ensures r.Ok? ==> m.items.Items? && var k := IndexOf(m.items.elems, item);
      r.value.items == Items(m.items.elems[..k] + m.items.elems[k + 1..]) && r.value.(items := m.items) == m
  {
    if !m.items.Items? then
      match m.items.v
      case Str(s) =>
        if Text.IndexOf(s, ItemText(item), 0) == -1 then Err("Item not found in the milestone")
        else Err("TypeError: this.items.splice is not a function")
      case Undefined => Err(ReadError(Undefined))
      case Null => Err(ReadError(Null))
      case _ => Err("TypeError: this.items.indexOf is not a function")
    else
      var k := IndexOf(m.items.elems, item);
      if k == -1 then Err("Item not found in the milestone")
      else Ok(m.(items := Items(m.items.elems[..k] + m.items.elems[k + 1..])))
  }

  /** Removal takes out exactly one element: the list shrinks by one and
      loses one copy of the item. */
  lemma RemoveDropsOne(m: Milestone, item: Item)
    requires RemoveItem(m, item).Ok?
    ensures |RemoveItem(m, item).value.items.elems| == |m.items.elems| - 1
    ensures multiset(RemoveItem(m, item).value.items.elems) + multiset{item} == multiset(m.items.elems)
  {
    var xs := m.items.elems;
    var k := IndexOf(xs, item);
    assert xs == xs[..k] + [xs[k]] + xs[k + 1..];
  }

  /** Adding an item that is not yet present and removing it again gives
      the milestone back. */
  lemma RemoveAfterAdd(m: Milestone, item: Item)
    requires IsScheduleItem(item) && m.items.Items? && item !in m.items.elems
    ensures RemoveItem(AddItem(m, item).value, item) == Ok(m)
  {
    var xs := m.items.elems;
    var ys := xs + [item];
    assert forall j :: 0 <= j < |xs| ==> !SameItem(ys[j], item) by {
      forall j | 0 <= j < |xs| ensures !SameItem(ys[j], item) {
        assert ys[j] == xs[j];
        assert xs[j] in xs;
      }
    }
    assert SameItem(ys[|xs|], item);
    assert IndexOf(ys, item) == |xs|;
    assert ys[..|xs|] + ys[|xs| + 1..] == xs;
  }

  /** The serialised form `toJSON` returns. */
  datatype MilestoneJson = MilestoneJson(id: Value, name: Value, startDate: Value, endDate: Value, items: ItemList)

  /** `MilestoneId.toJSON`: the bare value. */
  function IdToJson(id: Value): (v: Value)
    ensures IsInstance(id, MilestoneIdClass) ==> v == id.value
  {
    Prop(id, "value")
  }

  /** `toJSON`: the id unwrapped to its value, or null when there is none. */
  function ToJson(m: Milestone): (j: MilestoneJson)
    ensures IsInstance(m.id, MilestoneIdClass) && !IsNullish(m.id.value) ==> j.id == m.id.value
    ensures IsNullish(m.id) || IsNumber(m.id) ==> j.id == Null
    ensures j.name == m.name && j.items == m.items
  {
    MilestoneJson(ValueOrNull(m.id), m.name, m.startDate, m.endDate, m.items)
  }

  /** The serialised id wrapped again in a MilestoneId rebuilds the
      milestone. */
  lemma JsonRebuilds(m: Milestone, now: int, uuid: string)
    requires WellFormed(m) && IsInstance(m.id, MilestoneIdClass) && Truthy(m.id.value) && m.items != NO_ITEMS
    ensures var j := ToJson(m);
      NewMilestone(MilestoneArgs(NewId(MilestoneIdClass, j.id, uuid), j.name, j.startDate, j.endDate, j.items), now, uuid)
      == Ok(m)
  {
  }
}

=== FILE: money.dfy ===
/** The `Money` value object: an amount with an upper-case currency code. */
module MoneyModel {
  import opened Wrappers
  import opened Text
  import opened Js

  datatype Money = Money(amount: int, currency: string)

  /** What every constructed `Money` satisfies: the currency is upper case
      and not blank. */
  predicate Valid(m: Money) {
    IsUpper(m.currency) && !IsBlank(m.currency)
  }

  /** `new Money(amount = 0, currency = 'PEN')` */
  function NewMoney(amount: Value, currency: Value): (r: Result<Money>)
    ensures r.Ok? <==> (IsValidNumber(Default(amount, Num(0)))
                        && Default(currency, Str("PEN")).Str? && !IsBlank(Default(currency, Str("PEN")).s))
    ensures !IsValidNumber(Default(amount, Num(0))) ==> r == Err("Amount must be a valid number")
    ensures IsValidNumber(Default(amount, Num(0))) && r.Err? ==> r == Err("Currency must be a non-empty string")
    ensures r.Ok? ==> Valid(r.value) && r.value.amount == Default(amount, Num(0)).n
    ensures r.Ok? ==> r.value.currency == ToUpper(Default(currency, Str("PEN")).s)
  {
    var a := Default(amount, Num(0));
    var c := Default(currency, Str("PEN"));
    if !IsValidNumber(a) then Err("Amount must be a valid number")
    else if !c.Str? || IsBlank(c.s) then Err("Currency must be a non-empty string")
    else
      ToUpperIsUpper(c.s);
      ToUpperKeepsBlank(c.s);
      Ok(Money(a.n, ToUpper(c.s)))
  }

  /** `new Money()` and `new Money(0)`: zero soles. */
  const ZERO_PEN: Money := Money(0, "PEN")

  /** "PEN" is an upper-case, non-blank currency code. */
  lemma ZeroPenIsValid()
    ensures Valid(ZERO_PEN)
  {
    var c := ZERO_PEN.currency;
    assert c[0] == 'P' && c[1] == 'E' && c[2] == 'N';
    assert !IsJsWhitespace(c[0]);
  }

  /** `new Money()` and `new Money(0)` are zero in the default currency. */
  lemma ZeroPenIsDefaultMoney()
    ensures NewMoney(Undefined, Undefined) == Ok(ZERO_PEN)
    ensures NewMoney(Num(0), Undefined) == Ok(ZERO_PEN)
  {
    ZeroPenIsValid();
    UpperOfValid(ZERO_PEN);
  }

  /** `#validateCurrencyMatch` */
  function CheckCurrency(m: Money, other: Arg<Money>): (r: Result<Money>)
    ensures r.Ok? <==> other.Inst? && other.obj.currency == m.currency
    ensures r.Ok? ==> r.value == other.obj
  {
    match other
    case Raw(_) => Err("Argument must be a Money instance")
    case Inst(o) =>
      if m.currency != o.currency then Err("Currency mismatch: " + m.currency + " vs " + o.currency)
      else Ok(o)
  }

  /** `add` */
  function Add(m: Money, other: Arg<Money>): (r: Result<Money>)
    ensures Valid(m) ==> (r.Ok? <==> other.Inst? && other.obj.currency == m.currency)
    ensures r.Ok? ==> other.Inst? && r.value.amount == m.amount + other.obj.amount
    ensures r.Ok? ==> r.value.currency == ToUpper(m.currency)
    ensures Valid(m) && r.Ok? ==> r.value.currency == m.currency
  {
    assert Valid(m) ==> ToUpper(m.currency) == m.currency by {
      if Valid(m) { ToUpperIdempotent(m.currency); }
    }
    var o :- CheckCurrency(m, other);
    NewMoney(Num(m.amount + o.amount), Str(m.currency))
  }

  /** `subtract` */
  function Subtract(m: Money, other: Arg<Money>): (r: Result<Money>)
    ensures Valid(m) ==> (r.Ok? <==> other.Inst? && other.obj.currency == m.currency)
    ensures r.Ok? ==> other.Inst? && r.value.amount == m.amount - other.obj.amount
    ensures r.Ok? ==> r.value.currency == ToUpper(m.currency)
    ensures Valid(m) && r.Ok? ==> r.value.currency == m.currency
  {
    assert Valid(m) ==> ToUpper(m.currency) == m.currency by {
      if Valid(m) { ToUpperIdempotent(m.currency); }
    }
    var o :- CheckCurrency(m, other);
    NewMoney(Num(m.amount - o.amount), Str(m.currency))
  }

  /** `multiply` */
  function Multiply(m: Money, factor: Value): (r: Result<Money>)
    ensures !IsValidNumber(factor) ==> r == Err("Factor must be a valid number")
    ensures Valid(m) && IsValidNumber(factor) ==> r == Ok(Money(m.amount * factor.n, m.currency))
  {
    assert Valid(m) ==> ToUpper(m.currency) == m.currency by {
      if Valid(m) { ToUpperIdempotent(m.currency); }
    }
    if !IsValidNumber(factor) then Err("Factor must be a valid number")
    else NewMoney(Num(m.amount * factor.n), Str(m.currency))
  }

  /** `equals`: same currency and same amount, and only for Money. */
  predicate Equals(m: Money, other: Arg<Money>) {
    other.Inst? && m.currency == other.obj.currency && m.amount == other.obj.amount
  }

  /** `toJSON` */
  function ToJson(m: Money): (j: map<string, Value>)
    ensures j.Keys == {"amount", "currency"}
  {
    map["amount" := Num(m.amount), "currency" := Str(m.currency)]
  }

  /** Upper-casing a valid currency changes nothing. */
  lemma UpperOfValid(m: Money)
    requires Valid(m)
    ensures ToUpper(m.currency) == m.currency
  {
    ToUpperIdempotent(m.currency);
  }

  /** `equals` is equality of the two values. */
  lemma EqualsIsValueEquality(m: Money, o: Money)
    ensures Equals(m, Inst(o)) <==> m == o
  {
  }

  /** The serialized form builds the same Money back. */
  lemma JsonRoundTrip(m: Money)
    requires Valid(m)
    ensures NewMoney(ToJson(m)["amount"], ToJson(m)["currency"]) == Ok(m)
  {
    UpperOfValid(m);
  }

  /** The currency code is case-insensitive at construction. */
  lemma CurrencyCaseInsensitive(amount: int, c: string)
    ensures NewMoney(Num(amount), Str(c)) == NewMoney(Num(amount), Str(ToUpper(c)))
  {
    ToUpperKeepsBlank(c);
    ToUpperIsUpper(c);
    ToUpperIdempotent(ToUpper(c));
  }

  /** Subtracting what was added gives the original amount back. */
  lemma AddThenSubtract(m: Money, o: Money)
    requires Valid(m) && o.currency == m.currency
    ensures Add(m, Inst(o)).Ok?
    ensures Subtract(Add(m, Inst(o)).value, Inst(o)) == Ok(m)
  {
  }

  /** Addition in the same currency commutes and keeps that currency. */
  lemma AddCommutes(a: Money, b: Money)
    requires Valid(a) && Valid(b) && a.currency == b.currency
    ensures Add(a, Inst(b)) == Add(b, Inst(a))
  {
  }

  /** Multiplying by one changes nothing; by zero leaves a zero amount. */
  lemma MultiplyIdentities(m: Money)
    requires Valid(m)
    ensures Multiply(m, Num(1)) == Ok(m)
    ensures Multiply(m, Num(0)) == Ok(Money(0, m.currency))
  {
  }
}

=== FILE: org_assemblers.dfy ===
/** The assemblers that turn organization resources from the API into
    entities. */
module OrganizationAssemblers {
  import opened Wrappers
  import opened Dates
  import opened Js
  import opened Enums
  import opened Lists
  import opened Invitations
  import opened Members
  import opened IsoDates

  /** `OrganizationInvitationAssembler.toEntityFromResource` */
  function InvitationFromResource(resource: Value, now: int, parse: string -> Date): (r: Result<Invitation>)
    ensures r.Err? <==> IsNullish(resource)
    ensures r.Ok? ==> r.value.invitedOn == DateV(NewDate(Prop(resource, "invitedOn"), parse))
    ensures r.Ok? && Prop(resource, "status") == Undefined ==> r.value.status == INVITATION_PENDING
    ensures r.Ok? && !Truthy(Prop(resource, "acceptedAt")) ==> r.value.acceptedAt == Null
    ensures r.Ok? && !IsInteger(Prop(resource, "id")) ==> r.value.id == Null
  {
    if IsNullish(resource) then Err(ReadError(resource))
    else
      var acceptedAt := Prop(resource, "acceptedAt");
      Ok(NewInvitation(map[
        "id" := Prop(resource, "id"),
        "organizationName" := Prop(resource, "organizationName"),
        "personId" := Prop(resource, "personId"),
        "invitedByFullName" := Prop(resource, "invitedByFullName"),
        "invitedByEmail" := Prop(resource, "invitedByEmail"),
        "status" := Prop(resource, "status"),
        "invitedOn" := DateV(NewDate(Prop(resource, "invitedOn"), parse)),
        "acceptedAt" := if Truthy(acceptedAt) then DateV(NewDate(acceptedAt, parse)) else Null],
        now, parse))
  }

  /** `OrganizationInvitationAssembler.toEntitiesFromResponse` */
  function InvitationsFromResponse(response: Value, now: int, parse: string -> Date): (r: Result<seq<Invitation>>)
    ensures r.Ok? ==> |r.value| == |AsList(response)|
    ensures r.Ok? ==> forall i :: 0 <= i < |r.value| ==>
      Ok(r.value[i]) == InvitationFromResource(AsList(response)[i], now, parse)
    ensures r.Err? <==> exists i :: 0 <= i < |AsList(response)| && IsNullish(AsList(response)[i])
  {
    MapAll(AsList(response), (v: Value) => InvitationFromResource(v, now, parse))
  }

  /** `OrganizationMemberAssembler.toEntityFromResource` */
  function MemberFromResource(resource: Value, now: int, parse: string -> Date): (r: Result<Member>)
    ensures r.Err? <==> IsNullish(resource)
    ensures r.Ok? && !Truthy(Prop(resource, "joinedAt")) ==> r.value.joinedAt == DateV(ClockDate(now))
    ensures r.Ok? && Prop(resource, "type") == Undefined ==> r.value.kind == CONTRACTOR
    ensures r.Ok? && Prop(resource, "id").Str? ==> r.value.id == Null
  {
    if IsNullish(resource) then Err(ReadError(resource))
    else
      var joinedAt := Prop(resource, "joinedAt");
      Ok(NewMember(map[
        "id" := Prop(resource, "id"),
        "personId" := Prop(resource, "personId"),
        "organizationId" := Prop(resource, "organizationId"),
        "type" := Prop(resource, "type"),
        "joinedAt" := if Truthy(joinedAt) then DateV(NewDate(joinedAt, parse)) else DateV(ClockDate(now))],
        now))
  }

  /** `OrganizationMemberAssembler.toEntitiesFromResponse` */
  function MembersFromResponse(response: Value, now: int, parse: string -> Date): (r: Result<seq<Member>>)
    ensures r.Ok? ==> |r.value| == |AsList(response)|
    ensures r.Ok? ==> forall i :: 0 <= i < |r.value| ==>
      Ok(r.value[i]) == MemberFromResource(AsList(response)[i], now, parse)
    ensures r.Err? <==> exists i :: 0 <= i < |AsList(response)| && IsNullish(AsList(response)[i])
  {
    MapAll(AsList(response), (v: Value) => MemberFromResource(v, now, parse))
  }

  /** What an invitation holds when it came from the constructor with valid
      dates. */
  predicate WellFormedInvitation(inv: Invitation) {
    (IsInteger(inv.id) || inv.id == Null)
    && inv.organizationName != Undefined && inv.personId != Undefined
    && inv.invitedByFullName != Undefined && inv.invitedByEmail != Undefined
    && inv.status != Undefined
    && inv.invitedOn.DateV? && inv.invitedOn.d.ValidDate? && -MaxTime <= inv.invitedOn.d.ms <= MaxTime
    && (inv.acceptedAt == Null
        || (inv.acceptedAt.DateV? && inv.acceptedAt.d.ValidDate? && -MaxTime <= inv.acceptedAt.d.ms <= MaxTime))
  }

  /** The fields of an invitation as a constructor argument object. */
  function InvitationArgs(inv: Invitation): (args: map<string, Value>)
    ensures args.Keys == {"id", "organizationName", "personId", "invitedByFullName",
                          "invitedByEmail", "status", "invitedOn", "acceptedAt"}
  {
    map[
      "id" := inv.id,
      "organizationName" := inv.organizationName,
      "personId" := inv.personId,
      "invitedByFullName" := inv.invitedByFullName,
      "invitedByEmail" := inv.invitedByEmail,
      "status" := inv.status,
      "invitedOn" := inv.invitedOn,
      "acceptedAt" := inv.acceptedAt]
  }

  /** The constructor rebuilds a well-formed invitation from its own fields. */
  lemma NewInvitationOfOwnFields(inv: Invitation, now: int, parse: string -> Date)
    requires WellFormedInvitation(inv)
    ensures NewInvitation(InvitationArgs(inv), now, parse) == inv
  {
    var args := InvitationArgs(inv);
    assert FieldOf(args, "acceptedAt") == inv.acceptedAt;
    assert FieldOf(args, "id") == inv.id;
  }

  /** The assembler reads an invitation's `toJSON` object back as the same
      invitation, whatever the date texts are, as long as the first reads back
      as `invitedOn` and the second is absent exactly when `acceptedAt` is
      null and otherwise reads back as it. */
  lemma ReadBackFields(inv: Invitation, invitedOn: Value, acceptedAt: Value, now: int, parse: string -> Date)
    requires WellFormedInvitation(inv)
    requires DateV(NewDate(invitedOn, parse)) == inv.invitedOn
    requires inv.acceptedAt == Null ==> acceptedAt == Undefined
    requires inv.acceptedAt != Null ==> Truthy(acceptedAt) && DateV(NewDate(acceptedAt, parse)) == inv.acceptedAt
    ensures InvitationFromResource(Obj(JsonFields(inv, invitedOn, acceptedAt)), now, parse) == Ok(inv)
  {
    var res := Obj(JsonFields(inv, invitedOn, acceptedAt));
    assert Prop(res, "id") == inv.id;
    assert Prop(res, "organizationName") == inv.organizationName;
    assert Prop(res, "personId") == inv.personId;
    assert Prop(res, "invitedByFullName") == inv.invitedByFullName;
    assert Prop(res, "invitedByEmail") == inv.invitedByEmail;
    assert Prop(res, "status") == inv.status;
    assert Prop(res, "invitedOn") == invitedOn;
    assert Prop(res, "acceptedAt") == acceptedAt;
    NewInvitationOfOwnFields(inv, now, parse);
  }

  /** An invitation sent out with `toJSON` and read back by the assembler is
      the same invitation. */
  lemma InvitationRoundTrip(inv: Invitation, now: int, parse: string -> Date)
    requires WellFormedInvitation(inv) && ReadsIso(parse)
    ensures Invitations.ToJson(inv).Ok?
    ensures InvitationFromResource(Obj(Invitations.ToJson(inv).value), now, parse) == Ok(inv)
  {
    IsoReadBack(inv.invitedOn, parse);
    if inv.acceptedAt != Null {
      IsoReadBack(inv.acceptedAt, parse);
    }
    ReadBackFields(inv, OptIsoString(inv.invitedOn).value, OptIsoString(inv.acceptedAt).value, now, parse);
  }

  /** A member passed through its `toJSON` and read back is the same member. */
  lemma MemberRoundTrip(m: Member, now: int, parse: string -> Date)
    requires WellFormed(m) && m.joinedAt.DateV?
    ensures MemberFromResource(Obj(Members.ToJson(m)), now, parse) == Ok(m)
  {
  }

  /** A single invitation resource is read as a list of one. */
  lemma SingleInvitationIsWrapped(resource: Value, now: int, parse: string -> Date)
    requires !resource.Arr? && !IsNullish(resource)
    ensures InvitationsFromResponse(resource, now, parse) == Ok([InvitationFromResource(resource, now, parse).value])
  {
    assert AsList(resource) == [resource];
    var a := InvitationsFromResponse(resource, now, parse);
    assert a.Ok? && |a.value| == 1 && a.value == [a.value[0]];
  }

  /** A single member resource is read as a list of one. */
  lemma SingleMemberIsWrapped(resource: Value, now: int, parse: string -> Date)
    requires !resource.Arr? && !IsNullish(resource)
    ensures MembersFromResponse(resource, now, parse) == Ok([MemberFromResource(resource, now, parse).value])
  {
    assert AsList(resource) == [resource];
    var b := MembersFromResponse(resource, now, parse);
    assert b.Ok? && |b.value| == 1 && b.value == [b.value[0]];
  }
}

=== FILE: organizations.dfy ===
/** `Organization`: a company with a RUC, its members and the invitations it
    has sent. */
module Organizations {
  import opened Wrappers
  import opened Dates
  import opened Js
  import opened Enums
  import opened Lists
  import opened RucModel
  import opened Members
  import opened Invitations

  datatype Organization = Organization(
    id: Value,
    legalName: string,
    commercialName: Value,
    ruc: Ruc,
    createdBy: Value,
    createdAt: Value,
    members: seq<Member>,
    invitations: seq<Invitation>,
    status: Value)

  /** The constructor's parameter object.  `members` and `invitations` are
      `None` when the caller leaves them out. */
  datatype OrganizationArgs = OrganizationArgs(
    id: Value,
    legalName: Value,
    commercialName: Value,
    ruc: Arg<Ruc>,
    createdBy: Value,
    createdAt: Value,
    members: Option<seq<Member>>,
    invitations: Option<seq<Invitation>>)

  /** `new Organization({...})`, checking the legal name, then the RUC, then
      the creator.  The RUC is not validated beyond having a truthy value,
      and the status is left unset. */
  function NewOrganization(a: OrganizationArgs, now: int): (r: Result<Organization>)
    ensures !IsNonEmptyString(a.legalName) ==> r == Err("Legal name is required and must be a non-empty string")
    ensures IsNonEmptyString(a.legalName) && !(a.ruc.Inst? && Truthy(a.ruc.obj.value)) ==>
      r == Err("RUC must be a valid Ruc instance with a value")
    ensures IsNonEmptyString(a.legalName) && a.ruc.Inst? && Truthy(a.ruc.obj.value) && !IsNumber(a.createdBy) ==>
      r == Err("createdBy must be a valid person ID (number)")
    ensures r.Ok? <==> IsNonEmptyString(a.legalName) && a.ruc.Inst? && Truthy(a.ruc.obj.value) && IsNumber(a.createdBy)
    ensures r.Ok? ==> r.value.legalName == a.legalName.s && r.value.ruc == a.ruc.obj
    ensures r.Ok? ==> r.value.createdBy == a.createdBy && r.value.id == NumberOrNull(a.id)
    ensures r.Ok? ==> r.value.commercialName == (if a.commercialName == Undefined then Str("") else a.commercialName)
    ensures r.Ok? ==> r.value.createdAt == (if a.createdAt == Undefined then DateV(ClockDate(now)) else a.createdAt)
    ensures r.Ok? ==> (a.members.Some? ==> r.value.members == a.members.value) && (a.members.None? ==> r.value.members == [])
    ensures r.Ok? ==> (a.invitations.Some? ==> r.value.invitations == a.invitations.value)
                      && (a.invitations.None? ==> r.value.invitations == [])
    ensures r.Ok? ==> r.value.status == Undefined
  {
    if !IsNonEmptyString(a.legalName) then Err("Legal name is required and must be a non-empty string")
    else if !(a.ruc.Inst? && Truthy(a.ruc.obj.value)) then Err("RUC must be a valid Ruc instance with a value")
    else if !IsNumber(a.createdBy) then Err("createdBy must be a valid person ID (number)")
    else Ok(Organization(
      NumberOrNull(a.id),
      a.legalName.s,
      Default(a.commercialName, Str("")),
      a.ruc.obj,
      a.createdBy,
      Default(a.createdAt, DateV(ClockDate(now))),
      if a.members.Some? then a.members.value else [],
      if a.invitations.Some? then a.invitations.value else [],
      Undefined))
  }

  /** `updateLegalName` */
  function UpdateLegalName(o: Organization, v: Value): (r: Result<Organization>)
    ensures r.Ok? <==> IsNonEmptyString(v)
    ensures r.Err? ==> r.error == "Legal name must be a non-empty string"
    ensures r.Ok? ==> r.value == o.(legalName := v.s)
  {
    if !IsNonEmptyString(v) then Err("Legal name must be a non-empty string")
    else Ok(o.(legalName := v.s))
  }

  /** `updateCommercialName` */
  function UpdateCommercialName(o: Organization, v: Value): (r: Result<Organization>)
    ensures r.Ok? <==> IsNonEmptyString(v)
    ensures r.Err? ==> r.error == "Commercial name must be a non-empty string"
    ensures r.Ok? ==> r.value == o.(commercialName := v)
  {
    if !IsNonEmptyString(v) then Err("Commercial name must be a non-empty string")
    else Ok(o.(commercialName := v))
  }

  /** `addMember`: appended, with no duplicate check. */
  function AddMember(o: Organization, m: Member): (r: Organization)
    ensures r.members == o.members + [m]
    ensures r.(members := o.members) == o
  {
    o.(members := o.members + [m])
  }

  /** The test of `removeMemberByPersonId`'s filter. */
  function KeepsMember(personId: Value): Member -> bool {
    (m: Member) => !StrictEq(m.personId, personId)
  }

  /** `removeMemberByPersonId` */
  function RemoveMemberByPersonId(o: Organization, personId: Value): (r: Organization)
    ensures forall m :: m in r.members ==> m in o.members && !StrictEq(m.personId, personId)
    ensures forall m :: m in o.members && !StrictEq(m.personId, personId) ==> m in r.members
    ensures r.(members := o.members) == o
  {
    o.(members := Filter(o.members, KeepsMember(personId)))
  }

  /** The test `invitePerson` makes before inviting. */
  predicate HasPendingInvitation(invs: seq<Invitation>, personId: Value) {
    exists i :: 0 <= i < |invs| && StrictEq(invs[i].personId, personId) && IsPending(invs[i])
  }

  /** `invitePerson`: refused while the person has a pending invitation;
      otherwise a new invitation is appended and returned.  The entity's
      constructor does not take `organizationId` or `invitedBy`, so the new
      invitation records neither. */
  function InvitePerson(o: Organization, personId: Value, invitedBy: Value, now: int, parse: string -> Date)
    : (r: Result<(Organization, Invitation)>)
    ensures r.Err? <==> HasPendingInvitation(o.invitations, personId)
    ensures r.Err? ==> r.error == "Person already has a pending invitation"
    ensures r.Ok? ==> r.value.0 == o.(invitations := o.invitations + [r.value.1])
    ensures r.Ok? ==> IsPending(r.value.1) && r.value.1.personId == Default(personId, Str(""))
  {
    if HasPendingInvitation(o.invitations, personId) then Err("Person already has a pending invitation")
    else
      var inv := NewInvitation(map["organizationId" := o.id, "personId" := personId, "invitedBy" := invitedBy], now, parse);
      Ok((o.(invitations := o.invitations + [inv]), inv))
  }

  /** `deactivate` */
  function Deactivate(o: Organization): (r: Organization)
    ensures r.status == ORGANIZATION_INACTIVE
    ensures r.(status := o.status) == o
  {
    o.(status := ORGANIZATION_INACTIVE)
  }

  /** `toJSON`: members and invitations are left out; the RUC goes out as
      its value, or null. */
  function ToJson(o: Organization): (j: map<string, Value>)
    ensures j.Keys == {"id", "legalName", "commercialName", "ruc", "createdBy", "createdAt"}
    ensures j["ruc"] == Coalesce(o.ruc.value, Null)
    ensures j["legalName"] == Str(o.legalName) && j["id"] == o.id
  {
    map["id" := o.id, "legalName" := Str(o.legalName), "commercialName" := o.commercialName,
        "ruc" := Coalesce(o.ruc.value, Null), "createdBy" := o.createdBy, "createdAt" := o.createdAt]
  }

  /** No person has two pending invitations. */
  predicate AtMostOnePending(invs: seq<Invitation>) {
    forall i, j :: 0 <= i < j < |invs| && IsPending(invs[i]) && IsPending(invs[j])
      ==> !StrictEq(invs[i].personId, invs[j].personId)
  }

  /** `invitePerson` keeps at most one pending invitation per person, when
      the person is named. */
  lemma InvitePreservesAtMostOnePending(o: Organization, personId: Value, invitedBy: Value, now: int, parse: string -> Date)
    requires AtMostOnePending(o.invitations) && personId != Undefined
    requires InvitePerson(o, personId, invitedBy, now, parse).Ok?
    ensures AtMostOnePending(InvitePerson(o, personId, invitedBy, now, parse).value.0.invitations)
  {
    var r := InvitePerson(o, personId, invitedBy, now, parse).value;
    var invs := r.0.invitations;
    assert invs == o.invitations + [r.1];
    forall i, j | 0 <= i < j < |invs| && IsPending(invs[i]) && IsPending(invs[j])
      ensures !StrictEq(invs[i].personId, invs[j].personId)
    {
      if j == |invs| - 1 {
        assert invs[i] == o.invitations[i];
      }
    }
  }

  /** The guard compares against the argument while the constructor stores
      its default, so two calls without a person both succeed and leave two
      pending invitations for the empty person id. */
  lemma InviteWithoutPersonTwice(o: Organization, now: int, parse: string -> Date)
    requires o.invitations == []
    ensures var first := InvitePerson(o, Undefined, Undefined, now, parse);
      first.Ok? && InvitePerson(first.value.0, Undefined, Undefined, now, parse).Ok?
      && !AtMostOnePending(InvitePerson(first.value.0, Undefined, Undefined, now, parse).value.0.invitations)
  {
    var first := InvitePerson(o, Undefined, Undefined, now, parse);
    var invs1 := first.value.0.invitations;
    assert invs1 == [first.value.1];
    assert !HasPendingInvitation(invs1, Undefined);
    var second := InvitePerson(first.value.0, Undefined, Undefined, now, parse);
    var invs2 := second.value.0.invitations;
    assert invs2[0] == first.value.1 && invs2[1] == second.value.1;
  }

  /** Only a pending invitation blocks: once the person's invitations are
      all accepted or rejected, the person can be invited again. */
  lemma ReinviteAfterDecision(o: Organization, personId: Value, invitedBy: Value, now: int, parse: string -> Date)
    requires forall i :: (0 <= i < |o.invitations| && StrictEq(o.invitations[i].personId, personId))
                         ==> o.invitations[i].status in {INVITATION_ACCEPTED, INVITATION_REJECTED}
    ensures InvitePerson(o, personId, invitedBy, now, parse).Ok?
  {
  }

  /** Removing a person's memberships keeps the other members in order:
      removal distributes over the two halves of the list. */
  lemma RemoveKeepsOrder(o: Organization, a: seq<Member>, b: seq<Member>, personId: Value)
    requires o.members == a + b
    ensures RemoveMemberByPersonId(o, personId).members
         == RemoveMemberByPersonId(o.(members := a), personId).members
          + RemoveMemberByPersonId(o.(members := b), personId).members
  {
    FilterConcat(a, b, KeepsMember(personId));
  }

  /** A member added and then removed by the same person id is gone. */
  lemma AddThenRemove(o: Organization, m: Member)
    requires !m.personId.NaN?
    ensures RemoveMemberByPersonId(AddMember(o, m), m.personId).members
         == RemoveMemberByPersonId(o, m.personId).members
  {
    FilterConcat(o.members, [m], KeepsMember(m.personId));
  }

  /** `deactivate` is idempotent. */
  lemma DeactivateIdempotent(o: Organization)
    ensures Deactivate(Deactivate(o)) == Deactivate(o)
  {
  }
}

=== FILE: payments.dfy ===
/** `Payment`: an amount of Money paid by some method against an invoice,
    PENDING until it is confirmed or fails; and `PaymentId`, which always
    takes a fresh UUID.  The members of `PaymentMethodType` are a
    parameter. */
module Payments {
  import opened Wrappers
  import opened Dates
  import opened Js
  import opened Enums
  import opened Identifiers
  import opened MoneyModel
  import opened Agreements
  import opened JsonMethods

  datatype Payment = Payment(
    id: Value,
    amount: Money,
    status: Value,
    paymentMethod: Value,
    paidAt: Value,
    invoiceId: Value,
    recurringAgreement: Arg<Agreement>)

  /** The constructor's destructured argument; an absent field is
      `Undefined` (for the amount and the agreement, `Raw(Undefined)`). */
  datatype PaymentArgs = PaymentArgs(
    id: Value,
    amount: Arg<Money>,
    status: Value,
    paymentMethod: Value,
    paidAt: Value,
    invoiceId: Value,
    recurringAgreement: Arg<Agreement>)

  /** `new Payment({...})` as written: the module never imports `Money`, so
      the `instanceof Money` test on the first line of the body throws
      before any argument is looked at. */
  function NewPaymentAsWritten(args: PaymentArgs, methods: set<Value>, uuid: string): (r: Result<Payment>)
    ensures r.Err? && r.error == "ReferenceError: Money is not defined"
  {
    Err("ReferenceError: Money is not defined")
  }

  /** So no payment can be made at all, whatever the arguments: even those
      the corrected constructor accepts. */
  lemma AsWrittenNeverConstructs(args: PaymentArgs, methods: set<Value>, uuid: string)
    requires NewPayment(args, methods, uuid).Ok?
    ensures NewPaymentAsWritten(args, methods, uuid).Err?
    ensures NewPaymentAsWritten(args, methods, uuid) != NewPayment(args, methods, uuid)
  {
  }

  /** What every constructed payment satisfies. */
  predicate WellFormed(p: Payment, methods: set<Value>) {
    p.status in PAYMENT_STATUSES && p.paymentMethod in methods
  }

  /** `new Payment({...})` with `Money` imported: the status is PENDING and
      `paidAt` null unless given, a missing id is a fresh PaymentId holding
      `uuid`. */
  function NewPayment(args: PaymentArgs, methods: set<Value>, uuid: string): (r: Result<Payment>)
    ensures r.Ok? <==>
      args.amount.Inst? && Default(args.status, PAYMENT_PENDING) in PAYMENT_STATUSES && args.paymentMethod in methods
    ensures args.amount.Raw? ==> r == Err("amount must be an instance of Money")
    ensures args.amount.Inst? && Default(args.status, PAYMENT_PENDING) !in PAYMENT_STATUSES ==>
      r == Err("Invalid payment status")
    ensures r.Ok? ==> WellFormed(r.value, methods) && r.value.amount == args.amount.obj
    ensures r.Ok? ==> r.value.status == Default(args.status, PAYMENT_PENDING)
    ensures r.Ok? ==> r.value.paidAt == Default(args.paidAt, Null) && r.value.invoiceId == args.invoiceId
    ensures r.Ok? ==> r.value.id == Default(args.id, GeneratedId(PaymentIdClass, uuid))
  {
    var status := Default(args.status, PAYMENT_PENDING);
    if args.amount.Raw? then Err("amount must be an instance of Money")
    else if status !in PAYMENT_STATUSES then Err("Invalid payment status")
    else if args.paymentMethod !in methods then Err("Invalid payment method")
    else
      Ok(Payment(Default(args.id, GeneratedId(PaymentIdClass, uuid)), args.amount.obj, status, args.paymentMethod,
                 Default(args.paidAt, Null), args.invoiceId,
                 if args.recurringAgreement == Raw(Undefined) then Raw(Null) else args.recurringAgreement))
  }

  /** `markAsPaid(date)`: refused only for a payment already CONFIRMED, so
      a FAILED payment can still be paid.  A missing date is `now`. */
  function MarkAsPaid(p: Payment, date: Value, now: int): (r: Result<Payment>)
    ensures r.Ok? <==> p.status != PAYMENT_CONFIRMED
    ensures r.Err? ==> r.error == "Payment is already marked as paid"
    ensures r.Ok? ==> r.value.status == PAYMENT_CONFIRMED && r.value.paidAt == Default(date, DateV(ClockDate(now)))
    ensures r.Ok? ==> r.value.(status := p.status, paidAt := p.paidAt) == p
  {
    if StrictEq(p.status, PAYMENT_CONFIRMED) then Err("Payment is already marked as paid")
    else Ok(p.(status := PAYMENT_CONFIRMED, paidAt := Default(date, DateV(ClockDate(now)))))
  }

  /** `cancel`: only a PENDING payment fails. */
  function Cancel(p: Payment): (r: Result<Payment>)
    ensures r.Ok? <==> p.status == PAYMENT_PENDING
    ensures r.Err? ==> r.error == "Only pending payments can be cancelled"
    ensures r.Ok? ==> r.value == p.(status := PAYMENT_FAILED)
  {
    if !StrictEq(p.status, PAYMENT_PENDING) then Err("Only pending payments can be cancelled")
    else Ok(p.(status := PAYMENT_FAILED))
  }

  /** `isPaid` */
  predicate IsPaid(p: Payment) {
    StrictEq(p.status, PAYMENT_CONFIRMED)
  }

  /** The calls a payment accepts after construction. */
  datatype PaymentCall = Pay(date: Value) | CancelIt

  function Apply(p: Payment, call: PaymentCall, now: int): Result<Payment> {
    match call
    case Pay(d) => MarkAsPaid(p, d, now)
    case CancelIt => Cancel(p)
  }

  /** A run of calls, stopping at the first that throws. */
  function ApplyAll(p: Payment, calls: seq<PaymentCall>, now: int): (r: Result<Payment>)
    decreases |calls|
  {
    if |calls| == 0 then Ok(p)
    else
      var q :- Apply(p, calls[0], now);
      ApplyAll(q, calls[1..], now)
  }

  /** Every call keeps a payment well formed and never changes its amount;
      once a payment is paid it stays paid, since both calls then throw. */
  lemma {:induction false} LifetimeKeepsPaid(p: Payment, methods: set<Value>, calls: seq<PaymentCall>, now: int)
    requires WellFormed(p, methods)
    ensures ApplyAll(p, calls, now).Ok? ==> WellFormed(ApplyAll(p, calls, now).value, methods)
    ensures ApplyAll(p, calls, now).Ok? ==> ApplyAll(p, calls, now).value.amount == p.amount
    ensures IsPaid(p) ==> (ApplyAll(p, calls, now).Ok? <==> |calls| == 0)
    decreases |calls|
  {
    if |calls| > 0 {
      var q := Apply(p, calls[0], now);
      if q.Ok? {
        LifetimeKeepsPaid(q.value, methods, calls[1..], now);
      }
    }
  }

  /** The code lets a FAILED payment be confirmed afterwards, and a
      cancelled one is paid with the given date. */
  lemma FailedCanBePaid(p: Payment, date: Value, now: int)
    requires p.status == PAYMENT_PENDING
    ensures Cancel(p).Ok?
    ensures MarkAsPaid(Cancel(p).value, date, now).Ok?
    ensures IsPaid(MarkAsPaid(Cancel(p).value, date, now).value)
  {
  }

  /** `recurringAgreement?.toJSON?.() ?? null`: an agreement serialises
      itself, another value with a `toJSON` method gives its result (null
      in place of a nullish one), a record whose `toJSON` field is not a
      function throws, and anything else gives null. */
  function AgreementJson(a: Arg<Agreement>): (r: Result<Value>)
    ensures a.Inst? ==> r == Ok(Obj(Agreements.ToJson(a.obj)))
    ensures a.Raw? && HasToJson(a.v) ==> r == Ok(Coalesce(OwnToJson(a.v), Null))
    ensures r.Err? <==> a.Raw? && ToJsonNotCallable(a.v)
    ensures a.Raw? && !HasToJson(a.v) && r.Ok? ==> r.value == Null
  {
    match a
    case Inst(x) => Ok(Obj(Agreements.ToJson(x)))
    case Raw(v) =>
      if HasToJson(v) then Ok(Coalesce(OwnToJson(v), Null))
      else if ToJsonNotCallable(v) then Err("TypeError: this.recurringAgreement?.toJSON is not a function")
      else Ok(Null)
  }

  /** The object `toJSON` returns, given the serialised agreement: the id
      unwrapped, the amount serialised, and the invoice id unwrapped when
      it is an identifier, kept as it is otherwise. */
  function JsonFields(p: Payment, agreement: Value): (j: map<string, Value>)
    ensures j.Keys == {"id", "amount", "status", "paymentMethod", "paidAt", "invoiceId", "recurringAgreement"}
    ensures j["amount"] == Obj(MoneyModel.ToJson(p.amount)) && j["status"] == p.status
    ensures p.invoiceId.Id? && !IsNullish(p.invoiceId.value) ==> j["invoiceId"] == p.invoiceId.value
    ensures !p.invoiceId.Id? && !p.invoiceId.Obj? ==> j["invoiceId"] == p.invoiceId
    ensures j["recurringAgreement"] == agreement
  {
    map[
      "id" := OptValue(p.id),
      "amount" := Obj(MoneyModel.ToJson(p.amount)),
      "status" := p.status,
      "paymentMethod" := p.paymentMethod,
      "paidAt" := p.paidAt,
      "invoiceId" := Coalesce(OptValue(p.invoiceId), p.invoiceId),
      "recurringAgreement" := agreement]
  }

  /** `toJSON`: the seven fields, throwing exactly when the agreement's
      `toJSON` does. */
  function ToJson(p: Payment): (r: Result<map<string, Value>>)
    ensures r.Ok? <==> !(p.recurringAgreement.Raw? && ToJsonNotCallable(p.recurringAgreement.v))
    ensures r.Ok? ==> r.value == JsonFields(p, AgreementJson(p.recurringAgreement).value)
  {
    var agreement :- AgreementJson(p.recurringAgreement);
    Ok(JsonFields(p, agreement))
  }

  /** A bare `MilestoneId` in the agreement's place serialises as its
      value, as payment.entity.js line 62 calls its `toJSON`. */
  lemma RawMilestoneIdAgreement(p: Payment)
    requires p.recurringAgreement == Raw(Id(MilestoneIdClass, Num(7)))
    ensures ToJson(p).Ok? && ToJson(p).value["recurringAgreement"] == Num(7)
  {
  }

  /** The serialised amount builds the same Money back, and the invoice id
      of a payment made against invoice 5 serialises as 5, whatever the
      agreement serialises to. */
  lemma JsonKeepsAmountAndInvoice(p: Payment, agreement: Value)
    requires Valid(p.amount)
    ensures var j := JsonFields(p, agreement);
      j["amount"].Obj? && NewMoney(j["amount"].fields["amount"], j["amount"].fields["currency"]) == Ok(p.amount)
    ensures p.invoiceId == Num(5) ==> JsonFields(p, agreement)["invoiceId"] == Num(5)
  {
    JsonRoundTrip(p.amount);
  }
}

=== FILE: professional_id.dfy ===
/** The `ProfessionalId` value object: a collegiate number of an engineer
    (CIP) or an architect (CAP).  The `ProfessionalIdType` enumeration is not
    part of this model; its two members are taken to be the strings "CIP"
    and "CAP". */
module ProfessionalIdModel {
  import opened Wrappers
  import opened Text
  import opened Js

  const CIP: Value := Str("CIP")
  const CAP: Value := Str("CAP")

  datatype ProfessionalId = ProfessionalId(value: Value, kind: Value)

  /** `new ProfessionalId(value = '', type = CIP)` */
  function NewProfessionalId(value: Value, kind: Value): (p: ProfessionalId)
    ensures value != Undefined ==> p.value == value
    ensures value == Undefined ==> p.value == Str("")
    ensures kind != Undefined ==> p.kind == kind
    ensures kind == Undefined ==> p.kind == CIP
  {
    ProfessionalId(Default(value, Str("")), Default(kind, CIP))
  }

  /** `/^\d{lo,hi}$/.test(s)` */
  predicate DigitsBetween(s: string, lo: nat, hi: nat) {
    lo <= |s| <= hi && AllDigits(s)
  }

  /** `isValid` */
  predicate IsValid(p: ProfessionalId) {
    if !Truthy(p.value) || !p.value.Str? then false
    else if p.kind == CIP then DigitsBetween(p.value.s, 6, 8)
    else if p.kind == CAP then DigitsBetween(p.value.s, 5, 7)
    else false
  }

  /** `getError` */
  function GetError(p: ProfessionalId): (r: Value)
    ensures r == Null <==> IsValid(p)
    ensures r != Null ==> r.Str?
    ensures r != Null && p.kind == CIP ==> r == Str("CIP ID must be 6 to 8 numeric digits")
    ensures r != Null && p.kind == CAP ==> r == Str("CAP ID must be 5 to 7 numeric digits")
    ensures p.kind != CIP && p.kind != CAP ==> r == Str("Invalid professional ID type")
  {
    if IsValid(p) then Null
    else if p.kind == CIP then Str("CIP ID must be 6 to 8 numeric digits")
    else if p.kind == CAP then Str("CAP ID must be 5 to 7 numeric digits")
    else Str("Invalid professional ID type")
  }

  /** What a valid identifier looks like, for each type. */
  lemma ValidShape(p: ProfessionalId)
    requires IsValid(p)
    ensures p.value.Str? && AllDigits(p.value.s)
    ensures p.kind == CIP ==> 6 <= |p.value.s| <= 8
    ensures p.kind == CAP ==> 5 <= |p.value.s| <= 7
    ensures p.kind == CIP || p.kind == CAP
  {
  }

  /** A number of six or seven digits is valid under either type, and only
      those lengths are. */
  lemma SharedLengths(s: string)
    requires AllDigits(s)
    ensures IsValid(ProfessionalId(Str(s), CIP)) && IsValid(ProfessionalId(Str(s), CAP)) <==> 6 <= |s| <= 7
  {
  }

  /** The default identifier is the empty CIP number, which is invalid. */
  lemma DefaultIsInvalid()
    ensures NewProfessionalId(Undefined, Undefined) == ProfessionalId(Str(""), CIP)
    ensures GetError(NewProfessionalId(Undefined, Undefined)) == Str("CIP ID must be 6 to 8 numeric digits")
  {
  }
}

=== FILE: projects.dfy ===
/** The project entity (declared in its file under the class name
    `Organization`): a named, budgeted piece of work with a status, a
    schedule and a team of project team members. */
module Projects {
  import opened Wrappers
  import opened Js
  import opened Enums
  import opened Lists
  import opened Identifiers
  import opened TeamMembers

  datatype Project = Project(
    id: Value,
    name: Value,
    description: Value,
    status: Value,
    schedule: Value,
    budget: Value,
    startingDate: Value,
    endingDate: Value,
    team: seq<TeamMember>,
    organizationId: Value,
    contractor: Value,
    contractingEntityId: Value)

  /** The constructor's destructured argument; an absent field is `Undefined`
      (for the team, `None`). */
  datatype ProjectArgs = ProjectArgs(
    id: Value,
    name: Value,
    description: Value,
    status: Value,
    schedule: Value,
    budget: Value,
    startingDate: Value,
    endingDate: Value,
    team: Option<seq<TeamMember>>,
    organizationId: Value,
    contractor: Value,
    contractingEntityId: Value)

  /** A fresh `new Schedule()`, represented by its one field. */
  const EMPTY_SCHEDULE: Value := Obj(map["milestones" := Arr([])])

  /** `!v || typeof v !== 'string'` fails */
  predicate Named(v: Value) {
    IsNonEmptyString(v)
  }

  /** `!budget || typeof budget !== 'number'` fails: a non-zero number.  The
      parameter default is the `Number` function, which fails the type test,
      so a missing budget fails like `undefined`. */
  predicate Budgeted(v: Value) {
    v.Num? && v.n != 0
  }

  /** The `Projects.Project` constructor with every identifier class
      available.  The checks run in the program's order; the status is not
      checked; a missing identifier is a fresh one holding `gen` of its
      class; missing dates are `now`. */
  function NewProject(args: ProjectArgs, now: int, gen: IdClass -> string): (r: Result<Project>)
    ensures r.Ok? ==> Named(r.value.name) && Named(r.value.description) && Budgeted(r.value.budget)
    ensures r.Ok? ==> r.value.name == args.name && r.value.description == args.description && r.value.budget == args.budget
    ensures r.Ok? ==> r.value.status == Default(args.status, BASIC_STUDIES)
    ensures r.Ok? && args.team.None? ==> r.value.team == []
    ensures r.Ok? && args.team.Some? ==> r.value.team == args.team.value
    ensures !Named(args.name) ==> r == Err("Legal name is required and must be a non-empty string")
    ensures Named(args.name) && !Named(args.description) ==>
      r == Err("Description is required and must be a non-empty string")
    ensures Named(args.name) && Named(args.description) && !Budgeted(args.budget) ==>
      r == Err("Budget is required and must be a number")
  {
    if !Named(Default(args.name, Str(""))) then Err("Legal name is required and must be a non-empty string")
    else if !Named(Default(args.description, Str(""))) then Err("Description is required and must be a non-empty string")
    else if !Budgeted(args.budget) then Err("Budget is required and must be a number")
    else
      Ok(Project(
        Default(args.id, GeneratedId(ProjectIdClass, gen(ProjectIdClass))),
        args.name,
        args.description,
        Default(args.status, BASIC_STUDIES),
        Default(args.schedule, EMPTY_SCHEDULE),
        args.budget,
        Default(args.startingDate, DateV(Dates.ClockDate(now))),
        Default(args.endingDate, DateV(Dates.ClockDate(now))),
        if args.team.Some? then args.team.value else [],
        Default(args.organizationId, GeneratedId(OrganizationIdClass, gen(OrganizationIdClass))),
        Default(args.contractor, GeneratedId(OrganizationMemberIdClass, gen(OrganizationMemberIdClass))),
        Default(args.contractingEntityId, GeneratedId(ContractingEntityIdClass, gen(ContractingEntityIdClass)))))
  }

  /** The constructor accepts exactly a non-empty string name and
      description and a non-zero numeric budget. */
  lemma AcceptsExactly(args: ProjectArgs, now: int, gen: IdClass -> string)
    ensures NewProject(args, now, gen).Ok? <==> Named(args.name) && Named(args.description) && Budgeted(args.budget)
  {
  }

  /** The `Projects.Project` constructor as written.  Its file imports
      `OrganizationId` and `OrganizationMemberId` from modules that export
      neither name.  Read as undefined bindings, the defaults of
      `organizationId` and `contractor` evaluate `new undefined()`, which
      throws while the parameters are bound, before any check of the body. */
  function NewProjectAsWritten(args: ProjectArgs, now: int, gen: IdClass -> string): (r: Result<Project>)
    ensures args.organizationId == Undefined ==> r == Err("TypeError: OrganizationId is not a constructor")
    ensures args.organizationId != Undefined && args.contractor == Undefined ==>
      r == Err("TypeError: OrganizationMemberId is not a constructor")
    ensures r.Ok? ==> r.value.organizationId == args.organizationId && r.value.contractor == args.contractor
  {
    if args.organizationId == Undefined then Err("TypeError: OrganizationId is not a constructor")
    else if args.contractor == Undefined then Err("TypeError: OrganizationMemberId is not a constructor")
    else NewProject(args, now, gen)
  }

  /** As written, a project is built exactly when the corrected constructor
      would build it and the caller supplies both the organization and the
      contractor; when both are supplied the two agree. */
  lemma AsWrittenNeedsBothIds(args: ProjectArgs, now: int, gen: IdClass -> string)
    ensures NewProjectAsWritten(args, now, gen).Ok? <==>
      NewProject(args, now, gen).Ok? && args.organizationId != Undefined && args.contractor != Undefined
    ensures args.organizationId != Undefined && args.contractor != Undefined ==>
      NewProjectAsWritten(args, now, gen) == NewProject(args, now, gen)
  {
  }

  /** A project with a name, a description and a budget but no
      organization: the corrected constructor builds it, the file as written
      throws. */
  lemma AsWrittenRefusesMissingOrganization(now: int, gen: IdClass -> string)
    ensures var args := ProjectArgs(Undefined, Str("Casa"), Str("Dos pisos"), Undefined, Undefined, Num(1000),
                                    Undefined, Undefined, None, Undefined, Num(3), Undefined);
      NewProject(args, now, gen).Ok? && NewProjectAsWritten(args, now, gen).Err?
  {
    var args := ProjectArgs(Undefined, Str("Casa"), Str("Dos pisos"), Undefined, Undefined, Num(1000),
                            Undefined, Undefined, None, Undefined, Num(3), Undefined);
    AcceptsExactly(args, now, gen);
  }

  /** The constructor does not look at the status: any value is stored. */
  lemma StatusIsNotChecked(args: ProjectArgs, now: int, gen: IdClass -> string)
    requires Named(args.name) && Named(args.description) && Budgeted(args.budget)
    requires args.status != Undefined
    ensures NewProject(args, now, gen).Ok? && NewProject(args, now, gen).value.status == args.status
  {
  }

  /** `updateStatus` */
  function UpdateStatus(p: Project, status: Value): (r: Result<Project>)
    ensures r.Ok? <==> status in PROJECT_STATUSES
    ensures r.Err? ==> r.error == "Invalid project status"
    ensures r.Ok? ==> r.value.status == status && r.value.(status := p.status) == p
  {
    if status !in PROJECT_STATUSES then Err("Invalid project status") else Ok(p.(status := status))
  }

  /** `updateDescription`: the constructor's rule again. */
  function UpdateDescription(p: Project, description: Value): (r: Result<Project>)
    ensures r.Ok? <==> Named(description)
    ensures r.Err? ==> r.error == "Description is required and must be a non-empty string"
    ensures r.Ok? ==> r.value.description == description && r.value.(description := p.description) == p
  {
    if !Named(description) then Err("Description is required and must be a non-empty string")
    else Ok(p.(description := description))
  }

  /** `addTeamMember`: appended, with no duplicate check. */
  function AddTeamMember(p: Project, member: Arg<TeamMember>): (r: Result<Project>)
    ensures r.Ok? <==> member.Inst?
    ensures r.Err? ==> r.error == "Member must be a valid ProjectTeamMember instance."
    ensures r.Ok? ==> r.value.team == p.team + [member.obj] && r.value.(team := p.team) == p
  {
    if !member.Inst? then Err("Member must be a valid ProjectTeamMember instance.")
    else Ok(p.(team := p.team + [member.obj]))
  }

  /** The filter of `removeTeamMember`: a member stays unless its
      organization member id's value is the given value. */
  function KeepsMember(value: Value): TeamMember -> bool {
    (m: TeamMember) => !StrictEq(Prop(m.memberId, "value"), value)
  }

  /** `removeTeamMember`: the argument must be a ProjectTeamMemberId, and its
      value is compared with each member's OrganizationMemberId value. */
  function RemoveTeamMember(p: Project, memberId: Value): (r: Result<Project>)
    ensures r.Ok? <==> IsInstance(memberId, ProjectTeamMemberIdClass)
    ensures r.Err? ==> r.error == "MemberId must be a valid ProjectTeamMemberId instance."
    ensures r.Ok? ==> forall m :: m in r.value.team <==> m in p.team && !StrictEq(Prop(m.memberId, "value"), memberId.value)
    ensures r.Ok? ==> r.value.(team := p.team) == p
  {
    if !IsInstance(memberId, ProjectTeamMemberIdClass) then Err("MemberId must be a valid ProjectTeamMemberId instance.")
    else Ok(p.(team := Filter(p.team, KeepsMember(memberId.value))))
  }

  /** `toJSON`: the id unwrapped (or null); team, organization, contractor and
      contracting entity left out. */
  function ToJson(p: Project): (j: map<string, Value>)
    ensures j.Keys == {"id", "name", "description", "status", "schedule", "budget", "startingDate", "endingDate"}
    ensures IsInstance(p.id, ProjectIdClass) ==> j["id"] == Coalesce(p.id.value, Null)
    ensures IsNullish(p.id) ==> j["id"] == Null
    ensures j["status"] == p.status && j["budget"] == p.budget
  {
    map[
      "id" := ValueOrNull(p.id),
      "name" := p.name,
      "description" := p.description,
      "status" := p.status,
      "schedule" := p.schedule,
      "budget" := p.budget,
      "startingDate" := p.startingDate,
      "endingDate" := p.endingDate]
  }

  /** A project whose status is one of the six. */
  predicate StatusValid(p: Project) {
    p.status in PROJECT_STATUSES
  }

  /** A project built with the default status has a valid status, and every
      operation keeps the status valid: only `updateStatus` changes it, and
      only to a member of the enumeration. */
  lemma StatusStaysValid(p: Project, s: Value, d: Value, m: Arg<TeamMember>, id: Value)
    requires StatusValid(p)
    ensures UpdateStatus(p, s).Ok? ==> StatusValid(UpdateStatus(p, s).value)
    ensures UpdateDescription(p, d).Ok? ==> StatusValid(UpdateDescription(p, d).value)
    ensures AddTeamMember(p, m).Ok? ==> StatusValid(AddTeamMember(p, m).value)
    ensures RemoveTeamMember(p, id).Ok? ==> StatusValid(RemoveTeamMember(p, id).value)
  {
  }

  /** The default status is BASIC_STUDIES. */
  lemma DefaultStatusIsValid(args: ProjectArgs, now: int, gen: IdClass -> string)
    requires args.status == Undefined && NewProject(args, now, gen).Ok?
    ensures StatusValid(NewProject(args, now, gen).value)
    ensures NewProject(args, now, gen).value.status == BASIC_STUDIES
  {
  }

  /** Removal keeps the order of the members it keeps: removing from a team
      with one more member appended is removing from the team, then
      deciding about that member alone. */
  lemma RemoveAfterAdd(p: Project, m: TeamMember, memberId: Value)
    requires IsInstance(memberId, ProjectTeamMemberIdClass)
    ensures var q := AddTeamMember(p, Inst(m)).value;
      RemoveTeamMember(q, memberId).value.team
      == RemoveTeamMember(p, memberId).value.team + (if KeepsMember(memberId.value)(m) then [m] else [])
  {
    var keep := KeepsMember(memberId.value);
    FilterConcat(p.team, [m], keep);
    assert Filter([m], keep) == (if keep(m) then [m] else []) by {
      assert [m][1..] == [];
    }
  }

  /** A member added and then removed by its own organization member id
      leaves the team as a removal alone would. */
  lemma AddThenRemoveSame(p: Project, m: TeamMember, memberId: Value)
    requires IsInstance(memberId, ProjectTeamMemberIdClass)
    requires StrictEq(Prop(m.memberId, "value"), memberId.value)
    ensures RemoveTeamMember(AddTeamMember(p, Inst(m)).value, memberId) == RemoveTeamMember(p, memberId)
  {
    RemoveAfterAdd(p, m, memberId);
    assert !KeepsMember(memberId.value)(m);
    var q := AddTeamMember(p, Inst(m)).value;
    assert RemoveTeamMember(q, memberId).value.team == RemoveTeamMember(p, memberId).value.team;
  }

  /** Removing twice with the same id is removing once. */
  lemma RemoveIdempotent(p: Project, memberId: Value)
    requires IsInstance(memberId, ProjectTeamMemberIdClass)
    ensures RemoveTeamMember(RemoveTeamMember(p, memberId).value, memberId) == RemoveTeamMember(p, memberId)
  {
    FilterIdempotent(p.team, KeepsMember(memberId.value));
  }
}

=== FILE: ruc.dfy ===
/** The `Ruc` value object: a Peruvian taxpayer number (Registro Único de
    Contribuyentes) of eleven digits whose first two name the taxpayer kind. */
module RucModel {
  import opened Wrappers
  import opened Text
  import opened Js

  /** The stored value is whatever the caller passed. */
  datatype Ruc = Ruc(value: Value)

  /** The prefixes the SUNAT accepts. */
  const Prefixes: set<string> := {"10", "15", "16", "17", "20"}

  /** `/^\d{11}$/.test(s)` */
  predicate ElevenDigits(s: string) {
    |s| == 11 && AllDigits(s)
  }

  /** `isValid`.  The regular expression is matched against `String(value)`;
      the prefix is then read with `value.substring`, which only strings
      have, so eleven digits held in anything but a string fail with a
      TypeError. */
  function IsValid(r: Ruc): (res: Result<bool>)
    ensures !ElevenDigits(ToStr(r.value)) ==> res == Ok(false)
    ensures ElevenDigits(ToStr(r.value)) && !r.value.Str? ==> res.Err?
    ensures r.value.Str? ==> res == Ok(ElevenDigits(r.value.s) && r.value.s[..2] in Prefixes)
  {
    if !ElevenDigits(ToStr(r.value)) then Ok(false)
    else if !r.value.Str? then Err("TypeError: this.value.substring is not a function")
    else Ok(r.value.s[..2] in Prefixes)
  }

  /** `getError` */
  function GetError(r: Ruc): (res: Result<Value>)
    ensures !ElevenDigits(ToStr(r.value)) ==> res == Ok(Str("RUC must be exactly 11 digits"))
    ensures ElevenDigits(ToStr(r.value)) && !r.value.Str? ==> res.Err?
    ensures r.value.Str? && ElevenDigits(r.value.s) ==>
      res == Ok(if r.value.s[..2] in Prefixes then Null
                else Str("RUC must start with a valid SUNAT prefix (10, 15, 16, 17, 20)"))
  {
    if !ElevenDigits(ToStr(r.value)) then Ok(Str("RUC must be exactly 11 digits"))
    else if !r.value.Str? then Err("TypeError: this.value.substring is not a function")
    else if r.value.s[..2] !in Prefixes then Ok(Str("RUC must start with a valid SUNAT prefix (10, 15, 16, 17, 20)"))
    else Ok(Null)
  }

  /** `toJSON`: the bare value. */
  function ToJson(r: Ruc): (v: Value)
    ensures Ruc(v) == r
  {
    r.value
  }

  /** `getError` names no error exactly when `isValid` holds, and the two
      fail on the same values. */
  lemma ErrorIffInvalid(r: Ruc)
    ensures GetError(r) == Ok(Null) <==> IsValid(r) == Ok(true)
    ensures GetError(r).Err? <==> IsValid(r).Err?
  {
  }

  /** A valid RUC is a string of eleven digits with an accepted prefix. */
  lemma ValidShape(r: Ruc)
    requires IsValid(r) == Ok(true)
    ensures r.value.Str? && |r.value.s| == 11 && AllDigits(r.value.s)
    ensures r.value.s[..2] in Prefixes
  {
  }

  /** The example of a company number. */
  lemma CompanyRucIsValid()
    ensures IsValid(Ruc(Str("20123456789"))) == Ok(true)
    ensures IsValid(Ruc(Str("30123456789"))) == Ok(false)
  {
    assert "20123456789"[..2] == "20";
    assert "30123456789"[..2] == "30";
  }
}

=== FILE: schedule_builder.dfy ===
/** `ScheduleBuilder`: builds a schedule milestone by milestone, adding items
    to the last milestone through a factory.  The builder's state is the
    schedule it holds. */
module ScheduleBuilder {
  import opened Wrappers
  import opened Js
  import opened Identifiers
  import opened ScheduleItems
  import opened Milestones
  import opened Schedules

  datatype Builder = Builder(schedule: Schedule)

  /** `new ScheduleBuilder()`: an empty schedule. */
  const EMPTY_BUILDER: Builder := Builder(Schedule([]))

  /** The milestone `new Milestone({ name })` makes at time `now`. */
  function NamedMilestone(name: Value, now: int, uuid: string): Milestone {
    Milestone(NewId(MilestoneIdClass, Undefined, uuid), name, DateV(Dates.ClockDate(now)), DateV(Dates.ClockDate(now)), Items([]))
  }

  /** `addMilestone(name)`: a milestone with that name and no items is
      appended. */
  function AddMilestone(b: Builder, name: Value, now: int, uuid: string): (r: Result<Builder>)
    ensures r.Ok? <==> IsNonEmptyString(name)
    ensures r.Err? ==> r.error == "Milestone name must be a non-empty string."
    ensures r.Ok? ==> r.value.schedule.milestones == b.schedule.milestones + [Inst(NamedMilestone(name, now, uuid))]
  {
    if !IsNonEmptyString(name) then Err("Milestone name must be a non-empty string.")
    else
      var m := NewMilestone(MilestoneArgs(Undefined, name, Undefined, Undefined, NO_ITEMS), now, uuid).value;
      Ok(Builder(Schedules.AddMilestone(b.schedule, Inst(m)).value))
  }

  /** `getLastMilestone`: the last milestone, or none when there is none. */
  function LastMilestone(b: Builder): (r: Option<Arg<Milestone>>)
    ensures r.None? <==> |b.schedule.milestones| == 0
    ensures r.Some? ==> r.value == b.schedule.milestones[|b.schedule.milestones| - 1]
  {
    var ms := b.schedule.milestones;
    if |ms| > 0 then Some(ms[|ms| - 1]) else None
  }

  /** The argument of `addItemToLastMilestone`: something without a
      `create` function, or a factory, given by what its `create()` call
      (with no arguments) returns or throws. */
  datatype Factory = NotAFactory | Factory(made: Result<Item>)

  /** A factory whose `create()` is one of the schedule item factories'. */
  function ItemFactory(made: Result<ScheduleItem>): (f: Factory)
    ensures f.Factory? && (f.made.Ok? <==> made.Ok?)
    ensures made.Ok? ==> f.made.value == Scheduled(made.value)
    ensures made.Err? ==> f.made.error == made.error
  {
    match made
    case Ok(x) => Factory(Ok(Scheduled(x)))
    case Err(e) => Factory(Err(e))
  }

  /** `!lastMilestone`: there is no last milestone, or it is a falsy plain
      value. */
  predicate NoLastMilestone(b: Builder) {
    var last := LastMilestone(b);
    last.None? || (last.value.Raw? && !Truthy(last.value.v))
  }

  /** `addItemToLastMilestone(factory)`.  The item is created before the
      last milestone's `addItem` is looked up, so a factory's error comes
      first; a plain value has no `addItem`. */
  function AddItemToLastMilestone(b: Builder, factory: Factory): (r: Result<Builder>)
    ensures factory.NotAFactory? ==> r == Err("A valid ScheduleItemFactory is required.")
    ensures factory.Factory? && NoLastMilestone(b) ==>
      r == Err("You must add at least one milestone before adding items.")
    ensures factory.Factory? && !NoLastMilestone(b) && factory.made.Err? ==> r == Err(factory.made.error)
    ensures r.Ok? ==> var ms := b.schedule.milestones; var ms' := r.value.schedule.milestones;
      |ms| > 0 && |ms'| == |ms| && ms'[..|ms| - 1] == ms[..|ms| - 1]
      && ms[|ms| - 1].Inst? && ms'[|ms| - 1].Inst?
      && factory.made.Ok? && AddItem(ms[|ms| - 1].obj, factory.made.value) == Ok(ms'[|ms| - 1].obj)
  {
    if factory.NotAFactory? then Err("A valid ScheduleItemFactory is required.")
    else if NoLastMilestone(b) then Err("You must add at least one milestone before adding items.")
    else
      var last := LastMilestone(b).value;
      var item :- factory.made;
      match last
      case Raw(_) => Err("TypeError: lastMilestone.addItem is not a function")
      case Inst(lm) =>
        var m :- AddItem(lm, item);
        var ms := b.schedule.milestones;
        Ok(Builder(Schedule(ms[..|ms| - 1] + [Inst(m)])))
  }

  /** `build`: the schedule the builder has been filling. */
  function Build(b: Builder): (s: Schedule)
    ensures s.milestones == b.schedule.milestones
  {
    b.schedule
  }

  /** Passing `ScheduleItemFactory` itself never adds anything: its `create`
      called with no type throws. */
  lemma ScheduleItemFactoryFails(b: Builder, now: int, uuid: string)
    requires !NoLastMilestone(b)
    ensures AddItemToLastMilestone(b, ItemFactory(ScheduleItems.Create(Undefined, Undefined, now, uuid)))
         == Err("Unsupported ScheduleItem type: undefined")
  {
  }

  /** A task added after a first milestone is that milestone's only item. */
  lemma OneMilestoneOneTask(name: Value, t: Tasks.Task, now: int, uuid: string)
    requires IsNonEmptyString(name)
    ensures var b := AddMilestone(EMPTY_BUILDER, name, now, uuid).value;
      AddItemToLastMilestone(b, Factory(Ok(Scheduled(TaskItem(t)))))
      == Ok(Builder(Schedule([Inst(NamedMilestone(name, now, uuid).(items := Items([Scheduled(TaskItem(t))])))])))
  {
    var b := AddMilestone(EMPTY_BUILDER, name, now, uuid).value;
    var m := NamedMilestone(name, now, uuid);
    assert b.schedule.milestones == [Inst(m)];
    var item := Scheduled(TaskItem(t));
    assert AddItem(m, item) == Ok(m.(items := Items([item]))) by {
      assert m.items.elems + [item] == [item];
    }
    assert b.schedule.milestones[..0] + [Inst(m.(items := Items([item])))] == [Inst(m.(items := Items([item])))];
  }
}

=== FILE: schedule_items.dfy ===
/** The factories that make schedule items: `TaskFactory`, `MeetingFactory`
    and `ScheduleItemFactory`, which picks one of the two by a type name. */
module ScheduleItems {
  import opened Wrappers
  import opened Js
  import opened Enums
  import opened Tasks
  import opened Meetings
  import opened TaskSpecs

  /** What `ScheduleItemFactory.create` can return. */
  datatype ScheduleItem = TaskItem(task: Task) | MeetingItem(meeting: Meeting)

  /** The `Task` constructor argument built by `TaskFactory.create`: five
      fields of the spec, nothing else. */
  function TaskSpecArgs(spec: Value): (args: TaskArgs)
    ensures args.id == Undefined && args.status == Undefined && args.milestoneId == Undefined
    ensures args.name == Prop(spec, "name") && args.specialty == Prop(spec, "specialty")
  {
    TaskArgs(Undefined, Prop(spec, "name"), Prop(spec, "specialty"), Undefined,
             Prop(spec, "startingDate"), Prop(spec, "dueDate"), Prop(spec, "responsible"), Undefined)
  }

  /** `TaskFactory.create(spec)`: the constructor's errors are not caught. */
  function CreateTask(spec: Value, now: int): (r: Result<Task>)
    ensures IsNullish(spec) ==> r == Err(ReadError(spec))
    ensures r.Ok? ==> r.value.id == Null && r.value.status == DRAFT && r.value.milestoneId == Null
    ensures r.Ok? ==> r.value.name == Prop(spec, "name") && r.value.specialty == Prop(spec, "specialty")
    ensures r.Ok? && Prop(spec, "startingDate") != Undefined ==> r.value.startingDate == Prop(spec, "startingDate")
    ensures r.Ok? && Prop(spec, "dueDate") != Undefined ==> r.value.dueDate == Prop(spec, "dueDate")
    ensures r.Ok? && Prop(spec, "responsible") != Undefined ==> r.value.responsible == Prop(spec, "responsible")
  {
    if IsNullish(spec) then Err(ReadError(spec))
    else NewTask(TaskSpecArgs(spec), now)
  }

  /** The `Task` constructor's first errors reach the caller unchanged. */
  lemma CreateTaskPropagatesErrors(spec: Value, now: int)
    requires !IsNullish(spec)
    ensures !IsNonEmptyString(Prop(spec, "name")) ==>
      CreateTask(spec, now) == Err("Name is required and must be a non-empty string")
    ensures IsNonEmptyString(Prop(spec, "name")) && Prop(spec, "specialty") !in SPECIALTIES ==>
      CreateTask(spec, now) == Err(SPECIALTY_ERROR)
  {
  }

  /** A `TaskSpec` handed to `TaskFactory.create` never becomes a Task: the
      spec holds a ProjectTeamMemberId as its responsible, which the Task
      constructor refuses unless an earlier date check has already failed.
      The spec has no starting date, so the Task starts `now`. */
  lemma SpecIsNeverCreated(spec: TaskSpec, now: int)
    requires TaskSpecs.WellFormed(spec)
    ensures CreateTask(Obj(TaskSpecs.ToJson(spec)), now).Err?
    ensures -Dates.MaxTime <= now <= Dates.MaxTime && ValidDateValue(spec.dueDate) && now <= spec.dueDate.d.ms ==>
      CreateTask(Obj(TaskSpecs.ToJson(spec)), now) == Err("Responsible must be null or a number")
  {
    var args := TaskSpecArgs(Obj(TaskSpecs.ToJson(spec)));
    assert args.name == spec.name && args.specialty == spec.specialty;
    assert args.responsible == spec.responsible && args.dueDate == spec.dueDate;
    assert args.startingDate == Undefined && args.status == Undefined;
    assert DRAFT in TASK_STATUSES;
  }

  /** `MeetingFactory.create(data)`: the seven fields passed through, so an
      absent one takes the constructor's default. */
  function CreateMeeting(data: Value, now: int, uuid: string): (r: Result<Meeting>)
    ensures IsNullish(data) ==> r == Err(ReadError(data))
    ensures r.Ok? ==> r.value.topic == Prop(data, "topic")
    ensures r.Ok? && Prop(data, "participants") != Undefined ==> r.value.participants == Prop(data, "participants")
  {
    if IsNullish(data) then Err(ReadError(data))
    else NewMeeting(MeetingArgs(Prop(data, "id"), Prop(data, "topic"), Prop(data, "description"),
                                Prop(data, "startingDate"), Prop(data, "endingDate"), Prop(data, "calledBy"),
                                Prop(data, "participants")), now, uuid)
  }

  /** `ScheduleItemFactory.create(type, data)`: `'meeting'` and `'task'` by
      strict equality; any other type throws. */
  function Create(kind: Value, data: Value, now: int, uuid: string): (r: Result<ScheduleItem>)
    ensures kind == Str("meeting") ==>
      (r.Ok? <==> CreateMeeting(data, now, uuid).Ok?)
      && (r.Ok? ==> r.value == MeetingItem(CreateMeeting(data, now, uuid).value))
      && (r.Err? ==> r.error == CreateMeeting(data, now, uuid).error)
    ensures kind == Str("task") ==>
      (r.Ok? <==> CreateTask(data, now).Ok?)
      && (r.Ok? ==> r.value == TaskItem(CreateTask(data, now).value))
      && (r.Err? ==> r.error == CreateTask(data, now).error)
    ensures kind != Str("meeting") && kind != Str("task") ==>
      r == Err("Unsupported ScheduleItem type: " + ToStr(kind))
  {
    if StrictEq(kind, Str("meeting")) then
      var m :- CreateMeeting(data, now, uuid);
      Ok(MeetingItem(m))
    else if StrictEq(kind, Str("task")) then
      var t :- CreateTask(data, now);
      Ok(TaskItem(t))
    else Err("Unsupported ScheduleItem type: " + ToStr(kind))
  }

  /** The match is exact: a capitalised type name is unsupported. */
  lemma TypeIsCaseSensitive(data: Value, now: int, uuid: string)
    ensures Create(Str("Task"), data, now, uuid) == Err("Unsupported ScheduleItem type: Task")
  {
  }
}

=== FILE: schedules.dfy ===
/** `Schedule`: a project's list of milestones.  Its `removeMilestone`, as
    written, compares the milestones' id values with the `value` field of a
    plain number, which is undefined; the corrected removal below compares
    with the number itself. */
module Schedules {
  import opened Wrappers
  import opened Js
  import opened Lists
  import opened Identifiers
  import opened Milestones
  import opened JsonMethods

  /** The milestones: Milestone instances, or whatever other values a
      plain array handed to the constructor held. */
  datatype Schedule = Schedule(milestones: seq<Arg<Milestone>>)

  /** The constructor's `milestones` argument: a list of milestones, or any
      other value.  `Other(Undefined)` is an absent argument, which the
      parameter default replaces with `[]`; `Other(Arr(vs))` is an array of
      plain values. */
  datatype MilestonesArg = Given(list: seq<Arg<Milestone>>) | Other(v: Value)

  /** The elements of a plain array. */
  function RawElements(vs: seq<Value>): (r: seq<Arg<Milestone>>)
    ensures |r| == |vs| && forall i :: 0 <= i < |vs| ==> r[i] == Raw(vs[i])
  {
    seq(|vs|, i requires 0 <= i < |vs| => Raw(vs[i]))
  }

  /** `new Schedule({ milestones = [] })`: any array is kept as it is. */
  function NewSchedule(arg: MilestonesArg): (r: Result<Schedule>)
    ensures r.Ok? <==> arg.Given? || arg.v.Undefined? || arg.v.Arr?
    ensures r.Err? ==> r.error == "Milestones must be an array."
    ensures arg == Other(Undefined) ==> r == Ok(Schedule([]))
    ensures arg.Given? ==> r == Ok(Schedule(arg.list))
    ensures arg.Other? && arg.v.Arr? ==> r == Ok(Schedule(RawElements(arg.v.elems)))
  {
    match arg
    case Given(list) => Ok(Schedule(list))
    case Other(v) =>
      if v.Undefined? then Ok(Schedule([]))
      else if v.Arr? then Ok(Schedule(RawElements(v.elems)))
      else Err("Milestones must be an array.")
  }

  /** An absent argument and an empty array make the same schedule. */
  lemma AbsentIsEmptyArray()
    ensures NewSchedule(Other(Undefined)) == NewSchedule(Other(Arr([]))) == Ok(Schedule([]))
  {
    assert RawElements([]) == [];
  }

  /** `addMilestone`: a Milestone instance is appended. */
  function AddMilestone(s: Schedule, milestone: Arg<Milestone>): (r: Result<Schedule>)
    ensures r.Ok? <==> milestone.Inst?
    ensures r.Err? ==> r.error == "Milestone must be a valid instance of Milestone."
    ensures r.Ok? ==> r.value.milestones == s.milestones + [milestone]
  {
    if !milestone.Inst? then Err("Milestone must be a valid instance of Milestone.")
    else Ok(Schedule(s.milestones + [milestone]))
  }

  /** The number check both removals share. */
  const BAD_ID_ERROR: string := "MilestoneId must be a valid instance of MilestoneId."

  /** `milestone.id.value` for one element: reading `id` of a nullish
      element, or `value` of a nullish id, throws. */
  function IdValue(e: Arg<Milestone>): (r: Result<Value>)
    ensures e.Inst? ==> (r.Ok? <==> !IsNullish(e.obj.id))
    ensures e.Inst? && r.Ok? ==> r.value == Prop(e.obj.id, "value")
    ensures e.Raw? ==> (r.Ok? <==> !IsNullish(e.v) && !IsNullish(Prop(e.v, "id")))
    ensures e.Raw? && r.Ok? ==> r.value == Prop(Prop(e.v, "id"), "value")
  {
    var id := if e.Inst? then e.obj.id else Prop(e.v, "id");
    if e.Raw? && IsNullish(e.v) then Err(ReadError(e.v))
    else if IsNullish(id) then Err(ReadError(id))
    else Ok(Prop(id, "value"))
  }

  /** Every element's `milestone.id.value` can be read. */
  predicate IdsReadable(s: Schedule) {
    forall i :: 0 <= i < |s.milestones| ==> IdValue(s.milestones[i]).Ok?
  }

  /** The filter as written: `milestone.id.value !== milestoneId.value`. */
  function KeepsAsWritten(milestoneId: Value): Arg<Milestone> -> bool {
    (e: Arg<Milestone>) => !(IdValue(e).Ok? && StrictEq(IdValue(e).value, Prop(milestoneId, "value")))
  }

  /** `removeMilestone` as written: the first element whose id value
      cannot be read throws. */
  function RemoveMilestoneAsWritten(s: Schedule, milestoneId: Value): (r: Result<Schedule>)
    ensures r.Ok? <==> milestoneId.Num? && IdsReadable(s)
    ensures !milestoneId.Num? ==> r == Err(BAD_ID_ERROR)
  {
    if !milestoneId.Num? then Err(BAD_ID_ERROR)
    else
      var ids :- MapAll(s.milestones, IdValue);
      Ok(Schedule(Filter(s.milestones, KeepsAsWritten(milestoneId))))
  }

  /** As written, a milestone whose id value is defined (a MilestoneId's, for
      instance) is never removed: removing by any number leaves the
      schedule as it was. */
  lemma AsWrittenKeepsIdentified(s: Schedule, n: int)
    requires forall i :: 0 <= i < |s.milestones| ==>
      IdValue(s.milestones[i]).Ok? && IdValue(s.milestones[i]).value != Undefined
    ensures RemoveMilestoneAsWritten(s, Num(n)) == Ok(s)
  {
    FilterAll(s.milestones, KeepsAsWritten(Num(n)));
  }

  /** The smallest case: a schedule holding the milestone with id 7 still
      holds it after `removeMilestone(7)`. */
  lemma AsWrittenMissesSeven(m: Milestone)
    requires m.id == Id(MilestoneIdClass, Num(7))
    ensures RemoveMilestoneAsWritten(Schedule([Inst(m)]), Num(7)) == Ok(Schedule([Inst(m)]))
  {
    AsWrittenKeepsIdentified(Schedule([Inst(m)]), 7);
  }

  /** As written, a milestone whose id is a plain number (as the milestone
      assembler builds them) is removed whatever number is given. */
  lemma AsWrittenDropsUnwrapped(s: Schedule, n: int, m: Milestone)
    requires m.id.Num? && Inst(m) in s.milestones && IdsReadable(s)
    ensures RemoveMilestoneAsWritten(s, Num(n)).Ok?
    ensures Inst(m) !in RemoveMilestoneAsWritten(s, Num(n)).value.milestones
  {
    assert !KeepsAsWritten(Num(n))(Inst(m));
  }

  /** The corrected filter: `milestone.id.value !== milestoneId`. */
  function Keeps(milestoneId: Value): Arg<Milestone> -> bool {
    (e: Arg<Milestone>) => !(IdValue(e).Ok? && StrictEq(IdValue(e).value, milestoneId))
  }

  /** `removeMilestone` comparing each id value with the number itself. */
  function RemoveMilestone(s: Schedule, milestoneId: Value): (r: Result<Schedule>)
    ensures r.Ok? <==> milestoneId.Num? && IdsReadable(s)
    ensures !milestoneId.Num? ==> r == Err(BAD_ID_ERROR)
    ensures r.Ok? ==> forall e :: e in r.value.milestones <==> e in s.milestones && IdValue(e) != Ok(milestoneId)
  {
    if !milestoneId.Num? then Err(BAD_ID_ERROR)
    else
      var ids :- MapAll(s.milestones, IdValue);
      Ok(Schedule(Filter(s.milestones, Keeps(milestoneId))))
  }

  /** The corrected removal takes out the milestone with id 7. */
  lemma RemovesSeven(m: Milestone)
    requires m.id == Id(MilestoneIdClass, Num(7))
    ensures RemoveMilestone(Schedule([Inst(m)]), Num(7)) == Ok(Schedule([]))
  {
    assert !Keeps(Num(7))(Inst(m));
    assert [Inst(m)][1..] == [];
  }

  /** Adding a milestone and removing it by its id is removing alone. */
  lemma RemoveAfterAdd(s: Schedule, m: Milestone, n: int)
    requires IdsReadable(s) && m.id == Id(MilestoneIdClass, Num(n))
    ensures RemoveMilestone(AddMilestone(s, Inst(m)).value, Num(n)) == RemoveMilestone(s, Num(n))
  {
    var keep := Keeps(Num(n));
    var e := Inst(m);
    FilterConcat(s.milestones, [e], keep);
    assert !keep(e);
    assert Filter([e], keep) == [] by {
      assert [e][1..] == [];
    }
    var t := AddMilestone(s, e).value;
    assert IdsReadable(t) by {
      forall i | 0 <= i < |t.milestones| ensures IdValue(t.milestones[i]).Ok? {
        if i < |s.milestones| {
          assert t.milestones[i] == s.milestones[i];
        }
      }
    }
    assert t.milestones == s.milestones + [e];
    assert RemoveMilestone(t, Num(n)) == Ok(Schedule(Filter(t.milestones, keep)));
    assert Filter(t.milestones, keep) == Filter(s.milestones, keep) + [];
    assert Filter(s.milestones, keep) + [] == Filter(s.milestones, keep);
  }

  /** Removing twice by the same id is removing once. */
  lemma RemoveIdempotent(s: Schedule, n: int)
    requires IdsReadable(s)
    ensures RemoveMilestone(s, Num(n)).Ok?
    ensures RemoveMilestone(RemoveMilestone(s, Num(n)).value, Num(n)) == RemoveMilestone(s, Num(n))
  {
    var t := RemoveMilestone(s, Num(n)).value;
    assert IdsReadable(t) by {
      forall i | 0 <= i < |t.milestones| ensures IdValue(t.milestones[i]).Ok? {
        assert t.milestones[i] in s.milestones;
      }
    }
    FilterIdempotent(s.milestones, Keeps(Num(n)));
  }

  /** What one element's `toJSON()` gives: a milestone's serialised form,
      or the result of a plain value's own `toJSON` method (a Date's ISO
      text, a `MilestoneId`'s value, a `ProjectTeamMemberId`'s `{value}`). */
  datatype ElementJson = MilestoneForm(form: MilestoneJson) | OwnForm(v: Value)

  /** The element has a `toJSON` to call. */
  predicate Serialisable(e: Arg<Milestone>) {
    e.Inst? || HasToJson(e.v)
  }

  /** `milestone.toJSON()` for one element: a nullish element cannot be
      read, and a plain value without a `toJSON` method throws. */
  function ElementToJson(e: Arg<Milestone>): (r: Result<ElementJson>)
    ensures r.Ok? <==> Serialisable(e)
    ensures e.Inst? ==> r == Ok(MilestoneForm(Milestones.ToJson(e.obj)))
    ensures e.Raw? && IsNullish(e.v) ==> r == Err(ReadError(e.v))
    ensures e.Raw? && HasToJson(e.v) ==> r == Ok(OwnForm(OwnToJson(e.v)))
  {
    match e
    case Inst(m) => Ok(MilestoneForm(Milestones.ToJson(m)))
    case Raw(v) =>
      if HasToJson(v) then Ok(OwnForm(OwnToJson(v)))
      else if IsNullish(v) then Err(ReadError(v))
      else Err("TypeError: milestone.toJSON is not a function")
  }

  /** `toJSON`: each element's own `toJSON`, in order; the first element
      without one throws. */
  function ToJson(s: Schedule): (r: Result<seq<ElementJson>>)
    ensures r.Ok? <==> forall i :: 0 <= i < |s.milestones| ==> Serialisable(s.milestones[i])
    ensures r.Ok? ==> |r.value| == |s.milestones|
    ensures r.Ok? ==> forall i :: 0 <= i < |s.milestones| ==> r.value[i] == ElementToJson(s.milestones[i]).value
  {
    MapAll(s.milestones, ElementToJson)
  }

  /** A schedule holding a bare `MilestoneId` serialises it as its value:
      `new Schedule({milestones: [new MilestoneId(7)]}).toJSON()` gives
      `{milestones: [7]}`. */
  lemma RawMilestoneIdSerialises()
    ensures ToJson(Schedule([Raw(Id(MilestoneIdClass, Num(7)))])) == Ok([OwnForm(Num(7))])
  {
    var e: Arg<Milestone> := Raw(Id(MilestoneIdClass, Num(7)));
    var s := Schedule([e]);
    assert Serialisable(s.milestones[0]);
    var r := ToJson(s);
    assert r.Ok? && |r.value| == 1;
    assert r.value[0] == ElementToJson(e).value == OwnForm(Num(7));
    assert r.value == [OwnForm(Num(7))];
  }

  /** Serialising after an addition appends the new milestone's form, and
      fails exactly when serialising before it did. */
  lemma ToJsonAfterAdd(s: Schedule, m: Milestone)
    ensures ToJson(AddMilestone(s, Inst(m)).value).Ok? <==> ToJson(s).Ok?
    ensures ToJson(s).Ok? ==>
      ToJson(AddMilestone(s, Inst(m)).value) == Ok(ToJson(s).value + [MilestoneForm(Milestones.ToJson(m))])
  {
    MapAllAppend(s.milestones, Inst(m), ElementToJson);
  }
}

=== FILE: service_factory.dfy ===
/** The declarative service factory (`createService`): a table of operation
    name to `{ verb, path, fullPath }` becomes operations that resolve the
    path template against the payload, shape the body, append the query
    string and pick the HTTP call.  The call itself (`BaseService`) is not
    modelled: an operation yields the `Request` it would dispatch. */
module ServiceFactory {
  import opened Wrappers
  import opened Text
  import opened Js

  /** `HttpVerb`; `Unknown` is any other value found in a table row. */
  datatype HttpVerb = GET | POST | PUT | PATCH | DELETE | Unknown(v: Value)

  /** A row of a service table as written: `path` and `fullPath` may be missing. */
  datatype MethodSpec = MethodSpec(verb: HttpVerb, path: Option<string>, fullPath: Option<bool>)

  /** A row after the destructuring defaults `path = ''`, `fullPath = false`. */
  datatype Operation = Operation(verb: HttpVerb, path: string, fullPath: bool)

  datatype Service = Service(resource: string, operations: map<string, Operation>)

  /** What an operation hands to the HTTP layer: the verb, the URL relative to
      the resource, and the argument of the verb call (query parameters for
      GET, the body for POST/PUT/PATCH, nothing for DELETE). */
  datatype Request = Request(verb: HttpVerb, url: string, data: Option<Value>)

  /** `isPrimitive`: a string or a number. */
  predicate IsPrimitive(v: Value) {
    v.Str? || v.Num? || v.NaN?
  }

  predicate AllSlashes(s: string) {
    forall i :: 0 <= i < |s| ==> s[i] == '/'
  }

  /** `path.replace(/^\/+/, '')` */
  function StripLeadingSlashes(p: string): (r: string)
    ensures |r| <= |p| && r == p[|p| - |r|..]
    ensures AllSlashes(p[..|p| - |r|])
    ensures |r| == 0 || r[0] != '/'
  {
    if |p| > 0 && p[0] == '/' then
      var r := StripLeadingSlashes(p[1..]);
      assert p[1..][|p| - 1 - |r|..] == p[|p| - |r|..];
      assert p[..|p| - |r|] == [p[0]] + p[1..][..|p| - 1 - |r|];
      r
    else p
  }

  /** `extractPath`: the template unchanged for a full path, otherwise the
      template without its leading slashes (and nothing else removed). */
  function ExtractPath(path: string, fullPath: bool): (r: string)
    ensures fullPath ==> r == path
    ensures !fullPath ==> |r| <= |path| && path[|path| - |r|..] == r
    ensures !fullPath ==> AllSlashes(path[..|path| - |r|]) && (|r| == 0 || r[0] != '/')
  {
    if fullPath then path else StripLeadingSlashes(path)
  }

  /** `extractParamValue`: a value object (a truthy object with a `value`
      key) stands for its `value`; anything else stands for itself. */
  function ExtractParamValue(v: Value): (r: Value)
    ensures HasKey(v, "value") ==> r == Prop(v, "value")
    ensures !HasKey(v, "value") ==> r == v
  {
    if Truthy(v) && IsObject(v) && HasKey(v, "value") then Prop(v, "value") else v
  }

  /** The text that replaces the placeholder `:key`: the payload's field
      (unwrapped), or the placeholder itself when that is null or undefined. */
  function Substitute(key: string, payload: Value): string {
    var x := ExtractParamValue(Prop(payload, key));
    if IsNullish(x) then ":" + key else ToStr(x)
  }

  /** The length of the run of ASCII letters at the start of `s`. */
  function LetterRun(s: string): (n: nat)
    ensures n <= |s|
  {
    if |s| > 0 && IsAsciiLetter(s[0]) then 1 + LetterRun(s[1..]) else 0
  }

  /** The scan of `t.replace(/:([a-zA-Z]+)/g, (_, key) => sub(key))`: every
      match, found left to right, is replaced by `sub` of its key. */
  function ReplacePlaceholders(t: string, sub: string -> string): string
    decreases |t|
  {
    if |t| == 0 then ""
    else if t[0] == ':' && |t| > 1 && IsAsciiLetter(t[1]) then
      var n := LetterRun(t[1..]);
      sub(t[1..1 + n]) + ReplacePlaceholders(t[1 + n..], sub)
    else [t[0]] + ReplacePlaceholders(t[1..], sub)
  }

  /** `replacePathParams`: each placeholder replaced by `Substitute` of its key. */
  function ReplacePathParams(t: string, payload: Value): string {
    ReplacePlaceholders(t, key => Substitute(key, payload))
  }

  /** No `:` in `t` is followed by a letter, so `t` holds no placeholder. */
  predicate NoPlaceholders(t: string) {
    forall i :: 0 <= i < |t| - 1 && t[i] == ':' ==> !IsAsciiLetter(t[i + 1])
  }

  predicate AllLetters(key: string) {
    forall i :: 0 <= i < |key| ==> IsAsciiLetter(key[i])
  }

  /** A template without placeholders comes back unchanged. */
  lemma {:induction false} ReplaceWithoutPlaceholders(t: string, sub: string -> string)
    requires NoPlaceholders(t)
    ensures ReplacePlaceholders(t, sub) == t
    decreases |t|
  {
    if |t| > 0 {
      assert !(t[0] == ':' && |t| > 1 && IsAsciiLetter(t[1]));
      assert NoPlaceholders(t[1..]) by {
        forall i | 0 <= i < |t[1..]| - 1 && t[1..][i] == ':'
          ensures !IsAsciiLetter(t[1..][i + 1])
        {
          assert t[i + 1] == ':';
        }
      }
      ReplaceWithoutPlaceholders(t[1..], sub);
      assert t == [t[0]] + t[1..];
    }
  }

  /** A template made of one placeholder is replaced by its substitution. */
  lemma ReplaceSinglePlaceholder(key: string, sub: string -> string)
    requires |key| > 0 && AllLetters(key)
    ensures ReplacePlaceholders(":" + key, sub) == sub(key)
  {
    var t := ":" + key;
    assert t[1..] == key;
    LetterRunOfLetters(key);
    var n := LetterRun(key);
    assert t[1..1 + n] == key;
    assert t[1 + n..] == "";
  }

  lemma {:induction false} LetterRunOfLetters(key: string)
    requires AllLetters(key)
    ensures LetterRun(key) == |key|
    decreases |key|
  {
    if |key| > 0 {
      assert AllLetters(key[1..]) by {
        forall i | 0 <= i < |key[1..]| ensures IsAsciiLetter(key[1..][i]) {
          assert key[1..][i] == key[i + 1];
        }
      }
      LetterRunOfLetters(key[1..]);
    }
  }

  lemma LetterRunOfConcat(x: string, y: string)
    requires |y| == 0 || !IsAsciiLetter(y[0])
    ensures LetterRun(x + y) == LetterRun(x)
    decreases |x|
  {
    if |x| > 0 {
      assert (x + y)[1..] == x[1..] + y;
      if IsAsciiLetter(x[0]) {
        LetterRunOfConcat(x[1..], y);
      }
    } else {
      assert x + y == y;
    }
  }

  /** Replacement distributes over concatenation as long as the cut does not
      split a placeholder's key, that is, the second part does not start with
      a letter. */
  lemma {:induction false} ReplaceConcat(a: string, b: string, sub: string -> string)
    requires |b| == 0 || !IsAsciiLetter(b[0])
    ensures ReplacePlaceholders(a + b, sub) == ReplacePlaceholders(a, sub) + ReplacePlaceholders(b, sub)
    decreases |a|, 1
  {
    if |a| == 0 {
      assert a + b == b;
    } else if a[0] == ':' && |a| > 1 && IsAsciiLetter(a[1]) {
      ReplaceConcatAtPlaceholder(a, b, sub);
    } else {
      ReplaceConcatAtLiteral(a, b, sub);
    }
  }

  /** The step of `ReplaceConcat` where `a` starts with a placeholder. */
  lemma {:induction false} ReplaceConcatAtPlaceholder(a: string, b: string, sub: string -> string)
    requires |b| == 0 || !IsAsciiLetter(b[0])
    requires |a| > 1 && a[0] == ':' && IsAsciiLetter(a[1])
    ensures ReplacePlaceholders(a + b, sub) == ReplacePlaceholders(a, sub) + ReplacePlaceholders(b, sub)
    decreases |a|, 0
  {
    var t := a + b;
    var n := LetterRun(a[1..]);
    assert n == LetterRun(t[1..]) by {
      assert t[1..] == a[1..] + b;
      LetterRunOfConcat(a[1..], b);
    }
    assert 1 + n <= |a|;
    assert t[1..1 + n] == a[1..1 + n] by {
      forall i | 1 <= i < 1 + n ensures t[i] == a[i] { }
    }
    assert t[1 + n..] == a[1 + n..] + b;
    calc {
      ReplacePlaceholders(t, sub);
      { assert t[0] == ':' && |t| > 1 && t[1] == a[1]; }
      sub(a[1..1 + n]) + ReplacePlaceholders(a[1 + n..] + b, sub);
      { ReplaceConcat(a[1 + n..], b, sub); }
      sub(a[1..1 + n]) + (ReplacePlaceholders(a[1 + n..], sub) + ReplacePlaceholders(b, sub));
      ReplacePlaceholders(a, sub) + ReplacePlaceholders(b, sub);
    }
  }

  /** The step of `ReplaceConcat` where `a` starts with a plain character. */
  lemma {:induction false} ReplaceConcatAtLiteral(a: string, b: string, sub: string -> string)
    requires |b| == 0 || !IsAsciiLetter(b[0])
    requires |a| > 0 && !(a[0] == ':' && |a| > 1 && IsAsciiLetter(a[1]))
    ensures ReplacePlaceholders(a + b, sub) == ReplacePlaceholders(a, sub) + ReplacePlaceholders(b, sub)
    decreases |a|, 0
  {
    var t := a + b;
    assert t[1..] == a[1..] + b;
    calc {
      ReplacePlaceholders(t, sub);
      { assert t[0] == a[0] && !(t[0] == ':' && |t| > 1 && IsAsciiLetter(t[1])); }
      [a[0]] + ReplacePlaceholders(a[1..] + b, sub);
      { ReplaceConcat(a[1..], b, sub); }
      [a[0]] + (ReplacePlaceholders(a[1..], sub) + ReplacePlaceholders(b, sub));
      ReplacePlaceholders(a, sub) + ReplacePlaceholders(b, sub);
    }
  }

  /** A substitution that gives every placeholder back as it was leaves the
      template unchanged. */
  lemma {:induction false} ReplaceWithIdentity(t: string, sub: string -> string)
    requires forall key :: sub(key) == ":" + key
    ensures ReplacePlaceholders(t, sub) == t
    decreases |t|, 1
  {
    if |t| > 0 {
      if t[0] == ':' && |t| > 1 && IsAsciiLetter(t[1]) {
        IdentityAtPlaceholder(t, sub);
      } else {
        IdentityAtLiteral(t, sub);
      }
    }
  }

  /** The step of `ReplaceWithIdentity` where `t` starts with a placeholder. */
  lemma {:induction false} IdentityAtPlaceholder(t: string, sub: string -> string)
    requires forall key :: sub(key) == ":" + key
    requires |t| > 1 && t[0] == ':' && IsAsciiLetter(t[1])
    ensures ReplacePlaceholders(t, sub) == t
    decreases |t|, 0
  {
    var n := LetterRun(t[1..]);
    calc {
      ReplacePlaceholders(t, sub);
      sub(t[1..1 + n]) + ReplacePlaceholders(t[1 + n..], sub);
      { ReplaceWithIdentity(t[1 + n..], sub); }
      ":" + t[1..1 + n] + t[1 + n..];
      { assert t == [t[0]] + t[1..1 + n] + t[1 + n..]; }
      t;
    }
  }

  /** The step of `ReplaceWithIdentity` where `t` starts with a plain character. */
  lemma {:induction false} IdentityAtLiteral(t: string, sub: string -> string)
    requires forall key :: sub(key) == ":" + key
    requires |t| > 0 && !(t[0] == ':' && |t| > 1 && IsAsciiLetter(t[1]))
    ensures ReplacePlaceholders(t, sub) == t
    decreases |t|, 0
  {
    calc {
      ReplacePlaceholders(t, sub);
      [t[0]] + ReplacePlaceholders(t[1..], sub);
      { ReplaceWithIdentity(t[1..], sub); }
      [t[0]] + t[1..];
      t;
    }
  }

  /** An object payload none of whose fields holds a usable value (an empty
      object in particular) leaves every placeholder in place. */
  lemma ReplaceWithoutValues(t: string, payload: Value)
    requires forall key :: IsNullish(ExtractParamValue(Prop(payload, key)))
    ensures ReplacePathParams(t, payload) == t
  {
    ReplaceWithIdentity(t, key => Substitute(key, payload));
  }

  /** `GetSubstitution` (ECMAScript section 22.1.3.19.1) for a string pattern:
      `$$`, `$&`, `` $` `` and `$'` in the replacement text. */
  function ExpandReplacement(rep: string, matched: string, before: string, after: string): string
    decreases |rep|
  {
    if |rep| == 0 then ""
    else if rep[0] == '$' && |rep| > 1 && rep[1] == '$' then "$" + ExpandReplacement(rep[2..], matched, before, after)
    else if rep[0] == '$' && |rep| > 1 && rep[1] == '&' then matched + ExpandReplacement(rep[2..], matched, before, after)
    else if rep[0] == '$' && |rep| > 1 && rep[1] == '`' then before + ExpandReplacement(rep[2..], matched, before, after)
    else if rep[0] == '$' && |rep| > 1 && rep[1] == '\'' then after + ExpandReplacement(rep[2..], matched, before, after)
    else [rep[0]] + ExpandReplacement(rep[1..], matched, before, after)
  }

  lemma {:induction false} ExpandWithoutDollar(rep: string, matched: string, before: string, after: string)
    requires !Contains(rep, '$')
    ensures ExpandReplacement(rep, matched, before, after) == rep
    decreases |rep|
  {
    if |rep| > 0 {
      assert !Contains(rep[1..], '$') by {
        forall i | 0 <= i < |rep[1..]| ensures rep[1..][i] != '$' {
          assert rep[1..][i] == rep[i + 1];
        }
      }
      ExpandWithoutDollar(rep[1..], matched, before, after);
      assert rep == [rep[0]] + rep[1..];
    }
  }

  /** `s.replace(pat, rep)` with a string pattern: only the first occurrence. */
  function ReplaceFirst(s: string, pat: string, rep: string): string {
    var k := IndexOf(s, pat, 0);
    if k == -1 then s
    else s[..k] + ExpandReplacement(rep, pat, s[..k], s[k + |pat|..]) + s[k + |pat|..]
  }

  /** `const { id, ...rest } = payload`: the object's own enumerable fields
      other than `id`. */
  function RemoveId(payload: Value): (r: Value)
    requires IsObject(payload)
    ensures r.Obj? && "id" !in r.fields
    ensures payload.Obj? ==> r.fields.Keys == payload.fields.Keys - {"id"}
    ensures payload.Obj? ==> forall k :: k in r.fields ==> r.fields[k] == payload.fields[k]
  {
    match payload
    case Obj(f) => Obj(f - {"id"})
    case Arr(es) => Obj(ElementsByIndex(es, 0, map[]) - {"id"})
    case Id(_, x) => Obj(map["value" := x])
    case DateV(_) => Obj(map[])
  }

  /** The path after the payload step of an operation call. */
  function ResolvedPath(op: Operation, payload: Value): string {
    var p := ExtractPath(op.path, op.fullPath);
    if IsPrimitive(payload) then ReplaceFirst(p, ":id", ToStr(payload))
    else if IsObject(payload) then ReplacePathParams(p, payload)
    else p
  }

  /** The body after the payload step of an operation call. */
  function Body(op: Operation, payload: Value): Value {
    if IsPrimitive(payload) then Null
    else if IsObject(payload) && op.verb != POST then RemoveId(payload)
    else payload
  }

  /** A primitive payload fills the first `:id` and leaves no body. */
  lemma PrimitivePayloadShape(op: Operation, payload: Value)
    requires IsPrimitive(payload)
    ensures ResolvedPath(op, payload) == ReplaceFirst(ExtractPath(op.path, op.fullPath), ":id", ToStr(payload))
    ensures Body(op, payload) == Null
  {
  }

  /** An object payload loses `id` from the body unless the verb is POST;
      every other field is carried over unchanged. */
  lemma ObjectPayloadBody(op: Operation, f: map<string, Value>)
    ensures op.verb != POST ==> Body(op, Obj(f)) == Obj(f - {"id"})
    ensures op.verb == POST ==> Body(op, Obj(f)) == Obj(f)
    ensures ResolvedPath(op, Obj(f)) == ReplacePathParams(ExtractPath(op.path, op.fullPath), Obj(f))
  {
  }

  /** A null payload leaves both the path and the body as they were. */
  lemma NullPayloadUntouched(op: Operation)
    ensures ResolvedPath(op, Null) == ExtractPath(op.path, op.fullPath)
    ensures Body(op, Null) == Null
  {
  }

  // ----- query strings (`new URLSearchParams(params).toString()`) -----

  function HexDigit(d: nat): (c: char)
    requires d < 16
  {
    "0123456789ABCDEF"[d]
  }

  /** The UTF-8 bytes of a Unicode scalar value. */
  function Utf8(cp: int): seq<nat> {
    if cp < 0x80 then [if cp < 0 then 0 else cp]
    else if cp < 0x800 then [0xC0 + cp / 64 % 32, 0x80 + cp % 64]
    else if cp < 0x10000 then [0xE0 + cp / 4096 % 16, 0x80 + cp / 64 % 64, 0x80 + cp % 64]
    else [0xF0 + cp / 262144 % 8, 0x80 + cp / 4096 % 64, 0x80 + cp / 64 % 64, 0x80 + cp % 64]
  }

  function PercentBytes(bytes: seq<nat>): string {
    if |bytes| == 0 then ""
    else ['%', HexDigit(bytes[0] / 16 % 16), HexDigit(bytes[0] % 16)] + PercentBytes(bytes[1..])
  }

  /** The application/x-www-form-urlencoded byte serializer of the URL
      Standard for one character. */
  function FormEncodeChar(c: char): string {
    if c == ' ' then "+"
    else if IsAsciiLetter(c) || IsDigit(c) || c == '*' || c == '-' || c == '.' || c == '_' then [c]
    else PercentBytes(Utf8(c as int))
  }

  function FormEncode(s: string): string {
    if |s| == 0 then "" else FormEncodeChar(s[0]) + FormEncode(s[1..])
  }

  /** The characters an encoded name or value may contain. */
  predicate SafeChar(c: char) {
    IsAsciiLetter(c) || IsDigit(c) || c == '*' || c == '-' || c == '.' || c == '_' || c == '+' || c == '%'
  }

  predicate SafeText(s: string) {
    forall i :: 0 <= i < |s| ==> SafeChar(s[i])
  }

  lemma SafeConcat(a: string, b: string)
    requires SafeText(a) && SafeText(b)
    ensures SafeText(a + b)
  {
    forall i | 0 <= i < |a + b| ensures SafeChar((a + b)[i]) {
      if i < |a| { assert (a + b)[i] == a[i]; } else { assert (a + b)[i] == b[i - |a|]; }
    }
  }

  lemma {:induction false} PercentBytesSafe(bytes: seq<nat>)
    ensures SafeText(PercentBytes(bytes))
    decreases |bytes|
  {
    if |bytes| > 0 {
      PercentBytesSafe(bytes[1..]);
      var head := ['%', HexDigit(bytes[0] / 16 % 16), HexDigit(bytes[0] % 16)];
      assert SafeText(head);
      SafeConcat(head, PercentBytes(bytes[1..]));
    }
  }

  /** An encoded name or value never contains `&`, `=`, `?` or `#`, so the
      serialized query splits back into its pairs. */
  lemma {:induction false} FormEncodeIsSafe(s: string)
    ensures SafeText(FormEncode(s))
    decreases |s|
  {
    if |s| > 0 {
      FormEncodeIsSafe(s[1..]);
      var c := s[0];
      if !(c == ' ' || IsAsciiLetter(c) || IsDigit(c) || c == '*' || c == '-' || c == '.' || c == '_') {
        PercentBytesSafe(Utf8(c as int));
      }
      SafeConcat(FormEncodeChar(c), FormEncode(s[1..]));
    }
  }

  function EncodePair(p: (string, Value)): string {
    FormEncode(p.0) + "=" + FormEncode(ToStr(p.1))
  }

  /** `new URLSearchParams(params).toString()` for the parameters in order. */
  function SerializeQuery(q: seq<(string, Value)>): (r: string)
    ensures |q| == 0 <==> r == ""
  {
    Join(seq(|q|, i requires 0 <= i < |q| => EncodePair(q[i])), "&")
  }

  /** `addQueryParams`: an empty query leaves the URL unchanged, otherwise
      `?` and the serialized query follow the URL. */
  function AddQueryParams(url: string, q: seq<(string, Value)>): (r: string)
    ensures |q| == 0 ==> r == url
    ensures |q| > 0 ==> r == url + "?" + SerializeQuery(q)
  {
    var s := SerializeQuery(q);
    if s == "" then url else url + "?" + s
  }

  // ----- operations -----

  /** `createService`: each table row with its defaults applied.  The
      function has two parameters; a third argument passed by a caller is
      dropped by JavaScript before it reaches the factory. */
  function CreateService(resource: string, table: map<string, MethodSpec>): (s: Service)
    ensures s.resource == resource
    ensures s.operations.Keys == table.Keys
    ensures forall name :: name in table ==>
      s.operations[name].verb == table[name].verb
      && s.operations[name].path == (if table[name].path.Some? then table[name].path.value else "")
      && s.operations[name].fullPath == (table[name].fullPath.Some? && table[name].fullPath.value)
  {
    var ops := map name | name in table :: Operation(
      table[name].verb,
      if table[name].path.Some? then table[name].path.value else "",
      table[name].fullPath.Some? && table[name].fullPath.value);
    Service(resource, ops)
  }

  /** One call of a generated operation, `service[name](payload, queryParams)`.
      The verb is checked only when the call is made. */
  function Invoke(op: Operation, payload: Value, query: seq<(string, Value)>): (r: Result<Request>)
    ensures r.Err? <==> op.verb.Unknown?
    ensures r.Err? ==> r.error == "Unsupported HTTP verb: " + ToStr(op.verb.v)
    ensures r.Ok? ==> r.value.verb == op.verb
    ensures r.Ok? ==> r.value.url == AddQueryParams(ResolvedPath(op, Default(payload, Null)), query)
    ensures r.Ok? ==> (r.value.data.None? <==> op.verb == DELETE)
    ensures r.Ok? && op.verb != DELETE ==> r.value.data == Some(Body(op, Default(payload, Null)))
  {
    var p := Default(payload, Null);
    var url := AddQueryParams(ResolvedPath(op, p), query);
    match op.verb
    case GET => Ok(Request(GET, url, Some(Body(op, p))))
    case POST => Ok(Request(POST, url, Some(Body(op, p))))
    case PUT => Ok(Request(PUT, url, Some(Body(op, p))))
    case PATCH => Ok(Request(PATCH, url, Some(Body(op, p))))
    case DELETE => Ok(Request(DELETE, url, None))
    case Unknown(v) => Err("Unsupported HTTP verb: " + ToStr(v))
  }

  /** Calling an operation by name; a name outside the table is not a function. */
  function Call(s: Service, name: string, payload: Value, query: seq<(string, Value)>): (r: Result<Request>)
    ensures name !in s.operations ==> r.Err?
    ensures name in s.operations ==> r == Invoke(s.operations[name], payload, query)
  {
    if name in s.operations then Invoke(s.operations[name], payload, query)
    else Err("TypeError: service." + name + " is not a function")
  }

  /** Literal text in front of a template passes through unchanged. */
  lemma ReplaceAfterLiteral(lit: string, u: string, sub: string -> string)
    requires NoPlaceholders(lit)
    requires |u| == 0 || !IsAsciiLetter(u[0])
    ensures ReplacePlaceholders(lit + u, sub) == lit + ReplacePlaceholders(u, sub)
  {
    ReplaceConcat(lit, u, sub);
    ReplaceWithoutPlaceholders(lit, sub);
  }

  /** A placeholder followed by a non-letter is replaced on its own. */
  lemma ReplaceLeadingPlaceholder(key: string, rest: string, sub: string -> string)
    requires |key| > 0 && AllLetters(key)
    requires |rest| == 0 || !IsAsciiLetter(rest[0])
    ensures ReplacePlaceholders((":" + key) + rest, sub) == sub(key) + ReplacePlaceholders(rest, sub)
  {
    ReplaceConcat(":" + key, rest, sub);
    ReplaceSinglePlaceholder(key, sub);
  }

  /** Scanning a template whose first placeholder follows a plain prefix:
      the prefix is kept, the placeholder substituted, the rest scanned on. */
  lemma ReplaceFirstPlaceholder(lit: string, key: string, rest: string, sub: string -> string)
    requires NoPlaceholders(lit) && |key| > 0 && AllLetters(key)
    requires |rest| == 0 || !IsAsciiLetter(rest[0])
    ensures ReplacePlaceholders(lit + (":" + key) + rest, sub) == lit + sub(key) + ReplacePlaceholders(rest, sub)
  {
    var u := (":" + key) + rest;
    assert lit + (":" + key) + rest == lit + u;
    assert u[0] == ':';
    ReplaceAfterLiteral(lit, u, sub);
    ReplaceLeadingPlaceholder(key, rest, sub);
  }

  /** The scalar shorthand agrees with the object form: filling `:id` from a
      bare string or number gives the same path as an object whose `id` field
      holds that value, when `:id` is the template's only placeholder. */
  lemma ScalarShorthandMatchesIdField(a: string, b: string, v: Value)
    requires IsPrimitive(v) && !Contains(ToStr(v), '$')
    requires !Contains(a, ':') && NoPlaceholders(b) && (|b| == 0 || !IsAsciiLetter(b[0]))
    ensures ReplaceFirst(a + ":id" + b, ":id", ToStr(v)) == a + ToStr(v) + b
    ensures ReplacePathParams(a + ":id" + b, Obj(map["id" := v])) == a + ToStr(v) + b
  {
    ScalarShorthandFirst(a, b, ToStr(v));
    var p := Obj(map["id" := v]);
    var sub := key => Substitute(key, p);
    assert NoPlaceholders(a) by {
      forall i | 0 <= i < |a| - 1 && a[i] == ':' ensures false {
        assert Contains(a, ':');
      }
    }
    calc {
      ReplacePathParams(a + ":id" + b, p);
      { assert ":id" == ":" + "id"; }
      ReplacePlaceholders(a + (":" + "id") + b, sub);
      { assert AllLetters("id"); ReplaceFirstPlaceholder(a, "id", b, sub); }
      a + sub("id") + ReplacePlaceholders(b, sub);
      { ReplaceWithoutPlaceholders(b, sub); }
      a + ToStr(v) + b;
    }
  }

  /** At the level of a call: `service.op(42)` and `service.op({id: 42})`
      reach the same URL. */
  lemma ShorthandCallMatchesObjectCall(verb: HttpVerb, a: string, b: string, v: Value, q: seq<(string, Value)>)
    requires !verb.Unknown?
    requires IsPrimitive(v) && !Contains(ToStr(v), '$')
    requires !Contains(a, ':') && NoPlaceholders(b) && (|b| == 0 || !IsAsciiLetter(b[0]))
    ensures Invoke(Operation(verb, a + ":id" + b, true), v, q).Ok?
    ensures Invoke(Operation(verb, a + ":id" + b, true), v, q).value.url
         == Invoke(Operation(verb, a + ":id" + b, true), Obj(map["id" := v]), q).value.url
         == AddQueryParams(a + ToStr(v) + b, q)
  {
    ScalarShorthandMatchesIdField(a, b, v);
  }

  /** `(a + ":id" + b).replace(':id', text)` when `a` holds no colon and
      `text` no dollar sign. */
  lemma ScalarShorthandFirst(a: string, b: string, text: string)
    requires !Contains(text, '$') && !Contains(a, ':')
    ensures ReplaceFirst(a + ":id" + b, ":id", text) == a + text + b
  {
    var s := a + ":id" + b;
    assert OccursAt(s, ":id", |a|) by {
      assert s[|a|..|a| + 3] == ":id";
    }
    forall j | 0 <= j < |a| ensures !OccursAt(s, ":id", j) {
      assert s[j] == a[j];
    }
    var k := IndexOf(s, ":id", 0);
    assert k == |a|;
    assert s[..k] == a;
    assert s[k + 3..] == b;
    ExpandWithoutDollar(text, ":id", a, b);
  }

  // ----- the task service's operation table (task.service.js:32-40) -----

  const TaskTable: map<string, MethodSpec> := map[
    "getAll" := MethodSpec(GET, None, None),
    "getById" := MethodSpec(GET, Some(":id"), None),
    "create" := MethodSpec(POST, None, None),
    "update" := MethodSpec(PUT, Some(":id"), None),
    "delete" := MethodSpec(DELETE, Some(":id"), None),
    "assignResponsible" := MethodSpec(PUT, Some(":id/responsible"), None),
    "updateStatus" := MethodSpec(PUT, Some(":id/status"), None)
  ]

  /** `taskService.assignResponsible` as the factory builds it. */
  lemma TaskAssignResponsibleOperation()
    ensures "assignResponsible" in CreateService("/tasks", TaskTable).operations
    ensures CreateService("/tasks", TaskTable).operations["assignResponsible"]
         == Operation(PUT, ":id/responsible", false)
  {
    assert "assignResponsible" in TaskTable;
  }
}

=== FILE: subscription_plans.dfy ===
/** `SubscriptionPlan`: a named plan with a duration in days, a Money price,
    a list of features and the limits a workspace takes from it; and
    `SubscriptionPlanId`, which always takes a fresh UUID. */
module SubscriptionPlans {
  import opened Wrappers
  import opened Text
  import opened Js
  import opened Identifiers
  import opened MoneyModel

  datatype Plan = Plan(
    id: Value,
    name: string,
    description: Value,
    durationInDays: Value,
    price: Money,
    features: Value,
    planType: Value,
    maxMembers: Value,
    maxStorage: Value,
    maxProjects: Value)

  /** The constructor's destructured argument; an absent field is
      `Undefined` (for the price, `Raw(Undefined)`). */
  datatype PlanArgs = PlanArgs(
    id: Value,
    name: Value,
    description: Value,
    durationInDays: Value,
    price: Arg<Money>,
    features: Value,
    planType: Value,
    maxMembers: Value,
    maxStorage: Value,
    maxProjects: Value)

  /** `SubscriptionPlan.isValidName(name)` */
  predicate IsValidName(name: Value) {
    name.Str? && !IsBlank(name.s)
  }

  /** The duration test the constructor applies: it throws for a value that
      is not a number or is below zero. */
  predicate DurationRefused(d: Value) {
    !IsNumber(d) || (d.Num? && d.n < 0)
  }

  /** What every constructed plan satisfies: a valid name, a duration that
      is a non-negative number or NaN, and no field left undefined. */
  predicate WellFormed(p: Plan) {
    !IsBlank(p.name) && (p.durationInDays.NaN? || (p.durationInDays.Num? && p.durationInDays.n >= 0))
    && p.id != Undefined && p.description != Undefined && p.features != Undefined && p.planType != Undefined
    && p.maxMembers != Undefined && p.maxStorage != Undefined && p.maxProjects != Undefined
  }

  /** `new SubscriptionPlan({...})`: the name, then the price, then the
      duration are checked, in that order; a missing price is `new Money()`,
      zero soles, and a missing id a fresh SubscriptionPlanId. */
  function NewPlan(args: PlanArgs, uuid: string): (r: Result<Plan>)
    ensures r.Ok? <==>
      IsValidName(Default(args.name, Str(""))) && DefaultArg(args.price, Inst(ZERO_PEN)).Inst?
      && (Default(args.durationInDays, Num(0)).NaN?
          || (Default(args.durationInDays, Num(0)).Num? && Default(args.durationInDays, Num(0)).n >= 0))
    ensures !IsValidName(Default(args.name, Str(""))) ==> r == Err("Plan name must be a non-empty string")
    ensures IsValidName(Default(args.name, Str(""))) && args.price.Raw? && args.price != Raw(Undefined) ==>
      r == Err("Price must be an instance of Money")
    ensures r.Ok? ==> WellFormed(r.value) && Str(r.value.name) == args.name
    ensures r.Ok? ==> r.value.price == (if args.price.Inst? then args.price.obj else ZERO_PEN)
    ensures r.Ok? ==> r.value.id == Default(args.id, GeneratedId(SubscriptionPlanIdClass, uuid))
    ensures r.Ok? ==> r.value.durationInDays == Default(args.durationInDays, Num(0))
    ensures r.Ok? ==> r.value.features == Default(args.features, Arr([]))
    ensures r.Ok? ==> r.value.maxMembers == Default(args.maxMembers, Num(0))
    ensures r.Ok? ==> r.value.maxStorage == Default(args.maxStorage, Num(0))
    ensures r.Ok? ==> r.value.maxProjects == Default(args.maxProjects, Num(0))
    ensures r.Ok? ==> r.value.description == Default(args.description, Str(""))
    ensures r.Ok? ==> r.value.planType == Default(args.planType, Str(""))
  {
    var name := Default(args.name, Str(""));
    var price := DefaultArg(args.price, Inst(ZERO_PEN));
    var duration := Default(args.durationInDays, Num(0));
    if !IsValidName(name) then Err("Plan name must be a non-empty string")
    else if !price.Inst? then Err("Price must be an instance of Money")
    else if DurationRefused(duration) then Err("Duration must be a non-negative number")
    else
      Ok(Plan(
        Default(args.id, GeneratedId(SubscriptionPlanIdClass, uuid)),
        name.s,
        Default(args.description, Str("")),
        duration,
        price.obj,
        Default(args.features, Arr([])),
        Default(args.planType, Str("")),
        Default(args.maxMembers, Num(0)),
        Default(args.maxStorage, Num(0)),
        Default(args.maxProjects, Num(0))))
  }

  /** The arguments naming nothing but the plan's name. */
  function NamedOnly(name: Value): PlanArgs {
    PlanArgs(Undefined, name, Undefined, Undefined, Raw(Undefined), Undefined, Undefined, Undefined, Undefined,
             Undefined)
  }

  /** With no name, construction fails; with only a name, the plan is a
      free trial of zero days with no features. */
  lemma DefaultsMakeAFreeTrial(name: string, uuid: string)
    requires !IsBlank(name)
    ensures NewPlan(NamedOnly(Undefined), uuid) == Err("Plan name must be a non-empty string")
    ensures NewPlan(NamedOnly(Str(name)), uuid).Ok?
    ensures var p := NewPlan(NamedOnly(Str(name)), uuid).value;
      IsFree(p) && IsTrial(p) && !IsPaid(p) && p.features == Arr([]) && HasFeature(p, Str(name)) == Ok(false)
  {
  }

  /** A NaN duration is not refused, since `NaN < 0` is false. */
  lemma NaNDurationAccepted(name: string, uuid: string)
    requires !IsBlank(name)
    ensures NewPlan(NamedOnly(Str(name)).(durationInDays := NaN), uuid).Ok?
    ensures NewPlan(NamedOnly(Str(name)).(durationInDays := Num(-1)), uuid) == Err("Duration must be a non-negative number")
  {
  }

  /** `isTrial()` */
  predicate IsTrial(p: Plan) {
    StrictEq(p.durationInDays, Num(0)) || p.price.amount == 0
  }

  /** `isFree()` */
  predicate IsFree(p: Plan) {
    p.price.amount == 0
  }

  /** `isPaid()` */
  predicate IsPaid(p: Plan) {
    p.price.amount > 0
  }

  /** Every plan is exactly one of free, paid, or priced below zero; every
      free plan is a trial, and a trial that is not free lasts zero days. */
  lemma PriceClassification(p: Plan)
    ensures IsFree(p) ==> IsTrial(p) && !IsPaid(p)
    ensures !IsFree(p) && !IsPaid(p) <==> p.price.amount < 0
    ensures IsTrial(p) && !IsFree(p) ==> p.durationInDays == Num(0)
    ensures IsPaid(p) ==> (IsTrial(p) <==> p.durationInDays == Num(0))
  {
  }

  /** `s.includes(pat)` for strings: `pat` occurs somewhere in `s`. */
  predicate Includes(s: string, pat: string) {
    exists j :: 0 <= j <= |s| && OccursAt(s, pat, j)
  }

  /** `hasFeature(key)`: `features.includes(key)`.  An array holds the key
      as one of its elements (compared by content: values here carry no
      identity); a string holds the key's text as a substring; anything
      else has no `includes` to call. */
  function HasFeature(p: Plan, key: Value): (r: Result<bool>)
    ensures p.features.Arr? ==> r == Ok(key in p.features.elems)
    ensures p.features.Str? ==> r == Ok(Includes(p.features.s, ToStr(key)))
    ensures !p.features.Arr? && !p.features.Str? ==> r.Err?
  {
    match p.features
    case Arr(es) => Ok(key in es)
    case Str(s) =>
      var k := IndexOf(s, ToStr(key), 0);
      assert k != -1 ==> OccursAt(s, ToStr(key), k);
      assert k == -1 ==> forall j :: !OccursAt(s, ToStr(key), j);
      Ok(k != -1)
    case Undefined => Err(ReadError(Undefined))
    case Null => Err(ReadError(Null))
    case _ => Err("TypeError: this.features.includes is not a function")
  }

  /** Adding a feature to a plan's list makes it a feature of the plan,
      and keeps every feature it had. */
  lemma AddedFeatureIsFound(p: Plan, key: Value, other: Value)
    requires p.features.Arr?
    ensures HasFeature(p.(features := Arr(p.features.elems + [key])), key) == Ok(true)
    ensures HasFeature(p, other) == Ok(true) ==> HasFeature(p.(features := Arr(p.features.elems + [key])), other) == Ok(true)
  {
    assert (p.features.elems + [key])[|p.features.elems|] == key;
  }

  /** `toJSON`: the id unwrapped and the price serialised. */
  function ToJson(p: Plan): (j: map<string, Value>)
    ensures j.Keys == {"id", "name", "description", "durationInDays", "price", "features", "planType",
                       "maxMembers", "maxStorage", "maxProjects"}
    ensures j["price"] == Obj(MoneyModel.ToJson(p.price)) && j["name"] == Str(p.name)
    ensures IsInstance(p.id, SubscriptionPlanIdClass) ==> j["id"] == p.id.value
    ensures !p.id.Id? && !p.id.Obj? ==> j["id"] == Undefined
  {
    map[
      "id" := OptValue(p.id),
      "name" := Str(p.name),
      "description" := p.description,
      "durationInDays" := p.durationInDays,
      "price" := Obj(MoneyModel.ToJson(p.price)),
      "features" := p.features,
      "planType" := p.planType,
      "maxMembers" := p.maxMembers,
      "maxStorage" := p.maxStorage,
      "maxProjects" := p.maxProjects]
  }

  /** A constructor argument read from a serialised plan, with the id
      wrapped again and the price built back from its fields. */
  function ArgsOf(j: map<string, Value>, price: Arg<Money>): PlanArgs {
    PlanArgs(Id(SubscriptionPlanIdClass, FieldOf(j, "id")), FieldOf(j, "name"), FieldOf(j, "description"),
             FieldOf(j, "durationInDays"), price, FieldOf(j, "features"), FieldOf(j, "planType"),
             FieldOf(j, "maxMembers"), FieldOf(j, "maxStorage"), FieldOf(j, "maxProjects"))
  }

  /** `toJSON` loses nothing of a well-formed plan: the serialised price
      builds the same Money, and the fields rebuild the plan. */
  lemma JsonRebuilds(p: Plan, uuid: string)
    requires WellFormed(p) && IsInstance(p.id, SubscriptionPlanIdClass) && Valid(p.price)
    ensures var price := ToJson(p)["price"].fields;
      NewMoney(price["amount"], price["currency"]) == Ok(p.price)
    ensures NewPlan(ArgsOf(ToJson(p), Inst(p.price)), uuid) == Ok(p)
  {
    JsonRoundTrip(p.price);
    var j := ToJson(p);
    assert ArgsOf(j, Inst(p.price)) == PlanArgs(p.id, Str(p.name), p.description, p.durationInDays, Inst(p.price),
                                                p.features, p.planType, p.maxMembers, p.maxStorage, p.maxProjects);
  }
}

=== FILE: subscriptions.dfy ===
/** `Subscription`: a person's subscription to a plan over a span of dates,
    ACTIVE until it is cancelled, and extendable. */
module Subscriptions {
  import opened Wrappers
  import opened Dates
  import opened Js
  import opened Enums

  datatype Subscription = Subscription(
    id: Value,
    startDate: Date,
    endDate: Date,
    status: Value,
    personId: Value,
    subscriptionPlan: Value,
    isAutoRenew: Value)

  /** The constructor's destructured argument; an absent field is `Undefined`. */
  datatype SubscriptionArgs = SubscriptionArgs(
    id: Value,
    startDate: Value,
    endDate: Value,
    status: Value,
    personId: Value,
    subscriptionPlan: Value,
    isAutoRenew: Value)

  /** `new Subscription({...})`: nothing is checked; the three references
      are kept only when they are numbers, both dates go through
      `new Date(...)` (`now` when missing), the status is ACTIVE unless
      given. */
  function NewSubscription(args: SubscriptionArgs, now: int, parse: string -> Date): (s: Subscription)
    ensures s.id == NumberOrNull(args.id) && s.personId == NumberOrNull(args.personId)
    ensures s.subscriptionPlan == NumberOrNull(args.subscriptionPlan)
    ensures s.status == Default(args.status, ACTIVE) && s.isAutoRenew == Default(args.isAutoRenew, Bool(false))
    ensures args.startDate.DateV? ==> s.startDate == args.startDate.d
    ensures args.endDate.DateV? ==> s.endDate == args.endDate.d
    ensures args.startDate == Undefined ==> s.startDate == ClockDate(now)
    ensures args.endDate == Undefined ==> s.endDate == ClockDate(now)
  {
    Subscription(
      NumberOrNull(args.id),
      NewDate(Default(args.startDate, DateV(ClockDate(now))), parse),
      NewDate(Default(args.endDate, DateV(ClockDate(now))), parse),
      Default(args.status, ACTIVE),
      NumberOrNull(args.personId),
      NumberOrNull(args.subscriptionPlan),
      Default(args.isAutoRenew, Bool(false)))
  }

  /** `a <= b` on two Dates: false when either is invalid. */
  predicate AtMost(a: Date, b: Date) {
    a.ValidDate? && b.ValidDate? && a.ms <= b.ms
  }

  /** `cancel`: only an ACTIVE subscription is cancelled. */
  function Cancel(s: Subscription): (r: Result<Subscription>)
    ensures r.Ok? <==> s.status == ACTIVE
    ensures r.Err? ==> r.error == "Only active subscriptions can be cancelled."
    ensures r.Ok? ==> r.value == s.(status := CANCELLED)
  {
    if !StrictEq(s.status, ACTIVE) then Err("Only active subscriptions can be cancelled.")
    else Ok(s.(status := CANCELLED))
  }

  /** `isActive()` read at time `now`. */
  predicate IsActive(s: Subscription, now: int) {
    StrictEq(s.status, ACTIVE) && AtMost(s.startDate, ClockDate(now)) && AtMost(ClockDate(now), s.endDate)
  }

  /** At a valid time, a subscription is active exactly when it is ACTIVE
      and the time lies between its valid dates, both ends included. */
  lemma ActiveExactly(s: Subscription, now: int)
    requires -MaxTime <= now <= MaxTime
    ensures IsActive(s, now) <==>
      s.status == ACTIVE && s.startDate.ValidDate? && s.endDate.ValidDate?
      && s.startDate.ms <= now <= s.endDate.ms
    ensures (s.status == ACTIVE && s.startDate.ValidDate? && s.endDate.ValidDate? && s.startDate.ms <= s.endDate.ms
             && (now == s.startDate.ms || now == s.endDate.ms)) ==> IsActive(s, now)
  {
  }

  /** A cancelled subscription is never active, and cannot be cancelled
      again. */
  lemma CancelledStaysInactive(s: Subscription, now: int)
    requires Cancel(s).Ok?
    ensures !IsActive(Cancel(s).value, now)
    ensures Cancel(Cancel(s).value).Err?
  {
  }

  /** `extend(newEndDate)`: refused when the new date is not after the
      current end.  The comparison is numeric, so a text or an invalid date
      compares as NaN and is never refused. */
  function Extend(s: Subscription, newEndDate: Value, parse: string -> Date): (r: Result<Subscription>)
    ensures r.Ok? <==> !(ToNumber(newEndDate).Num? && s.endDate.ValidDate? && ToNumber(newEndDate).n <= s.endDate.ms)
    ensures r.Err? ==> r.error == "New end date must be after current end date."
    ensures r.Ok? ==> r.value == s.(endDate := NewDate(newEndDate, parse))
  {
    var n := ToNumber(newEndDate);
    if n.Num? && s.endDate.ValidDate? && n.n <= s.endDate.ms then Err("New end date must be after current end date.")
    else Ok(s.(endDate := NewDate(newEndDate, parse)))
  }

  /** Given valid Dates, an extension moves the end strictly later, and
      changes neither the start nor the status. */
  lemma ExtendMovesEndLater(s: Subscription, newEnd: Date, parse: string -> Date)
    requires newEnd.ValidDate? && s.endDate.ValidDate?
    ensures Extend(s, DateV(newEnd), parse).Ok? <==> s.endDate.ms < newEnd.ms
    ensures Extend(s, DateV(newEnd), parse).Ok? ==>
      var t := Extend(s, DateV(newEnd), parse).value;
      t.endDate == newEnd && t.startDate == s.startDate && t.status == s.status
  {
  }

  /** A date given as text is not compared: it is accepted even when it
      reads as a date before the current end. */
  lemma TextDateIsNotCompared(s: Subscription, text: string, parse: string -> Date)
    requires StringToNumber(text).NaN?
    requires s.endDate.ValidDate? && parse(text).ValidDate? && parse(text).ms < s.endDate.ms
    ensures Extend(s, Str(text), parse) == Ok(s.(endDate := parse(text)))
  {
  }

  /** `toJSON`: the seven fields. */
  function ToJson(s: Subscription): (j: map<string, Value>)
    ensures j.Keys == {"id", "startDate", "endDate", "status", "personId", "subscriptionPlan", "isAutoRenew"}
    ensures j["startDate"] == DateV(s.startDate) && j["endDate"] == DateV(s.endDate)
  {
    map[
      "id" := s.id,
      "startDate" := DateV(s.startDate),
      "endDate" := DateV(s.endDate),
      "status" := s.status,
      "personId" := s.personId,
      "subscriptionPlan" := s.subscriptionPlan,
      "isAutoRenew" := s.isAutoRenew]
  }

  /** A constructor argument read from an object's fields. */
  function ArgsOf(j: map<string, Value>): SubscriptionArgs {
    SubscriptionArgs(FieldOf(j, "id"), FieldOf(j, "startDate"), FieldOf(j, "endDate"), FieldOf(j, "status"),
                     FieldOf(j, "personId"), FieldOf(j, "subscriptionPlan"), FieldOf(j, "isAutoRenew"))
  }

  /** `toJSON` loses nothing of a subscription whose references are numbers
      or null: the constructor rebuilds it from the object. */
  lemma JsonRebuilds(s: Subscription, now: int, parse: string -> Date)
    requires s.id == NumberOrNull(s.id) && s.personId == NumberOrNull(s.personId)
    requires s.subscriptionPlan == NumberOrNull(s.subscriptionPlan)
    requires s.status != Undefined && s.isAutoRenew != Undefined
    ensures NewSubscription(ArgsOf(ToJson(s)), now, parse) == s
  {
    assert ArgsOf(ToJson(s)) == SubscriptionArgs(s.id, DateV(s.startDate), DateV(s.endDate), s.status,
                                                 s.personId, s.subscriptionPlan, s.isAutoRenew);
  }
}

=== FILE: task_assembler.dfy ===
/** `TaskAssembler`: tasks read from API resources, with every field
    normalised first and a default "Error Task" whenever the constructor
    throws; and tasks written back as resources with ISO date texts. */
module TaskAssembler {
  import opened Wrappers
  import opened Dates
  import opened Js
  import opened Enums
  import opened Lists
  import opened IsoDates
  import opened Tasks

  /** A Specialty member is kept; anything else becomes ARCHITECTURE. */
  function ReadSpecialty(resource: Value): (v: Value)
    ensures v in SPECIALTIES
    ensures Prop(resource, "specialty") in SPECIALTIES ==> v == Prop(resource, "specialty")
    ensures Prop(resource, "specialty") !in SPECIALTIES ==> v == ARCHITECTURE
  {
    var s := Prop(resource, "specialty");
    if s in SPECIALTIES then s else ARCHITECTURE
  }

  /** A TaskStatus member is kept; anything else becomes DRAFT. */
  function ReadStatus(resource: Value): (v: Value)
    ensures v in TASK_STATUSES
    ensures Prop(resource, "status") in TASK_STATUSES ==> v == Prop(resource, "status")
    ensures Prop(resource, "status") !in TASK_STATUSES ==> v == DRAFT
  {
    var s := Prop(resource, "status");
    if s in TASK_STATUSES then s else DRAFT
  }

  /** The normalised constructor argument of a resource that is an object. */
  function ResourceArgs(resource: Value, now: int, parse: string -> Date): (args: TaskArgs)
    ensures args.specialty in SPECIALTIES && args.status in TASK_STATUSES
    ensures args.id == Null || IsNumber(args.id)
    ensures Truthy(args.name) && (args.responsible == Null || Truthy(args.responsible))
    ensures args.milestoneId == Null || Truthy(args.milestoneId)
  {
    TaskArgs(
      NumberOrNull(Prop(resource, "id")),
      Or(Prop(resource, "name"), Str("New Task")),
      ReadSpecialty(resource),
      ReadStatus(resource),
      DateOrNow(Prop(resource, "startingDate"), now, parse),
      DateOrNow(Prop(resource, "dueDate"), now, parse),
      Or(Prop(resource, "responsible"), Null),
      Or(Prop(resource, "milestoneId"), Null))
  }

  /** The body of the `try`: reading a field of null or undefined throws. */
  function Attempt(resource: Value, now: int, parse: string -> Date): (r: Result<Task>)
    ensures IsNullish(resource) ==> r.Err?
  {
    if IsNullish(resource) then Err(ReadError(resource))
    else NewTask(ResourceArgs(resource, now, parse), now)
  }

  /** The `catch`: a GENERAL task named "Error Task", in DRAFT, with no
      responsible and both dates `now`.  It throws too when `now` is not a
      valid time. */
  function Fallback(now: int): (r: Result<Task>)
    ensures r.Ok? <==> -MaxTime <= now <= MaxTime
    ensures r.Ok? ==> r.value == Task(Null, Str("Error Task"), GENERAL, DRAFT,
                                      DateV(ValidDate(now)), DateV(ValidDate(now)), Null, Null)
  {
    NewTask(TaskArgs(Undefined, Str("Error Task"), GENERAL, DRAFT, Undefined, Undefined, Null, Undefined), now)
  }

  /** `toEntityFromResource` */
  function FromResource(resource: Value, now: int, parse: string -> Date): (r: Result<Task>)
    ensures r.Ok? ==> WellFormed(r.value)
  {
    Recover(Attempt(resource, now, parse), Fallback(now))
  }

  /** `toEntitiesFromResponse`: a falsy response gives no tasks, a single
      resource is a list of one, and the conversions that throw are dropped. */
  function Response(response: Value, now: int, parse: string -> Date): (r: seq<Task>)
    ensures !Truthy(response) ==> r == []
    ensures |r| <= |AsList(response)|
    ensures forall t :: t in r ==> WellFormed(t)
  {
    if !Truthy(response) then []
    else Successes(AsList(response), (v: Value) => FromResource(v, now, parse))
  }

  /** At any valid time a conversion never fails: at worst it is the
      "Error Task". */
  lemma FromResourceNeverFails(resource: Value, now: int, parse: string -> Date)
    requires -MaxTime <= now <= MaxTime
    ensures FromResource(resource, now, parse).Ok?
  {
  }

  /** A null or undefined resource gives the "Error Task". */
  lemma NullishGivesErrorTask(resource: Value, now: int, parse: string -> Date)
    requires IsNullish(resource)
    ensures FromResource(resource, now, parse) == Fallback(now)
  {
  }

  /** A due date before the starting date makes the constructor throw, so
      the result is the "Error Task". */
  lemma DueBeforeStartGivesErrorTask(resource: Value, now: int, parse: string -> Date)
    requires resource.Obj? && IsNonEmptyString(Prop(resource, "name"))
    requires ValidDateValue(Prop(resource, "startingDate")) && ValidDateValue(Prop(resource, "dueDate"))
    requires Prop(resource, "dueDate").d.ms < Prop(resource, "startingDate").d.ms
    ensures FromResource(resource, now, parse) == Fallback(now)
  {
    var args := ResourceArgs(resource, now, parse);
    assert args.startingDate == Prop(resource, "startingDate");
    assert args.dueDate == Prop(resource, "dueDate");
    assert NewTask(args, now).Err?;
  }

  /** A falsy responsible, 0 included, is read as null. */
  lemma FalsyResponsibleIsNull(resource: Value, now: int, parse: string -> Date)
    requires !IsNullish(resource) && !Truthy(Prop(resource, "responsible"))
    requires Attempt(resource, now, parse).Ok?
    ensures FromResource(resource, now, parse).value.responsible == Null
  {
  }

  /** At a valid time the batch keeps every resource of a non-empty
      response, in order. */
  lemma ResponseKeepsAll(response: Value, now: int, parse: string -> Date)
    requires -MaxTime <= now <= MaxTime && Truthy(response)
    ensures |Response(response, now, parse)| == |AsList(response)|
    ensures forall i :: 0 <= i < |AsList(response)| ==>
      Response(response, now, parse)[i] == FromResource(AsList(response)[i], now, parse).value
  {
    var xs := AsList(response);
    var f := (v: Value) => FromResource(v, now, parse);
    forall i | 0 <= i < |xs| ensures f(xs[i]).Ok? {
      FromResourceNeverFails(xs[i], now, parse);
    }
    SuccessesAllOk(xs, f);
  }

  /** `d instanceof Date ? d.toISOString() : null` */
  function IsoOrNull(v: Value): (r: Result<Value>)
    ensures !v.DateV? ==> r == Ok(Null)
    ensures v.DateV? ==> r == OptIsoString(v)
  {
    if v.DateV? then OptIsoString(v) else Ok(Null)
  }

  /** The resource object, given the texts of the two dates. */
  function ResourceFields(t: Task, startingDate: Value, dueDate: Value): (j: map<string, Value>)
    ensures j.Keys == {"id", "name", "specialty", "status", "startingDate", "dueDate", "responsible"}
    ensures j["startingDate"] == startingDate && j["dueDate"] == dueDate
    ensures j["id"] == t.id && j["responsible"] == t.responsible
  {
    map[
      "id" := t.id,
      "name" := t.name,
      "specialty" := t.specialty,
      "status" := t.status,
      "startingDate" := startingDate,
      "dueDate" := dueDate,
      "responsible" := t.responsible]
  }

  /** `toResourceFromEntity`: `milestoneId` is left out; an invalid Date
      makes `toISOString` throw. */
  function ToResource(t: Task): (r: Result<map<string, Value>>)
    ensures r.Ok? <==> IsoOrNull(t.startingDate).Ok? && IsoOrNull(t.dueDate).Ok?
    ensures r.Ok? ==> "milestoneId" !in r.value
    ensures r.Ok? ==> r.value == ResourceFields(t, IsoOrNull(t.startingDate).value, IsoOrNull(t.dueDate).value)
  {
    var s :- IsoOrNull(t.startingDate);
    var d :- IsoOrNull(t.dueDate);
    Ok(ResourceFields(t, s, d))
  }

  /** What a task must hold for its resource to read back as itself: dates
      `toISOString` can write, and a responsible that `|| null` keeps. */
  predicate Sendable(t: Task) {
    WellFormed(t) && IsoDates.Sendable(t.startingDate) && IsoDates.Sendable(t.dueDate)
    && (t.responsible == Null || Truthy(t.responsible))
  }

  /** The normalised argument of a resource written from a sendable task
      holds that Task's own fields, the milestone aside. */
  lemma ArgsOfResource(t: Task, start: Value, due: Value, now: int, parse: string -> Date)
    requires Sendable(t)
    requires Truthy(start) && DateV(NewDate(start, parse)) == t.startingDate
    requires Truthy(due) && DateV(NewDate(due, parse)) == t.dueDate
    ensures ResourceArgs(Obj(ResourceFields(t, start, due)), now, parse)
         == TaskArgs(t.id, t.name, t.specialty, t.status, t.startingDate, t.dueDate, t.responsible, Null)
  {
    var res := Obj(ResourceFields(t, start, due));
    assert Prop(res, "id") == t.id;
    assert Prop(res, "name") == t.name;
    assert Prop(res, "specialty") == t.specialty;
    assert Prop(res, "status") == t.status;
    assert Prop(res, "startingDate") == start;
    assert Prop(res, "dueDate") == due;
    assert Prop(res, "responsible") == t.responsible;
    assert Prop(res, "milestoneId") == Undefined;
  }

  /** The assembler reads a resource back as that Task, whatever the date
      texts are, as long as they read back as its dates. */
  lemma ReadBackFields(t: Task, start: Value, due: Value, now: int, parse: string -> Date)
    requires Sendable(t)
    requires Truthy(start) && DateV(NewDate(start, parse)) == t.startingDate
    requires Truthy(due) && DateV(NewDate(due, parse)) == t.dueDate
    ensures FromResource(Obj(ResourceFields(t, start, due)), now, parse) == Ok(t.(milestoneId := Null))
  {
    ArgsOfResource(t, start, due, now, parse);
    var args := TaskArgs(t.id, t.name, t.specialty, t.status, t.startingDate, t.dueDate, t.responsible, Null);
    assert NewTask(args, now) == Ok(t.(milestoneId := Null));
  }

  /** A task written as a resource and read back is the same task, except
      that its milestone is lost. */
  lemma RoundTripLosesMilestone(t: Task, now: int, parse: string -> Date)
    requires Sendable(t) && ReadsIso(parse)
    ensures ToResource(t).Ok?
    ensures FromResource(Obj(ToResource(t).value), now, parse) == Ok(t.(milestoneId := Null))
  {
    IsoReadBack(t.startingDate, parse);
    IsoReadBack(t.dueDate, parse);
    ReadBackFields(t, OptIsoString(t.startingDate).value, OptIsoString(t.dueDate).value, now, parse);
  }
}

=== FILE: task_specs.dfy ===
/** `TaskSpec`: the description of a task to be created, with the team
    member responsible for it. */
module TaskSpecs {
  import opened Wrappers
  import opened Dates
  import opened Js
  import opened Enums
  import opened Identifiers
  import opened Tasks

  datatype TaskSpec = TaskSpec(name: Value, specialty: Value, responsible: Value, dueDate: Value)

  /** The constructor's destructured argument; an absent field is `Undefined`. */
  datatype TaskSpecArgs = TaskSpecArgs(name: Value, specialty: Value, responsible: Value, dueDate: Value)

  /** What every constructed spec satisfies. */
  predicate WellFormed(s: TaskSpec) {
    IsNonEmptyString(s.name) && s.specialty in SPECIALTIES
    && IsInstance(s.responsible, ProjectTeamMemberIdClass) && Truthy(s.responsible.value)
  }

  /** `new TaskSpec({...})`: a missing responsible is a fresh
      ProjectTeamMemberId holding `uuid`; a missing due date is `now`, and a
      given one is not checked. */
  function NewTaskSpec(args: TaskSpecArgs, now: int, uuid: string): (r: Result<TaskSpec>)
    ensures r.Ok? ==> WellFormed(r.value)
    ensures r.Ok? ==> r.value.name == args.name && r.value.specialty == args.specialty
    ensures r.Ok? && args.responsible != Undefined ==> r.value.responsible == args.responsible
    ensures r.Ok? && args.dueDate != Undefined ==> r.value.dueDate == args.dueDate
  {
    var name := Default(args.name, Str(""));
    var responsible := Default(args.responsible, NewId(ProjectTeamMemberIdClass, Undefined, uuid));
    if !IsNonEmptyString(name) then Err("Name is required and must be a non-empty string")
    else if args.specialty !in SPECIALTIES then Err(SPECIALTY_ERROR)
    else if !IsInstance(responsible, ProjectTeamMemberIdClass) || !Truthy(responsible.value) then
      Err("Responsible must be a valid ProjectTeamMemberId instance with a value")
    else Ok(TaskSpec(name, args.specialty, responsible, Default(args.dueDate, DateV(ClockDate(now)))))
  }

  /** The constructor accepts exactly a non-empty string name, a Specialty and
      a ProjectTeamMemberId with a truthy value (or none, when the fresh UUID
      is not empty). */
  lemma AcceptsExactly(args: TaskSpecArgs, now: int, uuid: string)
    ensures NewTaskSpec(args, now, uuid).Ok? <==>
      IsNonEmptyString(args.name) && args.specialty in SPECIALTIES
      && (if args.responsible == Undefined then uuid != ""
          else IsInstance(args.responsible, ProjectTeamMemberIdClass) && Truthy(args.responsible.value))
  {
  }

  /** The due date is stored as given, even when it is not a Date. */
  lemma DueDateIsNotChecked(args: TaskSpecArgs, now: int, uuid: string)
    requires NewTaskSpec(args, now, uuid).Ok? && !args.dueDate.DateV? && args.dueDate != Undefined
    ensures NewTaskSpec(args, now, uuid).value.dueDate == args.dueDate
  {
  }

  /** `toJSON`: the four fields, the responsible left as an identifier. */
  function ToJson(s: TaskSpec): (j: map<string, Value>)
    ensures j.Keys == {"name", "specialty", "responsible", "dueDate"}
  {
    map["name" := s.name, "specialty" := s.specialty, "responsible" := s.responsible, "dueDate" := s.dueDate]
  }

  /** `toJSON` loses nothing: its object handed back to the constructor
      rebuilds the spec. */
  lemma JsonRebuilds(s: TaskSpec, now: int, uuid: string)
    requires WellFormed(s) && s.dueDate != Undefined
    ensures var j := ToJson(s);
      NewTaskSpec(TaskSpecArgs(j["name"], j["specialty"], j["responsible"], j["dueDate"]), now, uuid) == Ok(s)
  {
  }
}

=== FILE: task_submissions.dfy ===
/** `TaskSubmission`: a task's submitted work and its review. */
module TaskSubmissions {
  import opened Wrappers
  import opened Dates
  import opened Js

  datatype TaskSubmission = TaskSubmission(
    id: Value,
    submittedAt: Value,
    notes: Value,
    reviewedAt: Value,
    reviewedBy: Value,
    reviewedNotes: Value,
    submittedBy: Value)

  /** The constructor's destructured argument; an absent field is `Undefined`. */
  datatype SubmissionArgs = SubmissionArgs(
    id: Value,
    submittedAt: Value,
    notes: Value,
    reviewedAt: Value,
    reviewedBy: Value,
    reviewedNotes: Value,
    submittedBy: Value)

  /** `typeof v === 'number' ? v : null` holds */
  predicate NumberOrNullValue(v: Value) {
    IsNumber(v) || v == Null
  }

  /** What every constructed submission satisfies. */
  predicate WellFormed(s: TaskSubmission) {
    s.submittedAt.DateV? && s.reviewedAt.DateV?
    && IsNonEmptyString(s.notes) && IsNonEmptyString(s.reviewedNotes)
    && NumberOrNullValue(s.id) && NumberOrNullValue(s.reviewedBy) && NumberOrNullValue(s.submittedBy)
  }

  /** `new TaskSubmission({...})`: missing dates are `now`; the three
      numeric fields keep numbers only. */
  function NewSubmission(args: SubmissionArgs, now: int): (r: Result<TaskSubmission>)
    ensures r.Ok? ==> WellFormed(r.value)
    ensures r.Ok? ==> r.value.notes == args.notes && r.value.reviewedNotes == args.reviewedNotes
    ensures r.Ok? ==> r.value.id == (if IsNumber(args.id) then args.id else Null)
    ensures r.Ok? ==> r.value.reviewedBy == (if IsNumber(args.reviewedBy) then args.reviewedBy else Null)
    ensures r.Ok? ==> r.value.submittedBy == (if IsNumber(args.submittedBy) then args.submittedBy else Null)
  {
    var submittedAt := Default(args.submittedAt, DateV(ClockDate(now)));
    var reviewedAt := Default(args.reviewedAt, DateV(ClockDate(now)));
    var notes := Default(args.notes, Str(""));
    var reviewedNotes := Default(args.reviewedNotes, Str(""));
    if !submittedAt.DateV? then Err("submittedAt must be a valid Date instance")
    else if !reviewedAt.DateV? then Err("reviewedAt must be a valid Date instance")
    else if !IsNonEmptyString(notes) then Err("notes must be a string")
    else if !IsNonEmptyString(reviewedNotes) then Err("reviewedNotes must be a string")
    else Ok(TaskSubmission(NumberOrNull(args.id), submittedAt, notes, reviewedAt,
                           NumberOrNull(args.reviewedBy), reviewedNotes, NumberOrNull(args.submittedBy)))
  }

  /** The constructor accepts exactly Dates (or nothing) for both dates and
      non-empty strings for both notes. */
  lemma AcceptsExactly(args: SubmissionArgs, now: int)
    ensures NewSubmission(args, now).Ok? <==>
      (args.submittedAt == Undefined || args.submittedAt.DateV?)
      && (args.reviewedAt == Undefined || args.reviewedAt.DateV?)
      && IsNonEmptyString(args.notes) && IsNonEmptyString(args.reviewedNotes)
  {
  }

  /** The defaults alone never make a submission: the notes default to the
      empty string, which the notes check refuses. */
  lemma DefaultsAreRefused(now: int)
    ensures NewSubmission(SubmissionArgs(Undefined, Undefined, Undefined, Undefined, Undefined, Undefined, Undefined), now)
         == Err("notes must be a string")
  {
  }

  /** `toJSON`: the seven fields. */
  function ToJson(s: TaskSubmission): (j: map<string, Value>)
    ensures j.Keys == {"id", "submittedAt", "notes", "reviewedAt", "reviewedBy", "reviewedNotes", "submittedBy"}
  {
    map[
      "id" := s.id,
      "submittedAt" := s.submittedAt,
      "notes" := s.notes,
      "reviewedAt" := s.reviewedAt,
      "reviewedBy" := s.reviewedBy,
      "reviewedNotes" := s.reviewedNotes,
      "submittedBy" := s.submittedBy]
  }

  /** `toJSON` loses nothing: its object handed back to the constructor
      rebuilds the submission. */
  lemma JsonRebuilds(s: TaskSubmission, now: int)
    requires WellFormed(s)
    ensures var j := ToJson(s);
      NewSubmission(SubmissionArgs(j["id"], j["submittedAt"], j["notes"], j["reviewedAt"],
                                   j["reviewedBy"], j["reviewedNotes"], j["submittedBy"]), now) == Ok(s)
  {
  }
}

=== FILE: tasks.dfy ===
/** `Task`: a schedule item with a name, a specialty, a status, a starting
    and a due date, an optional responsible person and the milestone it
    belongs to.  Its dates are checked once, at construction, and no method
    changes them. */
module Tasks {
  import opened Wrappers
  import opened Dates
  import opened Js
  import opened Enums

  datatype Task = Task(
    id: Value,
    name: Value,
    specialty: Value,
    status: Value,
    startingDate: Value,
    dueDate: Value,
    responsible: Value,
    milestoneId: Value)

  /** The constructor's destructured argument; an absent field is `Undefined`. */
  datatype TaskArgs = TaskArgs(
    id: Value,
    name: Value,
    specialty: Value,
    status: Value,
    startingDate: Value,
    dueDate: Value,
    responsible: Value,
    milestoneId: Value)

  /** The messages that list the enumeration's values, joined by ", ". */
  const SPECIALTY_ERROR: string := "Specialty must be one of the valid Specialty values: ARCHITECTURE, GENERAL"
  const STATUS_ERROR: string := "Status must be one of the valid TaskStatus values: DRAFT, PENDING"

  /** `v instanceof Date && !isNaN(v)` */
  predicate ValidDateValue(v: Value) {
    v.DateV? && v.d.ValidDate?
  }

  /** Two valid dates, the due date not earlier than the starting date. */
  predicate DatesOrdered(start: Value, due: Value) {
    ValidDateValue(start) && ValidDateValue(due) && start.d.ms <= due.d.ms
  }

  /** What every constructed task satisfies. */
  predicate WellFormed(t: Task) {
    IsNonEmptyString(t.name) && t.specialty in SPECIALTIES && t.status in TASK_STATUSES
    && DatesOrdered(t.startingDate, t.dueDate)
    && (IsNumber(t.responsible) || t.responsible == Null)
    && (IsNumber(t.id) || t.id == Null)
  }

  /** `new Task({...})`: the checks run in the program's order, the first
      failing one is the error; missing dates are `now`. */
  function NewTask(args: TaskArgs, now: int): (r: Result<Task>)
    ensures r.Ok? ==> WellFormed(r.value)
    ensures r.Ok? ==> r.value.name == args.name && r.value.specialty == args.specialty
    ensures r.Ok? ==> r.value.status == Default(args.status, DRAFT)
    ensures r.Ok? ==> r.value.milestoneId == Default(args.milestoneId, Null)
    ensures r.Ok? && IsNumber(args.id) ==> r.value.id == args.id
    ensures r.Ok? && !IsNumber(args.id) ==> r.value.id == Null
    ensures r.Ok? && args.responsible != Undefined ==> r.value.responsible == args.responsible
  {
    var name := Default(args.name, Str(""));
    var status := Default(args.status, DRAFT);
    var start := Default(args.startingDate, DateV(ClockDate(now)));
    var due := Default(args.dueDate, DateV(ClockDate(now)));
    var responsible := Default(args.responsible, Null);
    if !IsNonEmptyString(name) then Err("Name is required and must be a non-empty string")
    else if args.specialty !in SPECIALTIES then Err(SPECIALTY_ERROR)
    else if status !in TASK_STATUSES then Err(STATUS_ERROR)
    else if !ValidDateValue(start) then Err("Starting date must be a valid Date object")
    else if !ValidDateValue(due) then Err("Due date must be a valid Date object")
    else if Before(due.d, start.d) then Err("Due date cannot be earlier than starting date")
    else if !responsible.Null? && !IsNumber(responsible) then Err("Responsible must be null or a number")
    else Ok(Task(NumberOrNull(args.id), name, args.specialty, status, start, due,
                 NumberOrNull(responsible), Default(args.milestoneId, Null)))
  }

  /** The constructor accepts exactly a non-empty string name, a Specialty,
      a TaskStatus, two valid dates in order and a null or numeric
      responsible, the defaults applied. */
  lemma AcceptsExactly(args: TaskArgs, now: int)
    ensures NewTask(args, now).Ok? <==>
      (var start := Default(args.startingDate, DateV(ClockDate(now)));
       var due := Default(args.dueDate, DateV(ClockDate(now)));
       var responsible := Default(args.responsible, Null);
       IsNonEmptyString(args.name) && args.specialty in SPECIALTIES
       && Default(args.status, DRAFT) in TASK_STATUSES
       && DatesOrdered(start, due) && (responsible == Null || IsNumber(responsible)))
  {
  }

  /** A due date before the starting date is refused once the earlier checks
      pass. */
  lemma DueBeforeStartIsRefused(args: TaskArgs, now: int)
    requires IsNonEmptyString(args.name) && args.specialty in SPECIALTIES
    requires Default(args.status, DRAFT) in TASK_STATUSES
    requires ValidDateValue(args.startingDate) && ValidDateValue(args.dueDate)
    requires args.dueDate.d.ms < args.startingDate.d.ms
    ensures NewTask(args, now) == Err("Due date cannot be earlier than starting date")
  {
  }

  /** With no dates given, both are `now`, which satisfies the order. */
  lemma DefaultDatesAreOrdered(args: TaskArgs, now: int)
    requires args.startingDate == Undefined && args.dueDate == Undefined
    requires -MaxTime <= now <= MaxTime
    requires IsNonEmptyString(args.name) && args.specialty in SPECIALTIES
    requires Default(args.status, DRAFT) in TASK_STATUSES
    requires args.responsible == Undefined || args.responsible == Null || IsNumber(args.responsible)
    ensures NewTask(args, now).Ok?
    ensures NewTask(args, now).value.startingDate == NewTask(args, now).value.dueDate == DateV(ValidDate(now))
  {
  }

  /** `assignResponsible` */
  function AssignResponsible(t: Task, responsible: Value): (r: Result<Task>)
    ensures r.Ok? <==> IsNumber(responsible)
    ensures r.Err? ==> r.error == "Responsible must be a valid number"
    ensures r.Ok? ==> r.value.responsible == responsible && r.value.(responsible := t.responsible) == t
  {
    if !IsNumber(responsible) then Err("Responsible must be a valid number")
    else Ok(t.(responsible := responsible))
  }

  /** `updateStatus` */
  function UpdateStatus(t: Task, status: Value): (r: Result<Task>)
    ensures r.Ok? <==> status in TASK_STATUSES
    ensures r.Err? ==> r.error == STATUS_ERROR
    ensures r.Ok? ==> r.value.status == status && r.value.(status := t.status) == t
  {
    if status !in TASK_STATUSES then Err(STATUS_ERROR)
    else Ok(t.(status := status))
  }

  /** The calls a task accepts after construction. */
  datatype TaskCall = Assign(responsible: Value) | SetStatus(status: Value)

  function Apply(t: Task, call: TaskCall): Result<Task> {
    match call
    case Assign(v) => AssignResponsible(t, v)
    case SetStatus(s) => UpdateStatus(t, s)
  }

  /** A run of calls, stopping at the first that throws. */
  function ApplyAll(t: Task, calls: seq<TaskCall>): (r: Result<Task>)
    decreases |calls|
  {
    if |calls| == 0 then Ok(t)
    else
      var u :- Apply(t, calls[0]);
      ApplyAll(u, calls[1..])
  }

  /** No call changes either date, and every call keeps a task well formed:
      the order of the dates checked by the constructor holds for the
      task's whole life. */
  lemma {:induction false} LifetimeKeepsDates(t: Task, calls: seq<TaskCall>)
    requires WellFormed(t)
    ensures ApplyAll(t, calls).Ok? ==> WellFormed(ApplyAll(t, calls).value)
    ensures ApplyAll(t, calls).Ok? ==>
      ApplyAll(t, calls).value.startingDate == t.startingDate && ApplyAll(t, calls).value.dueDate == t.dueDate
    decreases |calls|
  {
    if |calls| > 0 {
      var u := Apply(t, calls[0]);
      if u.Ok? {
        LifetimeKeepsDates(u.value, calls[1..]);
      }
    }
  }

  /** `toJSON`: every field, `milestoneId` included. */
  function ToJson(t: Task): (j: map<string, Value>)
    ensures j.Keys == {"id", "name", "specialty", "status", "startingDate", "dueDate", "responsible", "milestoneId"}
  {
    map[
      "id" := t.id,
      "name" := t.name,
      "specialty" := t.specialty,
      "status" := t.status,
      "startingDate" := t.startingDate,
      "dueDate" := t.dueDate,
      "responsible" := t.responsible,
      "milestoneId" := t.milestoneId]
  }

  /** A constructor argument read from an object's fields. */
  function ArgsOf(j: map<string, Value>): TaskArgs {
    TaskArgs(FieldOf(j, "id"), FieldOf(j, "name"), FieldOf(j, "specialty"), FieldOf(j, "status"),
             FieldOf(j, "startingDate"), FieldOf(j, "dueDate"), FieldOf(j, "responsible"), FieldOf(j, "milestoneId"))
  }

  /** `toJSON` loses nothing: handing its object back to the constructor
      rebuilds that Task. */
  lemma JsonRebuilds(t: Task, now: int)
    requires WellFormed(t) && t.milestoneId != Undefined
    ensures NewTask(ArgsOf(ToJson(t)), now) == Ok(t)
  {
    assert ArgsOf(ToJson(t)) == TaskArgs(t.id, t.name, t.specialty, t.status, t.startingDate, t.dueDate, t.responsible, t.milestoneId);
  }
}

=== FILE: team_member_assembler.dfy ===
/** `ProjectTeamMemberAssembler`: project team members read from API
    resources.  As written, the entity it builds is handed plain numbers
    where the constructor insists on identifier instances, so every
    conversion fails, and so does the fallback; the corrected reading below
    wraps the numbers in identifiers first. */
module TeamMemberAssembler {
  import opened Wrappers
  import opened Js
  import opened Enums
  import opened Lists
  import opened Identifiers
  import opened TeamMembers

  /** `typeof resource.id === 'number' ? resource.id : null` */
  function ReadId(resource: Value): (v: Value)
    ensures IsNumber(v) || v == Null
  {
    var id := Prop(resource, "id");
    if IsNumber(id) then id else Null
  }

  /** A number is kept, a string goes through `parseInt(_, 10)`, anything
      else is null. */
  function ReadMemberId(resource: Value): (v: Value)
    ensures IsNumber(v) || v == Null
    ensures IsNumber(Prop(resource, "memberId")) ==> v == Prop(resource, "memberId")
  {
    var m := Prop(resource, "memberId");
    if IsNumber(m) then m
    else if m.Str? then ParseInt10(m.s)
    else Null
  }

  /** A ProjectRole member is kept; anything else becomes SPECIALIST. */
  function ReadRole(resource: Value): (role: Value)
    ensures role in PROJECT_ROLES
    ensures Prop(resource, "role") in PROJECT_ROLES ==> role == Prop(resource, "role")
  {
    var r := Prop(resource, "role");
    if r in PROJECT_ROLES then r else SPECIALIST
  }

  /** Only a SPECIALIST gets a specialty (a Specialty member, ARCHITECTURE by
      default); every other role gets null. */
  function ReadSpecialty(role: Value, resource: Value): (specialty: Value)
    ensures StrictEq(role, SPECIALIST) ==> specialty in SPECIALTIES
    ensures !StrictEq(role, SPECIALIST) ==> specialty == Null
    ensures StrictEq(role, SPECIALIST) && Prop(resource, "specialty") in SPECIALTIES
      ==> specialty == Prop(resource, "specialty")
  {
    if StrictEq(role, SPECIALIST) then
      var s := Prop(resource, "specialty");
      if s in SPECIALTIES then s else ARCHITECTURE
    else Null
  }

  /** The first attempt as written: the raw id and member id are passed to
      the constructor. */
  function AttemptAsWritten(resource: Value, gen: IdClass -> string): (r: Result<TeamMember>)
    ensures IsNullish(resource) ==> r.Err?
  {
    if IsNullish(resource) then Err(ReadError(resource))
    else
      var role := ReadRole(resource);
      NewTeamMember(TeamMemberArgs(ReadId(resource), role, ReadSpecialty(role, resource), ReadMemberId(resource)), gen)
  }

  /** The fallback as written: a SPECIALIST in ARCHITECTURE with member id 0. */
  function FallbackAsWritten(gen: IdClass -> string): Result<TeamMember> {
    NewTeamMember(TeamMemberArgs(Undefined, SPECIALIST, ARCHITECTURE, Num(0)), gen)
  }

  /** `toEntityFromResource` as written. */
  function FromResourceAsWritten(resource: Value, gen: IdClass -> string): (r: Result<TeamMember>)
    ensures r.Ok? ==> WellFormed(r.value)
  {
    Recover(AttemptAsWritten(resource, gen), FallbackAsWritten(gen))
  }

  /** `toEntitiesFromResponse` as written: a falsy response gives no
      members, the failed conversions are dropped.  Each conversion draws
      its own UUIDs: element `i` uses `gens(i)`. */
  function ResponseAsWritten(response: Value, gens: nat -> (IdClass -> string)): (r: seq<TeamMember>)
    ensures |r| <= |AsList(response)|
  {
    if !Truthy(response) then []
    else Successes(Indexed(AsList(response)), (p: (Value, nat)) => FromResourceAsWritten(p.0, gens(p.1)))
  }

  /** The first attempt always fails: a null resource cannot be read, and
      any other gives the constructor a plain number or null as `id`. */
  lemma AttemptAsWrittenFails(resource: Value, gen: IdClass -> string)
    ensures AttemptAsWritten(resource, gen).Err?
  {
    if !IsNullish(resource) {
      var role := ReadRole(resource);
      RawIdIsRefused(TeamMemberArgs(ReadId(resource), role, ReadSpecialty(role, resource), ReadMemberId(resource)), gen);
    }
  }

  /** The fallback always fails too, on its plain member id 0. */
  lemma FallbackAsWrittenFails(gen: IdClass -> string)
    ensures FallbackAsWritten(gen) == Err("MemberId must be a valid OrganizationMemberId instance with a value.")
  {
  }

  /** Every conversion fails: the first attempt, and then the fallback. */
  lemma AsWrittenAlwaysFails(resource: Value, gen: IdClass -> string)
    ensures FromResourceAsWritten(resource, gen)
         == Err("MemberId must be a valid OrganizationMemberId instance with a value.")
  {
    AttemptAsWrittenFails(resource, gen);
    FallbackAsWrittenFails(gen);
  }

  /** So the batch conversion returns no member, whatever the response. */
  lemma AsWrittenResponseIsEmpty(response: Value, gens: nat -> (IdClass -> string))
    ensures ResponseAsWritten(response, gens) == []
  {
    if Truthy(response) {
      var xs := Indexed(AsList(response));
      var f := (p: (Value, nat)) => FromResourceAsWritten(p.0, gens(p.1));
      forall i | 0 <= i < |xs| ensures f(xs[i]).Err? {
        AsWrittenAlwaysFails(xs[i].0, gens(xs[i].1));
      }
      SuccessesAllErr(xs, f);
    }
  }

  /** The corrected first attempt: the numbers wrapped in identifiers
      (`new ProjectTeamMemberId(id)`, `new OrganizationMemberId(memberId)`). */
  function Attempt(resource: Value, gen: IdClass -> string): (r: Result<TeamMember>)
    ensures IsNullish(resource) ==> r.Err?
  {
    if IsNullish(resource) then Err(ReadError(resource))
    else
      var role := ReadRole(resource);
      NewTeamMember(TeamMemberArgs(
        NewId(ProjectTeamMemberIdClass, ReadId(resource), gen(ProjectTeamMemberIdClass)),
        role,
        ReadSpecialty(role, resource),
        NewId(OrganizationMemberIdClass, ReadMemberId(resource), gen(OrganizationMemberIdClass))), gen)
  }

  /** The corrected fallback: a SPECIALIST in ARCHITECTURE whose member id
      wraps 0, which stands for a fresh UUID. */
  function Fallback(gen: IdClass -> string): (r: Result<TeamMember>)
    ensures gen(OrganizationMemberIdClass) != "" ==> r.Ok? && r.value.role == SPECIALIST
  {
    var memberId := NewId(OrganizationMemberIdClass, Num(0), gen(OrganizationMemberIdClass));
    assert memberId == Id(OrganizationMemberIdClass, Str(gen(OrganizationMemberIdClass)));
    NewTeamMember(TeamMemberArgs(Undefined, SPECIALIST, ARCHITECTURE, memberId), gen)
  }

  /** `toEntityFromResource` with the identifiers wrapped, also in the
      fallback. */
  function FromResource(resource: Value, gen: IdClass -> string): (r: Result<TeamMember>)
    ensures r.Ok? ==> WellFormed(r.value)
  {
    Recover(Attempt(resource, gen), Fallback(gen))
  }

  /** `toEntitiesFromResponse` over the corrected conversion; element `i`
      uses `gens(i)`. */
  function Response(response: Value, gens: nat -> (IdClass -> string)): (r: seq<TeamMember>)
    ensures |r| <= |AsList(response)|
  {
    if !Truthy(response) then []
    else Successes(Indexed(AsList(response)), (p: (Value, nat)) => FromResource(p.0, gens(p.1)))
  }

  /** UUIDs are never empty. */
  predicate GeneratesUuids(gen: IdClass -> string) {
    forall c :: gen(c) != ""
  }

  /** With identifiers wrapped, a conversion never fails: at worst it yields
      the fallback SPECIALIST member. */
  lemma FromResourceNeverFails(resource: Value, gen: IdClass -> string)
    requires GeneratesUuids(gen)
    ensures FromResource(resource, gen).Ok?
  {
    assert gen(OrganizationMemberIdClass) != "";
    assert Fallback(gen).Ok?;
  }

  /** A SPECIALIST resource with a Specialty and a non-zero numeric member id
      is read faithfully. */
  lemma FromResourceReadsSpecialist(resource: Value, gen: IdClass -> string)
    requires GeneratesUuids(gen) && !IsNullish(resource)
    requires Prop(resource, "role") == SPECIALIST && Prop(resource, "specialty") in SPECIALTIES
    requires Prop(resource, "memberId").Num? && Prop(resource, "memberId").n != 0
    ensures FromResource(resource, gen).Ok?
    ensures var m := FromResource(resource, gen).value;
      m.role == SPECIALIST && m.specialty == Prop(resource, "specialty")
      && m.memberId == Id(OrganizationMemberIdClass, Prop(resource, "memberId"))
  {
    var spec := Prop(resource, "specialty");
    assert ReadRole(resource) == SPECIALIST;
    assert ReadSpecialty(SPECIALIST, resource) == spec;
    var memberId := NewId(OrganizationMemberIdClass, ReadMemberId(resource), gen(OrganizationMemberIdClass));
    assert memberId == Id(OrganizationMemberIdClass, Prop(resource, "memberId"));
    var id := NewId(ProjectTeamMemberIdClass, ReadId(resource), gen(ProjectTeamMemberIdClass));
    assert Truthy(id.value) by {
      assert gen(ProjectTeamMemberIdClass) != "";
    }
    var args := TeamMemberArgs(id, SPECIALIST, spec, memberId);
    assert Attempt(resource, gen) == NewTeamMember(args, gen);
    assert NewTeamMember(args, gen) == Ok(TeamMember(id, SPECIALIST, spec, memberId));
  }

  /** A SPECIALIST member with numeric identifiers survives `toJSON` and the
      corrected reading unchanged. */
  lemma CorrectedRoundTrip(m: TeamMember, gen: IdClass -> string)
    requires GeneratesUuids(gen) && WellFormed(m)
    requires m.role == SPECIALIST && m.specialty in SPECIALTIES
    requires m.id.value.Num? && m.id.value.n != 0 && m.memberId.value.Num?
    ensures FromResource(Obj(ToJson(m)), gen) == Ok(m)
  {
    var res := Obj(ToJson(m));
    assert Prop(res, "id") == m.id.value;
    assert Prop(res, "memberId") == m.memberId.value;
    assert Prop(res, "role") == SPECIALIST;
    assert Prop(res, "specialty") == m.specialty;
    assert ReadSpecialty(SPECIALIST, res) == m.specialty;
  }

  /** The corrected batch keeps every resource of a non-empty response, in
      order. */
  lemma ResponseKeepsAll(response: Value, gens: nat -> (IdClass -> string))
    requires (forall i: nat :: GeneratesUuids(gens(i))) && Truthy(response)
    ensures |Response(response, gens)| == |AsList(response)|
    ensures forall i :: 0 <= i < |AsList(response)| ==> FromResource(AsList(response)[i], gens(i)).Ok?
    ensures forall i :: 0 <= i < |AsList(response)| ==>
      Response(response, gens)[i] == FromResource(AsList(response)[i], gens(i)).value
  {
    var ys := AsList(response);
    var xs := Indexed(ys);
    var f := (p: (Value, nat)) => FromResource(p.0, gens(p.1));
    forall i | 0 <= i < |xs| ensures f(xs[i]).Ok? {
      assert xs[i] == (ys[i], i);
      assert GeneratesUuids(gens(i));
      FromResourceNeverFails(ys[i], gens(i));
    }
    SuccessesAllOk(xs, f);
    forall i | 0 <= i < |ys| ensures FromResource(ys[i], gens(i)).Ok? {
      FromResourceNeverFails(ys[i], gens(i));
    }
    forall i | 0 <= i < |ys| ensures Response(response, gens)[i] == FromResource(ys[i], gens(i)).value {
      assert xs[i] == (ys[i], i);
    }
  }

  /** `toResourceFromEntity`: the four fields, identifiers left as they are. */
  function ToResource(m: TeamMember): (r: TeamMemberArgs)
    ensures r.id == m.id && r.memberId == m.memberId
  {
    TeamMemberArgs(m.id, m.role, m.specialty, m.memberId)
  }

  /** The constructor rebuilds a member from its resource form. */
  lemma ToResourceRebuilds(m: TeamMember, gen: IdClass -> string)
    requires WellFormed(m)
    ensures NewTeamMember(ToResource(m), gen) == Ok(m)
  {
    RebuildFromFields(m, gen);
  }
}

=== FILE: team_members.dfy ===
/** `ProjectTeamMember`: an organization member's place on a project team,
    with a role and a specialty. */
module TeamMembers {
  import opened Wrappers
  import opened Js
  import opened Identifiers

  /** `id` is a ProjectTeamMemberId and `memberId` an OrganizationMemberId,
      both held as identifier instances. */
  datatype TeamMember = TeamMember(id: Value, role: Value, specialty: Value, memberId: Value)

  /** What every constructed team member satisfies. */
  predicate WellFormed(m: TeamMember) {
    IsInstance(m.id, ProjectTeamMemberIdClass)
    && Truthy(m.role) && Truthy(m.specialty)
    && IsInstance(m.memberId, OrganizationMemberIdClass) && Truthy(m.memberId.value)
  }

  /** The constructor's destructured argument; an absent field is `Undefined`. */
  datatype TeamMemberArgs = TeamMemberArgs(id: Value, role: Value, specialty: Value, memberId: Value)

  /** `new ProjectTeamMember({...})`.  A missing `id` or `memberId` becomes a
      fresh identifier holding `gen` of its class; the checks run in the
      program's order and the first failing one is the error. */
  function NewTeamMember(args: TeamMemberArgs, gen: IdClass -> string): (r: Result<TeamMember>)
    ensures r.Ok? ==> WellFormed(r.value)
    ensures r.Ok? ==> r.value.role == args.role && r.value.specialty == args.specialty
    ensures r.Ok? && args.id != Undefined ==> r.value.id == args.id
    ensures r.Ok? && args.memberId != Undefined ==> r.value.memberId == args.memberId
  {
    var id := Default(args.id, GeneratedId(ProjectTeamMemberIdClass, gen(ProjectTeamMemberIdClass)));
    var memberId := Default(args.memberId, GeneratedId(OrganizationMemberIdClass, gen(OrganizationMemberIdClass)));
    if !IsInstance(id, ProjectTeamMemberIdClass) then Err("Id must be a valid ProjectTeamMemberId instance.")
    else if !Truthy(args.role) then Err("Role is required.")
    else if !Truthy(args.specialty) then Err("Specialty is required.")
    else if !IsInstance(memberId, OrganizationMemberIdClass) || !Truthy(memberId.value) then
      Err("MemberId must be a valid OrganizationMemberId instance with a value.")
    else Ok(TeamMember(id, args.role, args.specialty, memberId))
  }

  /** `toJSON`: both identifiers unwrapped to their values. */
  function ToJson(m: TeamMember): (j: map<string, Value>)
    ensures j.Keys == {"id", "role", "specialty", "memberId"}
    ensures j["role"] == m.role && j["specialty"] == m.specialty
    ensures IsInstance(m.id, ProjectTeamMemberIdClass) ==> j["id"] == m.id.value
    ensures IsInstance(m.memberId, OrganizationMemberIdClass) ==> j["memberId"] == m.memberId.value
  {
    map["id" := Prop(m.id, "value"), "role" := m.role, "specialty" := m.specialty, "memberId" := Prop(m.memberId, "value")]
  }

  /** `ProjectTeamMemberId.toJSON`: an object holding the value. */
  function IdToJson(id: Value): (j: Value)
    ensures j.Obj? && j.fields.Keys == {"value"} && j.fields["value"] == Prop(id, "value")
  {
    Obj(map["value" := Prop(id, "value")])
  }

  /** A member rebuilt from its own fields is the same member. */
  lemma RebuildFromFields(m: TeamMember, gen: IdClass -> string)
    requires WellFormed(m)
    ensures NewTeamMember(TeamMemberArgs(m.id, m.role, m.specialty, m.memberId), gen) == Ok(m)
  {
  }

  /** The `toJSON` values wrapped back into identifiers give the member back. */
  lemma JsonRoundTrip(m: TeamMember, gen: IdClass -> string)
    requires WellFormed(m) && Truthy(m.id.value)
    ensures var j := ToJson(m);
      NewTeamMember(TeamMemberArgs(
        NewId(ProjectTeamMemberIdClass, j["id"], gen(ProjectTeamMemberIdClass)),
        j["role"], j["specialty"],
        NewId(OrganizationMemberIdClass, j["memberId"], gen(OrganizationMemberIdClass))), gen)
      == Ok(m)
  {
  }

  /** The constructor accepts exactly the arguments whose identifiers, after
      the defaults, are instances of the right classes (the member's with a
      truthy value) and whose role and specialty are truthy. */
  lemma AcceptsExactly(args: TeamMemberArgs, gen: IdClass -> string)
    ensures NewTeamMember(args, gen).Ok? <==>
      (var id := Default(args.id, GeneratedId(ProjectTeamMemberIdClass, gen(ProjectTeamMemberIdClass)));
       var memberId := Default(args.memberId, GeneratedId(OrganizationMemberIdClass, gen(OrganizationMemberIdClass)));
       IsInstance(id, ProjectTeamMemberIdClass) && Truthy(args.role) && Truthy(args.specialty)
       && IsInstance(memberId, OrganizationMemberIdClass) && Truthy(memberId.value))
  {
  }

  /** The identifiers are the first thing checked: anything that is not a
      ProjectTeamMemberId instance, a plain number included, is refused. */
  lemma RawIdIsRefused(args: TeamMemberArgs, gen: IdClass -> string)
    requires !args.id.Undefined? && !IsInstance(args.id, ProjectTeamMemberIdClass)
    ensures NewTeamMember(args, gen) == Err("Id must be a valid ProjectTeamMemberId instance.")
  {
  }
}

=== FILE: text.dfy ===
/** Character and string helpers with JavaScript's meaning: `\d`, `[a-zA-Z]`,
    `String.prototype.trim`'s white space, decimal rendering of integers. */
module Text {

  predicate IsDigit(c: char) {
    '0' <= c <= '9'
  }

  predicate AllDigits(s: string) {
    forall i :: 0 <= i < |s| ==> IsDigit(s[i])
  }

  predicate IsAsciiLetter(c: char) {
    ('a' <= c <= 'z') || ('A' <= c <= 'Z')
  }

  /** The characters `String.prototype.trim` removes: WhiteSpace and
      LineTerminator of ECMAScript sections 12.2 and 12.3. */
  predicate IsJsWhitespace(c: char) {
    c == '\t' || c == '\n' || c == '\U{B}' || c == '\U{C}' || c == '\r' || c == ' '
    || c == '\U{A0}' || c == '\U{1680}' || ('\U{2000}' <= c <= '\U{200A}')
    || c == '\U{2028}' || c == '\U{2029}' || c == '\U{202F}' || c == '\U{205F}'
    || c == '\U{3000}' || c == '\U{FEFF}'
  }

  /** `s.trim() === ''` */
  predicate IsBlank(s: string) {
    forall i :: 0 <= i < |s| ==> IsJsWhitespace(s[i])
  }

  predicate StartsWith(s: string, prefix: string) {
    |prefix| <= |s| && s[..|prefix|] == prefix
  }

  function UpperChar(c: char): char {
    if 'a' <= c <= 'z' then (c as int - 32) as char else c
  }

  function LowerChar(c: char): char {
    if 'A' <= c <= 'Z' then (c as int + 32) as char else c
  }

  /** `toUpperCase` on the ASCII range. */
  function ToUpper(s: string): (r: string)
    ensures |r| == |s|
    ensures forall i :: 0 <= i < |s| ==> r[i] == UpperChar(s[i])
  {
    seq(|s|, i requires 0 <= i < |s| => UpperChar(s[i]))
  }

  /** `toLowerCase` on the ASCII range. */
  function ToLower(s: string): (r: string)
    ensures |r| == |s|
    ensures forall i :: 0 <= i < |s| ==> r[i] == LowerChar(s[i])
  {
    seq(|s|, i requires 0 <= i < |s| => LowerChar(s[i]))
  }

  predicate IsUpper(s: string) {
    forall i :: 0 <= i < |s| ==> !('a' <= s[i] <= 'z')
  }

  lemma ToUpperIsUpper(s: string)
    ensures IsUpper(ToUpper(s))
  {
  }

  /** Upper-casing changes nothing in a string that is already upper case. */
  lemma ToUpperIdempotent(s: string)
    requires IsUpper(s)
    ensures ToUpper(s) == s
  {
  }

  /** Upper-casing never turns a blank string into a non-blank one or back. */
  lemma ToUpperKeepsBlank(s: string)
    ensures IsBlank(ToUpper(s)) <==> IsBlank(s)
  {
    forall i | 0 <= i < |s|
      ensures IsJsWhitespace(ToUpper(s)[i]) <==> IsJsWhitespace(s[i])
    {
    }
  }

  function DigitChar(d: nat): (c: char)
    requires d < 10
    ensures IsDigit(c)
  {
    ['0', '1', '2', '3', '4', '5', '6', '7', '8', '9'][d]
  }

  /** Decimal digits of a natural number, most significant first. */
  function NatToString(n: nat): (s: string)
    ensures |s| >= 1 && AllDigits(s)
    decreases n
  {
    if n < 10 then [DigitChar(n)] else NatToString(n / 10) + [DigitChar(n % 10)]
  }

  /** `String(n)` for an integer-valued number. */
  function IntToString(n: int): string {
    if n < 0 then "-" + NatToString(-n) else NatToString(n)
  }

  /** `String(n).padStart(width, '0')` for a natural number. */
  function PadNat(n: nat, width: nat): (s: string)
    ensures |s| >= width
  {
    var digits := NatToString(n);
    if |digits| >= width then digits else seq(width - |digits|, _ => '0') + digits
  }

  /** `parts.join(sep)` */
  function Join(parts: seq<string>, sep: string): string
    decreases |parts|
  {
    if |parts| == 0 then ""
    else if |parts| == 1 then parts[0]
    else parts[0] + sep + Join(parts[1..], sep)
  }

  /** The index of the first occurrence of `c`, if any. */
  function IndexOfChar(s: string, c: char): (k: int)
    ensures -1 <= k < |s|
    ensures k >= 0 ==> s[k] == c && forall i :: 0 <= i < k ==> s[i] != c
    ensures k == -1 ==> forall i :: 0 <= i < |s| ==> s[i] != c
  {
    if |s| == 0 then -1
    else if s[0] == c then 0
    else
      var k := IndexOfChar(s[1..], c);
      if k == -1 then -1 else k + 1
  }

  /** The index of the last occurrence of `c`, if any. */
  function LastIndexOfChar(s: string, c: char): (k: int)
    ensures -1 <= k < |s|
    ensures k >= 0 ==> s[k] == c && forall i :: k < i < |s| ==> s[i] != c
    ensures k == -1 ==> forall i :: 0 <= i < |s| ==> s[i] != c
  {
    if |s| == 0 then -1
    else if s[|s| - 1] == c then |s| - 1
    else LastIndexOfChar(s[..|s| - 1], c)
  }

  predicate Contains(s: string, c: char) {
    exists i :: 0 <= i < |s| && s[i] == c
  }

  /** `s.split(c)[0]`: the text before the first `c`, or all of `s`. */
  function BeforeFirst(s: string, c: char): (r: string)
    ensures StartsWith(s, r)
    ensures !Contains(r, c)
    ensures Contains(s, c) ==> |r| < |s| && s[|r|] == c
    ensures !Contains(s, c) ==> r == s
  {
    var k := IndexOfChar(s, c);
    if k == -1 then s else s[..k]
  }

  /** `pat` occurs in `s` at index `j`. */
  predicate OccursAt(s: string, pat: string, j: int) {
    0 <= j && j + |pat| <= |s| && s[j..j + |pat|] == pat
  }

  /** The index of the first occurrence of `pat` in `s` at or after `from`. */
  function IndexOf(s: string, pat: string, from: nat): (k: int)
    requires from <= |s|
    ensures k == -1 || (from <= k && OccursAt(s, pat, k))
    ensures k == -1 ==> forall j :: from <= j ==> !OccursAt(s, pat, j)
    ensures k != -1 ==> forall j :: from <= j < k ==> !OccursAt(s, pat, j)
    decreases |s| - from
  {
    if from + |pat| > |s| then -1
    else if s[from..from + |pat|] == pat then from
    else IndexOf(s, pat, from + 1)
  }
}

=== FILE: transactions.dfy ===
/** `Transaction`: one attempt at a payment through the gateway, with the
    gateway's response; and `TransactionId`, which always takes a fresh
    UUID. */
module Transactions {
  import opened Wrappers
  import opened Dates
  import opened Js
  import opened Enums
  import opened Identifiers

  datatype Transaction = Transaction(
    id: Value,
    paymentId: Value,
    attemptAt: Value,
    status: Value,
    gatewayResponse: Value)

  /** The constructor's destructured argument; an absent field is `Undefined`. */
  datatype TransactionArgs = TransactionArgs(
    id: Value,
    paymentId: Value,
    attemptAt: Value,
    status: Value,
    gatewayResponse: Value)

  /** The fresh UUIDs a construction may take: one for a new TransactionId,
      one for a new PaymentId. */
  datatype Uuids = Uuids(transaction: string, payment: string)

  /** What every constructed transaction satisfies. */
  predicate WellFormed(t: Transaction) {
    t.status in TRANSACTION_STATUSES && IsInstance(t.paymentId, PaymentIdClass)
  }

  /** The fields shared by both readings of the constructor, given how the
      payment id is wrapped. */
  function Build(args: TransactionArgs, paymentId: Value, now: int, uuids: Uuids): (r: Result<Transaction>)
    ensures r.Ok? <==> Default(args.status, INITIATED) in TRANSACTION_STATUSES
    ensures r.Err? ==> r.error == "Invalid transaction status"
    ensures r.Ok? ==> r.value.paymentId == paymentId && r.value.status == Default(args.status, INITIATED)
    ensures r.Ok? ==> r.value.gatewayResponse == Default(args.gatewayResponse, Str(""))
    ensures r.Ok? ==> r.value.id == Default(args.id, GeneratedId(TransactionIdClass, uuids.transaction))
  {
    var status := Default(args.status, INITIATED);
    if status !in TRANSACTION_STATUSES then Err("Invalid transaction status")
    else
      Ok(Transaction(Default(args.id, GeneratedId(TransactionIdClass, uuids.transaction)), paymentId,
                     Default(args.attemptAt, DateV(ClockDate(now))), status,
                     Default(args.gatewayResponse, Str(""))))
  }

  /** `new Transaction({...})` as written: a payment id that is not a
      PaymentId goes through `new PaymentId(paymentId)`, whose constructor
      ignores its argument and takes a fresh UUID. */
  function NewTransactionAsWritten(args: TransactionArgs, now: int, uuids: Uuids): (r: Result<Transaction>)
    ensures r.Ok? ==> WellFormed(r.value)
    ensures r.Ok? && !IsInstance(args.paymentId, PaymentIdClass) ==>
      r.value.paymentId == GeneratedId(PaymentIdClass, uuids.payment)
  {
    Build(args, if IsInstance(args.paymentId, PaymentIdClass) then args.paymentId
                else GeneratedId(PaymentIdClass, uuids.payment), now, uuids)
  }

  /** A transaction for payment 42 names a random payment instead. */
  lemma AsWrittenLosesPaymentId(now: int, uuids: Uuids)
    ensures var r := NewTransactionAsWritten(TransactionArgs(Undefined, Num(42), Undefined, Undefined, Undefined), now, uuids);
      r.Ok? && ToJson(r.value)["paymentId"] == Str(uuids.payment) != Num(42)
  {
  }

  /** `new Transaction({...})` with the raw payment id kept inside the
      PaymentId that wraps it. */
  function NewTransaction(args: TransactionArgs, now: int, uuids: Uuids): (r: Result<Transaction>)
    ensures r.Ok? ==> WellFormed(r.value)
    ensures r.Ok? && IsInstance(args.paymentId, PaymentIdClass) ==> r.value.paymentId == args.paymentId
    ensures r.Ok? && !IsInstance(args.paymentId, PaymentIdClass) ==> r.value.paymentId == Id(PaymentIdClass, args.paymentId)
  {
    Build(args, if IsInstance(args.paymentId, PaymentIdClass) then args.paymentId
                else Id(PaymentIdClass, args.paymentId), now, uuids)
  }

  /** The two readings accept the same arguments and differ only in the
      payment id of a raw one. */
  lemma ReadingsDifferOnlyInPaymentId(args: TransactionArgs, now: int, uuids: Uuids)
    ensures NewTransaction(args, now, uuids).Ok? <==> NewTransactionAsWritten(args, now, uuids).Ok?
    ensures NewTransaction(args, now, uuids).Ok? ==>
      NewTransaction(args, now, uuids).value.(paymentId := Null)
      == NewTransactionAsWritten(args, now, uuids).value.(paymentId := Null)
    ensures IsInstance(args.paymentId, PaymentIdClass) ==>
      NewTransaction(args, now, uuids) == NewTransactionAsWritten(args, now, uuids)
  {
  }

  /** A transaction for payment 42 serialises payment 42. */
  lemma KeepsPaymentId(args: TransactionArgs, now: int, uuids: Uuids)
    requires args.paymentId == Num(42) && NewTransaction(args, now, uuids).Ok?
    ensures ToJson(NewTransaction(args, now, uuids).value)["paymentId"] == Num(42)
  {
  }

  /** `succeed(response)` from any state. */
  function Succeed(t: Transaction, response: Value): (r: Transaction)
    ensures r.status == SUCCESS && r.gatewayResponse == Default(response, Str(""))
    ensures r.(status := t.status, gatewayResponse := t.gatewayResponse) == t
  {
    t.(status := SUCCESS, gatewayResponse := Default(response, Str("")))
  }

  /** `fail(response)` from any state. */
  function Fail(t: Transaction, response: Value): (r: Transaction)
    ensures r.status == TRANSACTION_FAILED && r.gatewayResponse == Default(response, Str(""))
    ensures r.(status := t.status, gatewayResponse := t.gatewayResponse) == t
  {
    t.(status := TRANSACTION_FAILED, gatewayResponse := Default(response, Str("")))
  }

  /** `isPending` */
  predicate IsPending(t: Transaction) {
    StrictEq(t.status, TRANSACTION_PENDING)
  }

  /** A fresh transaction is INITIATED, which is not pending; and neither
      outcome is pending, the last one recorded winning. */
  lemma PendingOnlyWhenSaid(args: TransactionArgs, t: Transaction, now: int, uuids: Uuids, a: Value, b: Value)
    requires args.status == Undefined
    ensures NewTransaction(args, now, uuids).Ok? && !IsPending(NewTransaction(args, now, uuids).value)
    ensures !IsPending(Succeed(t, a)) && !IsPending(Fail(t, a))
    ensures Fail(Succeed(t, a), b) == Fail(t, b) && Succeed(Fail(t, a), b) == Succeed(t, b)
  {
  }

  /** `toJSON`: both identifiers unwrapped to their values. */
  function ToJson(t: Transaction): (j: map<string, Value>)
    ensures j.Keys == {"id", "paymentId", "attemptAt", "status", "gatewayResponse"}
    ensures IsInstance(t.paymentId, PaymentIdClass) ==> j["paymentId"] == t.paymentId.value
    ensures j["status"] == t.status && j["gatewayResponse"] == t.gatewayResponse
  {
    map[
      "id" := OptValue(t.id),
      "paymentId" := OptValue(t.paymentId),
      "attemptAt" := t.attemptAt,
      "status" := t.status,
      "gatewayResponse" := t.gatewayResponse]
  }

  /** With the payment id kept, the serialised fields rebuild the
      transaction, the transaction id wrapped again. */
  lemma JsonRebuilds(t: Transaction, now: int, uuids: Uuids)
    requires WellFormed(t) && IsInstance(t.id, TransactionIdClass)
    requires t.attemptAt != Undefined && t.gatewayResponse != Undefined
    requires !IsInstance(t.paymentId.value, PaymentIdClass)
    ensures var j := ToJson(t);
      NewTransaction(TransactionArgs(Id(TransactionIdClass, j["id"]), j["paymentId"], j["attemptAt"], j["status"],
                                     j["gatewayResponse"]), now, uuids) == Ok(t)
  {
  }
}

=== FILE: workspaces.dfy ===
/** `Workspace`: an organization's workspace with the three usage limits a
    subscription plan sets (members, storage in bytes, projects). */
module Workspaces {
  import opened Wrappers
  import opened Dates
  import opened Js
  import opened SubscriptionPlans

  datatype Workspace = Workspace(
    id: Value,
    organizationId: Value,
    createdBy: Value,
    createdAt: Value,
    subscriptionId: Value,
    maxMembers: Value,
    maxStorageSizeInBytes: Value,
    maxProjects: Value)

  /** The constructor's destructured argument; an absent field is `Undefined`. */
  datatype WorkspaceArgs = WorkspaceArgs(
    id: Value,
    organizationId: Value,
    createdBy: Value,
    createdAt: Value,
    subscriptionId: Value,
    maxMembers: Value,
    maxStorageSizeInBytes: Value,
    maxProjects: Value)

  /** What every constructed workspace satisfies. */
  predicate WellFormed(w: Workspace) {
    IsNumber(w.organizationId) && IsNumber(w.createdBy)
    && w.id == NumberOrNull(w.id) && w.subscriptionId == NumberOrNull(w.subscriptionId)
    && w.createdAt != Undefined && w.maxMembers != Undefined && w.maxStorageSizeInBytes != Undefined
    && w.maxProjects != Undefined
  }

  /** `new Workspace({...})`: the organization and the creator must be
      numbers (null when missing, so both are required); the id and the
      subscription are kept only when they are numbers. */
  function NewWorkspace(args: WorkspaceArgs, now: int): (r: Result<Workspace>)
    ensures r.Ok? <==> IsNumber(args.organizationId) && IsNumber(args.createdBy)
    ensures !IsNumber(args.organizationId) ==> r == Err("organizationId must be a number")
    ensures IsNumber(args.organizationId) && !IsNumber(args.createdBy) ==> r == Err("createdBy must be a number")
    ensures r.Ok? ==> WellFormed(r.value)
    ensures r.Ok? ==> r.value.id == NumberOrNull(args.id) && r.value.subscriptionId == NumberOrNull(args.subscriptionId)
    ensures r.Ok? ==> r.value.createdAt == Default(args.createdAt, DateV(ClockDate(now)))
    ensures r.Ok? ==> GetLimits(r.value) == Limits(Default(args.maxMembers, Num(0)),
                                                   Default(args.maxStorageSizeInBytes, Num(0)),
                                                   Default(args.maxProjects, Num(0)))
  {
    var organizationId := Default(args.organizationId, Null);
    var createdBy := Default(args.createdBy, Null);
    if !IsNumber(organizationId) then Err("organizationId must be a number")
    else if !IsNumber(createdBy) then Err("createdBy must be a number")
    else
      Ok(Workspace(
        NumberOrNull(Default(args.id, Null)),
        organizationId,
        createdBy,
        Default(args.createdAt, DateV(ClockDate(now))),
        NumberOrNull(Default(args.subscriptionId, Null)),
        Default(args.maxMembers, Num(0)),
        Default(args.maxStorageSizeInBytes, Num(0)),
        Default(args.maxProjects, Num(0))))
  }

  /** The result of `getLimits()`. */
  datatype Limits = Limits(maxMembers: Value, maxStorageSizeInBytes: Value, maxProjects: Value)

  /** `getLimits()` */
  function GetLimits(w: Workspace): (l: Limits)
    ensures w == w.(maxMembers := l.maxMembers, maxStorageSizeInBytes := l.maxStorageSizeInBytes,
                    maxProjects := l.maxProjects)
  {
    Limits(w.maxMembers, w.maxStorageSizeInBytes, w.maxProjects)
  }

  /** One destructured field of `setLimits`'s argument: `null` when it is
      missing. */
  function LimitField(arg: Value, key: string): Value
    requires !IsNullish(arg)
  {
    Default(Prop(arg, key), Null)
  }

  /** `setLimits({members, storage, projects})`: each limit given and not
      null replaces the current one; destructuring a null or undefined
      argument throws. */
  function SetLimits(w: Workspace, arg: Value): (r: Result<Workspace>)
    ensures r.Ok? <==> !IsNullish(arg)
    ensures r.Err? ==> r.error == ReadError(arg)
    ensures r.Ok? ==> r.value.(maxMembers := w.maxMembers, maxStorageSizeInBytes := w.maxStorageSizeInBytes,
                               maxProjects := w.maxProjects) == w
  {
    if IsNullish(arg) then Err(ReadError(arg))
    else
      var members := LimitField(arg, "members");
      var storage := LimitField(arg, "storage");
      var projects := LimitField(arg, "projects");
      Ok(w.(maxMembers := if members != Null then members else w.maxMembers,
            maxStorageSizeInBytes := if storage != Null then storage else w.maxStorageSizeInBytes,
            maxProjects := if projects != Null then projects else w.maxProjects))
  }

  /** The limit `setLimits` leaves in place of `current` when the argument's
      field holds `given`: it changes exactly when `given` is neither null
      nor undefined. */
  predicate Updated(current: Value, given: Value, result: Value) {
    if IsNullish(given) then result == current else result == given
  }

  /** Each limit is replaced exactly when its field is given and not null;
      an object naming none of them changes nothing; setting the same
      limits twice is setting them once. */
  lemma SetLimitsExactly(w: Workspace, fields: map<string, Value>)
    ensures SetLimits(w, Obj(fields)).Ok?
    ensures var l := GetLimits(SetLimits(w, Obj(fields)).value);
      Updated(w.maxMembers, FieldOf(fields, "members"), l.maxMembers)
      && Updated(w.maxStorageSizeInBytes, FieldOf(fields, "storage"), l.maxStorageSizeInBytes)
      && Updated(w.maxProjects, FieldOf(fields, "projects"), l.maxProjects)
    ensures "members" !in fields && "storage" !in fields && "projects" !in fields ==> SetLimits(w, Obj(fields)) == Ok(w)
    ensures SetLimits(SetLimits(w, Obj(fields)).value, Obj(fields)) == SetLimits(w, Obj(fields))
  {
  }

  /** Setting limits keeps a workspace well formed as long as no limit is
      set to undefined, which a destructuring default turns into null. */
  lemma SetLimitsKeepsWellFormed(w: Workspace, arg: Value)
    requires WellFormed(w) && SetLimits(w, arg).Ok?
    ensures WellFormed(SetLimits(w, arg).value)
  {
  }

  /** A property of a subscription plan, as `plan[key]` reads it.  Only the
      keys `applySubscriptionPlan` reads and the plan's plain fields are
      represented; `price`, a Money, is not, and reads as undefined here. */
  function PlanProperty(p: Plan, key: string): (v: Value)
    ensures key == "maxStorageSizeInBytes" ==> v == Undefined
  {
    if key == "id" then p.id
    else if key == "name" then Str(p.name)
    else if key == "description" then p.description
    else if key == "durationInDays" then p.durationInDays
    else if key == "features" then p.features
    else if key == "planType" then p.planType
    else if key == "maxMembers" then p.maxMembers
    else if key == "maxStorage" then p.maxStorage
    else if key == "maxProjects" then p.maxProjects
    else Undefined
  }

  /** `plan[key]` for the argument of `applySubscriptionPlan`, which is a
      plan or any other value that is not null or undefined. */
  function ReadPlan(plan: Arg<Plan>, key: string): (v: Value)
    requires !(plan.Raw? && IsNullish(plan.v))
    ensures plan.Inst? ==> v == PlanProperty(plan.obj, key)
  {
    match plan
    case Inst(p) => PlanProperty(p, key)
    case Raw(x) => Prop(x, key)
  }

  /** The workspace after taking the plan's fields, the storage limit read
      from `storageKey`; reading from null or undefined throws. */
  function TakePlan(w: Workspace, plan: Arg<Plan>, storageKey: string): (r: Result<Workspace>)
    ensures r.Ok? <==> !(plan.Raw? && IsNullish(plan.v))
    ensures r.Err? ==> r.error == ReadError(plan.v)
    ensures r.Ok? ==> r.value.(maxMembers := w.maxMembers, maxStorageSizeInBytes := w.maxStorageSizeInBytes,
                               maxProjects := w.maxProjects, subscriptionId := w.subscriptionId) == w
  {
    if plan.Raw? && IsNullish(plan.v) then Err(ReadError(plan.v))
    else
      Ok(w.(maxMembers := ReadPlan(plan, "maxMembers"), maxStorageSizeInBytes := ReadPlan(plan, storageKey),
            maxProjects := ReadPlan(plan, "maxProjects"), subscriptionId := ReadPlan(plan, "id")))
  }

  /** `applySubscriptionPlan(plan)` as written: the storage limit is read
      from `plan.maxStorageSizeInBytes`, a field a subscription plan does
      not have (it has `maxStorage`). */
  function ApplyPlanAsWritten(w: Workspace, plan: Arg<Plan>): (r: Result<Workspace>)
    ensures plan.Inst? ==> r.Ok? && r.value.maxStorageSizeInBytes == Undefined
  {
    TakePlan(w, plan, "maxStorageSizeInBytes")
  }

  /** Applying any plan as written leaves the storage limit undefined, so
      `toJSON` and `getLimits` lose it, whatever the plan allows. */
  lemma AsWrittenLosesStorage(w: Workspace, p: Plan)
    requires p.maxStorage == Num(1000)
    ensures ApplyPlanAsWritten(w, Inst(p)).Ok?
    ensures GetLimits(ApplyPlanAsWritten(w, Inst(p)).value).maxStorageSizeInBytes == Undefined != p.maxStorage
    ensures !WellFormed(ApplyPlanAsWritten(w, Inst(p)).value)
  {
  }

  /** `applySubscriptionPlan(plan)` with the storage limit read from the
      plan's `maxStorage`. */
  function ApplyPlan(w: Workspace, plan: Arg<Plan>): (r: Result<Workspace>)
    ensures r.Ok? <==> !(plan.Raw? && IsNullish(plan.v))
    ensures plan.Inst? ==> r.Ok? && r.value.subscriptionId == plan.obj.id
    ensures plan.Inst? ==> GetLimits(r.value) == Limits(plan.obj.maxMembers, plan.obj.maxStorage, plan.obj.maxProjects)
  {
    TakePlan(w, plan, "maxStorage")
  }

  /** The two readings differ only in the storage limit; and applying a
      plan made by the constructor gives the workspace that plan's three
      limits, none of them undefined, whatever limits it had before. */
  lemma ApplyPlanSetsAllLimits(w: Workspace, v: Workspace, p: Plan)
    requires SubscriptionPlans.WellFormed(p)
    ensures ApplyPlan(w, Inst(p)).value.(maxStorageSizeInBytes := Undefined) == ApplyPlanAsWritten(w, Inst(p)).value
    ensures GetLimits(ApplyPlan(w, Inst(p)).value) == GetLimits(ApplyPlan(v, Inst(p)).value)
    ensures var l := GetLimits(ApplyPlan(w, Inst(p)).value);
      l.maxMembers != Undefined && l.maxStorageSizeInBytes != Undefined && l.maxProjects != Undefined
  {
  }

  /** `toJSON`: the eight fields as they are. */
  function ToJson(w: Workspace): (j: map<string, Value>)
    ensures j.Keys == {"id", "organizationId", "createdBy", "createdAt", "subscriptionId", "maxMembers",
                       "maxStorageSizeInBytes", "maxProjects"}
  {
    map[
      "id" := w.id,
      "organizationId" := w.organizationId,
      "createdBy" := w.createdBy,
      "createdAt" := w.createdAt,
      "subscriptionId" := w.subscriptionId,
      "maxMembers" := w.maxMembers,
      "maxStorageSizeInBytes" := w.maxStorageSizeInBytes,
      "maxProjects" := w.maxProjects]
  }

  /** A constructor argument read from an object's fields. */
  function ArgsOf(j: map<string, Value>): WorkspaceArgs {
    WorkspaceArgs(FieldOf(j, "id"), FieldOf(j, "organizationId"), FieldOf(j, "createdBy"), FieldOf(j, "createdAt"),
                  FieldOf(j, "subscriptionId"), FieldOf(j, "maxMembers"), FieldOf(j, "maxStorageSizeInBytes"),
                  FieldOf(j, "maxProjects"))
  }

  /** `toJSON` loses nothing of a well-formed workspace: the constructor
      rebuilds it from the object. */
  lemma JsonRebuilds(w: Workspace, now: int)
    requires WellFormed(w)
    ensures NewWorkspace(ArgsOf(ToJson(w)), now) == Ok(w)
  {
    assert ArgsOf(ToJson(w)) == WorkspaceArgs(w.id, w.organizationId, w.createdBy, w.createdAt, w.subscriptionId,
                                              w.maxMembers, w.maxStorageSizeInBytes, w.maxProjects);
  }
}

=== FILE: wrappers.dfy ===
/** Failure-compatible wrappers shared by the whole model.

    The program signals every validation failure by throwing an `Error` whose
    message is the only thing callers see; `Result` carries that message. */
module Wrappers {

  datatype Option<+T> = None | Some(value: T)

  /** The outcome of a constructor or mutator: the new value, or the message
      of the error the program throws. */
  datatype Result<+T> = Ok(value: T) | Err(error: string) {

    predicate IsFailure() {
      Err?
    }

    function PropagateFailure<U>(): Result<U>
      requires Err?
    {
      Err(error)
    }

    function Extract(): T
      requires Ok?
    {
      value
    }
  }

  /** `try { return primary } catch { return fallback }` */
  function Recover<T>(primary: Result<T>, fallback: Result<T>): (r: Result<T>)
    ensures primary.Ok? ==> r == primary
    ensures primary.Err? ==> r == fallback
  {
    if primary.Ok? then primary else fallback
  }
}
